=== FILE: README.md ===
# erl messaging substrate and string processors, in Dafny

This project models the sequential logic of the `erl` / `slo` C++26 experiments:

- **Messaging substrate**
  - a type-directed little-endian binary codec;
  - two hybrid inline/heap byte buffers and a cursor reader;
  - bounded MPMC and SPSC ring queues, as sequential state machines refined to a FIFO;
  - opcode-prefixed RPC requests and responses, the opcode switch and the queue client;
  - the server loop that stops at an empty "goodbye" message;
  - the 8-byte wire header of the TCP echo example.
- **Logging service**: its thread-lifecycle map and sink list.
- **String and configuration processors**
  - `utos`/`stou`, `fixed_string` and the tokenizer;
  - the capture-list name parser and the keyword-argument format rewriter;
  - the radix-trie builder and its matcher;
  - the named-format parser and renderer;
  - the `expect` validation expressions;
  - the command-line scanner `parse_args`;
  - the default-argument constructor selection;
  - the ANSI SGR code builder (ECMA-48 section 8.3.117);
  - the FNV-style hash.

Each source component is one module (one `.dfy` file). Operations are pure functions over immutable datatypes. Loops that matter are methods with invariants. Every operation has a partner: an inverse (codec, header, numerals, colour codes), a reference definition (FIFO for the queues, `Expected` for the format rewriter, `Lookup` for the trie, post-order false terms for `eval_verbose`) or an invariant it keeps (thread map keyed by id, numbering bijection, accessor order). A lemma connects each operation to its partner for all inputs.

Where behaviour is undefined in the source (reading past a span, calling a null member pointer, `std::unreachable()`), the model returns an explicit error value (`None`, `Unreachable`, `Undefined`) instead of assuming the case away. The exceptions are the unchecked reads `Reader.Read`, `Storage.HeapRead` and `NetBuffer.ReadAt`, which require their range to lie within the bytes or the storage, and `Args.CharAt`, which reads the terminator one past the end of a token; each has its own line under Left out. Where the code's behaviour looks unintended and the intent is evident, both readings are modelled: the code as written and the evident intent (see Findings). The one place where the intent is not evident, where a positional's value lands in the argument tuple, is modelled as written only (see Left out).

Decisions where the code was followed:

- Integers are encoded with the host's byte order, which the code assumes is little-endian. No byte swap is modelled.
- The opcode switch: `include/erl/rpc/dispatch.hpp` begins with a stray character before `#pragma once`, which would not compile. The switch is modelled as written after it: a case per table entry, and an `out_of_range` default. Request dispatch goes through this written switch, so an opcode past the last member but inside the table is undefined behaviour there too.
- `read_response` checks the echoed opcode with `assert`, which `NDEBUG` removes. Both builds are modelled: `Checked` reports a mismatch, `Unchecked` decodes the expected result type whatever the opcode.
- The older `slo::message::HybridBuffer` picks its storage by comparing the cursor with the inline capacity, not by a mode flag. That choice is modelled as written, and Finding 1 shows its effect.
- The command-line scanner, keyword-argument parsing, named formatting and colour codes are often described as convenience layers. They are modelled here in full, as their code stands.

## Model

| member | source | states |
|---|---|---|
| Bytes.LittleEndian | include/erl/reflect.hpp:46-51 | an integer is written as exactly sizeof(T) bytes, least significant first |
| Bytes.ToUnsigned | include/erl/reflect.hpp:46-51 | a signed value is written as its two's-complement pattern, truncated to the field width |
| Bytes.FromLittleEndianBound | include/erl/reflect.hpp:53-63 | reading sizeof(T) bytes yields a value that fits the type |
| Bytes.LittleEndianRoundTrip | include/erl/reflect.hpp:46-63 | deserialize inverts serialize for every value that fits in the field |
| Bytes.LittleEndianOfDecoded | include/erl/reflect.hpp:46-63 | serialize inverts deserialize: every byte string is the encoding of the value it decodes to |
| Bytes.SignedRoundTrip | include/erl/reflect.hpp:46-63 | signed and unsigned integers in range survive the trip through their byte pattern |
| Bytes.SignedOfPattern | include/erl/reflect.hpp:53-63 | every n-byte pattern decodes to an in-range signed value that encodes back to the same pattern |
| Bits.PowerOfTwoTest | include/erl/queue/mpmc_bounded.hpp:12-13 | the static_assert `(N & (N - 1)) == 0` admits only powers of two |
| Bits.MaskIsMod | include/slo/queue/spsc_bounded.hpp:14-22 | masking a position with `N - 1` reduces it modulo the capacity N |
| Reader.Remaining | include/erl/_impl/rpc/protocol.hpp:79 | the remainder has the length left after the cursor, and the bytes already read followed by it make up the whole buffer |
| Reader.Read | include/slo/net/message/reader.hpp:14-19 | read(n) returns the n bytes at the cursor and advances the cursor by exactly n |
| Reader.ReadTwice | include/slo/net/message/reader.hpp:14-19 | two successive reads return what one read of the combined length returns and leave the cursor at the same place |
| Reader.ReadSequence | include/slo/net/message/reader.hpp:14-19 | successive reads partition the consumed region of the buffer in order, chunk i having the i-th size |
| Storage.Overwrite | include/slo/message/buffered.hpp:81 | memcpy into a block replaces exactly the target range and leaves the rest alone |
| Storage.Realloc | include/slo/message/buffered.hpp:138-143 | realloc keeps the common prefix of the old block and leaves any growth uninitialised |
| Storage.Clobber | include/slo/message/buffered.hpp:118-135 | storing the heap descriptor in the union leaves the first 16 inline bytes (pointer, capacity and tail padding on LP64) without the data written there, and the later inline bytes unchanged |
| Storage.HeapWrite | include/slo/message/buffered.hpp:13-16 | HeapBuffer::write appends the bytes after the existing contents |
| Storage.HeapReserve | include/slo/message/buffered.hpp:18-21 | HeapBuffer::reserve never changes the contents |
| Storage.HeapRead | include/slo/message/buffered.hpp:12 | read(n, offset) returns the n bytes starting at offset |
| Storage.WrittenAppend | include/slo/message/buffered.hpp:78-94 | the bytes asked to be written by two runs of calls are those of the first run followed by those of the second |
| Codec.EncodeInt | include/erl/reflect.hpp:46-51 | an integral or enum field is written as exactly its width in bytes |
| Codec.DecodeInt | include/erl/reflect.hpp:53-63 | an integer read consumes exactly its width in bytes, and succeeds exactly when that many bytes remain |
| Codec.Decode | include/erl/reflect.hpp:89-93 | every decoder reads forward from the cursor within the same buffer |
| Codec.DecodeMany | include/erl/reflect.hpp:189-194 | decoding count elements yields exactly count values, read forward from the cursor |
| Codec.DecodeFields | include/erl/reflect.hpp:158-162 | an aggregate decodes one value per member, in declaration order |
| Codec.EncodeDecodeInt | include/erl/reflect.hpp:46-63 | an in-range integer decodes back to itself, consuming exactly its width |
| Codec.EncodeDecode | include/erl/reflect.hpp:46-224 | deserialize inverts serialize for every well-typed value, leaving the cursor exactly past its bytes whatever follows them |
| Codec.EncodeDecodeScalar | include/erl/reflect.hpp:105-110 | an enum is written as its underlying integer and decodes back to the same enumerator |
| Codec.EncodeDecodePair | include/erl/reflect.hpp:84-93 | a pair is written first then second and decodes back to the same pair |
| Codec.EncodeDecodeVariant | include/erl/reflect.hpp:121-139 | a variant is written as its index (size_t) then its active alternative, and decodes to that alternative only |
| Codec.EncodeDecodeAggregate | include/erl/reflect.hpp:150-162 | an aggregate is written field by field in declaration order and round-trips |
| Codec.EncodeDecodeRange | include/erl/reflect.hpp:177-201 | a range is written as a u32 count then its elements, and decodes back to the same elements |
| Codec.EncodeDecodeArray | include/erl/reflect.hpp:211-224 | T[N] is written as N elements with no prefix and decodes exactly N |
| Codec.EncodeDecodeMany | include/erl/reflect.hpp:181-183 | consecutive elements decode back in order |
| Codec.DecodeManyFirst | include/erl/reflect.hpp:192-194 | decoding a run of elements is decoding the first one and then the rest after it |
| Codec.DecodeManyCons | include/erl/reflect.hpp:192-194 | the element loop conses each decoded element onto the ones decoded after it |
| Codec.EncodeDecodeFields | include/erl/reflect.hpp:153-160 | the members of an aggregate decode back in declaration order |
| Codec.DecodeEncodeInt | include/erl/reflect.hpp:53-63 | whatever an integer read returns is in range and re-encodes to exactly the bytes read |
| Codec.DecodeEncode | include/erl/reflect.hpp:89-224 | whatever decodes is a value of the type, and serializing it reproduces exactly the bytes consumed |
| Codec.DecodeEncodePair | include/erl/reflect.hpp:89-93 | a decoded pair re-encodes to exactly the bytes consumed |
| Codec.DecodeEncodeVariant | include/erl/reflect.hpp:126-139 | a decoded variant has an index naming an alternative and re-encodes to exactly the bytes consumed |
| Codec.DecodeEncodeRange | include/erl/reflect.hpp:186-201 | a decoded range fits its u32 count and re-encodes to exactly the bytes consumed |
| Codec.DecodeEncodeMany | include/erl/reflect.hpp:192-194 | a decoded run of elements re-encodes to exactly the bytes consumed |
| Codec.EncodeManyCons | include/erl/reflect.hpp:181-183 | the element encodings of a range lie next to each other in the buffer |
| Codec.DecodeEncodeFields | include/erl/reflect.hpp:158-162 | decoded aggregate members re-encode to exactly the bytes consumed |
| Codec.WrittenHead | include/erl/reflect.hpp:178-180 | the count written before a range's elements is followed by a reserve call that adds no bytes |
| Codec.SerializeWritesEncoding | include/erl/reflect.hpp:46-216 | the write and reserve calls serialize makes put exactly the encoding into the buffer, in order |
| Codec.SerializeScalarWritesEncoding | include/erl/reflect.hpp:105-108 | an enum's serialize writes its underlying integer's bytes |
| Codec.SerializeRangeWritesEncoding | include/erl/reflect.hpp:177-184 | a range's serialize writes the count, reserves, then writes the elements |
| Codec.SerializeArrayWritesEncoding | include/erl/reflect.hpp:211-216 | an array's serialize reserves, then writes the elements |
| Codec.SerializePairWritesEncoding | include/erl/reflect.hpp:84-87 | a pair's serialize writes the first member's bytes, then the second's |
| Codec.SerializeVariantWritesEncoding | include/erl/reflect.hpp:121-124 | a variant's serialize writes the index, then the active alternative |
| Codec.SerializeManyWritesEncoding | include/erl/reflect.hpp:181-183 | the element loop writes each element's encoding in turn |
| Codec.SerializeFieldsWritesEncoding | include/erl/reflect.hpp:153-155 | the member fold writes each member's encoding in declaration order |
| HybridBuffer.Init | include/slo/message/buffered.hpp:32 | a new buffer is empty, with a zeroed inline array and no heap block |
| HybridBuffer.AllocateHeap | include/slo/message/buffered.hpp:130-136 | allocate_heap copies the first cursor inline bytes into a block of the requested capacity and stores the descriptor in the union |
| HybridBuffer.ResizeHeap | include/slo/message/buffered.hpp:138-143 | resize_heap reallocates to exactly the requested capacity, keeping the bytes written |
| HybridBuffer.Write | include/slo/message/buffered.hpp:78-94 | write stays inline while cursor+length fits, first overflow allocates max(cursor+length, 2*inline_capacity), later overflow resizes to exactly cursor+length, and size grows by length |
| HybridBuffer.Reserve | include/slo/message/buffered.hpp:96-106 | reserve is a no-op while cursor+n fits inline, promotes to the heap while the cursor is inline, and otherwise grows the heap to at least cursor+n |
| HybridBuffer.Finalize | include/slo/message/buffered.hpp:108-115 | finalize spans the first size() cells of the storage data() selects by the cursor |
| HybridBuffer.WriteAppends | include/slo/message/buffered.hpp:78-94 | every write appends its bytes to what finalize shows |
| HybridBuffer.ReserveKeeps | include/slo/message/buffered.hpp:96-113 | reserve keeps the shown bytes exactly unless it promotes a non-empty buffer whose cursor is still inline, in which case data() still selects the inline array and its first byte is the heap descriptor's |
| HybridBuffer.Run | include/slo/message/buffered.hpp:78-106 | any sequence of writes and reserves keeps the buffer well formed |
| HybridBuffer.WritesOnlyShowWritten | include/slo/message/buffered.hpp:78-115 | a buffer that only receives writes shows exactly the bytes written |
| HybridBuffer.ReserveLosesByte | include/slo/message/buffered.hpp:96-113 | writing one byte into a 64-byte buffer and reserving 64 more loses the byte written |
| NetBuffer.Init | include/slo/net/message/buffered.hpp:33 | a new buffer is inline and empty |
| NetBuffer.AllocateHeap | include/slo/net/message/buffered.hpp:139-150 | allocate_heap copies the inline bytes and switches to heap mode, encoding the size s as the cursor -s-1 |
| NetBuffer.ResizeHeap | include/slo/net/message/buffered.hpp:152-157 | resize_heap keeps the mode and the bytes and sets exactly the requested capacity |
| NetBuffer.Write | include/slo/net/message/buffered.hpp:79-100 | an inline write that fits advances the cursor by length, the first overflow allocates max(size+length, 2*inline_capacity), a heap write resizes only past the capacity, and size grows by length |
| NetBuffer.Reserve | include/slo/net/message/buffered.hpp:102-111 | heap reserve resizes to exactly size()+n, inline reserve promotes only past the inline capacity, and the size is unchanged |
| NetBuffer.Finalize | include/slo/net/message/buffered.hpp:115-123 | finalize spans size() bytes, where size is -cursor-1 on the heap and cursor inline |
| NetBuffer.ReadAt | include/slo/net/message/buffered.hpp:113 | read(n, offset) returns the n cells of the storage data() selects, starting at offset, with no check against size(); within size() they are the bytes finalize shows |
| NetBuffer.ReadPastSizeSeesZeros | include/slo/net/message/buffered.hpp:113 | on a new buffer, read(2, 0) returns two zero bytes of the inline array the constructor cleared, although size() is 0 |
| NetBuffer.WriteAppends | include/slo/net/message/buffered.hpp:79-100 | every write appends its bytes to what finalize shows |
| NetBuffer.ReserveKeeps | include/slo/net/message/buffered.hpp:102-111 | reserve never changes what finalize shows |
| NetBuffer.Run | include/slo/net/message/buffered.hpp:79-111 | any sequence of writes and reserves keeps the buffer well formed |
| NetBuffer.RunShowsWritten | include/slo/net/message/buffered.hpp:79-123 | whatever mix of writes and reserves a serializer issues, finalize returns exactly the bytes written |
| Fifo.Step | include/erl/queue/mpmc_bounded.hpp:30-77 | the reference queue accepts a push exactly below capacity and pops the oldest item, or nothing when empty |
| Fifo.Run | include/erl/queue/mpmc_bounded.hpp:30-77 | a run of calls gives one reply per call |
| Fifo.DeliveredInPushOrder | include/slo/queue/spsc_bounded.hpp:30-44 | from empty, the items popped followed by those still queued are exactly the items accepted: pops come out in push order, nothing lost or duplicated |
| Mpmc.Contents | include/erl/queue/mpmc_bounded.hpp:93-95 | the queue holds write_pos - read_pos items |
| Mpmc.Init | include/erl/queue/mpmc_bounded.hpp:19-25 | after construction cell i has sequence i, both positions are 0 and the queue is empty |
| Mpmc.WindowSlots | include/erl/queue/mpmc_bounded.hpp:35 | positions less than N apart map to distinct cells under the mask |
| Mpmc.TryPush | include/erl/queue/mpmc_bounded.hpp:30-53 | try_push succeeds iff fewer than N items are held, then stores the item at the back, sets the cell's sequence to pos+1 and advances write_pos; a failed push changes nothing |
| Mpmc.PushFailsOnlyWhenFull | include/erl/queue/mpmc_bounded.hpp:36-44 | the target cell's sequence equals the write position exactly when the queue is not full, and is otherwise behind it |
| Mpmc.PushKeepsProtocol | include/erl/queue/mpmc_bounded.hpp:49-50 | storing the item and publishing sequence pos+1 keeps the cell-sequence protocol |
| Mpmc.TryPop | include/erl/queue/mpmc_bounded.hpp:55-77 | try_pop succeeds iff the queue is non-empty, returns the oldest item, and hands its cell to the position one lap ahead (pos+N) |
| Mpmc.PopKeepsProtocol | include/erl/queue/mpmc_bounded.hpp:60-75 | the read position's cell holds an item published at read_pos+1, and handing it on keeps the protocol |
| Mpmc.IsEmpty | include/erl/queue/mpmc_bounded.hpp:79-85 | is_empty holds iff the queue holds nothing, agreeing with try_pop's emptiness test |
| Mpmc.Run | include/erl/queue/mpmc_bounded.hpp:30-77 | any sequence of calls keeps the queue well formed and gives one reply per call |
| Mpmc.RefinesFifo | include/erl/queue/mpmc_bounded.hpp:30-77 | sequential push and pop behave exactly as a FIFO of capacity N |
| Spsc.Advance | include/slo/queue/spsc_bounded.hpp:22 | stepping a slot index stays below N |
| Spsc.Next | include/slo/queue/spsc_bounded.hpp:22 | `(pos + 1) & buffer_mask` is the next slot modulo N |
| Spsc.NextWraps | include/slo/queue/spsc_bounded.hpp:22 | the last slot's successor is slot 0 |
| Spsc.Contents | include/slo/queue/spsc_bounded.hpp:55-60 | the queue holds the items from the read position to the write position, fewer than N of them |
| Spsc.Init | include/slo/queue/spsc_bounded.hpp:57-60 | zero-initialised positions and caches give an empty queue |
| Spsc.DistStep | include/slo/queue/spsc_bounded.hpp:22-23 | moving the write position on lengthens the queue by one unless it comes round to the read position, which happens exactly at N-1 items |
| Spsc.DistStepFrom | include/slo/queue/spsc_bounded.hpp:45-46 | moving the read position on shortens a non-empty queue by one |
| Spsc.PushRefused | include/slo/queue/spsc_bounded.hpp:23-27 | a push is refused on the cached read position only if the queue is full or the cache is stale |
| Spsc.PushAccepted | include/slo/queue/spsc_bounded.hpp:30-31 | an accepted push writes the slot at the write position of a queue below N-1 items |
| Spsc.TryPush | include/slo/queue/spsc_bounded.hpp:20-33 | try_push succeeds iff fewer than N-1 items are held and appends the item; a failed push only refreshes the producer's cache |
| Spsc.PopAccepted | include/slo/queue/spsc_bounded.hpp:36-46 | when the read position differs from the cached write position, the queue is non-empty and the read slot holds the oldest item |
| Spsc.TryPop | include/slo/queue/spsc_bounded.hpp:35-48 | try_pop fails iff read equals write, otherwise returns the oldest item; a failed pop only refreshes the consumer's cache |
| Spsc.IsEmpty | include/slo/queue/spsc_bounded.hpp:50-52 | is_empty holds iff write equals read, agreeing with try_pop |
| Spsc.Run | include/slo/queue/spsc_bounded.hpp:20-48 | any sequence of calls keeps the queue well formed and gives one reply per call |
| Spsc.RefinesFifo | include/slo/queue/spsc_bounded.hpp:20-52 | sequential push and pop behave exactly as a FIFO of capacity N-1 |
| Protocol.Request | include/erl/_impl/rpc/protocol.hpp:58-64 | a request is the opcode in its little-endian width followed by each argument's encoding in order, so both parts can be cut back out |
| Protocol.RequestWithPayload | include/erl/_impl/rpc/protocol.hpp:66-73 | the pre-serialized overload puts the opcode first and copies the payload after it byte for byte |
| Protocol.MakeResponse | include/erl/_impl/rpc/protocol.hpp:84-90 | a response has the same layout as a request for the same opcode and values |
| Protocol.DispatchMessage | include/erl/_impl/rpc/protocol.hpp:75-82 | dispatch gives a defined outcome exactly when the message holds a whole opcode, and then the opcode read from its first four bytes goes through the switch as written with exactly the bytes after the opcode |
| Protocol.DispatchRequest | include/erl/_impl/rpc/protocol.hpp:58-82 | a request built for member i reaches member i with exactly the encoded arguments; an opcode past the last member but inside the switch table is undefined behaviour, and one past the table is an invalid opcode |
| Protocol.ReadResponse | include/erl/_impl/rpc/protocol.hpp:92-99 | with assertions compiled in, reading succeeds only when the echoed opcode equals the expected one, and an opcode mismatch is reported only in that build; a successful read yields a value exactly when a result type is asked for |
| Protocol.ResponseRoundTrip | include/erl/_impl/rpc/protocol.hpp:84-99 | in either build, a response made for the expected opcode reads back as the value sent, or as nothing for a void result |
| Protocol.ResponseForOtherIndex | include/erl/_impl/rpc/protocol.hpp:92-96 | with assertions compiled in, a response carrying any other opcode fails the opcode assertion |
| Protocol.UncheckedIgnoresIndex | include/erl/_impl/rpc/protocol.hpp:92-99 | under `NDEBUG` the assertion is gone, and a response carrying any opcode is decoded as the expected result type |
| Protocol.BuildsAgree | include/erl/_impl/rpc/protocol.hpp:92-99 | the two builds read every message alike, except where the checked build reports an opcode mismatch |
| Dispatch.Strategy | include/erl/_impl/rpc/proxy.hpp:350-358 | the switch table index lies between 1 and 4 for every member count the static assertion admits |
| Dispatch.StrategyFits | include/erl/_impl/rpc/proxy.hpp:353-358 | the chosen table is the smallest of the 4, 16, 64 and 256 case tables that holds every member |
| Dispatch.SelectAsWritten | include/erl/rpc/dispatch.hpp:5-30 | as written, an opcode below the member count reaches that member, opcodes from the member count to the end of the table reach `std::unreachable()`, and only later ones throw |
| Dispatch.Select | include/erl/rpc/dispatch.hpp:17-21 | as intended, an opcode reaches its member exactly when it names one, and every other opcode is reported as an invalid opcode |
| Dispatch.SelectAgrees | include/erl/rpc/dispatch.hpp:5-30 | the written switch and the intended one agree on every opcode outside the gap between the last member and the end of the table |
| Dispatch.OpcodePastLastMember | include/erl/rpc/dispatch.hpp:7-11 | a one-member service handed opcode 1 reaches an unreachable case instead of throwing |
| Transport.SendOnly | include/erl/_impl/net/queue.hpp:38-39 | a client made from a queue and a null pointer can only send, and it sends into that queue |
| Transport.ReceiveOnly | include/erl/_impl/net/queue.hpp:41-42 | a client made from a null pointer and a queue can only receive, and it receives from that queue |
| Transport.Send | include/erl/_impl/net/queue.hpp:18-22 | send appends the message at the back of the inbound queue and leaves the other queue alone |
| Transport.Recv | include/erl/_impl/net/queue.hpp:24-28 | receive yields a message exactly when the outbound queue is non-empty; that message is the queue's front, and the rest of the queue stays in order |
| Transport.Kill | include/erl/_impl/net/queue.hpp:30-35 | kill sends one default-constructed, empty message |
| Transport.BlockingCallCall | include/erl/_impl/rpc/protocol.hpp:13-23 | a blocking call enqueues the request and returns the response read for the same opcode, in the given build |
| Transport.EventCallCall | include/erl/_impl/rpc/protocol.hpp:35-43 | an event call enqueues the request and waits for nothing |
| Transport.Handle | include/erl/_impl/rpc/protocol.hpp:25-50 | a blocking handler sends the dispatched reply back, while an event handler drops it and leaves the client unchanged |
| Transport.RepliesGrow | include/erl/_impl/rpc/protocol.hpp:25-31 | handling one more message appends exactly its reply to what was sent back |
| Transport.Run | include/erl/net/service.hpp:12-22 | the server handles a prefix of the queued messages, all non-empty and in order, stops at the first empty message without handling it, and leaves everything after it queued |
| Transport.PipeCall | include/erl/_impl/rpc/protocol.hpp:13-31 | over an idle pipe, a blocking call to member i delivers the encoded arguments to member i and receives exactly that member's reply |
| Wire.EncodeHeader | example/echo.cpp:43-47 | send writes the 8 header bytes: kind, opcode, then the checksum and size in little-endian order |
| Wire.EncodeFrame | example/echo.cpp:43-48 | a frame is the header followed by exactly `size` payload bytes |
| Wire.DecodeHeader | example/echo.cpp:25-31 | recv reassembles kind, opcode, checksum and size from the header bytes, and every decoded header is in range |
| Wire.HeaderRoundTrip | example/echo.cpp:25-47 | decoding the header bytes that send writes gives back the header's fields |
| Wire.HeaderBytesRoundTrip | example/echo.cpp:25-47 | any 8 header bytes are the encoding of the header decoded from them |
| Wire.ReadFully | example/echo.cpp:33-39 | the read loop finishes exactly when the stream and the read grants cover the wanted bytes; it then holds exactly those bytes and makes no read call after the last one needed |
| Wire.Recv | example/echo.cpp:15-41 | recv yields the header decoded from the first 8 bytes and exactly `size` payload bytes after them, and no message from a stream shorter than a header |
| Wire.SendThenRecv | example/echo.cpp:15-49 | recv hands back whatever send wrote, and one read call per byte always suffices |
| Logger.Dispatch | include/erl/_impl/log/logger.hpp:34-38 | every sink receives the same event once, in the order of the sink list |
| Logger.ThreadGetInfo | src/logging/logger.cpp:20-27 | a known thread gives its cached entry, and an unknown one gives a record carrying only its id; the lookup never inserts |
| Logger.HandlePrint | src/logging/logger.cpp:33-43 | every sink, in list order, receives one print event carrying the decoded severity and timestamp, the formatter's location and text, and the thread resolved through the lookup; the service state is unchanged |
| Logger.Spawn | src/logging/logger.cpp:45-49 | spawn creates or keeps the thread's entry, stamps its id, leaves every other entry and the sinks alone, and notifies the sinks with the stamped entry |
| Logger.Exit | src/logging/logger.cpp:51-59 | exit notifies the sinks with the cached entry (or a record carrying only the id) and then forgets exactly that thread |
| Logger.Rename | src/logging/logger.cpp:61-65 | rename notifies the sinks with the entry as it was before the change, then stores the new name; a thread not seen before gets a default entry |
| Logger.SetParent | src/logging/logger.cpp:67-77 | both entries exist afterwards, the parent's id is stamped, and the thread's parent field names the parent; every other entry is unchanged |
| Logger.AddSink | src/logging/logger.cpp:79-81 | add_sink appends the sink after the existing ones |
| Logger.Erase | src/logging/logger.cpp:83-85 | std::erase removes every occurrence of the sink and keeps every other sink's count |
| Logger.RemoveSink | src/logging/logger.cpp:83-85 | after remove_sink the sink is gone, the other sinks' counts and the thread map are unchanged |
| Logger.EraseKeepsOrder | src/logging/logger.cpp:83-85 | the remaining sinks are a subsequence of the old list, so their relative order is kept |
| Logger.RemoveUndoesAdd | src/logging/logger.cpp:79-85 | adding a sink that was not registered and then removing it restores the service |
| Logger.SpawnThenExit | src/logging/logger.cpp:45-59 | spawning a new thread and then exiting it restores the thread map, and the exit notification carries the stamped entry |
| Logger.SpawnRenamePrint | src/logging/logger.cpp:20-65 | after a spawn and a rename, the lookup used by printing sees the new name and the thread's own id |
| Logger.CallbacksKeepKeys | src/logging/logger.cpp:45-77 | spawn and exit keep every entry keyed by its own id, and so do rename and set_parent on a known thread |
| Logger.RenameUnknownThread | src/logging/logger.cpp:61-65 | renaming a thread never seen caches an entry with id 0 under a non-zero key, which breaks that keying |
| Strings.DecimalCanonical | include/erl/util/string.hpp:28-35 | every numeral written has only digits and no leading zero |
| Strings.Utos | include/erl/util/string.hpp:28-35 | the digit loop followed by the reversal writes the decimal numeral of the value, most significant digit first |
| Strings.Stou | include/erl/util/string.hpp:37-43 | the result is always an unsigned 32-bit value |
| Strings.StouIsValueMod | include/erl/util/string.hpp:37-43 | on a digit string stou gives the decimal value reduced modulo 2^32 |
| Strings.DecimalValueOfDecimal | include/erl/util/string.hpp:28-35 | the numeral written for n is canonical and has value n |
| Strings.StouOfUtos | include/erl/util/string.hpp:28-43 | stou(utos(n)) == n for every unsigned n |
| Strings.DecimalOfValue | include/erl/util/string.hpp:28-35 | every canonical numeral is the one written for its value |
| Strings.UtosOfStou | include/erl/util/string.hpp:28-43 | utos(stou(s)) == s for every canonical numeral below 2^32 |
| Strings.IndexOf | include/erl/kwargs.hpp:199 | the position found holds the name, and no earlier position does; an absent name gives the end |
| Strings.FromLiteral | include/erl/util/string.hpp:12-17 | the literal constructor copies every element, terminator included |
| Strings.FromChars | include/erl/util/string.hpp:18 | the pack constructor stores the characters first and zeros after them |
| Strings.FromView | include/erl/util/string.hpp:19 | the view constructor copies at most N characters, and the rest of the array stays zero, so the last slot is always a terminator |
| Strings.AsView | include/erl/util/string.hpp:20 | the view is the characters before the first NUL |
| Strings.ViewRoundTrip | include/erl/util/string.hpp:19-20 | a NUL-free view stored and viewed again comes back, truncated to N characters |
| Parsing.IsInteger | include/erl/util/parser.hpp:16-25 | true exactly for a non-empty string of digits with an optional leading '-' |
| Parsing.LoneMinusIsInteger | include/erl/util/parser.hpp:16-25 | a lone '-' counts as an integer, while the empty string and a trailing '-' do not |
| Parsing.Current | include/erl/util/parser.hpp:56 | the character under the cursor, or the terminator one past the end |
| Parsing.SkipWhitespace | include/erl/util/parser.hpp:32-40 | the cursor only moves forward, and it stops at the end or at a character that is neither whitespace nor a backslash |
| Parsing.SkipWhitespaceSkips | include/erl/util/parser.hpp:32-40 | every character passed over is whitespace or a backslash |
| Parsing.SkipWhitespaceFlat | include/erl/util/parser.hpp:32-40 | skip_whitespace stops exactly at the first character it may not skip |
| Parsing.SkipTo | include/erl/util/parser.hpp:42-54 | the cursor only moves forward and stays within the text |
| Parsing.SkipToStops | include/erl/util/parser.hpp:42-54 | skip_to stops at the first position where a needle sits at bracket depth 0, or at the end when there is none |
| Parsing.SkipToFlat | include/erl/util/parser.hpp:42-54 | over text with no brackets and no needle, skip_to stops exactly at the next needle or at the end |
| Kwargs.ParseNames | include/erl/kwargs.hpp:33-73 | every name the parser collects is non-empty, starts with no '.' and no blank, and is neither `this` nor `*this` |
| Kwargs.ParseFrom | include/erl/kwargs.hpp:36-72 | each loop pass only appends names, so the names already found stay in front and in order |
| Kwargs.NextCapture | include/erl/kwargs.hpp:37-70 | one loop pass yields a valid name and moves the cursor strictly forward, at most one past the end |
| Kwargs.ParseRenderedCaptures | include/erl/kwargs.hpp:33-73 | a capture list of plain identifiers, by value or by reference and separated by ", ", parses back to exactly its names in order |
| Kwargs.RejectsPack | include/erl/kwargs.hpp:45-48 | a captured pack expansion is rejected |
| Kwargs.RejectsDefaultCapture | include/erl/kwargs.hpp:53-57 | a default capture leaves an empty name and is rejected |
| Kwargs.RejectsThis | include/erl/kwargs.hpp:59-63 | a capture of `this` is rejected, even after a valid capture |
| Kwargs.TransformRendered | include/erl/kwargs.hpp:176-208 | every well-formed format string is rewritten into its reference rewrite: each field name becomes the decimal position of that name, and literal text, format specs and `{{...}}` escapes are copied unchanged |
| Kwargs.TransformEscaped | include/erl/kwargs.hpp:182-190 | a `{{s}}` escape is copied verbatim |
| Kwargs.TransformField | include/erl/kwargs.hpp:193-203 | `{name}` becomes `{i}`, where i is the position of the name |
| Kwargs.TransformFieldSpec | include/erl/kwargs.hpp:193-203 | `{name:spec}` becomes `{i:spec}`, where i is the position of the name |
| Kwargs.NamesBecomePositions | include/erl/kwargs.hpp:193-203 | fields are numbered by the position of their name, whatever their order in the text |
| Kwargs.UnterminatedField | include/erl/kwargs.hpp:195-203 | a field left open at the end of the text gets the terminator read past the end appended |
| Trie.LexProperPrefix | include/erl/_impl/util/trie.hpp:87 | in the sort order, a string never comes before one of its proper prefixes |
| Trie.SortWordsSorted | include/erl/_impl/util/trie.hpp:85-87 | the sorted copy is ordered and is a permutation of the words |
| Trie.FindChild | include/erl/_impl/util/trie.hpp:96-98 | the first child whose text starts with the character, and no earlier one does; none gives the end |
| Trie.CommonPrefix | include/erl/_impl/util/trie.hpp:111-113 | std::mismatch gives the length of the longest common prefix |
| Trie.Split | include/erl/_impl/util/trie.hpp:115-119 | splitting a node's text keeps the node well formed and keeps every lookup through it |
| Trie.InsertNew | include/erl/_impl/util/trie.hpp:100-108 | when no child starts with the next character, a new child holding the rest of the word is appended, and it stores exactly that word in addition |
| Trie.InsertChildrenSpec | include/erl/_impl/util/trie.hpp:91-123 | inserting a word no smaller than every stored word stores exactly that word with its index in addition and keeps the tree well formed |
| Trie.InsertAllSpec | include/erl/_impl/util/trie.hpp:91-124 | inserting the sorted words one after another stores each with its index and nothing else |
| Trie.MakeStores | include/erl/_impl/util/trie.hpp:84-126 | the built tree stores every non-empty word with its first position plus one, and stores nothing else |
| Trie.VisitAgrees | include/erl/_impl/util/trie.hpp:25-49 | the corrected walk over a state accepts exactly the strings the tree stores and reports their index |
| Trie.BuildAgrees | include/erl/_impl/util/trie.hpp:128-151 | the walk over the states converted from the built tree accepts exactly the words |
| Trie.MatchesIffWord | include/erl/_impl/util/trie.hpp:54-60 | matches (corrected) holds for exactly the non-empty words |
| Trie.FindGivesPosition | include/erl/_impl/util/trie.hpp:62-69 | find (corrected) gives the first position of a word, and -1U for anything else |
| Trie.MatchesWritten | include/erl/_impl/util/trie.hpp:54-57 | matches as written rejects the empty string |
| Trie.FindWritten | include/erl/_impl/util/trie.hpp:62-69 | find as written gives an unsigned value, and -1U for the empty string |
| Trie.FindFromVisit | include/erl/_impl/util/trie.hpp:62-69 | find returns one less than the index the walk reports, and -1U when it reports none |
| Trie.MatchesWrittenSound | include/erl/_impl/util/trie.hpp:25-60 | matches as written never accepts a string that is not a word |
| Trie.PrefixWordRejected | include/erl/_impl/util/trie.hpp:26-31 | with the words "a" and "ab", matches("ab") as written is false and find("ab") misses, while the corrected walk finds "ab" at position 1 |
| Trie.MissIsMinusTwo | include/erl/_impl/util/trie.hpp:62-69 | find as written returns -2U for a string that no path spells to its end, where the corrected find returns -1U |
| NamedFormat.Substr | include/erl/_impl/format/named.hpp:186 | substr gives the requested slice, cut short at the end of the text |
| NamedFormat.PushText | include/erl/_impl/format/named.hpp:177-189 | push_text turns the pending text into a fragment and moves the fragment start to the cursor; the numbering and the field flags are untouched |
| NamedFormat.PushGiven | include/erl/_impl/format/named.hpp:177-179 | a given non-empty text becomes one more fragment |
| NamedFormat.AddAccessor | include/erl/_impl/format/named.hpp:270-272 | the accessor is appended, an accessor fragment carrying the new accessor count follows, and the cursor steps past the field's end |
| NamedFormat.DotPos | include/erl/_impl/format/named.hpp:247 | the position of the first '.' in the name, or the name's length when there is none |
| NamedFormat.Renumber | include/erl/_impl/format/named.hpp:253-255 | the first use of argument N takes the next number and later uses repeat it; no other argument's number changes |
| NamedFormat.StepAdvances | include/erl/_impl/format/named.hpp:208-273 | every successful loop pass moves the cursor forward and keeps the parser state consistent |
| NamedFormat.Run | include/erl/_impl/format/named.hpp:208-273 | a successful loop ends at or past the end of the text in a consistent state |
| NamedFormat.RunFails | include/erl/_impl/format/named.hpp:229-262 | a failing pass ends the whole parse with its error |
| NamedFormat.StepKeepsNumbering | include/erl/_impl/format/named.hpp:249-257 | every pass keeps the numbering a bijection onto 0..used-1 and never renumbers an argument |
| NamedFormat.RunKeepsNumbering | include/erl/_impl/format/named.hpp:208-273 | the whole loop keeps the numbering a bijection and never renumbers an argument |
| NamedFormat.FirstUseInverts | include/erl/_impl/format/named.hpp:276-281 | the first-use list inverts the numbering: the argument at position j is the one numbered j |
| NamedFormat.EmittedNumberSelects | include/erl/_impl/format/named.hpp:250-257 | the number emitted for {N}, looked up in the first-use list of the finished parse, gives back argument N |
| NamedFormat.ParseListInverts | include/erl/_impl/format/named.hpp:274-288 | the finished parse lists the direct arguments in first-use order, which is a bijection between emitted numbers and the arguments named |
| NamedFormat.StepInOrder | include/erl/_impl/format/named.hpp:270-272 | every pass keeps the accessor fragments numbered 1, 2, ... in order |
| NamedFormat.AccessorsFollowDirect | include/erl/_impl/format/named.hpp:286-302 | accessor i renders as its position in the argument list, after the direct arguments |
| NamedFormat.StepNeverMixes | include/erl/_impl/format/named.hpp:229-244 | no successful pass leaves both an empty field and a named or indexed field on record, and neither flag is ever cleared |
| NamedFormat.RunNeverMixes | include/erl/_impl/format/named.hpp:208-273 | a successful parse never mixes empty fields with named or indexed ones |
| NamedFormat.PlainTextUnchanged | include/erl/_impl/format/named.hpp:208-288 | a string without '{' comes back unchanged with every argument passed directly, as written and as corrected |
| NamedFormat.ParseOfUnnamed | include/erl/_impl/format/named.hpp:282-284 | a string without named or indexed fields passes every argument directly, in index order |
| NamedFormat.ParseWrittenOfUnnamed | include/erl/_impl/format/named.hpp:277-284 | the written and corrected argument lists agree when no field is named or indexed |
| NamedFormat.SwappedIndicesWritten | include/erl/_impl/format/named.hpp:276-281 | as written, "{1} {0}" becomes "{0} {1}" with the arguments passed in index order, so the two arguments come out swapped |
| NamedFormat.SwappedIndicesCorrected | include/erl/_impl/format/named.hpp:250-257 | listing the direct arguments in first-use order makes the rewritten "{0} {1}" print argument 1, then argument 0 |
| NamedFormat.EmptyAfterIndexed | include/erl/_impl/format/named.hpp:229-234 | an empty field after an indexed one is rejected |
| NamedFormat.IndexedAfterEmpty | include/erl/_impl/format/named.hpp:239-243 | an indexed field after an empty one is rejected |
| NamedFormat.NameWithManyArguments | include/erl/_impl/format/named.hpp:258-262 | a bare field name is rejected when there is more than one argument |
| NamedFormat.NameWithOneArgument | include/erl/_impl/format/named.hpp:258-263 | with one argument a bare name is an accessor on it, taking position 0 |
| NamedFormat.EscapeKept | include/erl/_impl/format/named.hpp:216-222 | an escaped `{{x}}` stays as written and names no argument |
| NamedFormat.RenderText | include/erl/_impl/format/named.hpp:296-302 | render concatenates the fragments in order, so appending a text fragment appends its text |
| Expect.OpText | include/erl/_impl/config/expect.hpp:134 | every operator token is non-empty and holds no parenthesis, so it never upsets the printed form's bracketing |
| Expect.Apply | include/erl/_impl/config/expect.hpp:195-212 | every comparison and logical operator yields a truth value, 0 or 1 |
| Expect.ComparisonMeaning | include/erl/_impl/config/expect.hpp:195-206 | `eval_operator` yields 1 exactly when the C++ meaning of the token the printers show for the operator holds between the operand values, and no two operators print the same token |
| Expect.OperatorTable | include/erl/_impl/config/expect.hpp:195-212 | each comparison is the negation of its opposite and agrees with its mirror image on swapped operands; `&&` and `||` are commutative and dual |
| Expect.EvalVerbose | include/erl/_impl/config/expect.hpp:92-122 | the verbose walk returns the same value as plain evaluation, only appends to the failed terms, and a false binary node appends its own printed form last |
| Expect.PostOrderBound | include/erl/_impl/config/expect.hpp:92-122 | every node the verbose walk visits is a subterm, so its placeholders are bound as well |
| Expect.VerboseRecordsFalseNodes | include/erl/_impl/config/expect.hpp:92-122 | the verbose walk appends exactly the printed forms of the false binary nodes in post-order, operands before the expression that contains them |
| Expect.PrintersAgree | include/erl/_impl/config/expect.hpp:124-157 | the printer over the values and the printer over replacement texts agree when each replacement is how its value prints |
| Expect.PrintWithBalanced | include/erl/_impl/config/expect.hpp:142-157 | the printed form is fully parenthesised: each binary node prints between '(' and ')', and the brackets balance |
| Expect.BothOperandsReported | include/erl/_impl/config/expect.hpp:99-106 | in `($0 < 1) && ($1 < 1)` with both arguments 5, both comparisons and the conjunction are reported, innermost first |
| Expect.LazyArgumentsNotReported | include/erl/_impl/config/expect.hpp:302-304 | a lazy call evaluates its arguments with `eval`, so a comparison among them that comes out false (`$0 < 1` with argument 5) is not reported |
| DefaultConstruct.RequiredCount | include/erl/_impl/config/default_construct.hpp:74-88 | the count of members without a default never exceeds the number of members |
| DefaultConstruct.RequiredCountCountsPositions | include/erl/_impl/config/default_construct.hpp:74-88 | the count equals the number of positions whose member has no default |
| DefaultConstruct.LeadingPresent | include/erl/_impl/config/default_construct.hpp:96-100 | the index counts the leading slots that hold a value: all slots before it hold one, and the slot at it is empty |
| DefaultConstruct.LeadingPresentIgnoresAfterGap | include/erl/_impl/config/default_construct.hpp:96-100 | after the first empty slot, later slots have no effect on the index |
| DefaultConstruct.Strategy | include/erl/_impl/config/default_construct.hpp:112-115 | the strategy index lies between 1 and 4 |
| DefaultConstruct.StrategyFits | include/erl/_impl/config/default_construct.hpp:112-115 | the chosen table is the smallest with at least as many cases as there are optional members |
| DefaultConstruct.Visit | include/erl/_impl/config/default_construct.hpp:90-123 | the corrected visit either constructs from the leading values or throws |
| DefaultConstruct.VisitUsesLeadingValues | include/erl/_impl/config/default_construct.hpp:96-109 | visit throws exactly when a required value is missing; otherwise the visitor gets the whole leading run of values, which covers at least the first `required` slots, and the slot after the run is empty |
| DefaultConstruct.VisitWrittenAgrees | include/erl/_impl/config/default_construct.hpp:90-123 | the written visit agrees with the corrected one whenever some optional value is missing |
| DefaultConstruct.AllOptionalsPresentUnreachable | include/erl/_impl/config/default_construct.hpp:48-53 | with every slot filled and at least one optional member, the written visit reaches `std::unreachable()` where the corrected one passes the whole tuple |
| DefaultConstruct.BothGivenUnreachable | include/erl/_impl/config/default_construct.hpp:48-53 | one required and one optional member, both given, reach `std::unreachable()` as written |
| Color.MakeCodes | include/erl/log/format/color.hpp:12-26 | the variadic code writer produces the introducer, the codes' numerals separated by ';', and the final 'm' |
| Color.SplitJoin | include/erl/log/format/color.hpp:12-26 | the parameter list splits at ';' back into the numerals it was joined from |
| Color.DecodeCodes | include/erl/log/format/color.hpp:8-26 | decoding a written control sequence gives back its codes in order |
| Color.Compose | include/erl/log/format/color.hpp:36-44 | `|` keeps the left operand's codes first and the right operand's after them |
| Color.ComposeJoins | include/erl/log/format/color.hpp:63-71 | a composed style writes one control sequence whose parameters are the left operand's followed by the right operand's |
| Color.VisibleSkipsCode | include/erl/log/format/color.hpp:8-10 | a terminal shows nothing of a one-code control sequence |
| Color.WrapKeepsVisible | include/erl/log/format/color.hpp:49-56 | colouring never changes the text a terminal shows |
| Hash.Fnv1a | include/experiments/util/hash.hpp:8-15 | the loop computes the rounds over the bytes in order, from the source's start value |
| Hash.Fnv1aView | include/experiments/util/hash.hpp:17-19 | hashing a view hashes its characters as unsigned bytes |
| Hash.RoundsAppend | include/experiments/util/hash.hpp:8-15 | the hash can be computed piecewise: hashing a + b continues from the hash of a |
| Hash.HashOfA | include/experiments/util/hash.hpp:9-12 | with the constants as written, "a" hashes to 0xeeaae93a, not to FNV-1a's 0xe40c292c |
| Hash.ToU32Wraps | include/experiments/util/hash.hpp:21-22 | a value and the same value plus 2^32 mix into the hash alike |
| Hash.CombineAppend | include/experiments/util/hash.hpp:21-24 | combining a + b combines b into the result of combining a |
| Hash.CombineSingle | include/experiments/util/hash.hpp:21-24 | combining no values leaves the hash alone, and one value is one mixing step |
| Args.ParseArgument | include/erl/_impl/config/args.hpp:98-122 | a positional takes the current token exactly when one is left and it is not a dash unless a negative number; taking advances the cursor by one, failing changes nothing; as written a negative number is consumed without recording a handler |
| Args.RequiredAmongArguments | include/erl/_impl/config/args.hpp:320-328 | since an option data member must have a default initializer, the members without a default are no more than the positionals |
| Args.CollectParameters | include/erl/_impl/config/args.hpp:203-218 | an option's parameters either all resolve, never moving the cursor back, or stop with "Missing argument" for that option |
| Args.CollectParametersIsRun | include/erl/_impl/config/args.hpp:203-218 | the parameters take the tokens from the cursor on while a parameter takes them; then the first parameter left without a default stops the program, and if there is none the option matches with exactly the tokens taken |
| Args.ParseOption | include/erl/_impl/config/args.hpp:192-222 | an option matches exactly when the token minus its first two characters equals the name; as written a token shorter than two characters is undefined behaviour, as intended it matches nothing |
| Args.OptionMissingArgumentStops | include/erl/_impl/config/args.hpp:212-216 | an option whose first parameter is required, given without a token that parameter takes, stops the program with "Missing argument" |
| Args.FirstMatch | include/erl/_impl/config/args.hpp:379-385 | the first specification that matches wins; nothing matches exactly when no name equals the token minus its prefix |
| Args.OptionLoop | include/erl/_impl/config/args.hpp:375-390 | the commands already run stay run, in order, however the loop ends; every command run and option kept is one of those declared; an unknown-option stop names one of the remaining tokens |
| Args.UnknownOptionStops | include/erl/_impl/config/args.hpp:385-388 | a token that names no command and no option stops the program with "Could not find option", keeping the commands already run |
| Args.Positionals | include/erl/_impl/config/args.hpp:362-369 | the positional loop takes at most one token per positional, moves the cursor by the count taken, and each recorded handler targets its own positional index |
| Args.PositionalsTakeLeadingTokens | include/erl/_impl/config/args.hpp:362-369 | the positionals take the tokens from the cursor on, one each, and stop only at the end, after the last positional, or at a token a positional does not take |
| Args.Validate | include/erl/_impl/config/args.hpp:61-85 | validation fails exactly when the argument has a constraint that evaluates to false, and it then names the argument |
| Args.Fill | include/erl/_impl/config/args.hpp:392-395 | storing succeeds only when every recorded positional has a handler, and a stop is always a validation failure |
| Args.FillStoresInOrder | include/erl/_impl/config/args.hpp:87-96 | running the handlers in order stores each token into the tuple slot of its positional index and leaves the other slots unchanged |
| Args.FillValidates | include/erl/_impl/config/args.hpp:87-96 | when the handlers are all stored, each token passed its positional's constraint |
| Args.FillDefined | include/erl/_impl/config/args.hpp:59 | handlers that are all set never call through a null pointer |
| Args.StoredLeading | include/erl/_impl/config/args.hpp:392-395 | handlers that target their own positional index fill exactly the leading slots of the tuple |
| Args.Build | include/erl/_impl/config/args.hpp:403 | a successful build keeps the slots, the commands run and the options kept, and uses exactly the leading run of values; every data member without a default counts as required |
| Args.Store | include/erl/_impl/config/args.hpp:392-403 | after storing, the program either stops with a validation or missing-argument failure or builds from a tuple with one slot per data member |
| Args.ParseArgs | include/erl/_impl/config/args.hpp:352-411 | every command run and option kept is one of those declared; an unknown-option stop names a token after the program name; the tuple has one slot per data member; an empty argument vector, whose `args[0]` is undefined, gives `Undefined` with no command run |
| Args.StoreIsComplete | include/erl/_impl/config/args.hpp:392-403 | when storing succeeds, every positional without a default holds a value, each value is its own validated token, and the leading run of values is what is passed on |
| Args.ParsedIsComplete | include/erl/_impl/config/args.hpp:352-403 | with either reading, when parsing succeeds, every positional without a default got a value, each slot holding a value holds the token after the program name at its positional index and passed its constraint, and the object is built from the leading run of values |
| Args.ParseArgsAllTaken | include/erl/_impl/config/args.hpp:375-395 | when the positionals take every token, no command runs, no option is kept, and storing decides the outcome |
| Args.StoreLeading | include/erl/_impl/config/args.hpp:392-401 | unconstrained tokens, one per leading positional, with no required positional left over, go to building with the tokens in the leading slots |
| Args.BuildLeading | include/erl/_impl/config/default_construct.hpp:90-122 | with the required values leading and some slot empty, both dispatches build from the leading run of values |
| Args.StoreAllPresent | include/erl/_impl/config/args.hpp:392-403 | one unconstrained token per positional builds the object from the tokens in the leading slots, as written whenever some member is not a positional |
| Args.AllPlainParses | include/erl/_impl/config/args.hpp:352-411 | with one plain token per unconstrained positional, parsing succeeds with each token in its positional's slot, the other slots empty, and no command or option seen |
| Args.OtherMemberTakesToken | include/erl/_impl/config/args.hpp:87-96 | when the first data member is not a positional, the first positional's token still lands in the first tuple slot, the one belonging to that member |
| Args.MissingRequiredStops | include/erl/_impl/config/args.hpp:397-401 | a positional without a default and without a token stops the program with "Missing required argument" naming it |
| Args.CommandRunsBeforeLaterStop | include/erl/_impl/config/args.hpp:379-388 | a command given before an unknown token has run by the time the program stops on that token |
| Args.IntendedLoopDefined | include/erl/_impl/config/args.hpp:375-390 | as intended, the loop over the remaining tokens never meets undefined behaviour |
| Args.IntendedNeverUndefined | include/erl/_impl/config/args.hpp:352-411 | as intended, parsing never meets undefined behaviour: it parses, stops with a message, or throws from building |
| Args.NegativePositional | include/erl/_impl/config/args.hpp:110-115 | as written, "-5" for a positional is consumed with a null handler that is later called; as intended it is stored |
| Args.ShortTokenOption | include/erl/_impl/config/args.hpp:196-197 | as written, a one-character token where an option is expected is undefined behaviour; as intended it is reported as an unknown option |

## Left out

- Concurrency: atomics, memory orders, compare-and-swap races and the spin or blocking waits of the queues are not modelled. The queues are sequential state machines, and `recv`/`pop` answer `None` where the source would block.
- Mpmc, Spsc: positions are unbounded naturals. The wrap-around of `size_t` positions after 2^64 operations is not modelled.
- HybridBuffer.AllocateHeap: the `unsigned` capacity parameter is an unbounded natural here, so a capacity of 2^32 or more is not truncated as in the source.
- HybridBuffer.ResizeHeap: the `std::uint32_t` capacity and the stored capacity field are unbounded naturals, so their wrap-around at 2^32 is not modelled.
- HybridBuffer.Write, HybridBuffer.Reserve: the `unsigned` length and count parameters are unbounded naturals, so a buffer that would pass 2^32 bytes keeps growing instead of wrapping.
- NetBuffer.AllocateHeap: the `unsigned` capacity parameter is an unbounded natural here, so a capacity of 2^32 or more is not truncated as in the source.
- NetBuffer.ResizeHeap: the `std::uint32_t` capacity and the stored capacity field are unbounded naturals, so their wrap-around at 2^32 is not modelled.
- NetBuffer.Write, NetBuffer.Reserve: the `unsigned` length and count parameters are unbounded naturals, so a buffer that would pass 2^32 bytes keeps growing instead of wrapping.
- Storage.Clobber: assumes the LP64 layout of the heap descriptor (8-byte pointer, 4-byte capacity, 4 bytes of padding). Other ABIs are not modelled, and the clobbered bytes are one opaque value rather than the pointer's actual bytes.
- Text: a Dafny `string` stands for a C++ byte string, one character per `char`, so every character code is taken to be below 256. `Hash.Unsigned` reduces any other code modulo 256. The several bytes of a non-ASCII character's UTF-8 encoding are not modelled.
- NetBuffer.ReadAt: requires `offset + n <= |Data(b)|`, because `read` forms a span over `data()` with no bounds check and reading past the end of the inline array or the heap block is undefined. Reads past `size()` but inside the storage are modelled.
- Args.CharAt: index `|token|` gives `'\0'`, the terminator of the `argv` string behind the `string_view`, where `string_view::operator[]` at `size()` is undefined. This happens when `current[0]` is evaluated on an empty token. Indices beyond it are never read.
- Reader.Read: requires `cursor + n <= |buffer|`, because the source performs no bounds check and reading past the span is undefined.
- Storage.HeapRead: requires `offset + n <= |bytes|`, because `read` forms a span over the vector's data with no bounds check, and the bytes past the vector's size are not elements it holds. The vector's spare capacity is not modelled.
- Codec: pointers and function pointers are left out, because their encoding is an address that is only meaningful in-process. Decoding answers `None` where the source would read past the end of the message.
- Codec: reflection over aggregates, enums and variants is given as explicit type descriptions. The compile-time introspection that discovers members is not modelled.
- Buffer copy and move constructors, destructors, and `malloc`/`realloc`/`free`: left out because they are memory management with no observable byte content beyond what `Storage` models.
- I/O: sockets, `read`/`write` system calls, terminals and clocks are parameters. A `read` call is a positive grant of bytes; negative returns, which the source ignores, are not modelled.
- Wire.Recv: the checksum is carried but never validated, as in the source.
- Logger: sinks are opaque identities, and a notification records which event each sink receives. Sink bodies, time-point conversion and the formatter's text production are parameters. `make_prelude` and the thread-naming shims are left out.
- Transport: the proxy layer that turns member functions into handlers is not modelled. A handler is a function from argument bytes to reply bytes.
- Expect: only the comparison and logical operators are modelled. The arithmetic and assignment branches of `eval_operator` cannot be reached through the expression builders, which only define comparisons and `&&`/`||`.
- Expect: operand values are integers only. Comparisons of string values, which `consteval_wrap` prepares, and of other argument types are not modelled.
- Expect: `util::to_string` of values and operators is not part of this model. A `show` parameter prints values, and the operator tokens are the C++ spellings.
- Args: constraints are evaluated on the numeric value `stou` gives a token, as for the integral arguments the source validates. Parsing of other argument types is `T{value}` and is not modelled.
- Args.OptionLoop: running a command's body is not modelled. A command is recorded as run, in order, when it matches; what it does (the built-in `help` prints and calls `std::exit`) is left to the caller.
- Args: positional k stores into tuple slot k, as in `do_handle<Idx>`, even when an earlier data member that is not a positional owns that slot (see `Args.OtherMemberTakesToken`). Where the value was meant to go instead is not modelled.
- Args: help output, `Program::set_name` and running the parsed options on the object are left out, because they are I/O or calls into user code.
- DefaultConstruct: base classes are left out, because every caller passes a base count of 0.
- Hash: injectivity and inverse properties of the mixing steps are not stated. Only ground constant identities over 32-bit bit-vectors are proved, such as `Hash.HashOfA`.
- Color: the foreground, background and style constant tables are left out. They are fixed numbers passed to the modelled code builders.
- Strings.Stou: characters that are not digits are folded in unchecked, as in the source. Only digit strings get a value lemma.
- Kwargs: the `get`/`make` reflection parts and `format_impl` are left out, because they are compile-time code generation.
- NamedFormat: accessor construction is recorded as the accessor's argument index and field text. Member lookup by reflection is left out.
- The duplicated older copies of the same components (`include/erl/config/*.hpp`, `include/erl/format/named.hpp`, `include/slo/reflect.hpp` and others) are not part of this model. The chosen files cover their logic.

## Findings

| source | as written | input that shows it | evidently intended | confidence | as-written member | corrected member |
|---|---|---|---|---|---|---|
| include/slo/message/buffered.hpp:96-112 | `reserve` moves a buffer to the heap while its cursor is still within the inline capacity, and `data()` then still selects the inline array, whose first bytes now hold the heap descriptor | inline capacity 64: write one byte, then reserve 64 | the bytes written stay visible after any reserve, as in the variant that records the storage mode in the cursor's sign | not executed | HybridBuffer.ReserveLosesByte | NetBuffer.RunShowsWritten |
| include/erl/_impl/util/trie.hpp:26-31 | a one-character node that also ends a word only accepts a string of length one, so a longer word below it is never reached | words "a" and "ab": `matches("ab")` | every word is matched, including one that extends another word | not executed | Trie.PrefixWordRejected | Trie.MatchesIffWord |
| include/erl/_impl/util/trie.hpp:62-69 | `find` starts from -1U and subtracts one at the end, so a string no path spells to its end yields -2U | words "a" and "ab": `find("b")` | -1U for every string that is not a word | not executed | Trie.MissIsMinusTwo | Trie.FindGivesPosition |
| include/erl/_impl/format/named.hpp:276-281 | indexed fields are renumbered in first-use order, but the direct arguments are listed in index order | "{1} {0}" with two arguments | the argument list follows the numbering, so each field shows the argument it names | not executed | NamedFormat.SwappedIndicesWritten | NamedFormat.SwappedIndicesCorrected |
| include/erl/_impl/config/args.hpp:110-115 | a positional token "-" followed by a digit is consumed without setting a handler, and storing it later calls through a null member-function pointer | arguments "prog", "-5" for one integral positional | the negative number is recorded like any other token | not executed | Args.NegativePositional | Args.IntendedNeverUndefined |
| include/erl/_impl/config/default_construct.hpp:48-53 | the case for k present optionals calls the visitor only when k is below the number of optional members, so a tuple with every optional present reaches `std::unreachable()` | one required and one optional member, both given | the visitor receives the whole tuple | not executed | DefaultConstruct.BothGivenUnreachable | DefaultConstruct.VisitUsesLeadingValues |
| include/erl/rpc/dispatch.hpp:7-11 | a case between the last member and the end of the table falls to `std::unreachable()` instead of the `out_of_range` default | a one-member service, opcode 1 | every opcode that names no member throws "Invalid opcode" | not executed | Dispatch.OpcodePastLastMember | Dispatch.Select |
| include/erl/_impl/config/args.hpp:196-197 | `remove_prefix(2)` is applied to a token shorter than two characters | arguments "prog", "x" with one option | the token is reported as an unknown option | not executed | Args.ShortTokenOption | Args.IntendedNeverUndefined |

=== FILE: args.dfy ===
/**
 * The command-line parser of the configuration layer (`parse_args`): the
 * positional arguments of a type are taken in declaration order until one
 * fails to parse; the remaining tokens must each name a command (run
 * straight away) or an option (collected and run on the built object);
 * the parsed positionals are converted, validated against their `expect`
 * constraint and stored in the argument tuple; a missing required
 * positional stops the program; and the object is built by
 * `default_construct`.
 *
 * The reflection-driven part (which members are positionals, commands or
 * options, their types and names) is given as a list of specifications.
 * The program's exits and undefined behaviour are outcomes.
 */
module Args {
  import opened Wrappers
  import Strings
  import Expect
  import DefaultConstruct

  /** Which definition of a positional's parse step is meant (see `ParseArgument`). */
  datatype Reading = AsWritten | Intended

  /** `ArgParser`: the command-line tokens and the position of the next one. */
  datatype Parser = Parser(args: seq<string>, cursor: nat)
  {
    /** `valid()`. */
    predicate Valid()
    {
      cursor < |args|
    }

    /** `current()`. */
    function Current(): string
      requires Valid()
    {
      args[cursor]
    }

    function Advance(): Parser
    {
      this.(cursor := cursor + 1)
    }
  }

  /**
   * `current[i]` on a token. Command-line tokens are NUL-terminated `argv`
   * strings, so the position just past the end reads '\0' in practice,
   * although `string_view::operator[]` at `size()` is undefined.
   */
  function CharAt(token: string, i: nat): char
  {
    if i < |token| then token[i] else '\0'
  }

  /**
   * `Argument::Unevaluated`: the token taken for a positional and the handler
   * that will store it; `None` is the null handler a default-constructed
   * `Unevaluated` holds, `Some(idx)` is `do_handle<idx, R>`.
   */
  datatype Unevaluated = Unevaluated(argument: string, handle: Option<nat>)

  const Blank := Unevaluated("", None)

  /** What one `do_parse` returns, with the parser and the `Unevaluated` it leaves. */
  datatype Step = Step(ok: bool, parser: Parser, value: Unevaluated)

  /** A token that starts with '-' followed by a digit: a negative number. */
  predicate IsNegativeNumber(token: string)
  {
    CharAt(token, 0) == '-' && |token| > 1 && Strings.IsDigitChar(token[1])
  }

  /** A token a positional takes: anything but a dash that does not begin a negative number. */
  predicate Takes(token: string)
  {
    CharAt(token, 0) != '-' || IsNegativeNumber(token)
  }

  /**
   * `Argument::Unevaluated::do_parse<index, R>`. It fails without moving
   * when no token is left or the token starts with '-' and is not a
   * negative number; otherwise it consumes the token. As written, a
   * negative number is consumed without being recorded, leaving the null
   * handler in place; as intended, it is recorded like any other token.
   */
  function ParseArgument(index: nat, p: Parser, u: Unevaluated, reading: Reading): (r: Step)
    ensures !p.Valid() ==> !r.ok
    ensures r.ok <==> p.Valid() && Takes(p.Current())
    ensures r.ok ==> r.parser == p.Advance()
    ensures !r.ok ==> r.parser == p && r.value == u
    ensures r.ok && (reading == Intended || !IsNegativeNumber(p.Current())) ==>
              r.value == Unevaluated(p.Current(), Some(index))
    ensures r.ok && reading == AsWritten && IsNegativeNumber(p.Current()) ==> r.value == u
  {
    if !p.Valid() then Step(false, p, u)
    else
      var current := p.Current();
      if CharAt(current, 0) == '-' then
        if |current| > 1 && '0' <= current[1] <= '9' then
          if reading == AsWritten then Step(true, p.Advance(), u)
          else Step(true, p.Advance(), Unevaluated(current, Some(index)))
        else Step(false, p, u)
      else Step(true, p.Advance(), Unevaluated(current, Some(index)))
  }

  // ---------------------------------------------------------------------
  // Specifications

  /**
   * A positional (or option parameter): its name, whether it has a default,
   * whether its type is integral (parsed with `stou`), and its `expect`
   * constraint over the single placeholder `value`.
   */
  datatype ArgSpec = ArgSpec(name: string, optional: bool, integral: bool, constraint: Option<Expect.Expr>)
  {
    predicate WellFormed()
    {
      constraint.Some? ==> integral && Expect.Bound(constraint.value, 1)
    }
  }

  /** A command or option: its name and its parameters. */
  datatype OptSpec = OptSpec(name: string, parameters: seq<ArgSpec>)

  /** A matched command or option with the parameters it took. */
  datatype Invocation = Invocation(name: string, arguments: seq<Unevaluated>)

  /**
   * A nonstatic data member of the parsed type, in declaration order. A
   * positional is a public member with no `option` or `descend`
   * annotation; any other member (an option data member, which must have a
   * default initializer, a `descend` member, or a non-public one) is not
   * parsed as a positional but still has its slot in the argument tuple.
   */
  datatype Member = Argument(spec: ArgSpec) | Other(hasDefault: bool)
  {
    predicate HasDefault()
    {
      if Argument? then spec.optional else hasDefault
    }
  }

  /** Every positional's constraint is well formed. */
  predicate WellFormedMembers(members: seq<Member>)
  {
    forall i :: 0 <= i < |members| && members[i].Argument? ==> members[i].spec.WellFormed()
  }

  /** No positional has a constraint. */
  predicate Unconstrained(members: seq<Member>)
  {
    forall i :: 0 <= i < |members| && members[i].Argument? ==> members[i].spec.constraint.None?
  }

  /** The positionals among the members, in declaration order. */
  function ArgumentsOf(members: seq<Member>): (r: seq<ArgSpec>)
    ensures |r| <= |members|
    ensures WellFormedMembers(members) ==> WellFormedSpecs(r)
    ensures Unconstrained(members) ==> forall j :: 0 <= j < |r| ==> r[j].constraint.None?
  {
    if members == [] then []
    else
      var init := members[..|members| - 1];
      var last := members[|members| - 1];
      assert WellFormedMembers(members) ==> WellFormedMembers(init);
      assert Unconstrained(members) ==> Unconstrained(init);
      ArgumentsOf(init) + (if last.Argument? then [last.spec] else [])
  }

  /** Which members have a default, in declaration order. */
  function MemberDefaults(members: seq<Member>): (r: seq<bool>)
    ensures |r| == |members| && forall i :: 0 <= i < |members| ==> r[i] == members[i].HasDefault()
  {
    seq(|members|, i requires 0 <= i < |members| => members[i].HasDefault())
  }

  /**
   * When every member that is not a positional has a default, the members
   * without one are all positionals.
   */
  lemma {:induction false} RequiredAmongArguments(members: seq<Member>)
    requires forall i :: 0 <= i < |members| && members[i].Other? ==> members[i].hasDefault
    ensures DefaultConstruct.RequiredCount(MemberDefaults(members)) <= |ArgumentsOf(members)|
  {
    if members != [] {
      var init := members[..|members| - 1];
      assert MemberDefaults(init) == MemberDefaults(members)[..|members| - 1];
      RequiredAmongArguments(init);
    }
  }

  datatype Failure =
    | UnknownOption(token: string)                          // "Could not find option `...`"
    | MissingOptionArgument(parameter: string, option: string) // "Missing argument ... of option ..."
    | MissingRequired(argument: string)                     // "Missing required argument `...`"
    | ValidationFailed(argument: string, terms: seq<string>) // the failed terms, as printed

  /** What `Option::Unevaluated::do_parse` (or a chain of them) comes to. */
  datatype Match =
    | NoMatch
    | Matched(parser: Parser, invocation: Invocation)
    | Stopped(failure: Failure)   // `parser.fail`: exit status 1
    | ShortToken                  // `remove_prefix(2)` on a token shorter than 2: undefined behaviour

  // ---------------------------------------------------------------------
  // Commands and options

  /**
   * The parameters of a matched option: each is parsed in turn; one that
   * parses is kept, an optional one that does not is skipped, a required
   * one that does not stops the program.
   */
  function CollectParameters(parameters: seq<ArgSpec>, k: nat, p: Parser, taken: seq<Unevaluated>,
                             option: string, reading: Reading): (r: Match)
    requires k <= |parameters|
    ensures r.Matched? || r.Stopped?
    ensures r.Matched? ==> r.parser.args == p.args && r.parser.cursor >= p.cursor
    ensures r.Matched? ==> r.invocation.name == option
    ensures r.Stopped? ==> r.failure.MissingOptionArgument? && r.failure.option == option
    decreases |parameters| - k
  {
    if k == |parameters| then Matched(p, Invocation(option, taken))
    else
      var step := ParseArgument(k, p, Blank, reading);
      if step.ok then CollectParameters(parameters, k + 1, step.parser, taken + [step.value], option, reading)
      else if !parameters[k].optional then Stopped(MissingOptionArgument(parameters[k].name, option))
      else CollectParameters(parameters, k + 1, p, taken, option, reading)
  }

  /**
   * When the parameters from k on find a token they do not take, the first
   * of them from there on without a default stops the program.
   */
  lemma {:induction false} CollectParametersStops(parameters: seq<ArgSpec>, k: nat, p: Parser, taken: seq<Unevaluated>,
                                                  option: string, reading: Reading)
    requires k <= |parameters|
    ensures var run := Positionals(k, |parameters|, p, reading);
      var stop := FirstRequired(parameters, k + |run.0|);
      stop.Some? ==>
        CollectParameters(parameters, k, p, taken, option, reading) ==
        Stopped(MissingOptionArgument(parameters[stop.value].name, option))
    decreases |parameters| - k
  {
    var n := |parameters|;
    if k < n {
      PositionalsStep(k, n, p, reading);
      CollectParametersStep(parameters, k, p, taken, option, reading);
      if p.Valid() && Takes(p.Current()) {
        CollectParametersStops(parameters, k + 1, p.Advance(), taken + [Recorded(p.Current(), k, reading)], option, reading);
      } else if parameters[k].optional {
        CollectParametersStops(parameters, k + 1, p, taken, option, reading);
        if k + 1 < n {
          PositionalsStep(k + 1, n, p, reading);
        }
      }
    }
  }

  /** One parameter's turn: a token it takes is recorded, otherwise a required parameter stops and an optional one is skipped. */
  lemma CollectParametersStep(parameters: seq<ArgSpec>, k: nat, p: Parser, taken: seq<Unevaluated>,
                              option: string, reading: Reading)
    requires k < |parameters|
    ensures CollectParameters(parameters, k, p, taken, option, reading) ==
      if p.Valid() && Takes(p.Current()) then
        CollectParameters(parameters, k + 1, p.Advance(), taken + [Recorded(p.Current(), k, reading)], option, reading)
      else if !parameters[k].optional then Stopped(MissingOptionArgument(parameters[k].name, option))
      else CollectParameters(parameters, k + 1, p, taken, option, reading)
  {
    if p.Valid() && Takes(p.Current()) {
      ParseArgumentTakes(k, p, reading);
    }
  }

  /** When no parameter without a default is left unserved, the option matches with the run appended. */
  lemma {:induction false} CollectParametersMatches(parameters: seq<ArgSpec>, k: nat, p: Parser, taken: seq<Unevaluated>,
                                                    option: string, reading: Reading)
    requires k <= |parameters|
    ensures var run := Positionals(k, |parameters|, p, reading);
      FirstRequired(parameters, k + |run.0|).None? ==>
        CollectParameters(parameters, k, p, taken, option, reading) == Matched(run.1, Invocation(option, taken + run.0))
    decreases |parameters| - k
  {
    var n := |parameters|;
    if k == n {
      assert taken + [] == taken;
    } else {
      PositionalsStep(k, n, p, reading);
      CollectParametersStep(parameters, k, p, taken, option, reading);
      if p.Valid() && Takes(p.Current()) {
        var value := Recorded(p.Current(), k, reading);
        var rest := Positionals(k + 1, n, p.Advance(), reading);
        assert k + |Positionals(k, n, p, reading).0| == k + 1 + |rest.0|;
        CollectParametersMatches(parameters, k + 1, p.Advance(), taken + [value], option, reading);
        assert (taken + [value]) + rest.0 == taken + ([value] + rest.0);
      } else if parameters[k].optional {
        assert taken + [] == taken;
        CollectParametersMatches(parameters, k + 1, p, taken, option, reading);
        if k + 1 < n {
          PositionalsStep(k + 1, n, p, reading);
        }
      }
    }
  }

  /**
   * The parameters take the tokens from the cursor on exactly as a run of
   * positionals would; when a parameter finds no token it takes, every later
   * one finds none either, and the first of them without a default stops
   * the program. Otherwise the option matches with the run appended.
   */
  lemma CollectParametersIsRun(parameters: seq<ArgSpec>, k: nat, p: Parser, taken: seq<Unevaluated>,
                               option: string, reading: Reading)
    requires k <= |parameters|
    ensures var run := Positionals(k, |parameters|, p, reading);
      CollectParameters(parameters, k, p, taken, option, reading) ==
        match FirstRequired(parameters, k + |run.0|)
        case Some(i) => Stopped(MissingOptionArgument(parameters[i].name, option))
        case None => Matched(run.1, Invocation(option, taken + run.0))
  {
    CollectParametersStops(parameters, k, p, taken, option, reading);
    CollectParametersMatches(parameters, k, p, taken, option, reading);
  }

  /**
   * `Option::Unevaluated::do_parse<name, R, args...>`: the current token
   * with its first two characters removed must equal the name (the two
   * characters themselves are not looked at); then the token is consumed
   * and the parameters collected. Removing two characters from a shorter
   * token is undefined behaviour as written; as intended, such a token
   * names no option.
   */
  function ParseOption(spec: OptSpec, p: Parser, reading: Reading): (r: Match)
    requires p.Valid()
    ensures r.ShortToken? <==> reading == AsWritten && |p.Current()| < 2
    ensures r.NoMatch? <==> (|p.Current()| < 2 && reading.Intended?) || (|p.Current()| >= 2 && p.Current()[2..] != spec.name)
    ensures r.Matched? ==> r.parser.args == p.args && r.parser.cursor > p.cursor && r.invocation.name == spec.name
    ensures r.Stopped? ==> r.failure.MissingOptionArgument? && r.failure.option == spec.name
  {
    var token := p.Current();
    if |token| < 2 then (if reading == AsWritten then ShortToken else NoMatch)
    else if token[2..] != spec.name then NoMatch
    else CollectParameters(spec.parameters, 0, p.Advance(), [], spec.name, reading)
  }

  /**
   * An option whose first parameter is required, given without a token that
   * parameter takes, stops the program with "Missing argument".
   */
  lemma OptionMissingArgumentStops(spec: OptSpec, p: Parser, reading: Reading)
    requires p.Valid() && |p.Current()| >= 2 && p.Current()[2..] == spec.name
    requires |spec.parameters| >= 1 && !spec.parameters[0].optional
    requires p.cursor + 1 == |p.args| || !Takes(p.args[p.cursor + 1])
    ensures ParseOption(spec, p, reading) == Stopped(MissingOptionArgument(spec.parameters[0].name, spec.name))
  {
    assert !ParseArgument(0, p.Advance(), Blank, reading).ok;
  }

  /** `((option.*Specs.parse)(parser) || ...)`: the first specification that does not answer "no match". */
  function FirstMatch(specs: seq<OptSpec>, p: Parser, reading: Reading): (r: Match)
    requires p.Valid()
    ensures r.Matched? ==> r.parser.args == p.args && r.parser.cursor > p.cursor
    ensures r.Matched? ==> exists i :: 0 <= i < |specs| && r.invocation.name == specs[i].name
    ensures r.Stopped? ==> r.failure.MissingOptionArgument?
    ensures r.ShortToken? <==> specs != [] && reading == AsWritten && |p.Current()| < 2
    ensures r.NoMatch? <==>
              specs == [] ||
              (|p.Current()| < 2 && reading.Intended?) ||
              (|p.Current()| >= 2 && forall i :: 0 <= i < |specs| ==> p.Current()[2..] != specs[i].name)
  {
    if specs == [] then NoMatch
    else
      var first := ParseOption(specs[0], p, reading);
      if !first.NoMatch? then first
      else
        var rest := FirstMatch(specs[1..], p, reading);
        assert rest.Matched? ==> exists i :: 0 <= i < |specs| && rest.invocation.name == specs[i].name by {
          if rest.Matched? {
            var i :| 0 <= i < |specs[1..]| && rest.invocation.name == specs[1..][i].name;
            assert specs[1..][i] == specs[i + 1];
          }
        }
        rest
  }

  /**
   * Where the loop over the remaining tokens ends up, with the commands it
   * ran on the way: a command runs as soon as it matches, so those run
   * before a later stop have run all the same.
   */
  datatype Loop =
    | Done(commands: seq<Invocation>, options: seq<Invocation>)
    | LoopStopped(failure: Failure, commands: seq<Invocation>)
    | LoopUndefined(commands: seq<Invocation>)

  /** Every invocation is of one of the specifications. */
  predicate Names(invocations: seq<Invocation>, specs: seq<OptSpec>)
  {
    forall i :: 0 <= i < |invocations| ==> exists j :: 0 <= j < |specs| && invocations[i].name == specs[j].name
  }

  lemma NamesAppend(invocations: seq<Invocation>, invocation: Invocation, specs: seq<OptSpec>)
    requires Names(invocations, specs)
    requires exists j :: 0 <= j < |specs| && invocation.name == specs[j].name
    ensures Names(invocations + [invocation], specs)
  {
    var s := invocations + [invocation];
    forall i | 0 <= i < |s| ensures exists j :: 0 <= j < |specs| && s[i].name == specs[j].name {
      if i < |invocations| {
        assert s[i] == invocations[i];
      }
    }
  }

  /**
   * The loop of `parse_args` over the tokens after the positionals: a
   * command that matches is run at once, an option that matches is kept,
   * and a token that matches neither stops the program. The commands run
   * so far stay run, in order, whatever the loop ends with.
   */
  function OptionLoop(commands: seq<OptSpec>, options: seq<OptSpec>, p: Parser, reading: Reading,
                      ran: seq<Invocation>, kept: seq<Invocation>): (r: Loop)
    ensures |ran| <= |r.commands| && r.commands[..|ran|] == ran
    ensures Names(ran, commands) ==> Names(r.commands, commands)
    ensures r.Done? ==> |kept| <= |r.options| && r.options[..|kept|] == kept
    ensures r.Done? && Names(kept, options) ==> Names(r.options, options)
    ensures r.LoopStopped? && r.failure.UnknownOption? ==>
              exists i :: p.cursor <= i < |p.args| && r.failure.token == p.args[i]
    decreases |p.args| - p.cursor
  {
    if !p.Valid() then Done(ran, kept)
    else
      match FirstMatch(commands, p, reading)
      case Matched(next, invocation) =>
        var r := OptionLoop(commands, options, next, reading, ran + [invocation], kept);
        assert (ran + [invocation])[..|ran|] == ran;
        assert r.commands[..|ran|] == r.commands[..|ran| + 1][..|ran|];
        assert Names(ran, commands) ==> Names(ran + [invocation], commands) by {
          if Names(ran, commands) { NamesAppend(ran, invocation, commands); }
        }
        r
      case Stopped(failure) => LoopStopped(failure, ran)
      case ShortToken => LoopUndefined(ran)
      case NoMatch =>
        match FirstMatch(options, p, reading)
        case Matched(next, invocation) =>
          var r := OptionLoop(commands, options, next, reading, ran, kept + [invocation]);
          assert (kept + [invocation])[..|kept|] == kept;
          assert r.Done? ==> r.options[..|kept|] == r.options[..|kept| + 1][..|kept|];
          assert Names(kept, options) ==> Names(kept + [invocation], options) by {
            if Names(kept, options) { NamesAppend(kept, invocation, options); }
          }
          r
        case Stopped(failure) => LoopStopped(failure, ran)
        case ShortToken => LoopUndefined(ran)
        case NoMatch => LoopStopped(UnknownOption(p.Current()), ran)
  }

  /** A token that names no command and no option stops the program with "Could not find option". */
  lemma UnknownOptionStops(commands: seq<OptSpec>, options: seq<OptSpec>, p: Parser, reading: Reading,
                           ran: seq<Invocation>, kept: seq<Invocation>)
    requires p.Valid() && |p.Current()| >= 2
    requires forall i :: 0 <= i < |commands| ==> p.Current()[2..] != commands[i].name
    requires forall i :: 0 <= i < |options| ==> p.Current()[2..] != options[i].name
    ensures OptionLoop(commands, options, p, reading, ran, kept) == LoopStopped(UnknownOption(p.Current()), ran)
  {
    assert FirstMatch(commands, p, reading).NoMatch?;
    assert FirstMatch(options, p, reading).NoMatch?;
  }

  // ---------------------------------------------------------------------
  // Positionals

  /** The loop over the positionals: parse each in turn, stop at the first that fails. */
  function Positionals(k: nat, n: nat, p: Parser, reading: Reading): (r: (seq<Unevaluated>, Parser))
    requires k <= n
    ensures |r.0| <= n - k
    ensures r.1 == Parser(p.args, p.cursor + |r.0|)
    ensures forall i :: 0 <= i < |r.0| ==> r.0[i].handle.Some? ==> r.0[i].handle.value == k + i
    decreases n - k
  {
    if k == n then ([], p)
    else
      var step := ParseArgument(k, p, Blank, reading);
      if !step.ok then ([], p)
      else
        var rest := Positionals(k + 1, n, step.parser, reading);
        var taken := [step.value] + rest.0;
        assert forall i :: 1 <= i < |taken| ==> taken[i] == rest.0[i - 1];
        (taken, rest.1)
  }

  /** What the positional at index idx records for the token it takes. */
  function Recorded(token: string, idx: nat, reading: Reading): Unevaluated
  {
    if reading == AsWritten && IsNegativeNumber(token) then Blank else Unevaluated(token, Some(idx))
  }

  /**
   * The tokens from `from` on were taken, one per positional from index k:
   * each is one a positional takes, and each positional recorded its token.
   */
  predicate RecordsRun(taken: seq<Unevaluated>, args: seq<string>, from: nat, k: nat, reading: Reading)
  {
    from + |taken| <= |args| &&
    forall j :: from <= j < from + |taken| ==>
      Takes(args[j]) && taken[j - from] == Recorded(args[j], k + (j - from), reading)
  }

  /** One positional's parse step on a token it takes: the token is consumed and recorded. */
  lemma ParseArgumentTakes(k: nat, p: Parser, reading: Reading)
    requires p.Valid() && Takes(p.Current())
    ensures ParseArgument(k, p, Blank, reading) == Step(true, p.Advance(), Recorded(p.Current(), k, reading))
  {
  }

  /** One turn of the positional loop: a token taken heads the rest of the run; any other token ends it. */
  lemma PositionalsStep(k: nat, n: nat, p: Parser, reading: Reading)
    requires k < n
    ensures var r := Positionals(k, n, p, reading);
      if p.Valid() && Takes(p.Current()) then
        var rest := Positionals(k + 1, n, p.Advance(), reading);
        r == ([Recorded(p.Current(), k, reading)] + rest.0, rest.1)
      else r == ([], p)
  {
    if p.Valid() && Takes(p.Current()) {
      ParseArgumentTakes(k, p, reading);
    }
  }

  /** The j-th token the positionals take is one a positional takes, recorded by positional k + j. */
  lemma {:induction false} PositionalsRecordAt(k: nat, n: nat, p: Parser, reading: Reading, j: nat)
    requires k <= n && p.cursor <= |p.args|
    ensures var r := Positionals(k, n, p, reading);
      j < |r.0| ==>
        p.cursor + j < |p.args| && Takes(p.args[p.cursor + j]) &&
        r.0[j] == Recorded(p.args[p.cursor + j], k + j, reading)
    decreases j
  {
    if k < n {
      PositionalsStep(k, n, p, reading);
      if p.Valid() && Takes(p.Current()) && j > 0 {
        var rest := Positionals(k + 1, n, p.Advance(), reading);
        PositionalsRecordAt(k + 1, n, p.Advance(), reading, j - 1);
        if j < |Positionals(k, n, p, reading).0| {
          assert Positionals(k, n, p, reading).0[j] == rest.0[j - 1];
          assert p.Advance().cursor + (j - 1) == p.cursor + j;
        }
      }
    }
  }

  /** The tokens the positionals take from the cursor on are each recorded by their positional. */
  lemma PositionalsRecord(k: nat, n: nat, p: Parser, reading: Reading)
    requires k <= n && p.cursor <= |p.args|
    ensures RecordsRun(Positionals(k, n, p, reading).0, p.args, p.cursor, k, reading)
  {
    var r := Positionals(k, n, p, reading);
    if |r.0| > 0 {
      PositionalsRecordAt(k, n, p, reading, |r.0| - 1);
    }
    forall j | p.cursor <= j < p.cursor + |r.0|
      ensures Takes(p.args[j]) && r.0[j - p.cursor] == Recorded(p.args[j], k + (j - p.cursor), reading)
    {
      PositionalsRecordAt(k, n, p, reading, j - p.cursor);
    }
  }

  /** A run that serves fewer than all positionals ends at the last token or at one no positional takes. */
  lemma {:induction false} PositionalsStopEarly(k: nat, n: nat, p: Parser, reading: Reading)
    requires k <= n && p.cursor <= |p.args|
    ensures var r := Positionals(k, n, p, reading);
      |r.0| < n - k && p.cursor + |r.0| < |p.args| ==> !Takes(p.args[p.cursor + |r.0|])
    decreases n - k
  {
    if k < n {
      PositionalsStep(k, n, p, reading);
      if p.Valid() && Takes(p.Current()) {
        PositionalsStopEarly(k + 1, n, p.Advance(), reading);
      }
    }
  }

  /**
   * The positionals take the tokens from the cursor on, one each, as long
   * as each token is one a positional takes; the first token that is not
   * (or the end of the tokens) ends the run before every positional is
   * served.
   */
  lemma PositionalsTakeLeadingTokens(k: nat, n: nat, p: Parser, reading: Reading)
    requires k <= n && p.cursor <= |p.args|
    ensures var r := Positionals(k, n, p, reading);
      RecordsRun(r.0, p.args, p.cursor, k, reading) &&
      (|r.0| < n - k ==> p.cursor + |r.0| == |p.args| || !Takes(p.args[p.cursor + |r.0|]))
  {
    PositionalsRecord(k, n, p, reading);
    PositionalsStopEarly(k, n, p, reading);
  }

  // ---------------------------------------------------------------------
  // Storing, validating and building

  function Reverse<T>(s: seq<T>): (r: seq<T>)
    ensures |r| == |s| && forall i :: 0 <= i < |s| ==> r[i] == s[|s| - 1 - i]
  {
    if s == [] then [] else [s[|s| - 1]] + Reverse(s[..|s| - 1])
  }

  /** `parse_value` for an integral type: `stou`. */
  function NumericValue(token: string): int
  {
    Strings.Stou(token)
  }

  /**
   * `validate`: an argument with a constraint is checked with
   * `eval_verbose`; when it fails, the failed terms are printed last one
   * first and the program stops.
   */
  function Validate(spec: ArgSpec, token: string, call: Expect.Callee, show: int -> string): (r: Option<Failure>)
    requires spec.WellFormed()
    ensures r.Some? <==> spec.constraint.Some? && Expect.Eval(spec.constraint.value, [NumericValue(token)], call) == 0
    ensures r.Some? ==> r.value.ValidationFailed? && r.value.argument == spec.name
  {
    match spec.constraint
    case None => None
    case Some(e) =>
      var verdict := Expect.EvalVerbose(e, [NumericValue(token)], call, show, []);
      if verdict.0 != 0 then None else Some(ValidationFailed(spec.name, Reverse(verdict.1)))
  }

  /** The argument tuple: one optional value per data member. */
  type Slots = seq<Option<string>>

  /** A tuple of n empty optionals. */
  function Empty(n: nat): (r: Slots)
    ensures |r| == n && forall i :: 0 <= i < n ==> r[i].None?
  {
    seq(n, _ => None)
  }

  predicate WellFormedSpecs(specs: seq<ArgSpec>)
  {
    forall i :: 0 <= i < |specs| ==> specs[i].WellFormed()
  }

  datatype Filled = Stored(slots: Slots) | FillStopped(failure: Failure) | FillUndefined

  /**
   * Runs the recorded handlers in order: a null handler is a call through a
   * null member-function pointer; any other converts and validates the
   * token and stores it into the tuple slot of its positional index.
   */
  function Fill(parsed: seq<Unevaluated>, specs: seq<ArgSpec>, slots: Slots,
                call: Expect.Callee, show: int -> string): (r: Filled)
    requires |specs| <= |slots| && WellFormedSpecs(specs)
    requires forall i :: 0 <= i < |parsed| ==> parsed[i].handle.Some? ==> parsed[i].handle.value < |specs|
    ensures r.Stored? ==> |r.slots| == |slots|
    ensures r.Stored? ==> forall i :: 0 <= i < |parsed| ==> parsed[i].handle.Some?
    ensures r.FillStopped? ==> r.failure.ValidationFailed?
  {
    if parsed == [] then Stored(slots)
    else
      var first := parsed[0];
      match first.handle
      case None => FillUndefined
      case Some(idx) =>
        match Validate(specs[idx], first.argument, call, show)
        case Some(failure) => FillStopped(failure)
        case None =>
          var r := Fill(parsed[1..], specs, slots[idx := Some(first.argument)], call, show);
          assert r.Stored? ==> forall i :: 0 <= i < |parsed| ==> parsed[i].handle.Some? by {
            if r.Stored? {
              forall i | 0 <= i < |parsed| ensures parsed[i].handle.Some? {
                if i > 0 { assert parsed[i] == parsed[1..][i - 1]; }
              }
            }
          }
          r
  }

  /** The first positional at or after `from` that has no default, if any. */
  function FirstRequired(specs: seq<ArgSpec>, from: nat): (r: Option<nat>)
    ensures r.Some? ==> from <= r.value < |specs| && !specs[r.value].optional
    ensures r.Some? ==> forall i :: from <= i < r.value ==> specs[i].optional
    ensures r.None? ==> forall i :: from <= i < |specs| ==> specs[i].optional
    decreases |specs| - from
  {
    if from >= |specs| then None
    else if !specs[from].optional then Some(from)
    else FirstRequired(specs, from + 1)
  }

  function Presence(slots: Slots): (r: seq<bool>)
    ensures |r| == |slots| && forall i :: 0 <= i < |slots| ==> r[i] == slots[i].Some?
  {
    seq(|slots|, i requires 0 <= i < |slots| => slots[i].Some?)
  }

  /**
   * How the program ends up; every outcome carries the commands that ran
   * before it, in order.
   */
  datatype Outcome =
    | Parsed(slots: Slots, used: nat, commands: seq<Invocation>, options: seq<Invocation>)
    | Exited(failure: Failure, commands: seq<Invocation>)   // `parser.fail`: a message and exit status 1
    | Threw(commands: seq<Invocation>)                      // `default_construct` throws
    | Undefined(commands: seq<Invocation>)                  // undefined behaviour

  /**
   * `default_construct` on the filled tuple, by the source's dispatch or the
   * intended one; every data member without a default counts as required.
   */
  function Build(members: seq<Member>, slots: Slots, reading: Reading,
                 ran: seq<Invocation>, kept: seq<Invocation>): (r: Outcome)
    requires |slots| == |members|
    ensures r.commands == ran
    ensures r.Parsed? ==> r.slots == slots && r.options == kept
    ensures r.Parsed? ==> r.used <= |slots| && forall i :: 0 <= i < r.used ==> slots[i].Some?
    ensures r.Parsed? ==> r.used == DefaultConstruct.LeadingPresent(Presence(slots))
  {
    var defaults := MemberDefaults(members);
    var required := DefaultConstruct.RequiredCount(defaults);
    var present := Presence(slots);
    var built := if reading == AsWritten then DefaultConstruct.VisitWritten(required, present)
                 else DefaultConstruct.Visit(required, present);
    DefaultConstruct.WrittenConstructAgrees(required, present);
    DefaultConstruct.VisitUsesLeadingValues(required, present);
    match built
    case Construct(used) => Parsed(slots, used, ran, kept)
    case Throw => Threw(ran)
    case Unreachable => Undefined(ran)
  }

  /**
   * What follows the consumption of the tokens: the recorded positionals are
   * stored, a positional without a default beyond those parsed stops the
   * program with "Missing required argument", and the object is built.
   */
  function Store(parsed: seq<Unevaluated>, members: seq<Member>, reading: Reading,
                 call: Expect.Callee, show: int -> string, ran: seq<Invocation>, kept: seq<Invocation>): (r: Outcome)
    requires WellFormedMembers(members)
    requires forall i :: 0 <= i < |parsed| ==> parsed[i].handle.Some? ==> parsed[i].handle.value < |ArgumentsOf(members)|
    ensures r.commands == ran
    ensures r.Parsed? ==> |r.slots| == |members| && r.options == kept
    ensures r.Exited? ==> r.failure.ValidationFailed? || r.failure.MissingRequired?
  {
    var positionals := ArgumentsOf(members);
    match Fill(parsed, positionals, Empty(|members|), call, show)
    case FillUndefined => Undefined(ran)
    case FillStopped(failure) => Exited(failure, ran)
    case Stored(slots) =>
      match FirstRequired(positionals, |parsed|)
      case Some(i) => Exited(MissingRequired(positionals[i].name), ran)
      case None => Build(members, slots, reading, ran, kept)
  }

  /**
   * `parse_args<T>`: `argv` starts with the program name; `members` are the
   * data members of T, `commands` and `options` its commands and options.
   * Running commands and options is left to the caller: they are returned
   * in order. An empty `argv` has no program name, and `args[0]` on it is
   * undefined.
   */
  function ParseArgs(argv: seq<string>, members: seq<Member>, commands: seq<OptSpec>, options: seq<OptSpec>,
                     reading: Reading, call: Expect.Callee, show: int -> string): (r: Outcome)
    requires WellFormedMembers(members)
    ensures Names(r.commands, commands)
    ensures r.Parsed? ==> |r.slots| == |members| && Names(r.options, options)
    ensures r.Exited? && r.failure.UnknownOption? ==> exists i :: 1 <= i < |argv| && r.failure.token == argv[i]
    ensures |argv| == 0 ==> r == Undefined([])
  {
    if |argv| == 0 then Undefined([]) else
    var positionals := ArgumentsOf(members);
    var taken := Positionals(0, |positionals|, Parser(argv, 1), reading);
    match OptionLoop(commands, options, taken.1, reading, [], [])
    case LoopStopped(failure, ran) => Exited(failure, ran)
    case LoopUndefined(ran) => Undefined(ran)
    case Done(ran, kept) => Store(taken.0, members, reading, call, show, ran, kept)
  }

  // ---------------------------------------------------------------------
  // End-to-end properties

  /** Storing handlers that target consecutive slots from k fills those slots with their tokens. */
  lemma {:induction false} FillStoresInOrder(parsed: seq<Unevaluated>, specs: seq<ArgSpec>, slots: Slots, k: nat,
                                             call: Expect.Callee, show: int -> string)
    requires |specs| <= |slots| && WellFormedSpecs(specs)
    requires k + |parsed| <= |specs|
    requires forall i :: 0 <= i < |parsed| ==> parsed[i].handle == Some(k + i)
    requires forall i :: k <= i < |slots| ==> slots[i].None?
    ensures var r := Fill(parsed, specs, slots, call, show);
      r.Stored? ==>
        (forall i :: 0 <= i < |parsed| ==> r.slots[k + i] == Some(parsed[i].argument)) &&
        (forall i :: 0 <= i < k ==> r.slots[i] == slots[i]) &&
        (forall i :: k + |parsed| <= i < |slots| ==> r.slots[i].None?)
  {
    if parsed != [] {
      var next := slots[k := Some(parsed[0].argument)];
      var rest := parsed[1..];
      assert forall i :: 0 <= i < |rest| ==> rest[i] == parsed[i + 1];
      FillStoresInOrder(rest, specs, next, k + 1, call, show);
      var r := Fill(parsed, specs, slots, call, show);
      if r.Stored? {
        var t := Fill(rest, specs, next, call, show);
        assert r == t;
        forall i | 1 <= i < |parsed| ensures t.slots[k + i] == Some(parsed[i].argument) {
          assert parsed[i] == rest[i - 1];
          assert k + i == k + 1 + (i - 1);
        }
        assert t.slots[k] == next[k];
        forall i | 0 <= i < k ensures t.slots[i] == slots[i] {
          assert t.slots[i] == next[i];
        }
      }
    }
  }

  /** A store that succeeds passed its first token's constraint and stored the rest after it. */
  lemma FillStoredStep(parsed: seq<Unevaluated>, specs: seq<ArgSpec>, slots: Slots, call: Expect.Callee, show: int -> string)
    requires |specs| <= |slots| && WellFormedSpecs(specs)
    requires forall i :: 0 <= i < |parsed| ==> parsed[i].handle.Some? ==> parsed[i].handle.value < |specs|
    requires parsed != [] && parsed[0].handle.Some?
    ensures var idx := parsed[0].handle.value;
      Fill(parsed, specs, slots, call, show).Stored? ==>
        Validate(specs[idx], parsed[0].argument, call, show).None? &&
        Fill(parsed, specs, slots, call, show) == Fill(parsed[1..], specs, slots[idx := Some(parsed[0].argument)], call, show)
  {
  }

  /** Storing succeeds only when the token at position i passed the constraint of the positional its handler targets. */
  lemma {:induction false} FillValidatesAt(parsed: seq<Unevaluated>, specs: seq<ArgSpec>, slots: Slots, k: nat, i: nat,
                                           call: Expect.Callee, show: int -> string)
    requires |specs| <= |slots| && WellFormedSpecs(specs)
    requires k + |parsed| <= |specs| && i < |parsed|
    requires forall j :: 0 <= j < |parsed| ==> parsed[j].handle == Some(k + j)
    ensures Fill(parsed, specs, slots, call, show).Stored? ==> Validate(specs[k + i], parsed[i].argument, call, show).None?
    decreases i
  {
    FillStoredStep(parsed, specs, slots, call, show);
    if i > 0 {
      var rest := parsed[1..];
      forall j | 0 <= j < |rest| ensures rest[j].handle == Some(k + 1 + j) {
        assert rest[j] == parsed[j + 1];
      }
      FillValidatesAt(rest, specs, slots[k := Some(parsed[0].argument)], k + 1, i - 1, call, show);
      assert rest[i - 1] == parsed[i];
    }
  }

  /** Storing succeeds only when each token passed the constraint of the positional its handler targets. */
  lemma FillValidates(parsed: seq<Unevaluated>, specs: seq<ArgSpec>, slots: Slots, k: nat,
                      call: Expect.Callee, show: int -> string)
    requires |specs| <= |slots| && WellFormedSpecs(specs)
    requires k + |parsed| <= |specs|
    requires forall i :: 0 <= i < |parsed| ==> parsed[i].handle == Some(k + i)
    ensures Fill(parsed, specs, slots, call, show).Stored? ==>
              forall i :: 0 <= i < |parsed| ==> Validate(specs[k + i], parsed[i].argument, call, show).None?
  {
    forall i | 0 <= i < |parsed| ensures Fill(parsed, specs, slots, call, show).Stored? ==>
                                         Validate(specs[k + i], parsed[i].argument, call, show).None? {
      FillValidatesAt(parsed, specs, slots, k, i, call, show);
    }
  }

  /** The tuple whose first |parsed| slots hold the recorded tokens and whose others are empty. */
  function Leading(parsed: seq<Unevaluated>, n: nat): (r: Slots)
    requires |parsed| <= n
    ensures |r| == n
    ensures forall i :: 0 <= i < |parsed| ==> r[i] == Some(parsed[i].argument)
    ensures forall i :: |parsed| <= i < n ==> r[i].None?
    ensures DefaultConstruct.LeadingPresent(Presence(r)) == |parsed|
  {
    var r := seq(n, i requires 0 <= i < n => if i < |parsed| then Some(parsed[i].argument) else None);
    DefaultConstruct.LeadingPresentExactly(Presence(r), |parsed|);
    r
  }

  /** When handlers that target their own positional index are all stored, they fill exactly the leading slots. */
  lemma StoredLeading(parsed: seq<Unevaluated>, specs: seq<ArgSpec>, n: nat, call: Expect.Callee, show: int -> string)
    requires |parsed| <= |specs| <= n && WellFormedSpecs(specs)
    requires forall i :: 0 <= i < |parsed| ==> parsed[i].handle == Some(i)
    ensures var r := Fill(parsed, specs, Empty(n), call, show);
      r.Stored? ==> r.slots == Leading(parsed, n)
  {
    FillStoresInOrder(parsed, specs, Empty(n), 0, call, show);
    var r := Fill(parsed, specs, Empty(n), call, show);
    if r.Stored? {
      forall i | 0 <= i < n ensures r.slots[i] == Leading(parsed, n)[i] {
        if i < |parsed| {
          assert r.slots[0 + i] == Some(parsed[i].argument);
        }
      }
    }
  }

  /** When handlers that target their own positional index are all stored, each token passed its positional's constraint. */
  lemma StoredValidated(parsed: seq<Unevaluated>, specs: seq<ArgSpec>, n: nat, call: Expect.Callee, show: int -> string)
    requires |parsed| <= |specs| <= n && WellFormedSpecs(specs)
    requires forall i :: 0 <= i < |parsed| ==> parsed[i].handle == Some(i)
    ensures Fill(parsed, specs, Empty(n), call, show).Stored? ==>
      forall i :: 0 <= i < |parsed| ==> Validate(specs[i], parsed[i].argument, call, show).None?
  {
    FillValidates(parsed, specs, Empty(n), 0, call, show);
    if Fill(parsed, specs, Empty(n), call, show).Stored? {
      forall i | 0 <= i < |parsed| ensures Validate(specs[i], parsed[i].argument, call, show).None? {
        assert specs[0 + i] == specs[i];
      }
    }
  }

  /** Unconstrained handlers that target their own positional index fill exactly the leading slots. */
  lemma FillLeading(parsed: seq<Unevaluated>, specs: seq<ArgSpec>, n: nat, call: Expect.Callee, show: int -> string)
    requires |parsed| <= |specs| <= n
    requires forall i :: 0 <= i < |specs| ==> specs[i].constraint.None?
    requires forall i :: 0 <= i < |parsed| ==> parsed[i].handle == Some(i)
    ensures WellFormedSpecs(specs)
    ensures Fill(parsed, specs, Empty(n), call, show) == Stored(Leading(parsed, n))
  {
    NoConstraintFills(parsed, specs, Empty(n), call, show);
    StoredLeading(parsed, specs, n, call, show);
  }

  /**
   * When storing succeeds, with either dispatch, for handlers that target
   * their own positional index: every positional without a default holds a
   * value, the slots that hold one are the leading ones, each holding its
   * token, which passed its constraint, and the object is built from
   * exactly that run of values.
   */
  lemma StoreIsComplete(parsed: seq<Unevaluated>, members: seq<Member>, reading: Reading,
                        call: Expect.Callee, show: int -> string, ran: seq<Invocation>, kept: seq<Invocation>)
    requires WellFormedMembers(members) && |parsed| <= |ArgumentsOf(members)|
    requires forall i :: 0 <= i < |parsed| ==> parsed[i].handle.Some? ==> parsed[i].handle == Some(i)
    ensures var positionals := ArgumentsOf(members);
      var r := Store(parsed, members, reading, call, show, ran, kept);
      r.Parsed? ==>
        (forall i :: 0 <= i < |positionals| && !positionals[i].optional ==> r.slots[i].Some?) &&
        (forall i :: 0 <= i < |members| && r.slots[i].Some? ==>
           i < |parsed| && parsed[i].handle == Some(i) && r.slots[i] == Some(parsed[i].argument) &&
           Validate(positionals[i], parsed[i].argument, call, show).None?) &&
        r.used == DefaultConstruct.LeadingPresent(Presence(r.slots))
  {
    var positionals := ArgumentsOf(members);
    var r := Store(parsed, members, reading, call, show, ran, kept);
    if r.Parsed? {
      var filled := Fill(parsed, positionals, Empty(|members|), call, show);
      assert filled.Stored?;
      StoredLeading(parsed, positionals, |members|, call, show);
      StoredValidated(parsed, positionals, |members|, call, show);
      assert FirstRequired(positionals, |parsed|).None?;
      assert r.slots == Leading(parsed, |members|);
    }
  }

  /** When parsing succeeds, the handlers stored are the leading tokens after the program name, each at its positional index. */
  lemma ParsedFromLeadingTokens(argv: seq<string>, members: seq<Member>, commands: seq<OptSpec>, options: seq<OptSpec>,
                                reading: Reading, call: Expect.Callee, show: int -> string)
    requires |argv| >= 1 && WellFormedMembers(members)
    ensures var taken := Positionals(0, |ArgumentsOf(members)|, Parser(argv, 1), reading);
      var loop := OptionLoop(commands, options, taken.1, reading, [], []);
      var r := ParseArgs(argv, members, commands, options, reading, call, show);
      r.Parsed? ==>
        loop.Done? && r == Store(taken.0, members, reading, call, show, loop.commands, loop.options) &&
        |taken.0| <= |ArgumentsOf(members)| &&
        forall i :: 0 <= i < |taken.0| ==> 1 + i < |argv| && taken.0[i] == Recorded(argv[1 + i], i, reading)
  {
    var p := Parser(argv, 1);
    var taken := Positionals(0, |ArgumentsOf(members)|, p, reading);
    PositionalsTakeLeadingTokens(0, |ArgumentsOf(members)|, p, reading);
    forall i | 0 <= i < |taken.0| ensures 1 + i < |argv| && taken.0[i] == Recorded(argv[1 + i], i, reading) {
      assert Takes(p.args[1 + i]);
    }
  }

  /**
   * When parsing succeeds, with either reading, the slots that hold a value
   * are positionals, each holding the token after the program name at its
   * positional index, which passed its constraint.
   */
  lemma ParsedSlotsAreTokens(argv: seq<string>, members: seq<Member>, commands: seq<OptSpec>, options: seq<OptSpec>,
                             reading: Reading, call: Expect.Callee, show: int -> string)
    requires WellFormedMembers(members)
    ensures var positionals := ArgumentsOf(members);
      var r := ParseArgs(argv, members, commands, options, reading, call, show);
      r.Parsed? ==>
        |r.slots| == |members| &&
        forall i :: 0 <= i < |members| && r.slots[i].Some? ==>
          i < |positionals| && 1 + i < |argv| && r.slots[i] == Some(argv[1 + i]) &&
          Validate(positionals[i], argv[1 + i], call, show).None?
  {
    if |argv| >= 1 {
      var taken := Positionals(0, |ArgumentsOf(members)|, Parser(argv, 1), reading);
      var loop := OptionLoop(commands, options, taken.1, reading, [], []);
      ParsedFromLeadingTokens(argv, members, commands, options, reading, call, show);
      if ParseArgs(argv, members, commands, options, reading, call, show).Parsed? {
        StoreIsComplete(taken.0, members, reading, call, show, loop.commands, loop.options);
      }
    }
  }

  /**
   * When parsing succeeds, with either reading, every positional without a
   * default got a value and the object is built from exactly the run of
   * leading values.
   */
  lemma ParsedRequiredAndUsed(argv: seq<string>, members: seq<Member>, commands: seq<OptSpec>, options: seq<OptSpec>,
                              reading: Reading, call: Expect.Callee, show: int -> string)
    requires WellFormedMembers(members)
    ensures var positionals := ArgumentsOf(members);
      var r := ParseArgs(argv, members, commands, options, reading, call, show);
      r.Parsed? ==>
        (forall i :: 0 <= i < |positionals| && !positionals[i].optional ==> r.slots[i].Some?) &&
        r.used == DefaultConstruct.LeadingPresent(Presence(r.slots))
  {
    if |argv| >= 1 {
      var taken := Positionals(0, |ArgumentsOf(members)|, Parser(argv, 1), reading);
      var loop := OptionLoop(commands, options, taken.1, reading, [], []);
      ParsedFromLeadingTokens(argv, members, commands, options, reading, call, show);
      if ParseArgs(argv, members, commands, options, reading, call, show).Parsed? {
        StoreIsComplete(taken.0, members, reading, call, show, loop.commands, loop.options);
      }
    }
  }

  /**
   * When parsing succeeds, with either reading: every positional without a
   * default got a value; the slots that hold a value are the leading ones,
   * each holding the token after the program name at its positional index,
   * which passed its constraint; and the object is built from exactly the
   * run of leading values.
   */
  lemma ParsedIsComplete(argv: seq<string>, members: seq<Member>, commands: seq<OptSpec>, options: seq<OptSpec>,
                         reading: Reading, call: Expect.Callee, show: int -> string)
    requires WellFormedMembers(members)
    ensures var positionals := ArgumentsOf(members);
      var r := ParseArgs(argv, members, commands, options, reading, call, show);
      r.Parsed? ==>
        |r.slots| == |members| &&
        (forall i :: 0 <= i < |positionals| && !positionals[i].optional ==> r.slots[i].Some?) &&
        (forall i :: 0 <= i < |members| && r.slots[i].Some? ==>
           i < |positionals| && 1 + i < |argv| && r.slots[i] == Some(argv[1 + i]) &&
           Validate(positionals[i], argv[1 + i], call, show).None?) &&
        r.used == DefaultConstruct.LeadingPresent(Presence(r.slots))
  {
    ParsedSlotsAreTokens(argv, members, commands, options, reading, call, show);
    ParsedRequiredAndUsed(argv, members, commands, options, reading, call, show);
  }

  /** When the positionals take every token, there is no command or option and the tokens go to storing. */
  lemma ParseArgsAllTaken(argv: seq<string>, members: seq<Member>, commands: seq<OptSpec>, options: seq<OptSpec>,
                          reading: Reading, call: Expect.Callee, show: int -> string)
    requires |argv| >= 1 && WellFormedMembers(members)
    requires Positionals(0, |ArgumentsOf(members)|, Parser(argv, 1), reading).1 == Parser(argv, |argv|)
    ensures ParseArgs(argv, members, commands, options, reading, call, show) ==
            Store(Positionals(0, |ArgumentsOf(members)|, Parser(argv, 1), reading).0, members, reading, call, show, [], [])
  {
  }

  /**
   * Unconstrained handlers that target their own positional index, with no
   * positional without a default left over, go to building with the tokens
   * in the leading slots.
   */
  lemma StoreLeading(parsed: seq<Unevaluated>, members: seq<Member>, reading: Reading,
                     call: Expect.Callee, show: int -> string, ran: seq<Invocation>, kept: seq<Invocation>)
    requires |parsed| <= |ArgumentsOf(members)|
    requires Unconstrained(members)
    requires forall i :: 0 <= i < |parsed| ==> parsed[i].handle == Some(i)
    requires forall i :: |parsed| <= i < |ArgumentsOf(members)| ==> ArgumentsOf(members)[i].optional
    ensures WellFormedMembers(members)
    ensures Store(parsed, members, reading, call, show, ran, kept) ==
            Build(members, Leading(parsed, |members|), reading, ran, kept)
  {
    FillLeading(parsed, ArgumentsOf(members), |members|, call, show);
    assert FirstRequired(ArgumentsOf(members), |parsed|).None?;
  }

  /**
   * With at least the required values leading the tuple and some slot
   * empty, both dispatches build the object from the leading run of values.
   */
  lemma BuildLeading(members: seq<Member>, slots: Slots, reading: Reading, ran: seq<Invocation>, kept: seq<Invocation>)
    requires |slots| == |members|
    requires DefaultConstruct.RequiredCount(MemberDefaults(members)) <= DefaultConstruct.LeadingPresent(Presence(slots)) < |slots|
    requires reading == Intended || |slots| - DefaultConstruct.RequiredCount(MemberDefaults(members)) <= 256
    ensures Build(members, slots, reading, ran, kept) ==
            Parsed(slots, DefaultConstruct.LeadingPresent(Presence(slots)), ran, kept)
  {
    var present := Presence(slots);
    if reading == AsWritten {
      assert !present[DefaultConstruct.LeadingPresent(present)];
      DefaultConstruct.VisitWrittenAgrees(DefaultConstruct.RequiredCount(MemberDefaults(members)), present);
    }
  }

  /**
   * One unconstrained token per positional, when every other member has a
   * default, builds the object from the tokens in the leading slots: as
   * intended always, and as written whenever some member is not a
   * positional, since that member's slot stays empty.
   */
  lemma StoreAllPresent(parsed: seq<Unevaluated>, members: seq<Member>, reading: Reading,
                        call: Expect.Callee, show: int -> string, ran: seq<Invocation>, kept: seq<Invocation>)
    requires |parsed| == |ArgumentsOf(members)| && Unconstrained(members)
    requires forall i :: 0 <= i < |parsed| ==> parsed[i].handle == Some(i)
    requires forall i :: 0 <= i < |members| && members[i].Other? ==> members[i].hasDefault
    requires reading == Intended || |parsed| < |members| <= 256
    ensures WellFormedMembers(members)
    ensures Store(parsed, members, reading, call, show, ran, kept) == Parsed(Leading(parsed, |members|), |parsed|, ran, kept)
  {
    StoreLeading(parsed, members, reading, call, show, ran, kept);
    RequiredAmongArguments(members);
    var slots := Leading(parsed, |members|);
    assert DefaultConstruct.LeadingPresent(Presence(slots)) == |parsed|;
    assert |slots| == |members|;
    if |parsed| < |members| {
      BuildLeading(members, slots, reading, ran, kept);
    } else {
      var required := DefaultConstruct.RequiredCount(MemberDefaults(members));
      assert DefaultConstruct.Visit(required, Presence(slots)) == DefaultConstruct.Construct(|parsed|);
    }
  }

  lemma {:induction false} NoConstraintFills(parsed: seq<Unevaluated>, specs: seq<ArgSpec>, slots: Slots,
                                             call: Expect.Callee, show: int -> string)
    requires |specs| <= |slots|
    requires forall i :: 0 <= i < |specs| ==> specs[i].constraint.None?
    requires forall i :: 0 <= i < |parsed| ==> parsed[i].handle.Some? && parsed[i].handle.value < |specs|
    ensures WellFormedSpecs(specs)
    ensures Fill(parsed, specs, slots, call, show).Stored?
  {
    if parsed != [] {
      var idx := parsed[0].handle.value;
      NoConstraintFills(parsed[1..], specs, slots[idx := Some(parsed[0].argument)], call, show);
    }
  }

  /** A plain token: one that does not start with '-'. */
  predicate Plain(token: string)
  {
    CharAt(token, 0) != '-'
  }

  lemma {:induction false} AllTaken(k: nat, n: nat, p: Parser, reading: Reading)
    requires k <= n && p.cursor + (n - k) == |p.args|
    requires forall i :: p.cursor <= i < |p.args| ==> Plain(p.args[i])
    ensures |Positionals(k, n, p, reading).0| == n - k
    decreases n - k
  {
    if k < n {
      PositionalsStep(k, n, p, reading);
      assert Plain(p.Current());
      AllTaken(k + 1, n, p.Advance(), reading);
    }
  }

  /** Plain tokens, one per positional: each is taken and recorded with its positional index. */
  lemma PlainRun(argv: seq<string>, n: nat, reading: Reading)
    requires |argv| == 1 + n && forall i :: 1 <= i < |argv| ==> Plain(argv[i])
    ensures Positionals(0, n, Parser(argv, 1), reading) ==
            (seq(n, i requires 0 <= i < n => Unevaluated(argv[1 + i], Some(i))), Parser(argv, |argv|))
  {
    var p := Parser(argv, 1);
    AllTaken(0, n, p, reading);
    PositionalsRecord(0, n, p, reading);
    var r := Positionals(0, n, p, reading);
    forall i | 0 <= i < n ensures r.0[i] == Unevaluated(argv[1 + i], Some(i)) {
      assert Takes(p.args[1 + i]) && Plain(argv[1 + i]);
    }
    assert r.0 == seq(n, i requires 0 <= i < n => Unevaluated(argv[1 + i], Some(i)));
  }

  /**
   * With one plain token per unconstrained positional, and a default for
   * every other member, parsing succeeds with the tokens in the leading
   * slots, exactly those used, and no command or option: as intended
   * always, and as written whenever some member is not a positional.
   */
  lemma AllPlainParses(argv: seq<string>, members: seq<Member>, commands: seq<OptSpec>, options: seq<OptSpec>,
                       reading: Reading, call: Expect.Callee, show: int -> string)
    requires |argv| == 1 + |ArgumentsOf(members)|
    requires forall i :: 1 <= i < |argv| ==> Plain(argv[i])
    requires Unconstrained(members)
    requires forall i :: 0 <= i < |members| && members[i].Other? ==> members[i].hasDefault
    requires reading == Intended || |ArgumentsOf(members)| < |members| <= 256
    ensures WellFormedMembers(members)
    ensures var r := ParseArgs(argv, members, commands, options, reading, call, show);
      r.Parsed? && r.used == |ArgumentsOf(members)| && r.commands == [] && r.options == [] &&
      (forall i :: 0 <= i < |ArgumentsOf(members)| ==> r.slots[i] == Some(argv[1 + i])) &&
      (forall i :: |ArgumentsOf(members)| <= i < |members| ==> r.slots[i].None?)
  {
    var n := |ArgumentsOf(members)|;
    PlainRun(argv, n, reading);
    var parsed := Positionals(0, n, Parser(argv, 1), reading).0;
    StoreAllPresent(parsed, members, reading, call, show, [], []);
    ParseArgsAllTaken(argv, members, commands, options, reading, call, show);
  }

  /**
   * Positional k stores into tuple slot k, whichever member that slot
   * belongs to: when the first member is not a positional (an option data
   * member, say), the first positional's token still lands in its slot.
   */
  lemma OtherMemberTakesToken(argv: seq<string>, members: seq<Member>, reading: Reading,
                              call: Expect.Callee, show: int -> string)
    requires |argv| == 1 + |ArgumentsOf(members)| && |argv| >= 2
    requires forall i :: 1 <= i < |argv| ==> Plain(argv[i])
    requires Unconstrained(members)
    requires forall i :: 0 <= i < |members| && members[i].Other? ==> members[i].hasDefault
    requires |members| <= 256 && members[0].Other?
    ensures var r := ParseArgs(argv, members, [], [], reading, call, show);
      r.Parsed? && |r.slots| == |members| && r.slots[0] == Some(argv[1])
  {
    assert ArgumentsOf(members) == ArgumentsOf(members[1..]) by {
      OtherFirstArguments(members);
    }
    AllPlainParses(argv, members, [], [], reading, call, show);
  }

  lemma {:induction false} OtherFirstArguments(members: seq<Member>)
    requires |members| >= 1 && members[0].Other?
    ensures ArgumentsOf(members) == ArgumentsOf(members[1..])
  {
    if |members| > 1 {
      var init := members[..|members| - 1];
      OtherFirstArguments(init);
      assert init[1..] == members[1..][..|members[1..]| - 1];
    } else {
      assert members[..0] == [] && members[1..] == [];
    }
  }

  /** A positional without a default and without a token stops the program. */
  lemma MissingRequiredStops(argv: seq<string>, members: seq<Member>, reading: Reading,
                             call: Expect.Callee, show: int -> string)
    requires |argv| == 1 && |ArgumentsOf(members)| >= 1 && WellFormedMembers(members)
    requires !ArgumentsOf(members)[0].optional
    ensures ParseArgs(argv, members, [], [], reading, call, show) == Exited(MissingRequired(ArgumentsOf(members)[0].name), [])
  {
    var positionals := ArgumentsOf(members);
    var taken := Positionals(0, |positionals|, Parser(argv, 1), reading);
    assert taken.0 == [] && !taken.1.Valid();
    assert Fill([], positionals, Empty(|members|), call, show).Stored?;
  }

  // ---------------------------------------------------------------------
  // The intended reading is always defined

  /** As intended, the loop over the remaining tokens never meets undefined behaviour. */
  lemma {:induction false} IntendedLoopDefined(commands: seq<OptSpec>, options: seq<OptSpec>, p: Parser,
                                               ran: seq<Invocation>, kept: seq<Invocation>)
    ensures !OptionLoop(commands, options, p, Intended, ran, kept).LoopUndefined?
    decreases |p.args| - p.cursor
  {
    if p.Valid() {
      match FirstMatch(commands, p, Intended)
      case Matched(next, invocation) =>
        IntendedLoopDefined(commands, options, next, ran + [invocation], kept);
      case Stopped(_) =>
      case NoMatch =>
        match FirstMatch(options, p, Intended)
        case Matched(next, invocation) =>
          IntendedLoopDefined(commands, options, next, ran, kept + [invocation]);
        case Stopped(_) =>
        case NoMatch =>
    }
  }

  /** Handlers that are all set never call through a null pointer. */
  lemma {:induction false} FillDefined(parsed: seq<Unevaluated>, specs: seq<ArgSpec>, slots: Slots,
                                       call: Expect.Callee, show: int -> string)
    requires |specs| <= |slots| && WellFormedSpecs(specs)
    requires forall i :: 0 <= i < |parsed| ==> parsed[i].handle.Some? && parsed[i].handle.value < |specs|
    ensures !Fill(parsed, specs, slots, call, show).FillUndefined?
  {
    if parsed != [] {
      var idx := parsed[0].handle.value;
      if Validate(specs[idx], parsed[0].argument, call, show).None? {
        assert forall i :: 0 <= i < |parsed[1..]| ==> parsed[1..][i] == parsed[i + 1];
        FillDefined(parsed[1..], specs, slots[idx := Some(parsed[0].argument)], call, show);
      }
    }
  }

  /**
   * As intended, parsing never meets undefined behaviour: every token a
   * positional takes is recorded with its handler, a short token is an
   * unknown option, and building never reaches `std::unreachable()`.
   */
  lemma IntendedNeverUndefined(argv: seq<string>, members: seq<Member>, commands: seq<OptSpec>, options: seq<OptSpec>,
                               call: Expect.Callee, show: int -> string)
    requires |argv| >= 1 && WellFormedMembers(members)
    ensures !ParseArgs(argv, members, commands, options, Intended, call, show).Undefined?
  {
    var positionals := ArgumentsOf(members);
    var p := Parser(argv, 1);
    var taken := Positionals(0, |positionals|, p, Intended);
    PositionalsRecord(0, |positionals|, p, Intended);
    forall i | 0 <= i < |taken.0| ensures taken.0[i].handle.Some? && taken.0[i].handle.value < |positionals| {
      assert taken.0[i] == Recorded(argv[1 + i], i, Intended);
    }
    FillDefined(taken.0, positionals, Empty(|members|), call, show);
    IntendedLoopDefined(commands, options, taken.1, [], []);
  }

  // ---------------------------------------------------------------------
  // Commands before a stop

  const Version := OptSpec("version", [])

  /**
   * A command runs as soon as it matches: one given before an unknown token
   * has run by the time the program stops on that token.
   */
  lemma CommandRunsBeforeLaterStop(reading: Reading, call: Expect.Callee, show: int -> string)
    ensures ParseArgs(["prog", "--version", "--bogus"], [], [Version], [], reading, call, show)
            == Exited(UnknownOption("--bogus"), [Invocation("version", [])])
  {
    var p := Parser(["prog", "--version", "--bogus"], 1);
    assert ArgumentsOf([]) == [];
    assert Positionals(0, 0, p, reading) == ([], p);
    assert p.Current()[2..] == "version";
    assert FirstMatch([Version], p, reading) == Matched(p.Advance(), Invocation("version", []));
    var q := p.Advance();
    assert q.Current()[2..] == "bogus";
    assert FirstMatch([Version], q, reading).NoMatch?;
    UnknownOptionStops([Version], [], q, reading, [Invocation("version", [])], []);
  }

  // ---------------------------------------------------------------------
  // The negative-number case

  const Count := ArgSpec("count", false, true, None)

  /**
   * As written, a negative number given for a positional is consumed but
   * its handler stays null, and storing it calls through the null pointer;
   * as intended, it is stored like any other token.
   */
  lemma NegativePositional(call: Expect.Callee, show: int -> string)
    ensures ParseArgs(["prog", "-5"], [Argument(Count)], [], [], AsWritten, call, show) == Undefined([])
    ensures ParseArgs(["prog", "-5"], [Argument(Count)], [], [], Intended, call, show).Parsed?
    ensures ParseArgs(["prog", "-5"], [Argument(Count)], [], [], Intended, call, show).slots == [Some("-5")]
  {
    var argv := ["prog", "-5"];
    var p := Parser(argv, 1);
    assert ArgumentsOf([Argument(Count)]) == [Count];
    assert IsNegativeNumber(argv[1]);
    var written := Positionals(0, 1, p, AsWritten);
    assert written.0 == [Blank] && !written.1.Valid();
    var intended := Positionals(0, 1, p, Intended);
    assert intended.0 == [Unevaluated("-5", Some(0))] && !intended.1.Valid();
    StoreAllPresent(intended.0, [Argument(Count)], Intended, call, show, [], []);
  }

  // ---------------------------------------------------------------------
  // The short-token case

  const Verbose := OptSpec("verbose", [])

  /**
   * As written, a one-character token where an option is looked for has
   * two characters removed from it, which is undefined behaviour; as
   * intended, it is reported as an unknown option.
   */
  lemma ShortTokenOption(call: Expect.Callee, show: int -> string)
    ensures ParseArgs(["prog", "x"], [], [], [Verbose], AsWritten, call, show) == Undefined([])
    ensures ParseArgs(["prog", "x"], [], [], [Verbose], Intended, call, show) == Exited(UnknownOption("x"), [])
  {
    var p := Parser(["prog", "x"], 1);
    assert ArgumentsOf([]) == [];
    assert Positionals(0, 0, p, AsWritten) == ([], p);
    assert Positionals(0, 0, p, Intended) == ([], p);
    assert p.Current() == "x";
  }
}

=== FILE: arith.dfy ===
/** Division facts the solver does not find on its own. */
module Arith {

  /** Euclidean division is unique: a quotient/remainder pair pins down `/` and `%`. */
  lemma DivModUnique(x: int, d: int, q: int, r: int)
    requires d > 0 && 0 <= r < d && x == q * d + r
    ensures x / d == q && x % d == r
  {
    var q0 := x / d;
    var r0 := x % d;
    assert x == q0 * d + r0;
    assert (q - q0) * d == r0 - r;
    if q > q0 {
      assert (q - q0) * d >= d by { MulAtLeast(q - q0, d); }
    } else if q < q0 {
      assert (q0 - q) * d >= d by { MulAtLeast(q0 - q, d); }
    }
  }

  lemma MulAtLeast(a: int, d: int)
    requires a >= 1 && d > 0
    ensures a * d >= d
  {
  }

  /** Positions less than d apart land in distinct slots modulo d. */
  lemma ModInjective(a: int, b: int, d: int)
    requires d > 0 && a <= b < a + d && a % d == b % d
    ensures a == b
  {
    var r := a % d;
    var qa := a / d;
    var qb := b / d;
    assert a == qa * d + r;
    assert b == qb * d + r;
    assert (qb - qa) * d == b - a;
    if qb > qa {
      MulAtLeast(qb - qa, d);
    } else if qb < qa {
      MulAtLeast(qa - qb, d);
    }
  }

  /** Positions exactly d apart share a slot. */
  lemma ModShift(a: int, d: int)
    requires d > 0
    ensures (a + d) % d == a % d
  {
    DivModUnique(a + d, d, a / d + 1, a % d);
  }
}

=== FILE: bits.dfy ===
/**
 * Bitwise AND on non-negative integers, and the power-of-two masking used by
 * both bounded ring queues (`pos & buffer_mask` with `buffer_mask = N - 1`).
 */
module Bits {
  import Arith

  function Pow2(k: nat): (r: nat)
    ensures r >= 1
  {
    if k == 0 then 1 else 2 * Pow2(k - 1)
  }

  /** `a & b` on unsigned integers, defined bit by bit from the least significant bit. */
  function BitAnd(a: nat, b: nat): nat
  {
    if a == 0 || b == 0 then 0 else 2 * BitAnd(a / 2, b / 2) + (a % 2) * (b % 2)
  }

  /** The queues' static_assert: `(N & (N - 1)) == 0`, together with `N >= 2`. */
  predicate IsQueueCapacity(n: nat)
  {
    n >= 2 && BitAnd(n, n - 1) == 0
  }

  lemma {:induction false} BitAndSelf(a: nat)
    ensures BitAnd(a, a) == a
  {
    if a > 0 {
      BitAndSelf(a / 2);
    }
  }

  /** The C++ test `(N & (N - 1)) == 0` singles out exactly the powers of two. */
  lemma {:induction false} PowerOfTwoTest(n: nat)
    requires n >= 1 && BitAnd(n, n - 1) == 0
    ensures exists k: nat :: n == Pow2(k)
  {
    if n == 1 {
      assert n == Pow2(0);
    } else if n % 2 == 1 {
      BitAndSelf(n / 2);
      assert false;
    } else {
      assert BitAnd(n, n - 1) == 2 * BitAnd(n / 2, n / 2 - 1);
      PowerOfTwoTest(n / 2);
      var k: nat :| n / 2 == Pow2(k);
      assert n == Pow2(k + 1);
    }
  }

  lemma {:induction false} MaskIsModPow2(x: nat, k: nat)
    ensures BitAnd(x, Pow2(k) - 1) == x % Pow2(k)
  {
    if k == 0 {
    } else if x == 0 {
    } else {
      MaskIsModPow2(x / 2, k - 1);
      assert (Pow2(k) - 1) / 2 == Pow2(k - 1) - 1;
      assert (Pow2(k) - 1) % 2 == 1;
      assert x % Pow2(k) == 2 * ((x / 2) % Pow2(k - 1)) + x % 2 by {
        DivModPow2(x, k);
      }
    }
  }

  lemma DivModPow2(x: nat, k: nat)
    requires k >= 1
    ensures x % Pow2(k) == 2 * ((x / 2) % Pow2(k - 1)) + x % 2
  {
    var p := Pow2(k - 1);
    var q := (x / 2) / p;
    var r := (x / 2) % p;
    assert x / 2 == q * p + r;
    assert x == q * (2 * p) + (2 * r + x % 2);
    assert 0 <= 2 * r + x % 2 < 2 * p;
    Arith.DivModUnique(x, 2 * p, q, 2 * r + x % 2);
  }

  /** Masking with `N - 1` is reduction modulo N for every queue capacity N. */
  lemma MaskIsMod(x: nat, n: nat)
    requires IsQueueCapacity(n)
    ensures BitAnd(x, n - 1) == x % n
  {
    PowerOfTwoTest(n);
    var k: nat :| n == Pow2(k);
    MaskIsModPow2(x, k);
  }
}

=== FILE: bytes.dfy ===
/**
 * Bytes and fixed-width little-endian integers.
 *
 * Every multi-byte integer of the system travels least significant byte first:
 * the codec byte-swaps on big-endian hosts, and the wire header is assembled
 * from shifted bytes.  A value wider than its field is truncated, exactly as a
 * cast to the fixed-width C++ type would do.
 */
module Bytes {
  import Arith

  newtype byte = x: int | 0 <= x < 256

  /** 256^n, the number of distinct values of an n-byte unsigned integer. */
  function Pow256(n: nat): (r: nat)
    ensures r >= 1
  {
    if n == 0 then 1 else 256 * Pow256(n - 1)
  }

  /** The n least significant bytes of v, least significant first. */
  function LittleEndian(v: nat, n: nat): (r: seq<byte>)
    ensures |r| == n
  {
    if n == 0 then [] else [(v % 256) as byte] + LittleEndian(v / 256, n - 1)
  }

  /** The unsigned value of a little-endian byte string. */
  function FromLittleEndian(s: seq<byte>): nat
  {
    if |s| == 0 then 0 else s[0] as nat + 256 * FromLittleEndian(s[1..])
  }

  /** Two's-complement bit pattern of x in an n-byte field (truncating). */
  function ToUnsigned(x: int, n: nat): (r: nat)
    ensures r < Pow256(n)
  {
    x % Pow256(n)
  }

  /** Reinterprets an n-byte bit pattern as a signed value. */
  function ToSigned(u: nat, n: nat): int
  {
    if 2 * u >= Pow256(n) then u - Pow256(n) else u
  }

  /** The values an n-byte integer of the given signedness can hold. */
  predicate InRange(x: int, n: nat, signed: bool)
  {
    if signed then n >= 1 && -(Pow256(n) / 2) <= x < Pow256(n) / 2
    else 0 <= x < Pow256(n)
  }

  lemma {:induction false} FromLittleEndianBound(s: seq<byte>)
    ensures FromLittleEndian(s) < Pow256(|s|)
  {
    if |s| > 0 {
      FromLittleEndianBound(s[1..]);
    }
  }

  /** Decoding the bytes written for v gives back v whenever v fits in n bytes. */
  lemma {:induction false} LittleEndianRoundTrip(v: nat, n: nat)
    requires v < Pow256(n)
    ensures FromLittleEndian(LittleEndian(v, n)) == v
  {
    if n > 0 {
      var s := LittleEndian(v, n);
      assert s[1..] == LittleEndian(v / 256, n - 1);
      LittleEndianRoundTrip(v / 256, n - 1);
    }
  }

  /** Encoding is the inverse direction as well: no two byte strings decode alike. */
  lemma {:induction false} LittleEndianOfDecoded(s: seq<byte>)
    ensures LittleEndian(FromLittleEndian(s), |s|) == s
  {
    if |s| > 0 {
      var v := FromLittleEndian(s);
      assert v % 256 == s[0] as nat;
      assert v / 256 == FromLittleEndian(s[1..]);
      LittleEndianOfDecoded(s[1..]);
    }
  }

  /** Signed values survive the trip through their two's-complement pattern. */
  lemma SignedRoundTrip(x: int, n: nat, signed: bool)
    requires InRange(x, n, signed)
    ensures signed ==> ToSigned(ToUnsigned(x, n), n) == x
    ensures !signed ==> ToUnsigned(x, n) == x
  {
    var p := Pow256(n);
    if x < 0 {
      Arith.DivModUnique(x, p, -1, x + p);
    } else {
      Arith.DivModUnique(x, p, 0, x);
    }
    if signed {
      assert p == 256 * Pow256(n - 1);
    }
  }

  /** The other direction: every n-byte pattern is the encoding of exactly one signed value. */
  lemma SignedOfPattern(u: nat, n: nat)
    requires n >= 1 && u < Pow256(n)
    ensures InRange(ToSigned(u, n), n, true)
    ensures ToUnsigned(ToSigned(u, n), n) == u
  {
    var p := Pow256(n);
    assert p == 256 * Pow256(n - 1);
    if 2 * u >= p {
      Arith.DivModUnique(u - p, p, -1, u);
    } else {
      Arith.DivModUnique(u, p, 0, u);
    }
  }
}

=== FILE: codec.dfy ===
/**
 * The type-directed binary codec (`Reflect<T>`).  A value is written as the
 * concatenation of its parts with no padding and no type tags, except that a
 * variant is preceded by its alternative index (a `size_t`) and a range by its
 * element count (a `uint32_t`).  All integers are little-endian.
 */
module Codec {
  import opened Wrappers
  import opened Bytes
  import opened Reader
  import opened Storage

  /** Width in bytes of `size_t`, the variant index. */
  const IndexWidth: nat := 8
  /** Width in bytes of the `uint32_t` element count of a range. */
  const CountWidth: nat := 4

  /** The C++ types the codec reflects; pointers are left out of the model. */
  datatype Ty =
    | Int(width: nat, signed: bool)
    | Enum(width: nat, signed: bool)
    | Pair(first: Ty, second: Ty)
    | Variant(alts: seq<Ty>)
    | Aggregate(fields: seq<Ty>)
    | Range(elem: Ty)
    | Array(elem: Ty, n: nat)

  datatype Val =
    | IntVal(x: int)
    | EnumVal(x: int)
    | PairVal(first: Val, second: Val)
    | VariantVal(index: nat, alt: Val)
    | AggregateVal(fields: seq<Val>)
    | RangeVal(elems: seq<Val>)
    | ArrayVal(elems: seq<Val>)

  /** The sizes `sizeof` can report for a standard integral type. */
  predicate IntWidth(w: nat)
  {
    w == 1 || w == 2 || w == 4 || w == 8
  }

  /** Every integer inside the type has a standard width. */
  predicate WellFormed(t: Ty)
  {
    match t
    case Int(w, _) => IntWidth(w)
    case Enum(w, _) => IntWidth(w)
    case Pair(a, b) => WellFormed(a) && WellFormed(b)
    case Variant(alts) => forall i :: 0 <= i < |alts| ==> WellFormed(alts[i])
    case Aggregate(fs) => forall i :: 0 <= i < |fs| ==> WellFormed(fs[i])
    case Range(e) => WellFormed(e)
    case Array(e, _) => WellFormed(e)
  }

  /** v is a value of the C++ type t (what the compiler guarantees for every argument). */
  predicate HasType(v: Val, t: Ty)
    decreases t, 0
  {
    match t
    case Int(w, s) => v.IntVal? && IntWidth(w) && InRange(v.x, w, s)
    case Enum(w, s) => v.EnumVal? && IntWidth(w) && InRange(v.x, w, s)
    case Pair(a, b) => v.PairVal? && HasType(v.first, a) && HasType(v.second, b)
    case Variant(alts) => v.VariantVal? && v.index < |alts| && HasType(v.alt, alts[v.index])
    case Aggregate(fs) => v.AggregateVal? && FieldsHaveType(v.fields, fs)
    case Range(e) => v.RangeVal? && AllHaveType(v.elems, e)
    case Array(e, n) => v.ArrayVal? && |v.elems| == n && AllHaveType(v.elems, e)
  }

  /** Every element of vs is a value of type e. */
  predicate AllHaveType(vs: seq<Val>, e: Ty)
    decreases e, 1, |vs|
  {
    |vs| == 0 || (HasType(vs[0], e) && AllHaveType(vs[1..], e))
  }

  /** vs holds one value of each member type, in order. */
  predicate FieldsHaveType(vs: seq<Val>, fs: seq<Ty>)
    decreases fs, 1
  {
    |vs| == |fs| && (|fs| == 0 || (HasType(vs[0], fs[0]) && FieldsHaveType(vs[1..], fs[1..])))
  }

  /** Every range holds fewer than 2^32 elements and every variant index fits a `size_t`. */
  predicate Fits(v: Val)
  {
    match v
    case IntVal(_) => true
    case EnumVal(_) => true
    case PairVal(a, b) => Fits(a) && Fits(b)
    case VariantVal(i, a) => i < Pow256(IndexWidth) && Fits(a)
    case AggregateVal(fs) => AllFit(fs)
    case RangeVal(es) => |es| < Pow256(CountWidth) && AllFit(es)
    case ArrayVal(es) => AllFit(es)
  }

  predicate AllFit(vs: seq<Val>)
  {
    |vs| == 0 || (Fits(vs[0]) && AllFit(vs[1..]))
  }

  /** The bytes of an integer field: its two's-complement pattern, truncated to the width. */
  function EncodeInt(x: int, w: nat): (r: seq<byte>)
    ensures |r| == w
  {
    LittleEndian(ToUnsigned(x, w), w)
  }

  /** `Reflect<T>::serialize`: the bytes appended to the target for v. */
  function Encode(t: Ty, v: Val): seq<byte>
    requires HasType(v, t)
    decreases t, 0
  {
    match t
    case Int(w, _) => EncodeInt(v.x, w)
    case Enum(w, _) => EncodeInt(v.x, w)
    case Pair(a, b) => Encode(a, v.first) + Encode(b, v.second)
    case Variant(alts) => EncodeInt(v.index, IndexWidth) + Encode(alts[v.index], v.alt)
    case Aggregate(fs) => EncodeFields(fs, v.fields)
    case Range(e) => EncodeInt(|v.elems|, CountWidth) + EncodeMany(e, v.elems)
    case Array(e, _) => EncodeMany(e, v.elems)
  }

  /** The elements of a range or array, one after the other. */
  function EncodeMany(e: Ty, vs: seq<Val>): seq<byte>
    requires AllHaveType(vs, e)
    decreases e, 1, |vs|
  {
    if |vs| == 0 then [] else Encode(e, vs[0]) + EncodeMany(e, vs[1..])
  }

  /** The members of an aggregate, in declaration order. */
  function EncodeFields(fs: seq<Ty>, vs: seq<Val>): seq<byte>
    requires FieldsHaveType(vs, fs)
    decreases fs, 1
  {
    if |fs| == 0 then [] else Encode(fs[0], vs[0]) + EncodeFields(fs[1..], vs[1..])
  }

  /**
   * The integer at the cursor.  `None` where the source would copy bytes from
   * beyond the end of the received span.
   */
  function DecodeInt(w: nat, signed: bool, v: View): (r: Option<(int, View)>)
    requires v.Valid()
    ensures r.Some? ==> r.value.1.buffer == v.buffer && r.value.1.cursor == v.cursor + w
    ensures r.Some? <==> v.cursor + w <= |v.buffer|
  {
    if v.cursor + w > |v.buffer| then None
    else
      var (bytes, next) := Read(v, w);
      var u := FromLittleEndian(bytes);
      Some((if signed then ToSigned(u, w) else u, next))
  }

  /** `Reflect<T>::deserialize`: the value at the cursor and the view past its bytes. */
  function Decode(t: Ty, v: View): (r: Option<(Val, View)>)
    requires v.Valid()
    ensures r.Some? ==> r.value.1.buffer == v.buffer && v.cursor <= r.value.1.cursor <= |v.buffer|
    decreases t, 0
  {
    match t
    case Int(w, s) =>
      (match DecodeInt(w, s, v)
       case None => None
       case Some((x, next)) => Some((IntVal(x), next)))
    case Enum(w, s) =>
      (match DecodeInt(w, s, v)
       case None => None
       case Some((x, next)) => Some((EnumVal(x), next)))
    case Pair(a, b) =>
      (match Decode(a, v)
       case None => None
       case Some((first, v1)) =>
         match Decode(b, v1)
         case None => None
         case Some((second, v2)) => Some((PairVal(first, second), v2)))
    case Variant(alts) =>
      (match DecodeInt(IndexWidth, false, v)
       case None => None
       case Some((index, v1)) =>
         // An index naming no alternative leaves the result unconstructed.
         if index < 0 || index >= |alts| then None
         else
           match Decode(alts[index], v1)
           case None => None
           case Some((alt, v2)) => Some((VariantVal(index, alt), v2)))
    case Aggregate(fs) =>
      (match DecodeFields(fs, v)
       case None => None
       case Some((vals, next)) => Some((AggregateVal(vals), next)))
    case Range(e) =>
      (match DecodeInt(CountWidth, false, v)
       case None => None
       case Some((count, v1)) =>
         if count < 0 then None
         else
           match DecodeMany(e, count, v1)
           case None => None
           case Some((vals, next)) => Some((RangeVal(vals), next)))
    case Array(e, n) =>
      (match DecodeMany(e, n, v)
       case None => None
       case Some((vals, next)) => Some((ArrayVal(vals), next)))
  }

  /** `count` consecutive values of type e. */
  function DecodeMany(e: Ty, count: nat, v: View): (r: Option<(seq<Val>, View)>)
    requires v.Valid()
    ensures r.Some? ==> |r.value.0| == count
    ensures r.Some? ==> r.value.1.buffer == v.buffer && v.cursor <= r.value.1.cursor <= |v.buffer|
    decreases e, 1, count
  {
    if count == 0 then Some(([], v))
    else
      match Decode(e, v)
      case None => None
      case Some((first, v1)) =>
        match DecodeMany(e, count - 1, v1)
        case None => None
        case Some((rest, v2)) => Some(([first] + rest, v2))
  }

  /** One value per member type, in declaration order. */
  function DecodeFields(fs: seq<Ty>, v: View): (r: Option<(seq<Val>, View)>)
    requires v.Valid()
    ensures r.Some? ==> |r.value.0| == |fs|
    ensures r.Some? ==> r.value.1.buffer == v.buffer && v.cursor <= r.value.1.cursor <= |v.buffer|
    decreases fs, 1
  {
    if |fs| == 0 then Some(([], v))
    else
      match Decode(fs[0], v)
      case None => None
      case Some((first, v1)) =>
        match DecodeFields(fs[1..], v1)
        case None => None
        case Some((rest, v2)) => Some(([first] + rest, v2))
  }

  /** The view whose cursor sits at c and whose next bytes are `enc`. */
  predicate At(v: View, enc: seq<byte>)
  {
    v.cursor + |enc| <= |v.buffer| && v.buffer[v.cursor..v.cursor + |enc|] == enc
  }

  lemma SplitAt(v: View, x: seq<byte>, y: seq<byte>)
    requires At(v, x + y)
    ensures At(v, x) && At(View(v.buffer, v.cursor + |x|), y)
  {
    assert v.buffer[v.cursor..v.cursor + |x|] == (x + y)[..|x|];
    assert v.buffer[v.cursor + |x|..v.cursor + |x| + |y|] == (x + y)[|x|..];
  }

  lemma EncodeDecodeInt(x: int, w: nat, signed: bool, v: View)
    requires IntWidth(w) && InRange(x, w, signed)
    requires At(v, EncodeInt(x, w))
    ensures DecodeInt(w, signed, v) == Some((x, View(v.buffer, v.cursor + w)))
  {
    var u := ToUnsigned(x, w);
    LittleEndianRoundTrip(u, w);
    SignedRoundTrip(x, w, signed);
  }

  /**
   * Round trip: decoding the bytes serialize wrote gives back the value and
   * leaves the cursor exactly past those bytes, whatever follows them.
   */
  lemma {:induction false} EncodeDecode(t: Ty, val: Val, v: View)
    requires HasType(val, t) && Fits(val)
    requires At(v, Encode(t, val))
    ensures Decode(t, v) == Some((val, View(v.buffer, v.cursor + |Encode(t, val)|)))
    decreases t, 1
  {
    if t.Int? || t.Enum? {
      EncodeDecodeScalar(t, val, v);
    } else if t.Pair? {
      EncodeDecodePair(t, val, v);
    } else if t.Variant? {
      EncodeDecodeVariant(t, val, v);
    } else if t.Aggregate? {
      EncodeDecodeAggregate(t, val, v);
    } else if t.Range? {
      EncodeDecodeRange(t, val, v);
    } else {
      EncodeDecodeArray(t, val, v);
    }
  }

  lemma EncodeDecodeScalar(t: Ty, val: Val, v: View)
    requires t.Int? || t.Enum?
    requires HasType(val, t) && Fits(val)
    requires At(v, Encode(t, val))
    ensures Decode(t, v) == Some((val, View(v.buffer, v.cursor + |Encode(t, val)|)))
  {
    EncodeDecodeInt(val.x, t.width, t.signed, v);
  }

  lemma {:induction false} EncodeDecodePair(t: Ty, val: Val, v: View)
    requires t.Pair? && HasType(val, t) && Fits(val)
    requires At(v, Encode(t, val))
    ensures Decode(t, v) == Some((val, View(v.buffer, v.cursor + |Encode(t, val)|)))
    decreases t, 0
  {
    var ea := Encode(t.first, val.first);
    var eb := Encode(t.second, val.second);
    SplitAt(v, ea, eb);
    EncodeDecode(t.first, val.first, v);
    var v1 := View(v.buffer, v.cursor + |ea|);
    EncodeDecode(t.second, val.second, v1);
    assert Decode(t.second, v1) == Some((val.second, View(v.buffer, v.cursor + |ea| + |eb|)));
  }

  lemma {:induction false} EncodeDecodeVariant(t: Ty, val: Val, v: View)
    requires t.Variant? && HasType(val, t) && Fits(val)
    requires At(v, Encode(t, val))
    ensures Decode(t, v) == Some((val, View(v.buffer, v.cursor + |Encode(t, val)|)))
    decreases t, 0
  {
    var alts := t.alts;
    var ei := EncodeInt(val.index, IndexWidth);
    var ea := Encode(alts[val.index], val.alt);
    SplitAt(v, ei, ea);
    EncodeDecodeInt(val.index, IndexWidth, false, v);
    var v1 := View(v.buffer, v.cursor + |ei|);
    EncodeDecode(alts[val.index], val.alt, v1);
    assert Decode(alts[val.index], v1) == Some((val.alt, View(v.buffer, v.cursor + |ei| + |ea|)));
  }

  lemma {:induction false} EncodeDecodeAggregate(t: Ty, val: Val, v: View)
    requires t.Aggregate? && HasType(val, t) && Fits(val)
    requires At(v, Encode(t, val))
    ensures Decode(t, v) == Some((val, View(v.buffer, v.cursor + |Encode(t, val)|)))
    decreases t, 0
  {
    EncodeDecodeFields(t.fields, val.fields, v);
  }

  lemma {:induction false} EncodeDecodeRange(t: Ty, val: Val, v: View)
    requires t.Range? && HasType(val, t) && Fits(val)
    requires At(v, Encode(t, val))
    ensures Decode(t, v) == Some((val, View(v.buffer, v.cursor + |Encode(t, val)|)))
    decreases t, 0
  {
    var e := t.elem;
    var ec := EncodeInt(|val.elems|, CountWidth);
    var es := EncodeMany(e, val.elems);
    SplitAt(v, ec, es);
    EncodeDecodeInt(|val.elems|, CountWidth, false, v);
    var v1 := View(v.buffer, v.cursor + |ec|);
    EncodeDecodeMany(e, val.elems, v1);
    assert DecodeMany(e, |val.elems|, v1) == Some((val.elems, View(v.buffer, v.cursor + |ec| + |es|)));
  }

  lemma {:induction false} EncodeDecodeArray(t: Ty, val: Val, v: View)
    requires t.Array? && HasType(val, t) && Fits(val)
    requires At(v, Encode(t, val))
    ensures Decode(t, v) == Some((val, View(v.buffer, v.cursor + |Encode(t, val)|)))
    decreases t, 0
  {
    EncodeDecodeMany(t.elem, val.elems, v);
  }

  lemma {:induction false} EncodeDecodeMany(e: Ty, vs: seq<Val>, v: View)
    requires AllHaveType(vs, e) && AllFit(vs)
    requires At(v, EncodeMany(e, vs))
    ensures DecodeMany(e, |vs|, v) == Some((vs, View(v.buffer, v.cursor + |EncodeMany(e, vs)|)))
    decreases e, 2, |vs|
  {
    if |vs| > 0 {
      var e0 := Encode(e, vs[0]);
      var er := EncodeMany(e, vs[1..]);
      SplitAt(v, e0, er);
      EncodeDecode(e, vs[0], v);
      var v1 := View(v.buffer, v.cursor + |e0|);
      EncodeDecodeMany(e, vs[1..], v1);
      var v2 := View(v.buffer, v.cursor + |e0| + |er|);
      DecodeManyFirst(e, vs, v, v1, v2);
      assert EncodeMany(e, vs) == e0 + er;
    }
  }

  /** Decoding |vs| elements that start with vs[0] and continue with vs[1..] yields vs. */
  lemma DecodeManyFirst(e: Ty, vs: seq<Val>, v: View, v1: View, v2: View)
    requires |vs| > 0 && v.Valid() && v1.Valid()
    requires Decode(e, v) == Some((vs[0], v1)) && DecodeMany(e, |vs| - 1, v1) == Some((vs[1..], v2))
    ensures DecodeMany(e, |vs|, v) == Some((vs, v2))
  {
    assert [vs[0]] + vs[1..] == vs;
  }

  /** Decoding `count` elements is decoding the first one and then the rest after it. */
  lemma DecodeManyCons(e: Ty, count: nat, v: View, first: Val, v1: View, rest: seq<Val>, v2: View)
    requires v.Valid() && v1.Valid() && count > 0
    requires Decode(e, v) == Some((first, v1)) && DecodeMany(e, count - 1, v1) == Some((rest, v2))
    ensures DecodeMany(e, count, v) == Some(([first] + rest, v2))
  {
  }

  lemma {:induction false} EncodeDecodeFields(fs: seq<Ty>, vs: seq<Val>, v: View)
    requires FieldsHaveType(vs, fs) && AllFit(vs)
    requires At(v, EncodeFields(fs, vs))
    ensures DecodeFields(fs, v) == Some((vs, View(v.buffer, v.cursor + |EncodeFields(fs, vs)|)))
    decreases fs, 2
  {
    if |fs| > 0 {
      var e0 := Encode(fs[0], vs[0]);
      var er := EncodeFields(fs[1..], vs[1..]);
      SplitAt(v, e0, er);
      EncodeDecode(fs[0], vs[0], v);
      var v1 := View(v.buffer, v.cursor + |e0|);
      EncodeDecodeFields(fs[1..], vs[1..], v1);
      assert [vs[0]] + vs[1..] == vs;
      assert DecodeFields(fs[1..], v1) == Some((vs[1..], View(v.buffer, v.cursor + |e0| + |er|)));
    }
  }

  lemma JoinSlices(b: seq<byte>, i: nat, j: nat, k: nat)
    requires i <= j <= k <= |b|
    ensures b[i..j] + b[j..k] == b[i..k]
  {
  }

  lemma DecodeEncodeInt(w: nat, signed: bool, v: View)
    requires IntWidth(w) && v.Valid() && DecodeInt(w, signed, v).Some?
    ensures InRange(DecodeInt(w, signed, v).value.0, w, signed)
    ensures EncodeInt(DecodeInt(w, signed, v).value.0, w) == v.buffer[v.cursor..v.cursor + w]
  {
    var bytes := v.buffer[v.cursor..v.cursor + w];
    var u := FromLittleEndian(bytes);
    FromLittleEndianBound(bytes);
    LittleEndianOfDecoded(bytes);
    if signed {
      SignedOfPattern(u, w);
    } else {
      Arith.DivModUnique(u, Pow256(w), 0, u);
    }
  }

  /**
   * The converse of the round trip: whatever decodes successfully is a value
   * of the type, and serializing it reproduces exactly the bytes consumed.
   * Together with EncodeDecode this makes the encoding a bijection between
   * values and the byte strings that decode.
   */
  lemma {:induction false} DecodeEncode(t: Ty, v: View)
    requires WellFormed(t) && v.Valid() && Decode(t, v).Some?
    ensures HasType(Decode(t, v).value.0, t) && Fits(Decode(t, v).value.0)
    ensures Encode(t, Decode(t, v).value.0) == v.buffer[v.cursor..Decode(t, v).value.1.cursor]
    decreases t, 1
  {
    match t
    case Int(w, s) =>
      DecodeEncodeInt(w, s, v);
    case Enum(w, s) =>
      DecodeEncodeInt(w, s, v);
    case Pair(a, b) =>
      DecodeEncodePair(a, b, v);
    case Variant(alts) =>
      DecodeEncodeVariant(alts, v);
    case Aggregate(fs) =>
      DecodeEncodeFields(fs, v);
    case Range(e) =>
      DecodeEncodeRange(e, v);
    case Array(e, n) =>
      DecodeEncodeMany(e, n, v);
  }

  lemma {:induction false} DecodeEncodePair(a: Ty, b: Ty, v: View)
    requires WellFormed(Pair(a, b)) && v.Valid() && Decode(Pair(a, b), v).Some?
    ensures HasType(Decode(Pair(a, b), v).value.0, Pair(a, b)) && Fits(Decode(Pair(a, b), v).value.0)
    ensures Encode(Pair(a, b), Decode(Pair(a, b), v).value.0)
         == v.buffer[v.cursor..Decode(Pair(a, b), v).value.1.cursor]
    decreases Pair(a, b), 0
  {
    var (first, v1) := Decode(a, v).value;
    var (second, v2) := Decode(b, v1).value;
    DecodeEncode(a, v);
    DecodeEncode(b, v1);
    JoinSlices(v.buffer, v.cursor, v1.cursor, v2.cursor);
  }

  lemma {:induction false} DecodeEncodeVariant(alts: seq<Ty>, v: View)
    requires WellFormed(Variant(alts)) && v.Valid() && Decode(Variant(alts), v).Some?
    ensures HasType(Decode(Variant(alts), v).value.0, Variant(alts)) && Fits(Decode(Variant(alts), v).value.0)
    ensures Encode(Variant(alts), Decode(Variant(alts), v).value.0)
         == v.buffer[v.cursor..Decode(Variant(alts), v).value.1.cursor]
    decreases Variant(alts), 0
  {
    var (index, v1) := DecodeInt(IndexWidth, false, v).value;
    DecodeEncodeInt(IndexWidth, false, v);
    var (alt, v2) := Decode(alts[index], v1).value;
    DecodeEncode(alts[index], v1);
    JoinSlices(v.buffer, v.cursor, v1.cursor, v2.cursor);
  }

  lemma {:induction false} DecodeEncodeRange(e: Ty, v: View)
    requires WellFormed(Range(e)) && v.Valid() && Decode(Range(e), v).Some?
    ensures HasType(Decode(Range(e), v).value.0, Range(e)) && Fits(Decode(Range(e), v).value.0)
    ensures Encode(Range(e), Decode(Range(e), v).value.0)
         == v.buffer[v.cursor..Decode(Range(e), v).value.1.cursor]
    decreases Range(e), 0
  {
    var (count, v1) := DecodeInt(CountWidth, false, v).value;
    DecodeEncodeInt(CountWidth, false, v);
    var (vals, v2) := DecodeMany(e, count, v1).value;
    DecodeEncodeMany(e, count, v1);
    JoinSlices(v.buffer, v.cursor, v1.cursor, v2.cursor);
  }

  lemma {:induction false} DecodeEncodeMany(e: Ty, count: nat, v: View)
    requires WellFormed(e) && v.Valid() && DecodeMany(e, count, v).Some?
    ensures AllHaveType(DecodeMany(e, count, v).value.0, e) && AllFit(DecodeMany(e, count, v).value.0)
    ensures EncodeMany(e, DecodeMany(e, count, v).value.0) == v.buffer[v.cursor..DecodeMany(e, count, v).value.1.cursor]
    decreases e, 2, count
  {
    if count > 0 {
      var (first, v1) := Decode(e, v).value;
      var (rest, v2) := DecodeMany(e, count - 1, v1).value;
      DecodeEncode(e, v);
      DecodeEncodeMany(e, count - 1, v1);
      DecodeManyCons(e, count, v, first, v1, rest, v2);
      EncodeManyCons(e, first, rest, v.buffer, v.cursor, v1.cursor, v2.cursor);
    }
  }

  /** Prepending a well-typed value whose bytes precede the rest's keeps the encoding contiguous. */
  lemma EncodeManyCons(e: Ty, first: Val, rest: seq<Val>, b: seq<byte>, i: nat, j: nat, k: nat)
    requires i <= j <= k <= |b|
    requires HasType(first, e) && Fits(first) && AllHaveType(rest, e) && AllFit(rest)
    requires Encode(e, first) == b[i..j] && EncodeMany(e, rest) == b[j..k]
    ensures AllHaveType([first] + rest, e) && AllFit([first] + rest)
    ensures EncodeMany(e, [first] + rest) == b[i..k]
  {
    JoinSlices(b, i, j, k);
    var vs := [first] + rest;
    assert vs[0] == first && vs[1..] == rest;
  }

  lemma {:induction false} DecodeEncodeFields(fs: seq<Ty>, v: View)
    requires (forall i :: 0 <= i < |fs| ==> WellFormed(fs[i])) && v.Valid() && DecodeFields(fs, v).Some?
    ensures FieldsHaveType(DecodeFields(fs, v).value.0, fs) && AllFit(DecodeFields(fs, v).value.0)
    ensures EncodeFields(fs, DecodeFields(fs, v).value.0) == v.buffer[v.cursor..DecodeFields(fs, v).value.1.cursor]
    decreases fs, 2
  {
    if |fs| > 0 {
      var (first, v1) := Decode(fs[0], v).value;
      var (rest, v2) := DecodeFields(fs[1..], v1).value;
      DecodeEncode(fs[0], v);
      assert forall i :: 0 <= i < |fs[1..]| ==> fs[1..][i] == fs[i + 1];
      DecodeEncodeFields(fs[1..], v1);
      JoinSlices(v.buffer, v.cursor, v1.cursor, v2.cursor);
      var vs := [first] + rest;
      assert vs[0] == first && vs[1..] == rest;
    }
  }

  /**
   * The calls `serialize` makes on its target: one write per integer, and a
   * reserve before the elements of a range or array.  The reserve hint is
   * `sizeof(T)` times the element count; `sizeOf` stands for the compiler's
   * `sizeof`, which the model does not compute.
   */
  function SerializeOps(t: Ty, v: Val, sizeOf: Ty -> nat): seq<Op>
    requires HasType(v, t)
    decreases t, 0
  {
    match t
    case Int(w, _) => [WriteOp(EncodeInt(v.x, w))]
    case Enum(w, _) => [WriteOp(EncodeInt(v.x, w))]
    case Pair(a, b) => SerializeOps(a, v.first, sizeOf) + SerializeOps(b, v.second, sizeOf)
    case Variant(alts) => [WriteOp(EncodeInt(v.index, IndexWidth))] + SerializeOps(alts[v.index], v.alt, sizeOf)
    case Aggregate(fs) => SerializeFieldsOps(fs, v.fields, sizeOf)
    case Range(e) =>
      var count := ToUnsigned(|v.elems|, CountWidth);
      [WriteOp(EncodeInt(|v.elems|, CountWidth)), ReserveOp(sizeOf(e) * count)] + SerializeManyOps(e, v.elems, sizeOf)
    case Array(e, n) => [ReserveOp(sizeOf(e) * n)] + SerializeManyOps(e, v.elems, sizeOf)
  }

  function SerializeManyOps(e: Ty, vs: seq<Val>, sizeOf: Ty -> nat): seq<Op>
    requires AllHaveType(vs, e)
    decreases e, 1, |vs|
  {
    if |vs| == 0 then [] else SerializeOps(e, vs[0], sizeOf) + SerializeManyOps(e, vs[1..], sizeOf)
  }

  function SerializeFieldsOps(fs: seq<Ty>, vs: seq<Val>, sizeOf: Ty -> nat): seq<Op>
    requires FieldsHaveType(vs, fs)
    decreases fs, 1
  {
    if |fs| == 0 then [] else SerializeOps(fs[0], vs[0], sizeOf) + SerializeFieldsOps(fs[1..], vs[1..], sizeOf)
  }

  lemma WrittenHead(bytes: seq<byte>, hint: nat, rest: seq<Op>)
    ensures Written([WriteOp(bytes)] + rest) == bytes + Written(rest)
    ensures Written([WriteOp(bytes), ReserveOp(hint)] + rest) == bytes + Written(rest)
    ensures Written([ReserveOp(hint)] + rest) == Written(rest)
  {
    var a := [WriteOp(bytes)];
    var b := [WriteOp(bytes), ReserveOp(hint)];
    var c := [ReserveOp(hint)];
    assert a[..0] == [] && b[..1] == a && c[..0] == [];
    assert Written(a) == bytes;
    assert Written(b) == Written(a) + [];
    assert Written(c) == [];
    WrittenAppend(a, rest);
    WrittenAppend(b, rest);
    WrittenAppend(c, rest);
  }

  /** The bytes those calls write, in order, are exactly the encoding. */
  lemma {:induction false} SerializeWritesEncoding(t: Ty, v: Val, sizeOf: Ty -> nat)
    requires HasType(v, t)
    ensures Written(SerializeOps(t, v, sizeOf)) == Encode(t, v)
    decreases t, 1
  {
    match t
    case Int(_, _) =>
      SerializeScalarWritesEncoding(t, v, sizeOf);
    case Enum(_, _) =>
      SerializeScalarWritesEncoding(t, v, sizeOf);
    case Pair(a, b) =>
      SerializePairWritesEncoding(a, b, v, sizeOf);
    case Variant(alts) =>
      SerializeVariantWritesEncoding(alts, v, sizeOf);
    case Aggregate(fs) =>
      SerializeFieldsWritesEncoding(fs, v.fields, sizeOf);
    case Range(e) =>
      SerializeRangeWritesEncoding(e, v, sizeOf);
    case Array(e, n) =>
      SerializeArrayWritesEncoding(e, n, v, sizeOf);
  }

  lemma SerializeScalarWritesEncoding(t: Ty, v: Val, sizeOf: Ty -> nat)
    requires t.Int? || t.Enum?
    requires HasType(v, t)
    ensures Written(SerializeOps(t, v, sizeOf)) == Encode(t, v)
  {
    WrittenHead(EncodeInt(v.x, t.width), 0, []);
    assert [WriteOp(EncodeInt(v.x, t.width))] + [] == [WriteOp(EncodeInt(v.x, t.width))];
  }

  lemma {:induction false} SerializeRangeWritesEncoding(e: Ty, v: Val, sizeOf: Ty -> nat)
    requires HasType(v, Range(e))
    ensures Written(SerializeOps(Range(e), v, sizeOf)) == Encode(Range(e), v)
    decreases Range(e), 0
  {
    SerializeManyWritesEncoding(e, v.elems, sizeOf);
    WrittenHead(EncodeInt(|v.elems|, CountWidth), sizeOf(e) * ToUnsigned(|v.elems|, CountWidth),
                SerializeManyOps(e, v.elems, sizeOf));
  }

  lemma {:induction false} SerializeArrayWritesEncoding(e: Ty, n: nat, v: Val, sizeOf: Ty -> nat)
    requires HasType(v, Array(e, n))
    ensures Written(SerializeOps(Array(e, n), v, sizeOf)) == Encode(Array(e, n), v)
    decreases Array(e, n), 0
  {
    SerializeManyWritesEncoding(e, v.elems, sizeOf);
    WrittenHead([], sizeOf(e) * n, SerializeManyOps(e, v.elems, sizeOf));
  }

  lemma {:induction false} SerializePairWritesEncoding(a: Ty, b: Ty, v: Val, sizeOf: Ty -> nat)
    requires HasType(v, Pair(a, b))
    ensures Written(SerializeOps(Pair(a, b), v, sizeOf)) == Encode(Pair(a, b), v)
    decreases Pair(a, b), 0
  {
    WrittenAppend(SerializeOps(a, v.first, sizeOf), SerializeOps(b, v.second, sizeOf));
    SerializeWritesEncoding(a, v.first, sizeOf);
    SerializeWritesEncoding(b, v.second, sizeOf);
  }

  lemma {:induction false} SerializeVariantWritesEncoding(alts: seq<Ty>, v: Val, sizeOf: Ty -> nat)
    requires HasType(v, Variant(alts))
    ensures Written(SerializeOps(Variant(alts), v, sizeOf)) == Encode(Variant(alts), v)
    decreases Variant(alts), 0
  {
    SerializeWritesEncoding(alts[v.index], v.alt, sizeOf);
    WrittenHead(EncodeInt(v.index, IndexWidth), 0, SerializeOps(alts[v.index], v.alt, sizeOf));
  }

  lemma {:induction false} SerializeManyWritesEncoding(e: Ty, vs: seq<Val>, sizeOf: Ty -> nat)
    requires AllHaveType(vs, e)
    ensures Written(SerializeManyOps(e, vs, sizeOf)) == EncodeMany(e, vs)
    decreases e, 2, |vs|
  {
    if |vs| > 0 {
      WrittenAppend(SerializeOps(e, vs[0], sizeOf), SerializeManyOps(e, vs[1..], sizeOf));
      SerializeWritesEncoding(e, vs[0], sizeOf);
      SerializeManyWritesEncoding(e, vs[1..], sizeOf);
    }
  }

  lemma {:induction false} SerializeFieldsWritesEncoding(fs: seq<Ty>, vs: seq<Val>, sizeOf: Ty -> nat)
    requires FieldsHaveType(vs, fs)
    ensures Written(SerializeFieldsOps(fs, vs, sizeOf)) == EncodeFields(fs, vs)
    decreases fs, 2
  {
    if |fs| > 0 {
      WrittenAppend(SerializeOps(fs[0], vs[0], sizeOf), SerializeFieldsOps(fs[1..], vs[1..], sizeOf));
      SerializeWritesEncoding(fs[0], vs[0], sizeOf);
      SerializeFieldsWritesEncoding(fs[1..], vs[1..], sizeOf);
    }
  }
}

=== FILE: color.dfy ===
/**
 * ANSI colour and style codes of the log formatter: `make_ansi_code` writes
 * a Select Graphic Rendition control sequence (ESC '[' parameters 'm',
 * section 8.3.117 of ECMA-48) with the numeric parameters separated by ';';
 * `ANSICode<N>` and `ANSICodes<N...>` wrap a text in a code and a reset,
 * and `|` concatenates code lists.
 */
module Color {
  import Strings
  import opened Wrappers

  const Escape: char := '\U{1B}'

  /** The introducer of every code the formatter writes. */
  const Introducer: string := [Escape, '[']

  /** Codes are `unsigned`. */
  predicate IsCode(n: nat)
  {
    n < Strings.U32
  }

  predicate AllCodes(codes: seq<nat>)
  {
    forall i :: 0 <= i < |codes| ==> IsCode(codes[i])
  }

  /** The parameter list: the decimal numerals of the codes, separated by ';'. */
  function Join(codes: seq<nat>): string
  {
    if codes == [] then []
    else if |codes| == 1 then Strings.Decimal(codes[0])
    else Strings.Decimal(codes[0]) + ";" + Join(codes[1..])
  }

  /** `make_ansi_code(unsigned)`: a one-parameter control sequence. */
  function Code(option: nat): string
    requires IsCode(option)
  {
    Introducer + Strings.Decimal(option) + "m"
  }

  /** The reset sequence `ANSICode<0>` stands for. */
  function Reset(): string
  {
    Code(0)
  }

  lemma {:induction false} JoinSnoc(codes: seq<nat>, last: nat)
    requires |codes| >= 1
    ensures Join(codes + [last]) == Join(codes) + ";" + Strings.Decimal(last)
  {
    if |codes| == 1 {
      assert codes + [last] == [codes[0], last];
      assert [codes[0], last][1..] == [last];
    } else {
      assert (codes + [last])[1..] == codes[1..] + [last];
      JoinSnoc(codes[1..], last);
    }
  }

  /**
   * `make_ansi_code(options...)`: the introducer, then each code's numeral
   * preceded by ';' from the second one on, then 'm'.
   */
  method MakeCodes(options: seq<nat>) returns (r: string)
    requires AllCodes(options)
    ensures r == Introducer + Join(options) + "m"
  {
    r := Introducer;
    var mustSeparate := false;
    var i := 0;
    while i < |options|
      invariant 0 <= i <= |options|
      invariant mustSeparate <==> i > 0
      invariant r == Introducer + Join(options[..i])
    {
      if mustSeparate {
        r := r + ";";
      } else {
        mustSeparate := true;
      }
      if i > 0 {
        JoinSnoc(options[..i], options[i]);
        assert options[..i + 1] == options[..i] + [options[i]];
      } else {
        assert options[..1] == [options[0]];
      }
      r := r + Strings.Decimal(options[i]);
      i := i + 1;
    }
    assert options[..i] == options;
    r := r + "m";
  }

  /** The control sequence for a list of codes, as `MakeCodes` writes it. */
  function Codes(options: seq<nat>): string
    requires AllCodes(options)
  {
    Introducer + Join(options) + "m"
  }

  /** The variadic form with a single code writes what the unary form writes. */
  lemma SingleCodeAgrees(option: nat)
    requires IsCode(option)
    ensures Codes([option]) == Code(option)
  {
  }

  // ---------------------------------------------------------------------
  // Reading a control sequence back

  /** The fields of s between ';' separators. */
  function Split(s: string): (r: seq<string>)
    ensures |r| >= 1
  {
    if s == [] then [[]]
    else if s[0] == ';' then [[]] + Split(s[1..])
    else var rest := Split(s[1..]); [[s[0]] + rest[0]] + rest[1..]
  }

  lemma {:induction false} SplitAfterField(field: string, tail: string)
    requires ';' !in field
    ensures Split(field + ";" + tail) == [field] + Split(tail)
  {
    if field == [] {
      assert field + ";" + tail == [';'] + tail;
    } else {
      assert (field + ";" + tail)[1..] == field[1..] + ";" + tail;
      SplitAfterField(field[1..], tail);
      assert [field[0]] + field[1..] == field;
    }
  }

  lemma {:induction false} SplitOfField(field: string)
    requires ';' !in field
    ensures Split(field) == [field]
  {
    if field != [] {
      SplitOfField(field[1..]);
      assert [field[0]] + field[1..] == field;
    }
  }

  lemma DecimalHasNoSeparator(n: nat)
    ensures ';' !in Strings.Decimal(n) && 'm' !in Strings.Decimal(n) && Escape !in Strings.Decimal(n)
  {
    Strings.DecimalCanonical(n);
    var d := Strings.Decimal(n);
    assert forall i :: 0 <= i < |d| ==> Strings.IsDigitChar(d[i]);
  }

  /** The parameter list splits back into the numerals it was joined from. */
  lemma {:induction false} SplitJoin(codes: seq<nat>)
    requires |codes| >= 1
    ensures |Split(Join(codes))| == |codes|
    ensures forall i :: 0 <= i < |codes| ==> Split(Join(codes))[i] == Strings.Decimal(codes[i])
  {
    DecimalHasNoSeparator(codes[0]);
    if |codes| == 1 {
      SplitOfField(Strings.Decimal(codes[0]));
    } else {
      SplitJoin(codes[1..]);
      SplitAfterField(Strings.Decimal(codes[0]), Join(codes[1..]));
    }
  }

  /** The value of each field, or None when one is not a canonical numeral. */
  function Values(fields: seq<string>): (r: Option<seq<nat>>)
    ensures r.Some? ==> |r.value| == |fields|
  {
    if fields == [] then Some([])
    else if !Strings.Canonical(fields[0]) then None
    else match Values(fields[1..])
      case None => None
      case Some(rest) => Some([Strings.DecimalValue(fields[0])] + rest)
  }

  /** Reads the codes of a control sequence; None when s is not one. */
  function Decode(s: string): Option<seq<nat>>
  {
    if |s| < 3 || s[..2] != Introducer || s[|s| - 1] != 'm' then None
    else Values(Split(s[2..|s| - 1]))
  }

  lemma {:induction false} ValuesOfNumerals(fields: seq<string>, codes: seq<nat>)
    requires |fields| == |codes|
    requires forall i :: 0 <= i < |codes| ==> fields[i] == Strings.Decimal(codes[i])
    ensures Values(fields) == Some(codes)
  {
    if fields != [] {
      Strings.DecimalValueOfDecimal(codes[0]);
      ValuesOfNumerals(fields[1..], codes[1..]);
      assert [codes[0]] + codes[1..] == codes;
    }
  }

  /** Decoding a written control sequence gives back the codes, in order. */
  lemma DecodeCodes(options: seq<nat>)
    requires AllCodes(options) && |options| >= 1
    ensures Decode(Codes(options)) == Some(options)
  {
    var s := Codes(options);
    assert s[..2] == Introducer;
    assert s[2..|s| - 1] == Join(options);
    SplitJoin(options);
    ValuesOfNumerals(Split(Join(options)), options);
  }

  // ---------------------------------------------------------------------
  // Applying codes to text

  /** `ANSICode<Code>::operator()`: code 0 leaves the text alone, any other wraps it in the code and a reset. */
  function Wrap(code: nat, text: string): string
    requires IsCode(code)
  {
    if code == 0 then text else Code(code) + text + Reset()
  }

  /** `ANSICodes<Codes...>::operator()`: the list's sequence, the text, a reset. */
  function WrapAll(codes: seq<nat>, text: string): string
    requires AllCodes(codes)
  {
    Codes(codes) + text + Reset()
  }

  /** `|`: a code list extended by another code or code list, left operand first. */
  function Compose(left: seq<nat>, right: seq<nat>): (r: seq<nat>)
    ensures |r| == |left| + |right|
    ensures r[..|left|] == left && r[|left|..] == right
  {
    left + right
  }

  /**
   * A composed style writes one control sequence whose parameters are the
   * left operand's followed by the right operand's.
   */
  lemma {:induction false} ComposeJoins(left: seq<nat>, right: seq<nat>)
    requires |left| >= 1 && |right| >= 1
    ensures Join(Compose(left, right)) == Join(left) + ";" + Join(right)
  {
    if |left| == 1 {
      assert Compose(left, right)[1..] == right;
    } else {
      ComposeJoins(left[1..], right);
      assert Compose(left, right)[1..] == Compose(left[1..], right);
    }
  }

  /** Everything outside control sequences: what a terminal shows as text. */
  function Visible(s: string): string
    decreases |s|
  {
    if s == [] then []
    else if s[0] == Escape then Visible(AfterFinal(s[1..]))
    else [s[0]] + Visible(s[1..])
  }

  /** The rest of s after its first 'm'. */
  function AfterFinal(s: string): (r: string)
    ensures |r| <= |s|
  {
    if s == [] then [] else if s[0] == 'm' then s[1..] else AfterFinal(s[1..])
  }

  lemma {:induction false} AfterFinalSkips(prefix: string, rest: string)
    requires 'm' !in prefix
    ensures AfterFinal(prefix + "m" + rest) == rest
  {
    if prefix != [] {
      assert (prefix + "m" + rest)[1..] == prefix[1..] + "m" + rest;
      AfterFinalSkips(prefix[1..], rest);
    } else {
      assert prefix + "m" + rest == ['m'] + rest;
    }
  }

  lemma VisibleSkipsCode(option: nat, rest: string)
    requires IsCode(option)
    ensures Visible(Code(option) + rest) == Visible(rest)
  {
    var digits := Strings.Decimal(option);
    DecimalHasNoSeparator(option);
    var s := Code(option) + rest;
    assert s[0] == Escape;
    assert s[1..] == "[" + digits + "m" + rest;
    assert 'm' !in "[" + digits;
    AfterFinalSkips("[" + digits, rest);
  }

  lemma {:induction false} VisiblePlain(text: string, rest: string)
    requires Escape !in text
    ensures Visible(text + rest) == text + Visible(rest)
  {
    if text != [] {
      assert (text + rest)[0] == text[0] && text[0] in text;
      assert (text + rest)[1..] == text[1..] + rest;
      VisiblePlain(text[1..], rest);
      assert Visible(text + rest) == [text[0]] + Visible(text[1..] + rest);
      assert [text[0]] + (text[1..] + Visible(rest)) == text + Visible(rest);
    } else {
      assert text + rest == rest;
    }
  }

  /** Colouring never changes the text a terminal shows. */
  lemma WrapKeepsVisible(code: nat, text: string)
    requires IsCode(code) && Escape !in text
    ensures Visible(Wrap(code, text)) == text
  {
    VisiblePlain(text, []);
    assert text + [] == text;
    if code != 0 {
      VisibleSkipsCode(code, text + Reset());
      assert Code(code) + text + Reset() == Code(code) + (text + Reset());
      VisiblePlain(text, Reset());
      VisibleSkipsCode(0, []);
      assert Reset() + [] == Reset();
    }
  }

  /** A single-code wrapper with a non-zero code writes what the one-element list writes. */
  lemma WrapAgreesWithList(code: nat, text: string)
    requires IsCode(code) && code != 0
    ensures Wrap(code, text) == WrapAll([code], text)
  {
  }
}

=== FILE: default_construct.dfy ===
/**
 * Construction of an aggregate (or a call of a function) from an argument
 * tuple of optionals: `required_args_count` counts the members without a
 * default, and `_default_impl::visit` decides how many leading tuple values
 * to pass, dispatching the run-time count to a compile-time index sequence
 * through a switch table of 4, 16, 64 or 256 cases.
 *
 * A member (or parameter) is described by whether it has a default; a tuple
 * by which of its slots hold a value. Base classes are left out: the only
 * callers pass a base count of 0.
 */
module DefaultConstruct {
  /** `required_args_count`: how many members (or parameters) have no default. */
  function RequiredCount(hasDefault: seq<bool>): (r: nat)
    ensures r <= |hasDefault|
  {
    if hasDefault == [] then 0
    else RequiredCount(hasDefault[..|hasDefault| - 1]) + (if hasDefault[|hasDefault| - 1] then 0 else 1)
  }

  /** The positions of the members without a default. */
  function WithoutDefault(hasDefault: seq<bool>): set<nat>
  {
    set i: nat | i < |hasDefault| && !hasDefault[i]
  }

  /** The count is the number of positions whose member has no default. */
  lemma {:induction false} RequiredCountCountsPositions(hasDefault: seq<bool>)
    ensures RequiredCount(hasDefault) == |WithoutDefault(hasDefault)|
  {
    if hasDefault != [] {
      var n := |hasDefault| - 1;
      var init := hasDefault[..n];
      RequiredCountCountsPositions(init);
      var before := WithoutDefault(init);
      if hasDefault[n] {
        assert WithoutDefault(hasDefault) == before;
      } else {
        assert WithoutDefault(hasDefault) == before + {n};
        assert n !in before;
      }
    }
  }

  /**
   * The visit index: the fold `(has_value ? ++idx, true : false) && ...`
   * stops at the first empty slot, so it counts the leading slots that hold
   * a value.
   */
  function LeadingPresent(present: seq<bool>): (r: nat)
    ensures r <= |present|
    ensures forall i :: 0 <= i < r ==> present[i]
    ensures r < |present| ==> !present[r]
  {
    if present == [] || !present[0] then 0 else 1 + LeadingPresent(present[1..])
  }

  /** The index is m exactly when the first m slots hold a value and the next one, if any, does not. */
  lemma LeadingPresentExactly(present: seq<bool>, m: nat)
    requires m <= |present| && forall i :: 0 <= i < m ==> present[i]
    requires m < |present| ==> !present[m]
    ensures LeadingPresent(present) == m
  {
  }

  /** A slot that holds a value after an empty one does not move the index. */
  lemma LeadingPresentIgnoresAfterGap(a: seq<bool>, b: seq<bool>, c: seq<bool>)
    requires false in a
    ensures LeadingPresent(a + b) == LeadingPresent(a + c)
  {
    var n := LeadingPresent(a + b);
    var m := LeadingPresent(a + c);
    var k :| 0 <= k < |a| && !a[k];
    assert (a + b)[k] == a[k] && (a + c)[k] == a[k];
    assert forall i :: 0 <= i < |a| ==> (a + b)[i] == a[i] && (a + c)[i] == a[i];
  }

  /** `4^exponent`. */
  function Pow4(exponent: nat): (r: nat)
    ensures r >= 1
  {
    if exponent == 0 then 1 else 4 * Pow4(exponent - 1)
  }

  /** The switch table chosen for a number of optional members (the 4/16/64 thresholds). */
  function Strategy(branches: nat): (s: nat)
    ensures 1 <= s <= 4
  {
    if branches <= 4 then 1
    else if branches <= 16 then 2
    else if branches <= 64 then 3
    else 4
  }

  /** `VisitStrategy<s>` stamps `4^s` cases. */
  function Cases(strategy: nat): nat
  {
    Pow4(strategy)
  }

  /**
   * The thresholds pick the smallest table with at least as many cases as
   * there are optional members, up to the largest table of 256 cases.
   */
  lemma StrategyFits(branches: nat)
    requires 1 <= branches <= 256
    ensures branches <= Cases(Strategy(branches))
    ensures Strategy(branches) > 1 ==> Cases(Strategy(branches) - 1) < branches
  {
    assert Pow4(1) == 4 && Pow4(2) == 16 && Pow4(3) == 64 && Pow4(4) == 256;
  }

  datatype Outcome =
    | Construct(used: nat)   // the visitor receives the first `used` tuple values
    | Throw                  // `throw 0`: a required value is missing
    | Unreachable            // `std::unreachable()`: undefined behaviour

  /**
   * `visit` as written, for a tuple whose slots hold values as `present`
   * says and `required` members without a default. The case for k present
   * optionals only calls the visitor when k is below the number of optional
   * members; the case with every optional present falls to
   * `std::unreachable()`.
   */
  function VisitWritten(required: nat, present: seq<bool>): Outcome
    requires required <= |present|
  {
    var index := LeadingPresent(present);
    var branches := |present| - required;
    if index < required then Throw
    else if branches == 0 then Construct(|present|)
    else
      var k := index - required;
      if k >= Cases(Strategy(branches)) then Unreachable
      else if k < branches then Construct(required + k)
      else Unreachable
  }

  /**
   * `visit` as evidently intended: every count of leading values from
   * `required` up to the whole tuple reaches the visitor.
   */
  function Visit(required: nat, present: seq<bool>): (r: Outcome)
    requires required <= |present|
    ensures r.Construct? || r.Throw?
  {
    var index := LeadingPresent(present);
    if index < required then Throw else Construct(index)
  }

  /**
   * The visitor receives exactly the leading run of values: at least the
   * first `required` slots, each slot it dereferences holds a value, and the next
   * slot is empty. It throws exactly when a required value is missing.
   */
  lemma VisitUsesLeadingValues(required: nat, present: seq<bool>)
    requires required <= |present|
    ensures Visit(required, present).Throw? <==> exists i :: 0 <= i < required && !present[i]
    ensures Visit(required, present).Construct? ==>
              var n := Visit(required, present).used;
              required <= n <= |present| &&
              (forall i :: 0 <= i < n ==> present[i]) &&
              (n < |present| ==> !present[n])
  {
    var index := LeadingPresent(present);
    if index < required {
      assert !present[index];
    }
  }

  /** Whenever the source's dispatch constructs, it passes what the intended one passes. */
  lemma WrittenConstructAgrees(required: nat, present: seq<bool>)
    requires required <= |present|
    ensures VisitWritten(required, present).Construct? ==> VisitWritten(required, present) == Visit(required, present)
  {
  }

  /**
   * The source agrees with the intended dispatch whenever some optional
   * value is missing and there are at most 256 optional members.
   */
  lemma VisitWrittenAgrees(required: nat, present: seq<bool>)
    requires required <= |present| && |present| - required <= 256
    requires required == |present| || false in present
    ensures VisitWritten(required, present) == Visit(required, present)
  {
    var index := LeadingPresent(present);
    var branches := |present| - required;
    if branches > 0 && index >= required {
      StrategyFits(branches);
      var k :| 0 <= k < |present| && !present[k];
      assert index <= k;
    }
  }

  /**
   * The discrepancy: when every slot holds a value and there is an optional
   * member, the intended dispatch passes the whole tuple but the source
   * reaches `std::unreachable()`.
   */
  lemma AllOptionalsPresentUnreachable(required: nat, present: seq<bool>)
    requires required < |present| <= required + 256
    requires forall i :: 0 <= i < |present| ==> present[i]
    ensures VisitWritten(required, present) == Unreachable
    ensures Visit(required, present) == Construct(|present|)
  {
    assert LeadingPresent(present) == |present|;
  }

  /** One required and one optional member, both given: the smallest instance. */
  lemma BothGivenUnreachable()
    ensures VisitWritten(1, [true, true]) == Unreachable
    ensures Visit(1, [true, true]) == Construct(2)
  {
    AllOptionalsPresentUnreachable(1, [true, true]);
  }
}

=== FILE: dispatch.dfy ===
/**
 * The opcode switch behind `Dispatcher`: the service's members are numbered
 * from 0, and a `switch` over the opcode has a case for each index of a table
 * of 4, 16, 64 or 256 entries (the smallest that holds every member).  A case
 * past the last member is marked unreachable; an opcode past the table throws
 * `std::out_of_range("Invalid opcode")`.
 */
module Dispatch {
  import opened Bytes

  /** A member's `dispatch`: decodes its arguments from the bytes and returns the encoded response. */
  type Handler = seq<byte> -> seq<byte>

  /** The `static_assert` bound on the number of members. */
  const MaxMembers: nat := 256

  datatype Outcome = Reply(message: seq<byte>) | InvalidOpcode | Unreachable

  /** The strategy chosen by member count: 1 up to 4 members, 2 up to 16, 3 up to 64, else 4. */
  function Strategy(count: nat): (s: nat)
    requires count <= MaxMembers
    ensures 1 <= s <= 4
  {
    if count <= 4 then 1 else if count <= 16 then 2 else if count <= 64 then 3 else 4
  }

  /** Cases stamped out by strategy s: 4^s. */
  function TableSize(s: nat): nat
  {
    if s == 0 then 1 else 4 * TableSize(s - 1)
  }

  /** The chosen table is the smallest of the four that holds every member. */
  lemma StrategyFits(count: nat)
    requires count <= MaxMembers
    ensures count <= TableSize(Strategy(count))
    ensures Strategy(count) > 1 ==> TableSize(Strategy(count) - 1) < count
  {
    assert TableSize(1) == 4 && TableSize(2) == 16 && TableSize(3) == 64 && TableSize(4) == 256;
  }

  /** The switch as written: the cases between the last member and the end of the table are unreachable. */
  function SelectAsWritten(handlers: seq<Handler>, index: nat, args: seq<byte>): (r: Outcome)
    requires |handlers| <= MaxMembers
    ensures r.Reply? <==> index < |handlers|
    ensures r.Reply? ==> r.message == handlers[index](args)
    ensures r.Unreachable? <==> |handlers| <= index < TableSize(Strategy(|handlers|))
  {
    if index < TableSize(Strategy(|handlers|)) then
      if index < |handlers| then Reply(handlers[index](args)) else Unreachable
    else InvalidOpcode
  }

  /** The switch as intended: every opcode that names no member is reported as invalid. */
  function Select(handlers: seq<Handler>, index: nat, args: seq<byte>): (r: Outcome)
    requires |handlers| <= MaxMembers
    ensures r.Reply? <==> index < |handlers|
    ensures r.Reply? ==> r.message == handlers[index](args)
    ensures !r.Reply? ==> r == InvalidOpcode
  {
    StrategyFits(|handlers|);
    if index < |handlers| then Reply(handlers[index](args)) else InvalidOpcode
  }

  /** The two agree except on the opcodes between the last member and the end of the table. */
  lemma SelectAgrees(handlers: seq<Handler>, index: nat, args: seq<byte>)
    requires |handlers| <= MaxMembers
    ensures SelectAsWritten(handlers, index, args) == Select(handlers, index, args)
        <==> !(|handlers| <= index < TableSize(Strategy(|handlers|)))
  {
  }

  /** A one-member service handed opcode 1 reaches an unreachable case instead of throwing. */
  lemma OpcodePastLastMember()
    ensures SelectAsWritten([(args: seq<byte>) => args], 1, []) == Unreachable
    ensures Select([(args: seq<byte>) => args], 1, []) == InvalidOpcode
  {
    assert TableSize(Strategy(1)) == 4;
  }
}

=== FILE: expect.dfy ===
/**
 * Validation expressions of the configuration layer (`expect`): trees of
 * `BinaryExpr` nodes over placeholders `$N`, constants and lazy calls,
 * evaluated against the parsed arguments, with a verbose evaluation that
 * collects the text of every comparison that came out false, and two
 * printers.
 *
 * `BinaryExpr` is only ever built by the comparison and logical operators
 * (`<`, `<=`, `>`, `>=`, `==`, `!=`, `&&`, `||`), so only those branches of
 * `eval_operator` are reachable. Values are integers; a `bool` result is
 * 1 or 0, as C++ promotes it when it meets another operand.
 */
module Expect {
  /** The operators a `BinaryExpr` can carry. */
  datatype Op = Less | LessEq | Greater | GreaterEq | Equal | NotEqual | And | Or

  /** `util::to_string(OP)`: the operator's token. */
  function OpText(op: Op): (r: string)
    ensures |r| >= 1 && '(' !in r && ')' !in r
  {
    match op
    case Less => "<"
    case LessEq => "<="
    case Greater => ">"
    case GreaterEq => ">="
    case Equal => "=="
    case NotEqual => "!="
    case And => "&&"
    case Or => "||"
  }

  function Truth(b: bool): (r: int)
  {
    if b then 1 else 0
  }

  /** `eval_operator`: the operator named by OP applied to the two operand values. */
  function Apply(op: Op, a: int, b: int): (r: int)
    ensures r == 0 || r == 1
  {
    match op
    case Less => Truth(a < b)
    case LessEq => Truth(a <= b)
    case Greater => Truth(a > b)
    case GreaterEq => Truth(a >= b)
    case Equal => Truth(a == b)
    case NotEqual => Truth(a != b)
    case And => Truth(a != 0 && b != 0)
    case Or => Truth(a != 0 || b != 0)
  }

  /**
   * An expression: a constant operand, `Placeholder<Idx>`, a `Lazy` call of
   * an outside function on argument expressions, or a `BinaryExpr` (whose
   * members the source names `rhs` for the left operand and `lhs` for the
   * right one).
   */
  datatype Expr =
    | Constant(value: int)
    | Placeholder(index: nat)
    | Lazy(callee: nat, arguments: seq<Expr>)
    | Binary(op: Op, left: Expr, right: Expr)

  /** Every placeholder names one of n arguments (a `static_assert` in `Placeholder::eval`). */
  predicate Bound(e: Expr, n: nat)
  {
    match e
    case Constant(_) => true
    case Placeholder(i) => i < n
    case Lazy(_, arguments) => forall k :: 0 <= k < |arguments| ==> Bound(arguments[k], n)
    case Binary(_, l, r) => Bound(l, n) && Bound(r, n)
  }

  /** A function the lazy calls reach: callee and argument values to a result. */
  type Callee = (nat, seq<int>) -> int

  /**
   * `eval`: placeholders read their argument, constants are used as they
   * are, a lazy call evaluates its arguments and calls out, and a binary
   * node applies its operator to both operand values, with no short circuit.
   */
  function Eval(e: Expr, args: seq<int>, call: Callee): int
    requires Bound(e, |args|)
  {
    match e
    case Constant(v) => v
    case Placeholder(i) => args[i]
    case Lazy(callee, arguments) =>
      call(callee, seq(|arguments|, k requires 0 <= k < |arguments| => Eval(arguments[k], args, call)))
    case Binary(op, l, r) => Apply(op, Eval(l, args, call), Eval(r, args, call))
  }

  /**
   * `to_string(args)`: a binary node as "(left op right)", a placeholder as
   * its argument's value and a constant as itself, both through `show` (the
   * `{}` formatting of the value), a lazy call as "<lazy call>".
   */
  function Print(e: Expr, args: seq<int>, show: int -> string): string
    requires Bound(e, |args|)
  {
    match e
    case Constant(v) => show(v)
    case Placeholder(i) => show(args[i])
    case Lazy(_, _) => "<lazy call>"
    case Binary(op, l, r) => "(" + Print(l, args, show) + " " + OpText(op) + " " + Print(r, args, show) + ")"
  }

  /**
   * `to_string(replacements)`: as `Print`, but a placeholder prints the
   * replacement text at its index and a constant prints through `show`
   * (`util::to_string`).
   */
  function PrintWith(e: Expr, replacements: seq<string>, show: int -> string): string
    requires Bound(e, |replacements|)
  {
    match e
    case Constant(v) => show(v)
    case Placeholder(i) => replacements[i]
    case Lazy(_, _) => "<lazy call>"
    case Binary(op, l, r) => "(" + PrintWith(l, replacements, show) + " " + OpText(op) + " " + PrintWith(r, replacements, show) + ")"
  }

  /**
   * `eval_verbose`: evaluates like `eval` and appends to `failed` the text
   * of every binary node whose result is false, its operands' entries
   * first. Placeholders, constants and lazy calls append nothing; a lazy
   * call evaluates its arguments without the verbose walk.
   */
  function EvalVerbose(e: Expr, args: seq<int>, call: Callee, show: int -> string, failed: seq<string>)
    : (r: (int, seq<string>))
    requires Bound(e, |args|)
    ensures r.0 == Eval(e, args, call)
    ensures |failed| <= |r.1| && r.1[..|failed|] == failed
    ensures e.Binary? && r.0 == 0 ==> |r.1| > |failed| && r.1[|r.1| - 1] == Print(e, args, show)
  {
    match e
    case Constant(v) => (v, failed)
    case Placeholder(i) => (args[i], failed)
    case Lazy(_, _) => (Eval(e, args, call), failed)
    case Binary(op, l, rt) =>
      var left := EvalVerbose(l, args, call, show, failed);
      var right := EvalVerbose(rt, args, call, show, left.1);
      var value := Apply(op, left.0, right.0);
      (value, if value == 0 then right.1 + [Print(e, args, show)] else right.1)
  }

  // ---------------------------------------------------------------------
  // Which terms the verbose evaluation records

  /** The binary nodes the verbose walk visits, operands before the node itself. */
  function PostOrder(e: Expr): (r: seq<Expr>)
    ensures forall k :: 0 <= k < |r| ==> r[k].Binary?
  {
    match e
    case Binary(_, l, rt) => PostOrder(l) + PostOrder(rt) + [e]
    case _ => []
  }

  /** Every node `PostOrder` lists is a subterm, so its placeholders are bound as well. */
  lemma {:induction false} PostOrderBound(e: Expr, n: nat)
    requires Bound(e, n)
    ensures forall k :: 0 <= k < |PostOrder(e)| ==> Bound(PostOrder(e)[k], n)
  {
    if e.Binary? {
      PostOrderBound(e.left, n);
      PostOrderBound(e.right, n);
      var a, b := PostOrder(e.left), PostOrder(e.right);
      assert PostOrder(e) == a + b + [e];
      forall k | 0 <= k < |PostOrder(e)|
        ensures Bound(PostOrder(e)[k], n)
      {
        if k < |a| {
          assert PostOrder(e)[k] == a[k];
        } else if k < |a| + |b| {
          assert PostOrder(e)[k] == b[k - |a|];
        }
      }
    }
  }

  predicate AllBound(nodes: seq<Expr>, n: nat)
  {
    forall k :: 0 <= k < |nodes| ==> Bound(nodes[k], n)
  }

  /** The printed form of each listed node that evaluates to false, in order. */
  function FalseTerms(nodes: seq<Expr>, args: seq<int>, call: Callee, show: int -> string): seq<string>
    requires AllBound(nodes, |args|)
  {
    if nodes == [] then []
    else
      var init := nodes[..|nodes| - 1];
      var last := nodes[|nodes| - 1];
      FalseTerms(init, args, call, show)
      + (if Eval(last, args, call) == 0 then [Print(last, args, show)] else [])
  }

  lemma {:induction false} FalseTermsAppend(a: seq<Expr>, b: seq<Expr>, args: seq<int>, call: Callee, show: int -> string)
    requires AllBound(a, |args|) && AllBound(b, |args|)
    ensures AllBound(a + b, |args|)
    ensures FalseTerms(a + b, args, call, show) == FalseTerms(a, args, call, show) + FalseTerms(b, args, call, show)
    decreases |b|
  {
    assert forall k :: 0 <= k < |a + b| ==> (a + b)[k] == (if k < |a| then a[k] else b[k - |a|]);
    if b == [] {
      assert a + b == a;
    } else {
      var init := b[..|b| - 1];
      assert AllBound(init, |args|);
      FalseTermsAppend(a, init, args, call, show);
      assert (a + b)[..|a + b| - 1] == a + init;
      assert (a + b)[|a + b| - 1] == b[|b| - 1];
    }
  }

  lemma ConcatAssociates<T>(w: seq<T>, x: seq<T>, y: seq<T>, z: seq<T>)
    ensures w + x + y + z == w + (x + y + z)
  {
  }

  /**
   * The verbose evaluation appends exactly the printed forms of the false
   * binary nodes, in post-order: every failing comparison is reported once,
   * operands before the expression containing them, and both operands of
   * `&&` and `||` are reported since nothing short-circuits.
   */
  lemma {:induction false} VerboseRecordsFalseNodes(e: Expr, args: seq<int>, call: Callee, show: int -> string, failed: seq<string>)
    requires Bound(e, |args|)
    ensures AllBound(PostOrder(e), |args|)
    ensures EvalVerbose(e, args, call, show, failed).1 == failed + FalseTerms(PostOrder(e), args, call, show)
  {
    PostOrderBound(e, |args|);
    match e
    case Constant(_) =>
    case Placeholder(_) =>
    case Lazy(_, _) =>
    case Binary(op, l, rt) =>
      var left := EvalVerbose(l, args, call, show, failed);
      var right := EvalVerbose(rt, args, call, show, left.1);
      VerboseRecordsFalseNodes(l, args, call, show, failed);
      VerboseRecordsFalseNodes(rt, args, call, show, left.1);
      var a, b := PostOrder(l), PostOrder(rt);
      FalseTermsAppend(a, b, args, call, show);
      assert AllBound([e], |args|);
      FalseTermsAppend(a + b, [e], args, call, show);
      var own := if Eval(e, args, call) == 0 then [Print(e, args, show)] else [];
      assert FalseTerms([e], args, call, show) == own by {
        assert [e][..0] == [];
      }
      assert EvalVerbose(e, args, call, show, failed).1 == right.1 + own;
      var x, y := FalseTerms(a, args, call, show), FalseTerms(b, args, call, show);
      assert FalseTerms(PostOrder(e), args, call, show) == x + y + own;
      ConcatAssociates(failed, x, y, own);
  }

  // ---------------------------------------------------------------------
  // Printing

  /** Both printers agree when each replacement is how its argument's value prints. */
  lemma {:induction false} PrintersAgree(e: Expr, args: seq<int>, replacements: seq<string>, show: int -> string)
    requires |replacements| == |args| && Bound(e, |args|)
    requires forall i :: 0 <= i < |args| ==> replacements[i] == show(args[i])
    ensures PrintWith(e, replacements, show) == Print(e, args, show)
  {
    if e.Binary? {
      PrintersAgree(e.left, args, replacements, show);
      PrintersAgree(e.right, args, replacements, show);
    } else if e.Lazy? {
    }
  }

  /** Round brackets opened minus closed. */
  function Balance(s: string): int
  {
    if s == [] then 0
    else Balance(s[..|s| - 1]) + (if s[|s| - 1] == '(' then 1 else if s[|s| - 1] == ')' then -1 else 0)
  }

  lemma {:induction false} BalanceAppend(a: string, b: string)
    ensures Balance(a + b) == Balance(a) + Balance(b)
    decreases |b|
  {
    if b == [] {
      assert a + b == a;
    } else {
      BalanceAppend(a, b[..|b| - 1]);
      assert (a + b)[..|a + b| - 1] == a + b[..|b| - 1];
    }
  }

  lemma {:induction false} BalanceOfPlain(s: string)
    requires '(' !in s && ')' !in s
    ensures Balance(s) == 0
  {
    if s != [] {
      assert s[|s| - 1] in s;
      assert forall c :: c in s[..|s| - 1] ==> c in s;
      BalanceOfPlain(s[..|s| - 1]);
    }
  }

  /** The placeholder texts and constant spellings used by e contain no round brackets. */
  predicate PlainLeaves(e: Expr, replacements: seq<string>, show: int -> string)
    requires Bound(e, |replacements|)
  {
    match e
    case Constant(v) => '(' !in show(v) && ')' !in show(v)
    case Placeholder(i) => '(' !in replacements[i] && ')' !in replacements[i]
    case Lazy(_, _) => true
    case Binary(_, l, r) => PlainLeaves(l, replacements, show) && PlainLeaves(r, replacements, show)
  }

  /**
   * The printed form is fully parenthesised: a binary node prints between a
   * '(' and a ')', and brackets balance as long as the leaves print none.
   */
  lemma {:induction false} PrintWithBalanced(e: Expr, replacements: seq<string>, show: int -> string)
    requires Bound(e, |replacements|) && PlainLeaves(e, replacements, show)
    ensures Balance(PrintWith(e, replacements, show)) == 0
    ensures e.Binary? ==>
              PrintWith(e, replacements, show)[0] == '(' &&
              PrintWith(e, replacements, show)[|PrintWith(e, replacements, show)| - 1] == ')'
  {
    match e
    case Constant(v) =>
      BalanceOfPlain(show(v));
    case Placeholder(i) =>
      BalanceOfPlain(replacements[i]);
    case Lazy(_, _) =>
      BalanceOfPlain("<lazy call>");
    case Binary(op, l, r) =>
      var a := PrintWith(l, replacements, show);
      var b := PrintWith(r, replacements, show);
      PrintWithBalanced(l, replacements, show);
      PrintWithBalanced(r, replacements, show);
      var middle := " " + OpText(op) + " ";
      BalanceOfPlain(middle);
      BalanceAppend("(", a);
      BalanceAppend("(" + a, middle);
      BalanceAppend("(" + a + middle, b);
      BalanceAppend("(" + a + middle + b, ")");
      assert "(" + a + " " + OpText(op) + " " + b + ")" == "(" + a + middle + b + ")";
  }

  // ---------------------------------------------------------------------
  // The operator table

  /** The comparison that holds exactly when op does not. */
  function Negated(op: Op): Op
    requires op != And && op != Or
  {
    match op
    case Less => GreaterEq
    case LessEq => Greater
    case Greater => LessEq
    case GreaterEq => Less
    case Equal => NotEqual
    case NotEqual => Equal
  }

  /** The comparison that gives the same answer with its operands exchanged. */
  function Mirrored(op: Op): Op
    requires op != And && op != Or
  {
    match op
    case Less => Greater
    case LessEq => GreaterEq
    case Greater => Less
    case GreaterEq => LessEq
    case Equal => Equal
    case NotEqual => NotEqual
  }

  /**
   * Each comparison is the negation of its opposite and agrees with its
   * mirror image on exchanged operands; `&&` and `||` are commutative and
   * dual under negation of their operands' truth.
   */
  lemma OperatorTable(op: Op, a: int, b: int)
    ensures op != And && op != Or ==> Apply(Negated(op), a, b) == 1 - Apply(op, a, b)
    ensures op != And && op != Or ==> Apply(Mirrored(op), b, a) == Apply(op, a, b)
    ensures Apply(And, a, b) == Apply(And, b, a) && Apply(Or, a, b) == Apply(Or, b, a)
    ensures Apply(And, a, b) == 1 - Apply(Or, 1 - Truth(a != 0), 1 - Truth(b != 0))
  {
  }

  /**
   * The C++ meaning of an operator token on two operand values, read from its
   * spelling: the built-in comparisons of `int`, and `&&` / `||` on the
   * operands converted to `bool`. A token that is none of these holds for
   * no values.
   */
  predicate Holds(token: string, a: int, b: int)
  {
    if token == "<" then a < b
    else if token == "<=" then !(b < a)
    else if token == ">" then b < a
    else if token == ">=" then !(a < b)
    else if token == "==" then a == b
    else if token == "!=" then !(a == b)
    else if token == "&&" then a != 0 && b != 0
    else if token == "||" then !(a == 0 && b == 0)
    else false
  }

  /**
   * The operator `eval_operator` applies is the one the printers show: an
   * expression yields 1 exactly when its printed token holds between the
   * operand values, and no two operators share a token.
   */
  lemma ComparisonMeaning(op: Op, a: int, b: int)
    ensures Apply(op, a, b) == 1 <==> Holds(OpText(op), a, b)
    ensures forall other: Op :: OpText(other) == OpText(op) ==> other == op
  {
  }

  // ---------------------------------------------------------------------
  // A worked case

  function Digits(v: int): string
  {
    if v == 5 then "5" else if v == 1 then "1" else "?"
  }

  /**
   * `($0 < 1) && ($1 < 1)` with both arguments 5: both comparisons fail and
   * so does the conjunction; all three are reported, innermost first.
   */
  lemma BothOperandsReported(call: Callee)
    ensures var a := Binary(Less, Placeholder(0), Constant(1));
      var b := Binary(Less, Placeholder(1), Constant(1));
      var e := Binary(And, a, b);
      Bound(e, 2) &&
      var r := EvalVerbose(e, [5, 5], call, Digits, []);
      r.0 == 0 && r.1 == ["(5 < 1)", "(5 < 1)", Print(e, [5, 5], Digits)]
  {
    var a := Binary(Less, Placeholder(0), Constant(1));
    var b := Binary(Less, Placeholder(1), Constant(1));
    var e := Binary(And, a, b);
    var args := [5, 5];
    FiveBelowOneFails(0, call, []);
    FiveBelowOneFails(1, call, ["(5 < 1)"]);
    var ra := EvalVerbose(a, args, call, Digits, []);
    var rb := EvalVerbose(b, args, call, Digits, ra.1);
    assert rb.1 == ["(5 < 1)"] + ["(5 < 1)"];
    assert EvalVerbose(e, args, call, Digits, []) == (0, rb.1 + [Print(e, args, Digits)]);
  }

  lemma FiveBelowOneFails(i: nat, call: Callee, failed: seq<string>)
    requires i < 2
    ensures var e := Binary(Less, Placeholder(i), Constant(1));
      Bound(e, 2) && Print(e, [5, 5], Digits) == "(5 < 1)" &&
      EvalVerbose(e, [5, 5], call, Digits, failed) == (0, failed + ["(5 < 1)"])
  {
    var e := Binary(Less, Placeholder(i), Constant(1));
    var args := [5, 5];
    assert Bound(Placeholder(i), 2) && Bound(Constant(1), 2);
    assert args[i] == 5;
    assert Print(Placeholder(i), args, Digits) == "5" && Print(Constant(1), args, Digits) == "1";
    assert Print(e, args, Digits) == "(" + "5" + " " + "<" + " " + "1" + ")" == "(5 < 1)";
    assert EvalVerbose(Placeholder(i), args, call, Digits, failed) == (5, failed);
    assert EvalVerbose(Constant(1), args, call, Digits, failed) == (1, failed);
    assert EvalVerbose(e, args, call, Digits, failed) == (0, failed + [Print(e, args, Digits)]);
  }

  /**
   * Failures inside a lazy call's arguments are not reported: `$0 < 1` with
   * argument 5 is false, but the call evaluates it without collecting it.
   */
  lemma LazyArgumentsNotReported(call: Callee, show: int -> string)
    ensures var inner := Binary(Less, Placeholder(0), Constant(1));
      Bound(inner, 1) && Eval(inner, [5], call) == 0 &&
      EvalVerbose(Lazy(0, [inner]), [5], call, show, []).1 == []
  {
  }
}

=== FILE: fifo.dfy ===
/**
 * The reference behaviour both bounded queues are held to: a first-in
 * first-out sequence with a fixed capacity, where a push into a full queue and
 * a pop from an empty one fail and change nothing.
 */
module Fifo {
  import opened Wrappers

  datatype Op<T> = Push(item: T) | Pop

  datatype Reply<T> = Pushed(ok: bool) | Popped(item: Option<T>)

  function Step<T>(contents: seq<T>, cap: nat, op: Op<T>): (r: (seq<T>, Reply<T>))
    ensures op.Push? ==> r.1 == Pushed(|contents| < cap)
    ensures op.Pop? ==> r.1 == Popped(if |contents| == 0 then None else Some(contents[0]))
    ensures |contents| <= cap ==> |r.0| <= cap
  {
    match op
    case Push(x) => if |contents| < cap then (contents + [x], Pushed(true)) else (contents, Pushed(false))
    case Pop => if |contents| > 0 then (contents[1..], Popped(Some(contents[0]))) else (contents, Popped(None))
  }

  /** Applies the operations in order, collecting one reply per operation. */
  function Run<T>(contents: seq<T>, cap: nat, ops: seq<Op<T>>): (r: (seq<T>, seq<Reply<T>>))
    ensures |r.1| == |ops|
  {
    if |ops| == 0 then (contents, [])
    else
      var (mid, replies) := Run(contents, cap, ops[..|ops| - 1]);
      var (last, reply) := Step(mid, cap, ops[|ops| - 1]);
      (last, replies + [reply])
  }

  /** The items whose push was accepted, in the order they were pushed. */
  function Accepted<T>(ops: seq<Op<T>>, replies: seq<Reply<T>>): seq<T>
    requires |replies| == |ops|
  {
    if |ops| == 0 then []
    else
      Accepted(ops[..|ops| - 1], replies[..|ops| - 1])
      + (if ops[|ops| - 1].Push? && replies[|ops| - 1] == Pushed(true) then [ops[|ops| - 1].item] else [])
  }

  /** The items that pops returned, in the order they were returned. */
  function Delivered<T>(replies: seq<Reply<T>>): seq<T>
  {
    if |replies| == 0 then []
    else
      Delivered(replies[..|replies| - 1])
      + (match replies[|replies| - 1] case Popped(Some(x)) => [x] case _ => [])
  }

  /**
   * Starting empty, the items delivered so far followed by those still queued
   * are exactly the accepted items: pops return items in push order, nothing
   * is lost and nothing is duplicated.
   */
  lemma {:induction false} DeliveredInPushOrder<T>(cap: nat, ops: seq<Op<T>>)
    ensures Delivered(Run([], cap, ops).1) + Run([], cap, ops).0 == Accepted(ops, Run([], cap, ops).1)
  {
    if |ops| > 0 {
      var prefix := ops[..|ops| - 1];
      DeliveredInPushOrder(cap, prefix);
      var (mid, replies) := Run([], cap, prefix);
      var (last, reply) := Step(mid, cap, ops[|ops| - 1]);
      var all := replies + [reply];
      assert all[..|ops| - 1] == replies;
      assert all[|ops| - 1] == reply;
      if ops[|ops| - 1].Pop? && |mid| > 0 {
        assert mid == [mid[0]] + mid[1..];
      }
    }
  }
}

=== FILE: hash.dfy ===
/**
 * The FNV-style string hash and the hash combiner of the RPC experiments.
 * All arithmetic is on `std::uint32_t`, so it is modelled on `bv32`, whose
 * addition, multiplication and shifts wrap modulo 2^32 exactly as the
 * source's do; characters enter as `unsigned char`, modelled as `bv8`.
 */
module Hash {
  /** The value the hash starts from (the source's choice: 16777619). */
  const Start: bv32 := 16777619
  /** The multiplier applied after each byte (the source's choice: 2166136261). */
  const Multiplier: bv32 := 2166136261

  /** The golden-ratio constant of `hash_combine`. */
  const Golden: bv32 := 0x9e37_79b9

  /** `hash ^= static_cast<unsigned char>(c)`: the byte, zero-extended, XORed in. */
  function Absorb(hash: bv32, b: bv8): bv32
  {
    hash ^ (b as bv32)
  }

  /** `hash *= 2166136261`, modulo 2^32. */
  function Scramble(hash: bv32): bv32
  {
    hash * Multiplier
  }

  /** One round: XOR the byte in, then multiply. */
  function Round(hash: bv32, b: bv8): bv32
  {
    Scramble(Absorb(hash, b))
  }

  /**
   * The hash as a fold: the rounds over `bytes`, in order, from `hash`. This
   * is the loop's definition written recursively, not an independent
   * specification.
   */
  function Rounds(hash: bv32, bytes: seq<bv8>): bv32
  {
    if bytes == [] then hash else Round(Rounds(hash, bytes[..|bytes| - 1]), bytes[|bytes| - 1])
  }

  /** `fnv1a(char const*, size_t)`: the loop over the bytes. */
  method Fnv1a(bytes: seq<bv8>) returns (hash: bv32)
    ensures hash == Rounds(Start, bytes)
  {
    hash := Start;
    var idx := 0;
    while idx < |bytes|
      invariant 0 <= idx <= |bytes|
      invariant hash == Rounds(Start, bytes[..idx])
    {
      assert bytes[..idx + 1][..idx] == bytes[..idx];
      hash := Absorb(hash, bytes[idx]);
      hash := Scramble(hash);
      idx := idx + 1;
    }
    assert bytes[..idx] == bytes;
  }

  /** `static_cast<unsigned char>` of a character: its code modulo 256. */
  function Unsigned(c: char): bv8
  {
    (c as int % 256) as bv8
  }

  function BytesOf(s: string): (r: seq<bv8>)
    ensures |r| == |s| && forall i :: 0 <= i < |s| ==> r[i] == Unsigned(s[i])
  {
    if s == [] then [] else [Unsigned(s[0])] + BytesOf(s[1..])
  }

  /** `fnv1a(std::string_view)`: the same hash over the view's characters. */
  method Fnv1aView(s: string) returns (hash: bv32)
    ensures hash == Rounds(Start, BytesOf(s))
  {
    hash := Fnv1a(BytesOf(s));
  }

  /** The hash can be computed piecewise: hashing a + b continues from the hash of a. */
  lemma {:induction false} RoundsAppend(hash: bv32, a: seq<bv8>, b: seq<bv8>)
    ensures Rounds(hash, a + b) == Rounds(Rounds(hash, a), b)
    decreases |b|
  {
    if b == [] {
      assert a + b == a;
    } else {
      var init := b[..|b| - 1];
      RoundsAppend(hash, a, init);
      assert (a + b)[..|a + b| - 1] == a + init;
    }
  }

  /**
   * The source's start value and multiplier are FNV-1a's prime and offset
   * basis exchanged, so its hashes differ from FNV-1a's: "a" hashes to
   * 0xeeaae93a here, where FNV-1a gives 0xe40c292c.
   */
  lemma HashOfA()
    ensures Rounds(Start, BytesOf("a")) == 0xeeaa_e93a
    ensures Rounds(Start, BytesOf("a")) != 0xe40c_292c
  {
    var bytes := BytesOf("a");
    assert bytes == [97];
    assert bytes[..0] == [];
  }

  /** An integral value converted to `std::uint32_t`: reduced modulo 2^32. */
  function ToU32(value: int): bv32
  {
    (value % 0x1_0000_0000) as bv32
  }

  /** A value and the same value plus 2^32 convert alike. */
  lemma ToU32Wraps(value: int)
    ensures ToU32(value + 0x1_0000_0000) == ToU32(value)
  {
    assert (value + 0x1_0000_0000) % 0x1_0000_0000 == value % 0x1_0000_0000;
  }

  /** One `hash ^= value + 0x9e3779b9 + (hash << 6) + (hash >> 2)`. */
  function Mix(hash: bv32, value: bv32): bv32
  {
    hash ^ (value + Golden + (hash << 6) + (hash >> 2))
  }

  /** `hash_combine`: the fold over the values, left to right, each step seeing the updated hash. */
  function Combine(hash: bv32, values: seq<int>): bv32
    decreases |values|
  {
    if values == [] then hash else Combine(Mix(hash, ToU32(values[0])), values[1..])
  }

  /** Combining a + b combines b into the result of combining a. */
  lemma {:induction false} CombineAppend(hash: bv32, a: seq<int>, b: seq<int>)
    ensures Combine(hash, a + b) == Combine(Combine(hash, a), b)
    decreases |a|
  {
    if a != [] {
      assert (a + b)[0] == a[0] && (a + b)[1..] == a[1..] + b;
      CombineAppend(Mix(hash, ToU32(a[0])), a[1..], b);
    } else {
      assert a + b == b;
    }
  }

  /** Combining no values leaves the hash alone; combining one value is one mixing step. */
  lemma CombineSingle(hash: bv32, value: int)
    ensures Combine(hash, []) == hash
    ensures Combine(hash, [value]) == Mix(hash, ToU32(value))
  {
    assert [value][1..] == [];
  }
}

=== FILE: hybrid_buffer.dfy ===
/**
 * `slo::message::HybridBuffer`: a byte buffer that starts in an inline array
 * of `inline_capacity` bytes and moves to a heap block once it outgrows it.
 * The inline array and the heap descriptor share one union, and which of the
 * two `data()` returns is decided by comparing the cursor with the inline
 * capacity alone.
 */
module HybridBuffer {
  import opened Bytes
  import opened Storage

  datatype Buffer = Buffer(cap: nat, cursor: nat, inline: seq<Cell>, heap: seq<Cell>, heapCapacity: nat)
  {
    predicate Valid()
    {
      |inline| == cap && |heap| == heapCapacity && (cursor > cap ==> cursor <= heapCapacity)
    }
  }

  function Max(a: nat, b: nat): nat
  {
    if a >= b then a else b
  }

  /** The constructor zeroes the inline array; there is no heap block yet. */
  function Init(cap: nat): (r: Buffer)
    ensures r.Valid() && r.cursor == 0 && Finalize(r) == []
  {
    Buffer(cap, 0, seq(cap, _ => Stored(0)), [], 0)
  }

  /** `allocate_heap`: a fresh block holding the first `cursor` inline bytes; the descriptor lands in the union. */
  function AllocateHeap(b: Buffer, capacity: nat): (r: Buffer)
    requires b.Valid() && b.cursor <= b.cap && b.cursor <= capacity
    ensures r.Valid() && r.cursor == b.cursor && r.heapCapacity == capacity
    ensures r.heap[..b.cursor] == b.inline[..b.cursor]
  {
    b.(heap := b.inline[..b.cursor] + Fresh(capacity - b.cursor), heapCapacity := capacity,
       inline := Clobber(b.inline))
  }

  /** `resize_heap`: `realloc` to exactly the requested capacity. */
  function ResizeHeap(b: Buffer, capacity: nat): (r: Buffer)
    requires b.Valid() && b.cap < b.cursor <= capacity
    ensures r.Valid() && r.cursor == b.cursor && r.heapCapacity == capacity && r.inline == b.inline
    ensures r.heap[..b.cursor] == b.heap[..b.cursor]
  {
    b.(heap := Realloc(b.heap, capacity), heapCapacity := capacity)
  }

  /** `write`: copies the bytes at the cursor, moving to (or growing) the heap when they do not fit. */
  function Write(b: Buffer, data: seq<byte>): (r: Buffer)
    requires b.Valid()
    ensures r.Valid() && r.cap == b.cap && r.cursor == b.cursor + |data|
    ensures b.cursor + |data| <= b.cap ==> r.heap == b.heap && r.inline[..b.cursor] == b.inline[..b.cursor]
    ensures b.cursor <= b.cap < b.cursor + |data| ==>
              r.heapCapacity == Max(b.cursor + |data|, 2 * b.cap) && r.heap[..b.cursor] == b.inline[..b.cursor]
    ensures b.cap < b.cursor ==>
              r.heapCapacity == (if b.cursor + |data| > b.heapCapacity then b.cursor + |data| else b.heapCapacity)
  {
    var end := b.cursor + |data|;
    if end <= b.cap then
      b.(inline := Overwrite(b.inline, b.cursor, data), cursor := end)
    else
      var grown :=
        if b.cursor <= b.cap then AllocateHeap(b, Max(end, 2 * b.cap))
        else if end > b.heapCapacity then ResizeHeap(b, end)
        else b;
      grown.(heap := Overwrite(grown.heap, b.cursor, data), cursor := end)
  }

  /** `reserve`: makes room for n more bytes without writing any. */
  function Reserve(b: Buffer, n: nat): (r: Buffer)
    requires b.Valid()
    ensures r.Valid() && r.cap == b.cap && r.cursor == b.cursor
    ensures b.cursor + n <= b.cap ==> r == b
    ensures b.cap < b.cursor ==> r.inline == b.inline && r.heapCapacity >= b.cursor + n
  {
    if b.cursor + n <= b.cap then b
    else if b.cursor <= b.cap then AllocateHeap(b, b.cursor + n)
    else if b.cursor + n > b.heapCapacity then ResizeHeap(b, b.cursor + n)
    else b
  }

  /** `data()`: the inline array while the cursor is within the inline capacity, else the heap block. */
  function Data(b: Buffer): seq<Cell>
  {
    if b.cursor <= b.cap then b.inline else b.heap
  }

  /** `finalize()`: the first `size()` cells of `data()`. */
  function Finalize(b: Buffer): (r: seq<Cell>)
    requires b.Valid()
    ensures |r| == b.cursor
  {
    Data(b)[..b.cursor]
  }

  /** The buffer shows exactly the bytes w written so far. */
  predicate Holds(b: Buffer, w: seq<byte>)
  {
    b.Valid() && b.cursor == |w| && Finalize(b) == Cells(w)
  }

  /** Every write appends its bytes to what the buffer shows. */
  lemma WriteAppends(b: Buffer, w: seq<byte>, data: seq<byte>)
    requires Holds(b, w)
    ensures Holds(Write(b, data), w + data)
  {
    var r := Write(b, data);
    CellsAppend(w, data);
    assert Finalize(r) == Data(r)[..b.cursor] + Data(r)[b.cursor..r.cursor];
  }

  /**
   * `reserve` keeps the shown bytes unless it moves a non-empty buffer to the
   * heap while the cursor is still within the inline capacity; then the first
   * shown byte belongs to the heap descriptor.
   */
  lemma ReserveKeeps(b: Buffer, w: seq<byte>, n: nat)
    requires Holds(b, w)
    ensures Holds(Reserve(b, n), w) <==> !(0 < b.cursor <= b.cap < b.cursor + n)
    ensures 0 < b.cursor <= b.cap < b.cursor + n ==> Finalize(Reserve(b, n))[0] == DescriptorByte
  {
    var r := Reserve(b, n);
    if 0 < b.cursor <= b.cap < b.cursor + n {
      assert Finalize(r)[0] == r.inline[0] == DescriptorByte;
      assert Cells(w)[0] == Stored(w[0]);
    }
  }

  /** Applies the calls in order. */
  function Run(b: Buffer, ops: seq<Op>): (r: Buffer)
    requires b.Valid()
    ensures r.Valid() && r.cap == b.cap
  {
    if |ops| == 0 then b
    else
      var prev := Run(b, ops[..|ops| - 1]);
      match ops[|ops| - 1]
      case WriteOp(data) => Write(prev, data)
      case ReserveOp(n) => Reserve(prev, n)
  }

  /** A buffer that only ever receives writes shows exactly the bytes written. */
  lemma {:induction false} WritesOnlyShowWritten(cap: nat, ops: seq<Op>)
    requires OnlyWrites(ops)
    ensures Holds(Run(Init(cap), ops), Written(ops))
  {
    if |ops| > 0 {
      var prefix := ops[..|ops| - 1];
      assert OnlyWrites(prefix) by {
        forall i | 0 <= i < |prefix| ensures prefix[i].WriteOp? {
          assert prefix[i] == ops[i];
        }
      }
      WritesOnlyShowWritten(cap, prefix);
      WriteAppends(Run(Init(cap), prefix), Written(prefix), ops[|ops| - 1].bytes);
    }
  }

  /**
   * With a 64-byte inline array, writing one byte and then reserving room for
   * 64 more (as serializing a 64-byte range does) loses the byte.
   */
  lemma ReserveLosesByte()
    ensures Finalize(Run(Init(64), [WriteOp([7]), ReserveOp(64)])) == [DescriptorByte]
    ensures Written([WriteOp([7]), ReserveOp(64)]) == [7]
  {
    var ops := [WriteOp([7]), ReserveOp(64)];
    assert ops[..1] == [WriteOp([7])];
    assert ops[..1][..0] == [];
    var b1 := Write(Init(64), [7]);
    assert Run(Init(64), ops[..1]) == b1;
    assert Written(ops[..1]) == [7];
    ReserveKeeps(b1, [7], 64);
  }
}

=== FILE: kwargs.dfy ===
/**
 * The two string processors behind keyword arguments: the lambda
 * capture-list parser that collects the captured names, and the format
 * rewriter that replaces `{name}` fields by the name's position.
 */
module Kwargs {
  import opened Wrappers
  import opened Parsing
  import Strings

  /** Characters that end a capture name: `=`, `,` and whitespace. */
  const NameEnd: set<char> := {'=', ',', ' ', '\n', '\r', '\t'}

  /**
   * `NameParser::parse`: the names of a capture list in order, or `None`
   * when the list captures a pack, has a default or empty capture, or
   * captures `this`.
   */
  function ParseNames(data: string): (r: Option<seq<string>>)
    ensures r.Some? ==> forall i :: 0 <= i < |r.value| ==> ValidName(r.value[i])
  {
    ParseFrom(Parser(data, 0), [])
  }

  /** What every collected name satisfies. */
  predicate ValidName(name: string)
  {
    |name| >= 1 && name[0] != '.' && !Skippable(name[0]) && name != "this" && name != "*this"
  }

  /** One pass of the parse loop per capture; `names` holds the names found so far. */
  function ParseFrom(p: Parser, names: seq<string>): (r: Option<seq<string>>)
    requires p.cursor <= |p.data| + 1
    ensures r.Some? ==> names <= r.value
    ensures r.Some? ==> forall i :: |names| <= i < |r.value| ==> ValidName(r.value[i])
    decreases |p.data| + 1 - p.cursor
  {
    if !IsValid(p) then Some(names)
    else
      var step := NextCapture(p);
      if step.None? then None
      else ParseFrom(step.value.1, names + [step.value.0])
  }

  /**
   * The body of the parse loop: skip blanks and an `&`, reject a pack, take
   * the name up to `=`, `,` or whitespace, reject an empty name or `this`,
   * then move past the next top-level comma and the blanks after it.
   */
  function NextCapture(p: Parser): (r: Option<(string, Parser)>)
    requires IsValid(p)
    ensures r.Some? ==> ValidName(r.value.0)
    ensures r.Some? ==> r.value.1.data == p.data && p.cursor < r.value.1.cursor <= |p.data| + 1
  {
    var p2 := CaptureStart(p);
    if Current(p2) == '.' then None else TakeName(p2)
  }

  /** Blanks, then an optional `&` and the blanks after it. */
  function CaptureStart(p: Parser): (r: Parser)
    requires IsValid(p)
    ensures r.data == p.data && p.cursor <= r.cursor <= |p.data|
    ensures r.cursor < |p.data| ==> !Skippable(Current(r))
  {
    var p1 := SkipWhitespace(p);
    if Current(p1) == '&' then SkipWhitespace(p1.(cursor := p1.cursor + 1)) else p1
  }

  function TakeName(p2: Parser): (r: Option<(string, Parser)>)
    requires p2.cursor <= |p2.data|
    requires Current(p2) != '.' && (p2.cursor < |p2.data| ==> !Skippable(Current(p2)))
    ensures r.Some? ==> ValidName(r.value.0)
    ensures r.Some? ==> r.value.1.data == p2.data && p2.cursor < r.value.1.cursor <= |p2.data| + 1
  {
    var p3 := SkipTo(p2, NameEnd);
    if p3.cursor == p2.cursor then None
    else
      var name := p2.data[p2.cursor..p3.cursor];
      if name == "this" || name == "*this" then None
      else
        assert name[0] == Current(p2);
        Some((name, PastComma(p3)))
  }

  /** `skip_to(',')`, one step over the comma, and the blanks after it. */
  function PastComma(p3: Parser): (r: Parser)
    requires p3.cursor <= |p3.data|
    ensures r.data == p3.data && p3.cursor < r.cursor <= |p3.data| + 1
  {
    var p4 := SkipTo(p3, {','});
    SkipWhitespace(p4.(cursor := p4.cursor + 1))
  }

  /** Characters of a plain identifier. */
  predicate IdentChar(c: char)
  {
    ('a' <= c <= 'z') || ('A' <= c <= 'Z') || ('0' <= c <= '9') || c == '_'
  }

  predicate Identifier(name: string)
  {
    |name| >= 1 && name != "this" && forall i :: 0 <= i < |name| ==> IdentChar(name[i])
  }

  /** One capture of a lambda's capture list: a name, by value or by reference. */
  datatype Capture = Capture(byReference: bool, name: string)

  function RenderCapture(c: Capture): string
  {
    (if c.byReference then "&" else "") + c.name
  }

  /** A capture list written the usual way, `a, &b, c`. */
  function RenderCaptures(cs: seq<Capture>): string
  {
    if cs == [] then ""
    else if |cs| == 1 then RenderCapture(cs[0])
    else RenderCapture(cs[0]) + ", " + RenderCaptures(cs[1..])
  }

  function Names(cs: seq<Capture>): (r: seq<string>)
    ensures |r| == |cs|
    ensures forall i :: 0 <= i < |cs| ==> r[i] == cs[i].name
  {
    if cs == [] then [] else [cs[0].name] + Names(cs[1..])
  }

  predicate PlainCaptures(cs: seq<Capture>)
  {
    forall i :: 0 <= i < |cs| ==> Identifier(cs[i].name)
  }

  /** The parser recovers the names of every plain capture list, in order. */
  lemma ParseRenderedCaptures(cs: seq<Capture>)
    requires PlainCaptures(cs)
    ensures ParseNames(RenderCaptures(cs)) == Some(Names(cs))
  {
    var data := RenderCaptures(cs);
    if cs == [] {
      assert !IsValid(Parser(data, 0));
    } else {
      var none: seq<string> := [];
      assert none + Names(cs) == Names(cs);
      ParseCapturesFrom(data, 0, cs, none);
    }
  }

  lemma {:induction false} ParseCapturesFrom(data: string, from: nat, cs: seq<Capture>, acc: seq<string>)
    requires cs != [] && PlainCaptures(cs)
    requires from <= |data| && data[from..] == RenderCaptures(cs)
    ensures ParseFrom(Parser(data, from), acc) == Some(acc + Names(cs))
    decreases |cs|
  {
    if |cs| == 1 {
      ParseSingle(data, from, cs, acc);
    } else {
      var next := from + |RenderCapture(cs[0])| + 2;
      RenderedCons(data, from, cs);
      ParseNext(data, from, next, cs[0], acc);
      ParseCapturesFrom(data, next, cs[1..], acc + [cs[0].name]);
      NamesCons(cs, acc);
    }
  }

  lemma ParseSingle(data: string, from: nat, cs: seq<Capture>, acc: seq<string>)
    requires |cs| == 1 && PlainCaptures(cs)
    requires from <= |data| && data[from..] == RenderCaptures(cs)
    ensures ParseFrom(Parser(data, from), acc) == Some(acc + Names(cs))
  {
    assert Identifier(cs[0].name);
    ParseLast(data, from, cs[0], acc);
    assert Names(cs) == [cs[0].name];
  }

  /** Where the second capture of a rendered list starts, and what surrounds that point. */
  lemma RenderedCons(data: string, from: nat, cs: seq<Capture>)
    requires |cs| >= 2 && PlainCaptures(cs)
    requires from <= |data| && data[from..] == RenderCaptures(cs)
    ensures var next := from + |RenderCapture(cs[0])| + 2;
      next < |data| && data[next..] == RenderCaptures(cs[1..]) && PlainCaptures(cs[1..]) &&
      Identifier(cs[0].name) && data[from..next - 2] == RenderCapture(cs[0]) &&
      data[next - 2] == ',' && data[next - 1] == ' ' && !Skippable(data[next])
  {
    var c := cs[0];
    var end := from + |RenderCapture(c)|;
    var tail := cs[1..];
    assert Identifier(c.name) && Identifier(cs[1].name);
    assert RenderCaptures(cs) == RenderCapture(c) + ", " + RenderCaptures(tail);
    assert RenderCaptures(tail)[0] == RenderCapture(cs[1])[0];
    IdentNotSpecial(cs[1].name[0]);
  }

  lemma NamesCons(cs: seq<Capture>, acc: seq<string>)
    requires cs != []
    ensures acc + [cs[0].name] + Names(cs[1..]) == acc + Names(cs)
  {
  }

  /** The parse loop over a plain capture that ends the text. */
  lemma ParseLast(data: string, from: nat, c: Capture, acc: seq<string>)
    requires Identifier(c.name)
    requires from + |RenderCapture(c)| == |data|
    requires data[from..] == RenderCapture(c)
    ensures ParseFrom(Parser(data, from), acc) == Some(acc + [c.name])
  {
    PastCommaAtEnd(data, |data|);
    NextCaptureAt(data, from, |data| + 1, c);
    assert IsValid(Parser(data, from));
  }

  /** One turn of the parse loop over a plain capture followed by `, ` and another capture. */
  lemma ParseNext(data: string, from: nat, next: nat, c: Capture, acc: seq<string>)
    requires Identifier(c.name)
    requires next == from + |RenderCapture(c)| + 2 && next < |data|
    requires data[from..next - 2] == RenderCapture(c)
    requires data[next - 2] == ',' && data[next - 1] == ' ' && !Skippable(data[next])
    ensures ParseFrom(Parser(data, from), acc) == ParseFrom(Parser(data, next), acc + [c.name])
  {
    PastCommaBetween(data, next - 2);
    NextCaptureAt(data, from, next, c);
    assert IsValid(Parser(data, from));
  }

  /**
   * One loop pass over a plain capture at `from` that is followed by the end
   * of the text or by a comma; `after` is where the loop resumes.
   */
  lemma NextCaptureAt(data: string, from: nat, after: nat, c: Capture)
    requires Identifier(c.name)
    requires from + |RenderCapture(c)| <= |data|
    requires data[from..from + |RenderCapture(c)|] == RenderCapture(c)
    requires from + |RenderCapture(c)| == |data| || data[from + |RenderCapture(c)|] == ','
    requires PastComma(Parser(data, from + |RenderCapture(c)|)) == Parser(data, after)
    ensures NextCapture(Parser(data, from)) == Some((c.name, Parser(data, after)))
  {
    var start := from + (if c.byReference then 1 else 0);
    CaptureLayout(data, from, start, c);
    NextCaptureFromStart(data, from, start, after, c.byReference, c.name);
  }

  lemma NextCaptureFromStart(data: string, from: nat, start: nat, after: nat, byReference: bool, name: string)
    requires Identifier(name)
    requires start == from + (if byReference then 1 else 0)
    requires start + |name| <= |data| && data[start..start + |name|] == name
    requires start + |name| == |data| || data[start + |name|] == ','
    requires byReference ==> data[from] == '&'
    requires PastComma(Parser(data, start + |name|)) == Parser(data, after)
    ensures NextCapture(Parser(data, from)) == Some((name, Parser(data, after)))
  {
    CaptureStartAt(data, from, start, byReference, name);
    NextCaptureStep(data, from, start);
    TakeNameAt(data, start, name);
  }

  /** Where the name of a rendered capture lies in the text. */
  lemma CaptureLayout(data: string, from: nat, start: nat, c: Capture)
    requires Identifier(c.name)
    requires from + |RenderCapture(c)| <= |data|
    requires data[from..from + |RenderCapture(c)|] == RenderCapture(c)
    requires from + |RenderCapture(c)| == |data| || data[from + |RenderCapture(c)|] == ','
    requires start == from + (if c.byReference then 1 else 0)
    ensures start + |c.name| == from + |RenderCapture(c)|
    ensures start + |c.name| <= |data| && data[start..start + |c.name|] == c.name
    ensures start + |c.name| == |data| || data[start + |c.name|] == ','
    ensures c.byReference ==> data[from] == '&'
  {
    var end := start + |c.name|;
    assert data[start..end] == data[from..from + |RenderCapture(c)|][start - from..];
    assert data[from] == RenderCapture(c)[0];
  }

  /** After the blanks and the `&`, a capture that is not a pack is handed to the name step. */
  lemma NextCaptureStep(data: string, from: nat, start: nat)
    requires from < |data| && start < |data|
    requires CaptureStart(Parser(data, from)) == Parser(data, start) && data[start] != '.'
    ensures NextCapture(Parser(data, from)) == TakeName(Parser(data, start))
  {
  }

  lemma CaptureStartAt(data: string, from: nat, start: nat, byReference: bool, name: string)
    requires Identifier(name)
    requires start == from + (if byReference then 1 else 0)
    requires start + |name| <= |data| && data[start..start + |name|] == name
    requires byReference ==> data[from] == '&'
    ensures CaptureStart(Parser(data, from)) == Parser(data, start)
    ensures data[start] == name[0] && data[start] != '.'
  {
    assert data[start] == name[0];
    IdentNotSpecial(name[0]);
    SkipWhitespaceFlat(data, from, 0);
    if byReference {
      SkipWhitespaceFlat(data, start, 0);
    }
  }

  /** At the end of the text the loop steps one past it. */
  lemma PastCommaAtEnd(data: string, end: nat)
    requires end == |data|
    ensures PastComma(Parser(data, end)) == Parser(data, end + 1)
  {
    SkipToFlat(data, end, 0, {','});
  }

  /** Past `, ` the loop resumes at the next capture. */
  lemma PastCommaBetween(data: string, end: nat)
    requires end + 2 < |data| && data[end] == ',' && data[end + 1] == ' ' && !Skippable(data[end + 2])
    ensures PastComma(Parser(data, end)) == Parser(data, end + 2)
  {
    SkipToFlat(data, end, 0, {','});
    SkipWhitespaceFlat(data, end + 1, 1);
  }

  lemma TakeNameAt(data: string, start: nat, name: string)
    requires Identifier(name)
    requires start + |name| <= |data| && data[start..start + |name|] == name
    requires start + |name| == |data| || data[start + |name|] == ','
    ensures Current(Parser(data, start)) != '.' && !Skippable(Current(Parser(data, start)))
    ensures TakeName(Parser(data, start)) == Some((name, PastComma(Parser(data, start + |name|))))
  {
    assert data[start] == name[0];
    IdentNotSpecial(name[0]);
    NameChars(data, start, name);
    SkipToFlat(data, start, |name|, NameEnd);
    assert name != "*this" by {
      assert "*this"[0] == '*';
    }
  }

  lemma IdentNotSpecial(c: char)
    requires IdentChar(c)
    ensures c !in NameEnd && !IsOpen(c) && !IsClose(c) && !Skippable(c) && c != '.' && c != '&'
  {
  }

  /** The characters of a name embedded in a text are identifier characters there too. */
  lemma NameChars(data: string, start: nat, name: string)
    requires Identifier(name) && start + |name| <= |data| && data[start..start + |name|] == name
    ensures forall i :: start <= i < start + |name| ==> IdentChar(data[i])
    ensures forall i :: start <= i < start + |name| ==> data[i] !in NameEnd && !IsOpen(data[i]) && !IsClose(data[i])
  {
    forall i | start <= i < start + |name|
      ensures IdentChar(data[i])
    {
      assert data[i] == name[i - start];
    }
    forall i | start <= i < start + |name|
      ensures data[i] !in NameEnd && !IsOpen(data[i]) && !IsClose(data[i])
    {
      IdentNotSpecial(data[i]);
    }
  }

  /** A pack expansion is rejected. */
  lemma RejectsPack()
    ensures ParseNames("...xs").None?
  {
    var pack := "...xs";
    assert Current(SkipWhitespace(Parser(pack, 0))) == '.';
  }

  /** A default capture `=` leaves an empty name, which is rejected. */
  lemma RejectsDefaultCapture()
    ensures ParseNames("=").None?
  {
    var dflt := "=";
    assert SkipWhitespace(Parser(dflt, 0)) == Parser(dflt, 0);
    SkipToFlat(dflt, 0, 0, NameEnd);
  }

  /** Capturing `this` is rejected even after a valid capture. */
  lemma RejectsThis()
    ensures ParseNames("x, this").None?
  {
    var withThis := "x, this";
    var x := Capture(false, "x");
    assert withThis[0..1] == RenderCapture(x);
    ParseNext(withThis, 0, 3, x, []);
    TakeThis(withThis);
  }

  lemma TakeThis(withThis: string)
    requires withThis == "x, this"
    ensures NextCapture(Parser(withThis, 3)).None?
  {
    SkipWhitespaceFlat(withThis, 3, 0);
    SkipToFlat(withThis, 3, 4, NameEnd);
    assert withThis[3..7] == "this";
  }

  /**
   * `FmtParser::transform`: every character is copied; after a `{` that does
   * not open an escape, the field name up to `}` or `:` is replaced by the
   * decimal index of that name. A `{{` escape copies everything up to its
   * matching `}` verbatim.
   */
  function Transform(fmt: string, names: seq<string>): string
  {
    TransformFrom(Parser(fmt, 0), names, "")
  }

  function TransformFrom(p: Parser, names: seq<string>, out: string): string
    requires p.cursor <= |p.data|
    decreases |p.data| - p.cursor
  {
    if !IsValid(p) then out
    else
      var out1 := out + [Current(p)];
      if Current(p) == '{' then
        var p1 := p.(cursor := p.cursor + 1);
        if Current(p1) == '{' then
          var p2 := SkipTo(p1, {'}'});
          TransformFrom(p2, names, out1 + p.data[p1.cursor..p2.cursor])
        else
          var p2 := SkipTo(p1, {'}', ':'});
          var name := p.data[p1.cursor..p2.cursor];
          var out2 := out1 + Strings.Decimal(Strings.IndexOf(names, name)) + [Current(p2)];
          TransformFrom(p2.(cursor := if p2.cursor < |p.data| then p2.cursor + 1 else |p.data|), names, out2)
      else TransformFrom(p.(cursor := p.cursor + 1), names, out1)
  }

  /** One piece of a format string written with named fields. */
  datatype Piece =
    | Text(s: string)
    | Field(name: string, spec: Option<string>)
    | Escaped(s: string)

  /** Text without brackets of any kind. */
  predicate Flat(s: string)
  {
    forall i :: 0 <= i < |s| ==> !IsOpen(s[i]) && !IsClose(s[i])
  }

  /**
   * Literal text holds no `{`; a field name holds no bracket and no `:`; a
   * format spec holds no `{`; an escape holds no bracket.
   */
  predicate WellFormedPiece(pc: Piece)
  {
    match pc
    case Text(s) => '{' !in s
    case Field(name, spec) => Flat(name) && ':' !in name && (spec.Some? ==> '{' !in spec.value)
    case Escaped(s) => Flat(s)
  }

  predicate WellFormed(ps: seq<Piece>)
  {
    forall i :: 0 <= i < |ps| ==> WellFormedPiece(ps[i])
  }

  /** How a piece is written: `{name}`, `{name:spec}`, `{{s}}` or the text itself. */
  function RenderPiece(pc: Piece): string
  {
    match pc
    case Text(s) => s
    case Field(name, spec) => "{" + name + (if spec.Some? then ":" + spec.value else "") + "}"
    case Escaped(s) => "{{" + s + "}}"
  }

  function Render(ps: seq<Piece>): string
  {
    if ps == [] then "" else RenderPiece(ps[0]) + Render(ps[1..])
  }

  /**
   * Reference definition of the rewrite: a field's name becomes the decimal
   * position of the name, everything else stays as written.
   */
  function ExpectedPiece(pc: Piece, names: seq<string>): string
  {
    match pc
    case Field(name, spec) =>
      "{" + Strings.Decimal(Strings.IndexOf(names, name)) + (if spec.Some? then ":" + spec.value else "") + "}"
    case _ => RenderPiece(pc)
  }

  function Expected(ps: seq<Piece>, names: seq<string>): string
  {
    if ps == [] then "" else ExpectedPiece(ps[0], names) + Expected(ps[1..], names)
  }

  /** `transform` rewrites every well-formed format string into its reference rewrite. */
  lemma TransformRendered(ps: seq<Piece>, names: seq<string>)
    requires WellFormed(ps)
    ensures Transform(Render(ps), names) == Expected(ps, names)
  {
    var empty: string := [];
    assert empty + Expected(ps, names) == Expected(ps, names);
    TransformPieces(Render(ps), 0, ps, names, empty);
  }

  lemma {:induction false} TransformPieces(data: string, from: nat, ps: seq<Piece>, names: seq<string>, out: string)
    requires WellFormed(ps)
    requires from <= |data| && data[from..] == Render(ps)
    ensures TransformFrom(Parser(data, from), names, out) == out + Expected(ps, names)
    decreases |ps|
  {
    if ps == [] {
      TransformDone(data, from, ps, names, out);
    } else {
      var next := from + |RenderPiece(ps[0])|;
      RenderedHead(data, from, ps);
      TransformPiece(data, from, next, ps[0], names, out);
      TransformPieces(data, next, ps[1..], names, out + ExpectedPiece(ps[0], names));
      ExpectedCons(ps, names, out);
    }
  }

  lemma TransformDone(data: string, from: nat, ps: seq<Piece>, names: seq<string>, out: string)
    requires ps == [] && from <= |data| && data[from..] == Render(ps)
    ensures TransformFrom(Parser(data, from), names, out) == out + Expected(ps, names)
  {
    assert from == |data|;
    assert out + Expected(ps, names) == out;
  }

  lemma ExpectedCons(ps: seq<Piece>, names: seq<string>, out: string)
    requires ps != []
    ensures out + ExpectedPiece(ps[0], names) + Expected(ps[1..], names) == out + Expected(ps, names)
  {
  }

  lemma RenderedHead(data: string, from: nat, ps: seq<Piece>)
    requires ps != [] && WellFormed(ps)
    requires from <= |data| && data[from..] == Render(ps)
    ensures from + |RenderPiece(ps[0])| <= |data|
    ensures data[from..from + |RenderPiece(ps[0])|] == RenderPiece(ps[0])
    ensures data[from + |RenderPiece(ps[0])|..] == Render(ps[1..])
    ensures WellFormedPiece(ps[0]) && WellFormed(ps[1..])
  {
    var head := RenderPiece(ps[0]);
    var tail := Render(ps[1..]);
    assert data[from..] == head + tail;
    SplitAfter(data, from, head, tail);
    assert WellFormedPiece(ps[0]);
    forall i | 0 <= i < |ps[1..]| ensures WellFormedPiece(ps[1..][i]) {
      assert ps[1..][i] == ps[i + 1];
    }
  }

  /** Text that continues with head and then tail has head at the start and tail after it. */
  lemma SplitAfter(data: string, from: nat, head: string, tail: string)
    requires from <= |data| && data[from..] == head + tail
    ensures from + |head| <= |data|
    ensures data[from..from + |head|] == head && data[from + |head|..] == tail
  {
    assert data[from..from + |head|] == data[from..][..|head|];
    assert data[from + |head|..] == data[from..][|head|..];
  }

  /** `transform` handles one piece and then carries on behind it. */
  lemma TransformPiece(data: string, from: nat, next: nat, pc: Piece, names: seq<string>, out: string)
    requires WellFormedPiece(pc)
    requires next == from + |RenderPiece(pc)| && next <= |data| && data[from..next] == RenderPiece(pc)
    ensures TransformFrom(Parser(data, from), names, out) == TransformFrom(Parser(data, next), names, out + ExpectedPiece(pc, names))
  {
    match pc
    case Text(s) =>
      NoBraceIn(data, from, s);
      CopyText(data, from, |s|, names, out);
    case Field(name, spec) =>
      if spec.None? {
        TransformField(data, from, next, pc, names, out);
      } else {
        TransformFieldSpec(data, from, next, pc, names, out);
      }
    case Escaped(s) =>
      assert |RenderPiece(pc)| == |s| + 4 && ExpectedPiece(pc, names) == "{{" + s + "}}";
      TransformEscaped(data, from, next, s, names, out);
      assert out + "{{" + s + "}}" == out + ExpectedPiece(pc, names);
  }

  /** One pass of the loop over a character other than `{`: it is copied. */
  lemma CopyStep(data: string, at: nat, names: seq<string>, out: string)
    requires at < |data| && data[at] != '{'
    ensures TransformFrom(Parser(data, at), names, out) == TransformFrom(Parser(data, at + 1), names, out + [data[at]])
  {
  }

  /** Characters other than `{` are copied one by one. */
  lemma {:induction false} CopyText(data: string, from: nat, k: nat, names: seq<string>, out: string)
    requires from + k <= |data|
    requires forall i :: from <= i < from + k ==> data[i] != '{'
    ensures TransformFrom(Parser(data, from), names, out) == TransformFrom(Parser(data, from + k), names, out + data[from..from + k])
    decreases k
  {
    if k == 0 {
      assert out + data[from..from] == out;
    } else {
      CopyStep(data, from, names, out);
      CopyText(data, from + 1, k - 1, names, out + [data[from]]);
      assert out + [data[from]] + data[from + 1..from + k] == out + data[from..from + k];
    }
  }

  /** The characters of a field `{name}` or `{name:spec}` and of its name. */
  lemma FieldLayout(data: string, from: nat, next: nat, pc: Piece)
    requires pc.Field? && WellFormedPiece(pc)
    requires next == from + |RenderPiece(pc)| && next <= |data| && data[from..next] == RenderPiece(pc)
    ensures from + 1 + |pc.name| < next
    ensures data[from] == '{' && data[from + 1..from + 1 + |pc.name|] == pc.name
    ensures data[from + 1 + |pc.name|] == (if pc.spec.Some? then ':' else '}')
    ensures pc.spec.None? ==> next == from + 2 + |pc.name|
    ensures pc.spec.Some? ==> data[from + 2 + |pc.name|..next] == pc.spec.value + "}"
  {
    var w := RenderPiece(pc);
    var name := pc.name;
    var rest := (if pc.spec.Some? then ":" + pc.spec.value else "") + "}";
    var seg := data[from..next];
    assert seg == w == "{" + name + rest;
    assert w[1..1 + |name|] == name;
    assert w[1 + |name|] == rest[0];
    assert data[from] == seg[0] == w[0];
    SliceOfSlice(data, from, next, 1, 1 + |name|);
    assert data[from + 1 + |name|] == seg[1 + |name|] == w[1 + |name|];
    if pc.spec.Some? {
      SliceOfSlice(data, from, next, 2 + |name|, |w|);
      assert w[2 + |name|..] == rest[1..];
    }
  }

  /** `{name}`: the name becomes its index and the `}` is copied. */
  lemma TransformField(data: string, from: nat, next: nat, pc: Piece, names: seq<string>, out: string)
    requires pc.Field? && pc.spec.None? && WellFormedPiece(pc)
    requires next == from + |RenderPiece(pc)| && next <= |data| && data[from..next] == RenderPiece(pc)
    ensures TransformFrom(Parser(data, from), names, out) == TransformFrom(Parser(data, next), names, out + ExpectedPiece(pc, names))
  {
    var digits := Strings.Decimal(Strings.IndexOf(names, pc.name));
    FieldOpen(data, from, next, pc, names, out);
    assert ExpectedPiece(pc, names) == "{" + digits + "" + "}";
    assert out + "{" + digits + ['}'] == out + ExpectedPiece(pc, names);
  }

  /** `{name:spec}`: the name becomes its index, then `:`, the spec and `}` are copied. */
  lemma TransformFieldSpec(data: string, from: nat, next: nat, pc: Piece, names: seq<string>, out: string)
    requires pc.Field? && pc.spec.Some? && WellFormedPiece(pc)
    requires next == from + |RenderPiece(pc)| && next <= |data| && data[from..next] == RenderPiece(pc)
    ensures TransformFrom(Parser(data, from), names, out) == TransformFrom(Parser(data, next), names, out + ExpectedPiece(pc, names))
  {
    var tail := pc.spec.value + "}";
    var digits := Strings.Decimal(Strings.IndexOf(names, pc.name));
    var out2 := out + "{" + digits + [':'];
    FieldOpen(data, from, next, pc, names, out);
    CopySpec(data, from + 2 + |pc.name|, next, tail, names, out2);
    assert ExpectedPiece(pc, names) == "{" + digits + (":" + pc.spec.value) + "}";
    assert out2 + tail == out + ExpectedPiece(pc, names);
  }

  /** The `{`, the name and the `}` or `:` after it take one pass of the loop. */
  lemma FieldOpen(data: string, from: nat, next: nat, pc: Piece, names: seq<string>, out: string)
    requires pc.Field? && WellFormedPiece(pc)
    requires next == from + |RenderPiece(pc)| && next <= |data| && data[from..next] == RenderPiece(pc)
    ensures TransformFrom(Parser(data, from), names, out) ==
            TransformFrom(Parser(data, from + 2 + |pc.name|), names,
                          out + "{" + Strings.Decimal(Strings.IndexOf(names, pc.name)) + [if pc.spec.Some? then ':' else '}'])
    ensures pc.spec.None? ==> next == from + 2 + |pc.name|
    ensures pc.spec.Some? ==> from + 2 + |pc.name| <= next && data[from + 2 + |pc.name|..next] == pc.spec.value + "}"
  {
    FieldLayout(data, from, next, pc);
    FieldName(data, from + 1, pc.name);
    FieldStep(data, from, from + 1 + |pc.name|, pc.name, if pc.spec.Some? then ':' else '}', names, out);
  }

  /** A format spec and the closing `}` are copied as they are. */
  lemma CopySpec(data: string, from: nat, next: nat, tail: string, names: seq<string>, out: string)
    requires from <= next <= |data| && data[from..next] == tail && '{' !in tail
    ensures TransformFrom(Parser(data, from), names, out) == TransformFrom(Parser(data, next), names, out + tail)
  {
    NoBraceIn(data, from, tail);
    CopyText(data, from, |tail|, names, out);
  }

  /** Text free of `{` embedded at position `a`. */
  lemma NoBraceIn(data: string, a: nat, t: string)
    requires a + |t| <= |data| && data[a..a + |t|] == t && '{' !in t
    ensures forall i :: a <= i < a + |t| ==> data[i] != '{'
  {
    forall i | a <= i < a + |t|
      ensures data[i] != '{'
    {
      assert data[i] == t[i - a];
    }
  }

  /** The field name runs up to the first `}` or `:`. */
  lemma FieldName(data: string, start: nat, name: string)
    requires Flat(name) && ':' !in name
    requires start + |name| < |data| && data[start..start + |name|] == name
    requires data[start + |name|] in {'}', ':'}
    ensures SkipTo(Parser(data, start), {'}', ':'}) == Parser(data, start + |name|)
    ensures data[start] != '{'
  {
    forall i | start <= i < start + |name|
      ensures data[i] !in {'}', ':'} && !IsOpen(data[i]) && !IsClose(data[i])
    {
      assert data[i] == name[i - start];
    }
    SkipToFlat(data, start, |name|, {'}', ':'});
  }

  /** One pass of the loop over a field: `{`, the index of the name, and the `}` or `:` after it. */
  lemma FieldStep(data: string, from: nat, stop: nat, name: string, sep: char, names: seq<string>, out: string)
    requires from < stop < |data| && data[from] == '{' && data[from + 1] != '{'
    requires SkipTo(Parser(data, from + 1), {'}', ':'}) == Parser(data, stop)
    requires data[from + 1..stop] == name && data[stop] == sep
    ensures TransformFrom(Parser(data, from), names, out) ==
            TransformFrom(Parser(data, stop + 1), names, out + "{" + Strings.Decimal(Strings.IndexOf(names, name)) + [sep])
  {
  }

  /** `{{s}}` is copied verbatim. */
  lemma TransformEscaped(data: string, from: nat, next: nat, s: string, names: seq<string>, out: string)
    requires Flat(s)
    requires next == from + |s| + 4 && next <= |data| && data[from..next] == "{{" + s + "}}"
    ensures TransformFrom(Parser(data, from), names, out) == TransformFrom(Parser(data, next), names, out + "{{" + s + "}}")
  {
    var close := from + |s| + 3;
    EscapeLayout(data, from, next, s);
    SkipToEscape(data, from + 1, |s|);
    var out1 := out + "{" + data[from + 1..close];
    EscapeStep(data, from, close, names, out);
    CopyStep(data, close, names, out1);
    assert out1 + [data[close]] == out + "{{" + s + "}}";
  }

  lemma EscapeLayout(data: string, from: nat, next: nat, s: string)
    requires next == from + |s| + 4 && next <= |data| && data[from..next] == "{{" + s + "}}"
    ensures data[from] == '{' && data[from + 1] == '{' && data[next - 2] == '}' && data[next - 1] == '}'
    ensures data[from + 2..next - 2] == s
    ensures data[from + 1..next - 1] == "{" + s + "}"
  {
    var w := "{{" + s + "}}";
    var seg := data[from..next];
    assert seg == w;
    assert data[from] == seg[0] == w[0];
    assert data[from + 1] == seg[1] == w[1];
    assert data[next - 2] == seg[|s| + 2] == w[|s| + 2];
    assert data[next - 1] == seg[|s| + 3] == w[|s| + 3];
    SliceOfSlice(data, from, next, 2, |s| + 2);
    assert w[2..|s| + 2] == s;
    SliceOfSlice(data, from, next, 1, |s| + 3);
    assert w[1..|s| + 3] == "{" + s + "}";
  }

  lemma SliceOfSlice(data: string, a: nat, b: nat, i: nat, j: nat)
    requires a <= b <= |data| && i <= j <= b - a
    ensures data[a..b][i..j] == data[a + i..a + j]
  {
    forall k | 0 <= k < j - i
      ensures data[a..b][i..j][k] == data[a + i..a + j][k]
    {
    }
  }

  /** One pass of the loop over `{{`: everything up to the closing `}` is copied. */
  lemma EscapeStep(data: string, from: nat, stop: nat, names: seq<string>, out: string)
    requires from + 1 < |data| && data[from] == '{' && data[from + 1] == '{'
    requires from + 1 <= stop <= |data| && SkipTo(Parser(data, from + 1), {'}'}) == Parser(data, stop)
    ensures TransformFrom(Parser(data, from), names, out) == TransformFrom(Parser(data, stop), names, out + "{" + data[from + 1..stop])
  {
  }

  /**
   * `skip_to('}')` from the second `{` of an escape: the `{` opens a level,
   * the first `}` closes it, and the second `}` is where it stops.
   */
  lemma SkipToEscape(data: string, open: nat, k: nat)
    requires open + k + 2 < |data|
    requires data[open] == '{' && data[open + k + 1] == '}' && data[open + k + 2] == '}'
    requires Flat(data[open + 1..open + k + 1])
    ensures SkipTo(Parser(data, open), {'}'}) == Parser(data, open + k + 2)
  {
    EscapeDepth(data, open, k);
    EscapeNoEarlyStop(data, open, k);
    SkipToStops(Parser(data, open), {'}'});
  }

  /** After `{` and bracket-free text the depth is 1; the first `}` brings it back to 0. */
  lemma EscapeDepth(data: string, open: nat, k: nat)
    requires open + k + 2 < |data|
    requires data[open] == '{' && data[open + k + 1] == '}' && data[open + k + 2] == '}'
    requires Flat(data[open + 1..open + k + 1])
    ensures Depth(data[open..open + k + 1]) == 1
    ensures StopsAt(data, open, open + k + 2, {'}'})
  {
    var stop := open + k + 2;
    var inner := data[open + 1..open + k + 1];
    var brace: string := ['{'];
    assert data[open..open + k + 1] == brace + inner;
    DepthAppendFlat(brace, inner);
    assert Depth(brace) == 1 by {
      assert brace[..0] == [];
    }
    assert data[open..stop][..k + 1] == data[open..open + k + 1];
  }

  lemma EscapeNoEarlyStop(data: string, open: nat, k: nat)
    requires open + k + 2 < |data|
    requires data[open] == '{' && Depth(data[open..open + k + 1]) == 1
    requires Flat(data[open + 1..open + k + 1])
    ensures forall i :: open <= i < open + k + 2 ==> !StopsAt(data, open, i, {'}'})
  {
    forall i | open < i <= open + k
      ensures data[i] != '}'
    {
      assert data[i] == data[open + 1..open + k + 1][i - open - 1];
    }
  }

  /** Bracket-free text leaves the depth where it was. */
  lemma {:induction false} DepthAppendFlat(a: string, f: string)
    requires Flat(f)
    ensures Depth(a + f) == Depth(a)
  {
    if f != [] {
      var init := f[..|f| - 1];
      assert Flat(init);
      DepthAppendFlat(a, init);
      assert (a + f)[..|a + f| - 1] == a + init;
    } else {
      assert a + f == a;
    }
  }

  /** Fields are numbered by the position of their name, whatever their order in the text. */
  lemma NamesBecomePositions()
    ensures Transform("{b} {a:>4}", ["a", "b"]) == "{1} {0:>4}"
  {
    var names := ["a", "b"];
    var ps := [Field("b", None), Text(" "), Field("a", Some(">4"))];
    assert WellFormedPiece(ps[0]) && WellFormedPiece(ps[1]) && WellFormedPiece(ps[2]);
    assert ps[1..][1..] == ps[2..] && ps[2..][1..] == [];
    assert RenderPiece(ps[2]) == "{a:>4}" && Render(ps[2..]) == "{a:>4}";
    assert Render(ps[1..]) == " {a:>4}";
    assert Render(ps) == "{b} {a:>4}";
    assert Strings.IndexOf(names, "b") == 1 && Strings.IndexOf(names, "a") == 0;
    assert Strings.Decimal(1) == "1" && Strings.Decimal(0) == "0";
    assert ExpectedPiece(ps[2], names) == "{0:>4}" && Expected(ps[2..], names) == "{0:>4}";
    assert Expected(ps[1..], names) == " {0:>4}";
    assert ExpectedPiece(ps[0], names) == "{1}";
    assert Expected(ps, names) == "{1} {0:>4}";
    TransformRendered(ps, names);
  }

  /** A field left open at the end of the text gets the terminator read past the end appended. */
  lemma UnterminatedField()
    ensures Transform("{x", ["x"]) == "{0\0"
  {
    var fmt := "{x";
    SkipToFlat(fmt, 1, 1, {'}', ':'});
    assert fmt[1..2] == "x";
    assert Strings.IndexOf(["x"], "x") == 0 && Strings.Decimal(0) == "0";
  }
}

=== FILE: logger.dfy ===
/**
 * The logging service: a map from thread ids to cached thread information,
 * kept up to date by the spawn / exit / rename / set_parent callbacks, and a
 * list of sinks to which every event is forwarded in list order.
 *
 * Every operation is a pure function from the service state to the new state
 * and the sequence of sink notifications it causes. Sinks are identified by
 * their address, modelled as a natural number; timestamps are passed through
 * unchanged (the conversion to a time point is left out).
 */
module Logger {
  type ThreadId = nat
  type SinkId = nat

  /** `CachedThreadInfo` with its member defaults: id 0, name "<unnamed>", parent 0. */
  datatype ThreadInfo = ThreadInfo(id: ThreadId, name: string, parent: ThreadId)

  const Unnamed: string := "<unnamed>"
  const DefaultInfo: ThreadInfo := ThreadInfo(0, Unnamed, 0)

  datatype Severity = Trace | Debug | Info | Warn | Error | Fatal

  datatype Location = Location(file: string, functionName: string, line: nat, column: nat)

  /** One call of a `Sink` member function, with the arguments it received. */
  datatype Event =
    | Printed(severity: Severity, thread: ThreadInfo, timestamp: nat, location: Location, text: string)
    | Spawned(timestamp: nat, info: ThreadInfo)
    | Exited(timestamp: nat, info: ThreadInfo)
    | Renamed(timestamp: nat, info: ThreadInfo, newName: string)
    | ParentSet(timestamp: nat, info: ThreadInfo, parentInfo: ThreadInfo)

  datatype Notification = Notification(sink: SinkId, event: Event)

  datatype Service = Service(sinks: seq<SinkId>, threads: map<ThreadId, ThreadInfo>)

  /** The decoded prelude of a print message (`LoggingEvent` without its formatter pointer). */
  datatype LoggingEvent = LoggingEvent(severity: Severity, thread: ThreadId, timestamp: nat)

  /** `dispatch`: the same event handed to every sink, in list order. */
  function Dispatch(sinks: seq<SinkId>, e: Event): (r: seq<Notification>)
    ensures |r| == |sinks|
    ensures forall i :: 0 <= i < |r| ==> r[i] == Notification(sinks[i], e)
  {
    if sinks == [] then [] else [Notification(sinks[0], e)] + Dispatch(sinks[1..], e)
  }

  /** `threads[thread]`: the entry, default-constructed (and inserted by the caller) when absent. */
  function Entry(threads: map<ThreadId, ThreadInfo>, thread: ThreadId): ThreadInfo
  {
    if thread in threads then threads[thread] else DefaultInfo
  }

  /** `thread_get_info`: the cached entry, or a fresh record carrying only the id. Never inserts. */
  function ThreadGetInfo(s: Service, thread: ThreadId): (r: ThreadInfo)
    ensures thread in s.threads ==> r == s.threads[thread]
    ensures thread !in s.threads ==> r == ThreadInfo(thread, Unnamed, 0)
  {
    if thread in s.threads then s.threads[thread] else DefaultInfo.(id := thread)
  }

  /**
   * `handle_print`: the formatter (a function pointer carried in the message)
   * turns the payload into a location and a text; every sink receives the
   * resolved message. The thread map is only read.
   */
  function HandlePrint(s: Service, event: LoggingEvent, format: seq<char> -> (Location, string), payload: seq<char>)
    : (r: (Service, seq<Notification>))
    ensures r.0 == s
    ensures |r.1| == |s.sinks|
    ensures forall i :: 0 <= i < |r.1| ==> r.1[i].sink == s.sinks[i] && r.1[i].event.Printed?
    ensures forall i :: 0 <= i < |r.1| ==> event.thread in s.threads ==> r.1[i].event.thread == s.threads[event.thread]
    ensures forall i :: 0 <= i < |r.1| ==> event.thread !in s.threads ==> r.1[i].event.thread == ThreadInfo(event.thread, Unnamed, 0)
    ensures forall i :: 0 <= i < |r.1| ==> r.1[i].event.text == format(payload).1
    ensures forall i :: 0 <= i < |r.1| ==>
      r.1[i].event.severity == event.severity && r.1[i].event.timestamp == event.timestamp
      && r.1[i].event.location == format(payload).0
  {
    var formatted := format(payload);
    var message := Printed(event.severity, ThreadGetInfo(s, event.thread), event.timestamp, formatted.0, formatted.1);
    (s, Dispatch(s.sinks, message))
  }

  /** `spawn`: ensure an entry exists, stamp it with the id, then notify with the stamped entry. */
  function Spawn(s: Service, timestamp: nat, thread: ThreadId): (r: (Service, seq<Notification>))
    ensures r.0.sinks == s.sinks
    ensures r.0.threads.Keys == s.threads.Keys + {thread}
    ensures r.0.threads[thread].id == thread
    ensures thread in s.threads ==>
      r.0.threads[thread].name == s.threads[thread].name && r.0.threads[thread].parent == s.threads[thread].parent
    ensures thread !in s.threads ==> r.0.threads[thread] == ThreadInfo(thread, Unnamed, 0)
    ensures forall t :: t in s.threads && t != thread ==> r.0.threads[t] == s.threads[t]
    ensures r.1 == Dispatch(s.sinks, Spawned(timestamp, r.0.threads[thread]))
  {
    var info := Entry(s.threads, thread).(id := thread);
    (s.(threads := s.threads[thread := info]), Dispatch(s.sinks, Spawned(timestamp, info)))
  }

  /** `exit`: notify with the cached entry (or a record carrying only the id), then erase it. */
  function Exit(s: Service, timestamp: nat, thread: ThreadId): (r: (Service, seq<Notification>))
    ensures r.0.sinks == s.sinks
    ensures r.0.threads == s.threads - {thread}
    ensures thread !in r.0.threads
    ensures r.1 == Dispatch(s.sinks, Exited(timestamp, ThreadGetInfo(s, thread)))
  {
    var info := if thread in s.threads then s.threads[thread] else DefaultInfo.(id := thread);
    (s.(threads := s.threads - {thread}), Dispatch(s.sinks, Exited(timestamp, info)))
  }

  /**
   * `rename`: notify with the entry as it was, then store the new name. An
   * unknown thread gets a default entry, whose id stays 0.
   */
  function Rename(s: Service, timestamp: nat, thread: ThreadId, name: string): (r: (Service, seq<Notification>))
    ensures r.0.sinks == s.sinks
    ensures r.0.threads.Keys == s.threads.Keys + {thread}
    ensures r.0.threads[thread].name == name
    ensures thread in s.threads ==>
      r.0.threads[thread] == s.threads[thread].(name := name) &&
      r.1 == Dispatch(s.sinks, Renamed(timestamp, s.threads[thread], name))
    ensures thread !in s.threads ==>
      r.0.threads[thread] == ThreadInfo(0, name, 0) &&
      r.1 == Dispatch(s.sinks, Renamed(timestamp, ThreadInfo(0, Unnamed, 0), name))
    ensures forall t :: t in s.threads && t != thread ==> r.0.threads[t] == s.threads[t]
  {
    var info := Entry(s.threads, thread);
    (s.(threads := s.threads[thread := info.(name := name)]), Dispatch(s.sinks, Renamed(timestamp, info, name)))
  }

  /**
   * `set_parent`: both entries are default-inserted (the thread's first, then
   * the parent's); a parent whose id does not match is stamped with its id;
   * sinks see the thread and its parent; finally the thread's parent field is
   * set. Both references may name the same entry when a thread is made its
   * own parent.
   */
  function SetParent(s: Service, timestamp: nat, thread: ThreadId, parentId: ThreadId): (r: (Service, seq<Notification>))
    ensures r.0.sinks == s.sinks
    ensures r.0.threads.Keys == s.threads.Keys + {thread, parentId}
    ensures r.0.threads[thread].parent == parentId
    ensures r.0.threads[parentId].id == parentId
    ensures thread != parentId ==> r.0.threads[parentId] == Entry(s.threads, parentId).(id := parentId)
    ensures thread != parentId ==> r.0.threads[thread] == Entry(s.threads, thread).(parent := parentId)
    ensures forall t :: t in s.threads && t != thread && t != parentId ==> r.0.threads[t] == s.threads[t]
    ensures thread != parentId ==>
      r.1 == Dispatch(s.sinks, ParentSet(timestamp, Entry(s.threads, thread), Entry(s.threads, parentId).(id := parentId)))
    ensures thread == parentId ==>
      var stamped := Entry(s.threads, thread).(id := thread);
      r.1 == Dispatch(s.sinks, ParentSet(timestamp, stamped, stamped))
  {
    var withThread := s.threads[thread := Entry(s.threads, thread)];
    var parent := Entry(withThread, parentId);
    var stamped := withThread[parentId := if parent.id != parentId then parent.(id := parentId) else parent];
    var info := stamped[thread];
    var notes := Dispatch(s.sinks, ParentSet(timestamp, info, stamped[parentId]));
    (s.(threads := stamped[thread := info.(parent := parentId)]), notes)
  }

  /** `add_sink`: append to the list. */
  function AddSink(s: Service, sink: SinkId): (r: Service)
    ensures r.threads == s.threads
    ensures |r.sinks| == |s.sinks| + 1 && r.sinks[|s.sinks|] == sink
    ensures r.sinks[..|s.sinks|] == s.sinks
  {
    s.(sinks := s.sinks + [sink])
  }

  /** `std::erase(sinks, sink)`: every occurrence goes, the others keep their order. */
  function Erase(sinks: seq<SinkId>, sink: SinkId): (r: seq<SinkId>)
    ensures sink !in r
    ensures forall x :: x != sink ==> multiset(r)[x] == multiset(sinks)[x]
    ensures |r| == |sinks| - multiset(sinks)[sink]
  {
    if sinks == [] then []
    else
      assert sinks == [sinks[0]] + sinks[1..];
      if sinks[0] == sink then Erase(sinks[1..], sink) else [sinks[0]] + Erase(sinks[1..], sink)
  }

  function RemoveSink(s: Service, sink: SinkId): (r: Service)
    ensures r.threads == s.threads
    ensures sink !in r.sinks
    ensures forall x :: x != sink ==> multiset(r.sinks)[x] == multiset(s.sinks)[x]
  {
    s.(sinks := Erase(s.sinks, sink))
  }

  /** `a` can be obtained from `b` by deleting elements: relative order is kept. */
  predicate SubsequenceOf(a: seq<SinkId>, b: seq<SinkId>)
    decreases |b|
  {
    a == [] || (b != [] && ((a[0] == b[0] && SubsequenceOf(a[1..], b[1..])) || SubsequenceOf(a, b[1..])))
  }

  lemma {:induction false} EraseKeepsOrder(sinks: seq<SinkId>, sink: SinkId)
    ensures SubsequenceOf(Erase(sinks, sink), sinks)
  {
    if sinks != [] {
      EraseKeepsOrder(sinks[1..], sink);
      if sinks[0] != sink {
        assert ([sinks[0]] + Erase(sinks[1..], sink))[1..] == Erase(sinks[1..], sink);
      }
    }
  }

  /** Adding a sink and removing it again leaves a list without duplicates of it as it was. */
  lemma {:induction false} RemoveUndoesAdd(s: Service, sink: SinkId)
    requires sink !in s.sinks
    ensures RemoveSink(AddSink(s, sink), sink) == s
  {
    EraseAbsent(s.sinks, sink);
    EraseAppend(s.sinks, [sink], sink);
  }

  lemma {:induction false} EraseAbsent(sinks: seq<SinkId>, sink: SinkId)
    requires sink !in sinks
    ensures Erase(sinks, sink) == sinks
  {
    if sinks != [] {
      EraseAbsent(sinks[1..], sink);
    }
  }

  lemma {:induction false} EraseAppend(a: seq<SinkId>, b: seq<SinkId>, sink: SinkId)
    ensures Erase(a + b, sink) == Erase(a, sink) + Erase(b, sink)
  {
    if a == [] {
      assert a + b == b;
    } else {
      var rest := a[1..] + b;
      assert (a + b)[0] == a[0] && (a + b)[1..] == rest;
      EraseAppend(a[1..], b, sink);
      if a[0] == sink {
        assert Erase(a + b, sink) == Erase(rest, sink);
      } else {
        assert Erase(a + b, sink) == [a[0]] + Erase(rest, sink);
        assert [a[0]] + (Erase(a[1..], sink) + Erase(b, sink)) == [a[0]] + Erase(a[1..], sink) + Erase(b, sink);
      }
    }
  }

  /** A spawned thread is known until it exits; exiting forgets it and nothing else. */
  lemma SpawnThenExit(s: Service, t0: nat, t1: nat, thread: ThreadId)
    requires thread !in s.threads
    ensures Exit(Spawn(s, t0, thread).0, t1, thread).0 == s
    ensures Exit(Spawn(s, t0, thread).0, t1, thread).1 == Dispatch(s.sinks, Exited(t1, ThreadInfo(thread, Unnamed, 0)))
  {
    var spawned := Spawn(s, t0, thread).0;
    assert spawned.threads - {thread} == s.threads;
  }

  /** After a spawn, a rename is reported against the stamped entry and printing resolves the new name. */
  lemma SpawnRenamePrint(s: Service, t0: nat, t1: nat, thread: ThreadId, name: string)
    ensures ThreadGetInfo(Rename(Spawn(s, t0, thread).0, t1, thread, name).0, thread).name == name
    ensures ThreadGetInfo(Rename(Spawn(s, t0, thread).0, t1, thread, name).0, thread).id == thread
  {
  }

  /** Every cached entry carries its own key as id. */
  predicate WellKeyed(s: Service)
  {
    forall t :: t in s.threads ==> s.threads[t].id == t
  }

  /** The callbacks keep entries keyed by their id as long as rename and set_parent name a known thread. */
  lemma CallbacksKeepKeys(s: Service, timestamp: nat, thread: ThreadId, parentId: ThreadId, name: string)
    requires WellKeyed(s)
    ensures WellKeyed(Spawn(s, timestamp, thread).0)
    ensures WellKeyed(Exit(s, timestamp, thread).0)
    ensures thread in s.threads ==> WellKeyed(Rename(s, timestamp, thread, name).0)
    ensures thread in s.threads ==> WellKeyed(SetParent(s, timestamp, thread, parentId).0)
  {
  }

  /** Renaming a thread the service has never seen caches an entry with id 0 under the thread's key. */
  lemma RenameUnknownThread(s: Service, timestamp: nat, thread: ThreadId, name: string)
    requires thread != 0 && thread !in s.threads
    ensures !WellKeyed(Rename(s, timestamp, thread, name).0)
    ensures ThreadGetInfo(Rename(s, timestamp, thread, name).0, thread).id == 0
  {
  }
}

=== FILE: mpmc.dfy ===
/**
 * `BoundedMPMC`: a ring of N cells, each with a sequence counter, and two
 * unbounded positions.  A cell whose sequence equals the write position is
 * free for that position; one whose sequence is the read position plus one
 * holds the item for that position.  The model is sequential: one call at a
 * time, so every compare-and-swap succeeds on its first attempt.
 */
module Mpmc {
  import opened Wrappers
  import opened Bits
  import Arith
  import Fifo

  datatype Cell<T> = Cell(sequence: nat, data: Option<T>)

  datatype Queue<T> = Queue(n: nat, cells: seq<Cell<T>>, writePos: nat, readPos: nat)

  /** `pos & buffer_mask`. */
  function Slot(pos: nat, n: nat): nat
    requires n >= 1
  {
    BitAnd(pos, n - 1)
  }

  /** The cell serving position k. */
  function CellAt<T>(q: Queue<T>, k: nat): Cell<T>
    requires q.n > 0 && |q.cells| == q.n
  {
    q.cells[k % q.n]
  }

  /**
   * The sequence protocol: positions [readPos, writePos) are occupied, each
   * cell's sequence being its position plus one; the remaining positions of
   * the window [readPos, readPos + N) are free, each cell's sequence being its
   * position.
   */
  predicate Valid<T>(q: Queue<T>)
  {
    IsQueueCapacity(q.n) && |q.cells| == q.n
    && q.readPos <= q.writePos <= q.readPos + q.n
    && (forall k: nat :: q.readPos <= k < q.writePos ==>
          CellAt(q, k).sequence == k + 1 && CellAt(q, k).data.Some?)
    && (forall k: nat :: q.writePos <= k < q.readPos + q.n ==> CellAt(q, k).sequence == k)
  }

  /** The items in the queue, oldest first. */
  function Contents<T>(q: Queue<T>): (r: seq<T>)
    requires Valid(q)
    ensures |r| == q.writePos - q.readPos
  {
    seq(q.writePos - q.readPos, i requires 0 <= i < q.writePos - q.readPos => CellAt(q, q.readPos + i).data.value)
  }

  /** The constructor: cell i has sequence i and both positions are 0. */
  function Init<T>(n: nat): (q: Queue<T>)
    requires IsQueueCapacity(n)
    ensures Valid(q) && Contents(q) == [] && q.writePos == 0 && q.readPos == 0
    ensures |q.cells| == n && forall i :: 0 <= i < n ==> q.cells[i].sequence == i
  {
    var q := Queue(n, seq(n, (i: int) requires 0 <= i < n => Cell(i, None)), 0, 0);
    assert forall k: nat :: 0 <= k < n ==> k % n == k;
    q
  }

  /** Distinct positions of one window use distinct cells. */
  lemma WindowSlots(a: nat, b: nat, n: nat)
    requires n > 0 && a <= b < a + n && a != b
    ensures a % n != b % n
  {
    if a % n == b % n {
      Arith.ModInjective(a, b, n);
    }
  }

  /** `try_push`. */
  function TryPush<T>(q: Queue<T>, x: T): (r: (bool, Queue<T>))
    requires Valid(q)
    ensures Valid(r.1)
    ensures r.0 <==> |Contents(q)| < q.n
    ensures r.0 ==> Contents(r.1) == Contents(q) + [x]
    ensures r.0 ==> CellAt(r.1, q.writePos) == Cell(q.writePos + 1, Some(x)) && r.1.writePos == q.writePos + 1
    ensures !r.0 ==> r.1 == q
  {
    var pos := q.writePos;
    MaskIsMod(pos, q.n);
    var cell := CellAt(q, pos);
    var dif := cell.sequence as int - pos as int;
    PushFailsOnlyWhenFull(q);
    if dif == 0 then
      var q' := q.(cells := q.cells[Slot(pos, q.n) := Cell(pos + 1, Some(x))], writePos := pos + 1);
      PushKeepsProtocol(q, x);
      (true, q')
    else if dif < 0 then
      (false, q)
    else
      assert false;
      (false, q)
  }

  lemma PushFailsOnlyWhenFull<T>(q: Queue<T>)
    requires Valid(q)
    ensures CellAt(q, q.writePos).sequence == q.writePos <==> q.writePos < q.readPos + q.n
    ensures CellAt(q, q.writePos).sequence <= q.writePos
  {
    if q.writePos == q.readPos + q.n {
      Arith.ModShift(q.readPos, q.n);
      assert CellAt(q, q.writePos) == CellAt(q, q.readPos);
    }
  }

  lemma PushKeepsProtocol<T>(q: Queue<T>, x: T)
    requires Valid(q) && q.writePos < q.readPos + q.n
    ensures var q' := q.(cells := q.cells[q.writePos % q.n := Cell(q.writePos + 1, Some(x))], writePos := q.writePos + 1);
            Valid(q') && Contents(q') == Contents(q) + [x]
  {
    var n := q.n;
    var w := q.writePos;
    var q' := q.(cells := q.cells[w % n := Cell(w + 1, Some(x))], writePos := w + 1);
    forall k: nat | q.readPos <= k < q.readPos + n && k != w
      ensures CellAt(q', k) == CellAt(q, k)
    {
      if k < w {
        WindowSlots(k, w, n);
      } else {
        WindowSlots(w, k, n);
      }
    }
    assert CellAt(q', w) == Cell(w + 1, Some(x));
    assert Contents(q') == Contents(q) + [x];
  }

  /** `try_pop`: the oldest item, its cell handed to the position one lap ahead. */
  function TryPop<T>(q: Queue<T>): (r: (Option<T>, Queue<T>))
    requires Valid(q)
    ensures Valid(r.1)
    ensures r.0.Some? <==> |Contents(q)| > 0
    ensures r.0.Some? ==> r.0.value == Contents(q)[0] && Contents(r.1) == Contents(q)[1..]
    ensures r.0.Some? ==> CellAt(r.1, q.readPos).sequence == q.readPos + q.n && r.1.readPos == q.readPos + 1
    ensures r.0.None? ==> r.1 == q
  {
    var pos := q.readPos;
    MaskIsMod(pos, q.n);
    var cell := CellAt(q, pos);
    var dif := cell.sequence as int - (pos + 1) as int;
    if dif == 0 then
      PopKeepsProtocol(q);
      var q' := q.(cells := q.cells[Slot(pos, q.n) := cell.(sequence := pos + (q.n - 1) + 1)], readPos := pos + 1);
      (Some(cell.data.value), q')
    else if dif < 0 then
      (None, q)
    else
      assert false;
      (None, q)
  }

  lemma PopKeepsProtocol<T>(q: Queue<T>)
    requires Valid(q) && q.readPos < q.writePos
    ensures var c := CellAt(q, q.readPos);
            var q' := q.(cells := q.cells[q.readPos % q.n := c.(sequence := q.readPos + q.n)], readPos := q.readPos + 1);
            Valid(q') && Contents(q') == Contents(q)[1..] && c.data.value == Contents(q)[0]
  {
    var n := q.n;
    var rp := q.readPos;
    var c := CellAt(q, rp);
    var q' := q.(cells := q.cells[rp % n := c.(sequence := rp + n)], readPos := rp + 1);
    forall k: nat | rp < k < rp + n
      ensures CellAt(q', k) == CellAt(q, k)
    {
      WindowSlots(rp, k, n);
    }
    Arith.ModShift(rp, n);
    assert CellAt(q', rp + n) == c.(sequence := rp + n);
    assert Contents(q') == Contents(q)[1..];
  }

  /** `is_empty`: the same emptiness test `try_pop` makes. */
  function IsEmpty<T>(q: Queue<T>): (r: bool)
    requires Valid(q)
    ensures r <==> |Contents(q)| == 0
    ensures r <==> TryPop(q).0.None?
  {
    MaskIsMod(q.readPos, q.n);
    var cell := CellAt(q, q.readPos);
    (cell.sequence as int - (q.readPos + 1) as int) < 0
  }

  /** Applies operations one at a time, collecting the replies. */
  function Run<T>(q: Queue<T>, ops: seq<Fifo.Op<T>>): (r: (Queue<T>, seq<Fifo.Reply<T>>))
    requires Valid(q)
    ensures Valid(r.0) && r.0.n == q.n && |r.1| == |ops|
  {
    if |ops| == 0 then (q, [])
    else
      var (mid, replies) := Run(q, ops[..|ops| - 1]);
      match ops[|ops| - 1]
      case Push(x) =>
        var (ok, last) := TryPush(mid, x);
        (last, replies + [Fifo.Pushed(ok)])
      case Pop =>
        var (item, last) := TryPop(mid);
        (last, replies + [Fifo.Popped(item)])
  }

  /** Any sequence of calls behaves exactly like a FIFO queue of capacity N. */
  lemma {:induction false} RefinesFifo<T>(q: Queue<T>, ops: seq<Fifo.Op<T>>)
    requires Valid(q)
    ensures Contents(Run(q, ops).0) == Fifo.Run(Contents(q), q.n, ops).0
    ensures Run(q, ops).1 == Fifo.Run(Contents(q), q.n, ops).1
  {
    if |ops| > 0 {
      RefinesFifo(q, ops[..|ops| - 1]);
    }
  }
}

=== FILE: named_format.dfy ===
/**
 * The compile-time rewriter of `{name}`-style format strings: `do_parse`
 * turns a format string for `sizeof...(Args)` arguments into a
 * `std::format` string, the list of arguments passed directly and the list
 * of accessor expressions whose results follow them.
 *
 * The reflection part (`get_accessor` resolving `a.b.c` against the
 * argument's type) is not modelled: an accessor is kept as the argument
 * index and the expression text.
 */
module NamedFormat {
  import opened Wrappers
  import opened Parsing
  import Strings

  /** The two kinds of fragment the rewritten format string is made of. */
  datatype Fragment =
    | TextFragment(text: string)
    | AccessorFragment(index: nat)

  /** An accessor: which argument it starts from and the member path applied to it. */
  datatype Accessor = Accessor(arg: nat, expression: string)

  /**
   * Why the format string is rejected. `IndexOutOfRange` stands for reading
   * `direct[index]` or `arg_types[index]` past the end of the array, which
   * makes the constant evaluation fail.
   */
  datatype ParseError =
    | MixedPositional
    | NamedWithManyArguments
    | IndexOutOfRange

  datatype Transformed = Transformed(fmt: string, directList: seq<nat>, accessors: seq<Accessor>)

  /**
   * The parser's state: the cursor, where the pending text fragment starts,
   * the fragments so far, `direct` (-1 for an argument not yet seen, else the
   * number it was renumbered to), `used`, the accessors and the two flags.
   */
  datatype State = State(
    cursor: nat,
    fragmentStart: nat,
    fragments: seq<Fragment>,
    direct: seq<int>,
    used: nat,
    accessors: seq<Accessor>,
    hasEmpty: bool,
    hasPositional: bool)

  const FieldEnd: set<char> := {'}', ':'}
  const EscapeEnd: set<char> := {'}'}

  /** What holds between any two steps of the loop. */
  predicate Inv(data: string, nargs: nat, st: State)
  {
    |st.direct| == nargs &&
    st.fragmentStart <= st.cursor <= |data| + 1 &&
    forall x :: 0 <= x < |st.direct| ==> st.direct[x] >= -1
  }

  /** `std::string_view::substr(pos, count)`: the count is clamped to the end of the text. */
  function Substr(data: string, pos: nat, count: nat): (r: string)
    requires pos <= |data|
    ensures |r| <= count && pos + |r| <= |data| && r == data[pos..pos + |r|]
    ensures pos + count <= |data| ==> |r| == count
    ensures pos + count > |data| ==> pos + |r| == |data|
  {
    data[pos..if pos + count <= |data| then pos + count else |data|]
  }

  /** `push_text()`: the text since the last fragment becomes a fragment, unless there is none. */
  function PushText(st: State, data: string): (r: State)
    requires st.fragmentStart <= st.cursor <= |data| + 1
    ensures r.fragmentStart == r.cursor == st.cursor
    ensures r.direct == st.direct && r.used == st.used && r.accessors == st.accessors
    ensures r.hasEmpty == st.hasEmpty && r.hasPositional == st.hasPositional
  {
    if st.fragmentStart == st.cursor then st
    else
      st.(fragments := st.fragments + [TextFragment(Substr(data, st.fragmentStart, st.cursor - st.fragmentStart))],
          fragmentStart := st.cursor)
  }

  /** `push_text(str)` with a non-empty `str`: the given text becomes a fragment. */
  function PushGiven(st: State, text: string): (r: State)
    ensures r.fragments == st.fragments + [TextFragment(text)] && r.fragmentStart == st.cursor
  {
    st.(fragments := st.fragments + [TextFragment(text)], fragmentStart := st.cursor)
  }

  /** `accessors.push_back`, `push_accessor(accessors.size())` and the step past the field's end. */
  function AddAccessor(st: State, a: Accessor): (r: State)
    ensures r.accessors == st.accessors + [a]
    ensures r.fragments == st.fragments + [AccessorFragment(|r.accessors|)]
    ensures r.fragmentStart == st.cursor && r.cursor == st.cursor + 1
  {
    var accessors := st.accessors + [a];
    st.(accessors := accessors,
        fragments := st.fragments + [AccessorFragment(|accessors|)],
        fragmentStart := st.cursor,
        cursor := st.cursor + 1)
  }

  /** Position of the first '.' in the name, or its length (`npos`). */
  function DotPos(name: string): (r: nat)
    ensures r <= |name|
    ensures r < |name| ==> name[r] == '.'
    ensures forall i :: 0 <= i < r ==> name[i] != '.'
  {
    if name == [] || name[0] == '.' then 0 else 1 + DotPos(name[1..])
  }

  /** `{N}`: the first use of argument N takes the next number; later uses repeat it. */
  function Renumber(st: State, index: nat): (r: State)
    requires index < |st.direct| && st.direct[index] >= -1
    ensures r.cursor == st.cursor && r.fragments == st.fragments && r.fragmentStart == st.fragmentStart
    ensures |r.direct| == |st.direct| && r.direct[index] >= 0
    ensures forall x :: 0 <= x < |r.direct| && x != index ==> r.direct[x] == st.direct[x]
    ensures r.direct[index] == if st.direct[index] == -1 then st.used else st.direct[index]
  {
    if st.direct[index] == -1 then st.(direct := st.direct[index := st.used], used := st.used + 1)
    else st
  }

  /**
   * The field whose name `data[start..stop]` is not empty; `st` already
   * has the cursor on the character that ended the name.
   */
  function Field(data: string, nargs: nat, st: State, start: nat): (r: Result<State, ParseError>)
    requires Inv(data, nargs, st) && start < st.cursor <= |data|
  {
    var name := data[start..st.cursor];
    var dot := DotPos(name);
    if IsInteger(name) then
      var index := Strings.Stou(name);
      if index >= nargs then Failure(IndexOutOfRange)
      else
        var st1 := Renumber(st, index);
        Success(PushGiven(st1, Strings.Decimal(st1.direct[index])))
    else if dot == |name| || !IsDigit(name[0]) then
      if nargs != 1 then Failure(NamedWithManyArguments)
      else Success(AddAccessor(st, Accessor(0, name)))
    else
      var index := Strings.Stou(name[..dot]);
      if index >= nargs then Failure(IndexOutOfRange)
      else Success(AddAccessor(st, Accessor(index, name[dot + 1..])))
  }

  /**
   * After a '{' that does not start an escape, with the text before it
   * pushed: an empty name, or a name ended by '}' or ':'.
   */
  function OpenField(data: string, nargs: nat, st: State): (r: Result<State, ParseError>)
    requires Inv(data, nargs, st) && st.cursor <= |data|
  {
    var stop := SkipTo(Parser(data, st.cursor), FieldEnd).cursor;
    if stop == st.cursor then
      if st.hasPositional then Failure(MixedPositional)
      else Success(PushText(st.(hasEmpty := true, cursor := st.cursor + 1), data))
    else if st.hasEmpty then Failure(MixedPositional)
    else Field(data, nargs, st.(hasPositional := true, cursor := stop), st.cursor)
  }

  /** One pass of the `while (is_valid())` loop of `do_parse`. */
  function Step(data: string, nargs: nat, st: State): (r: Result<State, ParseError>)
    requires Inv(data, nargs, st) && st.cursor < |data|
  {
    if data[st.cursor] != '{' then Success(st.(cursor := st.cursor + 1))
    else if Current(Parser(data, st.cursor + 1)) == '{' then
      Success(PushText(st.(cursor := SkipTo(Parser(data, st.cursor + 1), EscapeEnd).cursor), data))
    else OpenField(data, nargs, PushText(st.(cursor := st.cursor + 1), data))
  }

  lemma FieldAdvances(data: string, nargs: nat, st: State, start: nat)
    requires Inv(data, nargs, st) && start < st.cursor <= |data|
    ensures Field(data, nargs, st, start).Success? ==>
      Inv(data, nargs, Field(data, nargs, st, start).value) && Field(data, nargs, st, start).value.cursor >= st.cursor
  {
    var name := data[start..st.cursor];
    if IsInteger(name) && Strings.Stou(name) < nargs {
      var st1 := Renumber(st, Strings.Stou(name));
      assert Inv(data, nargs, st1);
    }
  }

  lemma OpenFieldAdvances(data: string, nargs: nat, st: State)
    requires Inv(data, nargs, st) && st.cursor <= |data|
    ensures OpenField(data, nargs, st).Success? ==>
      Inv(data, nargs, OpenField(data, nargs, st).value) && OpenField(data, nargs, st).value.cursor > st.cursor
  {
    var stop := SkipTo(Parser(data, st.cursor), FieldEnd).cursor;
    if stop != st.cursor {
      FieldAdvances(data, nargs, st.(hasPositional := true, cursor := stop), st.cursor);
    }
  }

  /** Every step moves the cursor forward and keeps the invariant. */
  lemma StepAdvances(data: string, nargs: nat, st: State)
    requires Inv(data, nargs, st) && st.cursor < |data|
    ensures Step(data, nargs, st).Success? ==>
      Inv(data, nargs, Step(data, nargs, st).value) && Step(data, nargs, st).value.cursor > st.cursor
  {
    if data[st.cursor] != '{' {
      PlainStep(data, nargs, st);
    } else if Current(Parser(data, st.cursor + 1)) == '{' {
      EscapeStep(data, nargs, st);
    } else {
      OpenStep(data, nargs, st);
      OpenFieldAdvances(data, nargs, PushText(st.(cursor := st.cursor + 1), data));
    }
  }

  /** A character other than '{' is stepped over. */
  lemma PlainStep(data: string, nargs: nat, st: State)
    requires Inv(data, nargs, st) && st.cursor < |data| && data[st.cursor] != '{'
    ensures Step(data, nargs, st) == Success(st.(cursor := st.cursor + 1))
  {
  }

  /** "{{": the text up to the '}' closing the escape becomes part of the pending text. */
  lemma EscapeStep(data: string, nargs: nat, st: State)
    requires Inv(data, nargs, st) && st.cursor < |data| && data[st.cursor] == '{'
    requires Current(Parser(data, st.cursor + 1)) == '{'
    ensures Step(data, nargs, st) == Success(PushText(st.(cursor := SkipTo(Parser(data, st.cursor + 1), EscapeEnd).cursor), data))
  {
  }

  /** Any other '{': the text up to and including it is pushed, then the field is read. */
  lemma OpenStep(data: string, nargs: nat, st: State)
    requires Inv(data, nargs, st) && st.cursor < |data| && data[st.cursor] == '{'
    requires Current(Parser(data, st.cursor + 1)) != '{'
    ensures Step(data, nargs, st) == OpenField(data, nargs, PushText(st.(cursor := st.cursor + 1), data))
  {
  }

  /** Pushing the text up to and including a field's '{'. */
  lemma PushOpen(data: string, st: State)
    requires st.fragmentStart <= st.cursor < |data|
    ensures PushText(st.(cursor := st.cursor + 1), data) == Opened(data, st)
  {
    assert Substr(data, st.fragmentStart, st.cursor + 1 - st.fragmentStart) == data[st.fragmentStart..st.cursor + 1];
  }

  /** The state once the text up to and including a field's '{' has been pushed. */
  function Opened(data: string, st: State): (r: State)
    requires st.fragmentStart <= st.cursor < |data|
  {
    st.(cursor := st.cursor + 1, fragmentStart := st.cursor + 1,
        fragments := st.fragments + [TextFragment(data[st.fragmentStart..st.cursor + 1])])
  }

  /** The loop, from the given state to the end of the text or the first error. */
  function Run(data: string, nargs: nat, st: State): (r: Result<State, ParseError>)
    requires Inv(data, nargs, st)
    ensures r.Success? ==> Inv(data, nargs, r.value) && r.value.cursor >= |data|
    decreases |data| + 1 - st.cursor
  {
    if st.cursor >= |data| then Success(st)
    else
      StepAdvances(data, nargs, st);
      match Step(data, nargs, st)
      case Failure(e) => Failure(e)
      case Success(next) => Run(data, nargs, next)
  }

  /** One successful step of the loop: the run continues from the next state. */
  lemma RunStep(data: string, nargs: nat, st: State, next: State)
    requires Inv(data, nargs, st) && st.cursor < |data| && Step(data, nargs, st) == Success(next)
    ensures Inv(data, nargs, next) && Run(data, nargs, st) == Run(data, nargs, next)
  {
    StepAdvances(data, nargs, st);
  }

  /** A character other than '{' is skipped: the run continues one position on. */
  lemma RunPlainChar(data: string, nargs: nat, st: State)
    requires Inv(data, nargs, st) && st.cursor < |data| && data[st.cursor] != '{'
    ensures Inv(data, nargs, st.(cursor := st.cursor + 1))
    ensures Run(data, nargs, st) == Run(data, nargs, st.(cursor := st.cursor + 1))
  {
    PlainStep(data, nargs, st);
    RunStep(data, nargs, st, st.(cursor := st.cursor + 1));
  }

  /** A failing step ends the run with its error. */
  lemma RunFails(data: string, nargs: nat, st: State, e: ParseError)
    requires Inv(data, nargs, st) && st.cursor < |data| && Step(data, nargs, st) == Failure(e)
    ensures Run(data, nargs, st) == Failure(e)
  {
  }

  function Initial(nargs: nat): (r: State)
    ensures |r.direct| == nargs && forall x :: 0 <= x < nargs ==> r.direct[x] == -1
  {
    State(0, 0, [], seq(nargs, _ => -1), 0, [], false, false)
  }

  lemma InitialInv(data: string, nargs: nat)
    ensures Inv(data, nargs, Initial(nargs))
  {
  }

  /** The state after the loop and the final `push_text()`. */
  function Final(data: string, nargs: nat): (r: Result<State, ParseError>)
  {
    InitialInv(data, nargs);
    match Run(data, nargs, Initial(nargs))
    case Failure(e) => Failure(e)
    case Success(st) => Success(PushText(st, data))
  }

  /** `AccessorFragment::push`: the accessor's argument position, clamped at zero. */
  function PushFragment(f: Fragment, offset: int): (r: string)
  {
    match f
    case TextFragment(text) => text
    case AccessorFragment(index) =>
      var value := offset + index;
      Strings.Decimal(if value < 0 then 0 else value)
  }

  /** `render(accessor_offset)`: every fragment's text, in order. */
  function Render(fragments: seq<Fragment>, offset: int): (r: string)
  {
    if fragments == [] then []
    else Render(fragments[..|fragments| - 1], offset) + PushFragment(fragments[|fragments| - 1], offset)
  }

  /** The arguments in index order: `{idx...}`. */
  function AllArguments(nargs: nat): (r: seq<nat>)
    ensures |r| == nargs && forall x :: 0 <= x < nargs ==> r[x] == x
  {
    seq(nargs, x => x)
  }

  /** The filter of `do_parse` as written: every argument some `{N}` used, in index order. */
  function UsedInIndexOrder(direct: seq<int>): (r: seq<nat>)
  {
    if direct == [] then []
    else UsedInIndexOrder(direct[..|direct| - 1]) + (if direct[|direct| - 1] != -1 then [|direct| - 1] else [])
  }

  /** The argument renumbered to `number`, or `|direct|` when there is none. */
  function Numbered(direct: seq<int>, number: nat): (r: nat)
    ensures r <= |direct|
    ensures r < |direct| ==> direct[r] == number
    ensures forall x :: 0 <= x < r ==> direct[x] != number
  {
    if direct == [] then 0
    else if direct[0] == number then 0
    else 1 + Numbered(direct[1..], number)
  }

  /** The arguments in the order their numbers were handed out: the list the numbers refer to. */
  function UsedInFirstUseOrder(direct: seq<int>, used: nat): (r: seq<nat>)
    ensures |r| == used && forall j :: 0 <= j < used ==> r[j] == Numbered(direct, j)
  {
    if used == 0 then [] else UsedInFirstUseOrder(direct, used - 1) + [Numbered(direct, used - 1)]
  }

  /** `do_parse` as written: the direct list follows argument index order. */
  function ParseWritten(data: string, nargs: nat): (r: Result<Transformed, ParseError>)
  {
    match Final(data, nargs)
    case Failure(e) => Failure(e)
    case Success(st) =>
      var list := if st.hasPositional then UsedInIndexOrder(st.direct) else AllArguments(nargs);
      Success(Transformed(Render(st.fragments, |list| - 1), list, st.accessors))
  }

  /** `do_parse` with the direct list in first-use order, the order of the numbers in the output. */
  function Parse(data: string, nargs: nat): (r: Result<Transformed, ParseError>)
  {
    match Final(data, nargs)
    case Failure(e) => Failure(e)
    case Success(st) =>
      var list := if st.hasPositional then UsedInFirstUseOrder(st.direct, st.used) else AllArguments(nargs);
      Success(Transformed(Render(st.fragments, |list| - 1), list, st.accessors))
  }

  // ---------------------------------------------------------------------
  // Renumbering of `{N}` fields

  /**
   * `direct` hands out the numbers 0 .. used-1, each to exactly one
   * argument; -1 marks an argument no `{N}` has named yet.
   */
  predicate Numbering(direct: seq<int>, used: nat)
  {
    (forall x :: 0 <= x < |direct| ==> -1 <= direct[x] < used) &&
    (forall x, y :: 0 <= x < |direct| && 0 <= y < |direct| && x != y && direct[x] != -1 ==> direct[x] != direct[y]) &&
    (forall j :: 0 <= j < used ==> Numbered(direct, j) < |direct|)
  }

  /** Once an argument has a number, it keeps it. */
  predicate Keeps(before: seq<int>, after: seq<int>)
  {
    |before| == |after| && forall x :: 0 <= x < |before| && before[x] != -1 ==> after[x] == before[x]
  }

  lemma RenumberKeepsNumbering(st: State, index: nat)
    requires index < |st.direct| && Numbering(st.direct, st.used)
    ensures Numbering(Renumber(st, index).direct, Renumber(st, index).used)
    ensures Keeps(st.direct, Renumber(st, index).direct)
  {
    var r := Renumber(st, index);
    if st.direct[index] == -1 {
      forall j | 0 <= j < r.used
        ensures Numbered(r.direct, j) < |r.direct|
      {
        if j < st.used {
          var x := Numbered(st.direct, j);
          assert r.direct[x] == j;
        } else {
          assert r.direct[index] == j;
        }
      }
    }
  }

  lemma FieldKeepsNumbering(data: string, nargs: nat, st: State, start: nat)
    requires Inv(data, nargs, st) && start < st.cursor <= |data|
    requires Numbering(st.direct, st.used)
    requires Field(data, nargs, st, start).Success?
    ensures Numbering(Field(data, nargs, st, start).value.direct, Field(data, nargs, st, start).value.used)
    ensures Keeps(st.direct, Field(data, nargs, st, start).value.direct)
  {
    var name := data[start..st.cursor];
    if IsInteger(name) {
      RenumberKeepsNumbering(st, Strings.Stou(name));
    }
  }

  lemma OpenFieldKeepsNumbering(data: string, nargs: nat, st: State)
    requires Inv(data, nargs, st) && st.cursor <= |data|
    requires Numbering(st.direct, st.used)
    requires OpenField(data, nargs, st).Success?
    ensures Numbering(OpenField(data, nargs, st).value.direct, OpenField(data, nargs, st).value.used)
    ensures Keeps(st.direct, OpenField(data, nargs, st).value.direct)
  {
    var stop := SkipTo(Parser(data, st.cursor), FieldEnd).cursor;
    if stop != st.cursor {
      FieldKeepsNumbering(data, nargs, st.(hasPositional := true, cursor := stop), st.cursor);
    }
  }

  /** Every step keeps the numbering a bijection and never renumbers an argument. */
  lemma StepKeepsNumbering(data: string, nargs: nat, st: State)
    requires Inv(data, nargs, st) && st.cursor < |data|
    requires Numbering(st.direct, st.used)
    requires Step(data, nargs, st).Success?
    ensures Numbering(Step(data, nargs, st).value.direct, Step(data, nargs, st).value.used)
    ensures Keeps(st.direct, Step(data, nargs, st).value.direct)
  {
    if data[st.cursor] != '{' {
      PlainStep(data, nargs, st);
    } else if Current(Parser(data, st.cursor + 1)) == '{' {
      EscapeStep(data, nargs, st);
    } else {
      OpenStep(data, nargs, st);
      OpenFieldKeepsNumbering(data, nargs, PushText(st.(cursor := st.cursor + 1), data));
    }
  }

  lemma {:induction false} RunKeepsNumbering(data: string, nargs: nat, st: State)
    requires Inv(data, nargs, st) && Numbering(st.direct, st.used)
    requires Run(data, nargs, st).Success?
    ensures Numbering(Run(data, nargs, st).value.direct, Run(data, nargs, st).value.used)
    ensures Keeps(st.direct, Run(data, nargs, st).value.direct)
    decreases |data| + 1 - st.cursor
  {
    if st.cursor < |data| {
      StepAdvances(data, nargs, st);
      var next := Step(data, nargs, st).value;
      StepKeepsNumbering(data, nargs, st);
      RunKeepsNumbering(data, nargs, next);
    }
  }

  /**
   * The first-use list is the inverse of the numbering: the argument at
   * position j is the one numbered j, and every numbered argument sits at
   * its number.
   */
  lemma FirstUseInverts(direct: seq<int>, used: nat)
    requires Numbering(direct, used)
    ensures forall j :: 0 <= j < used ==>
      UsedInFirstUseOrder(direct, used)[j] < |direct| && direct[UsedInFirstUseOrder(direct, used)[j]] == j
    ensures forall x :: 0 <= x < |direct| && direct[x] != -1 ==> UsedInFirstUseOrder(direct, used)[direct[x]] == x
  {
    forall x | 0 <= x < |direct| && direct[x] != -1
      ensures UsedInFirstUseOrder(direct, used)[direct[x]] == x
    {
      var y := Numbered(direct, direct[x]);
      assert y <= x;
    }
  }

  /**
   * A step over `{N}` with N in range: the text up to and including the '{'
   * is pushed, then the number N is renumbered to, and the cursor stops on
   * the character that ended the name.
   */
  lemma IndexedStep(data: string, nargs: nat, st: State, stop: nat, index: nat)
    requires Inv(data, nargs, st) && st.cursor + 1 < stop <= |data| && !st.hasEmpty
    requires data[st.cursor] == '{' && data[st.cursor + 1] != '{'
    requires stop == SkipTo(Parser(data, st.cursor + 1), FieldEnd).cursor
    requires IsInteger(data[st.cursor + 1..stop]) && index == Strings.Stou(data[st.cursor + 1..stop]) && index < nargs
    ensures Step(data, nargs, st) == Success(State(
      stop, stop,
      st.fragments + [TextFragment(data[st.fragmentStart..st.cursor + 1]),
                      TextFragment(Strings.Decimal(Renumber(st, index).direct[index]))],
      Renumber(st, index).direct, Renumber(st, index).used, st.accessors, false, true))
  {
    OpenStep(data, nargs, st);
    PushOpen(data, st);
    var st1 := Opened(data, st);
    OpenIndexed(data, nargs, st1, stop, index);
    assert Renumber(st1, index).direct == Renumber(st, index).direct;
    assert Renumber(st1, index).used == Renumber(st, index).used;
    var number := TextFragment(Strings.Decimal(Renumber(st, index).direct[index]));
    assert st1.fragments + [number] == st.fragments + [TextFragment(data[st.fragmentStart..st.cursor + 1]), number];
  }

  /** Reading `{N}` once the '{' is behind the cursor. */
  lemma OpenIndexed(data: string, nargs: nat, st: State, stop: nat, index: nat)
    requires Inv(data, nargs, st) && st.cursor < stop <= |data| && !st.hasEmpty
    requires stop == SkipTo(Parser(data, st.cursor), FieldEnd).cursor
    requires IsInteger(data[st.cursor..stop]) && index == Strings.Stou(data[st.cursor..stop]) && index < nargs
    ensures OpenField(data, nargs, st) == Success(st.(
      cursor := stop, fragmentStart := stop,
      fragments := st.fragments + [TextFragment(Strings.Decimal(Renumber(st, index).direct[index]))],
      direct := Renumber(st, index).direct, used := Renumber(st, index).used, hasPositional := true))
  {
    var st2 := st.(hasPositional := true, cursor := stop);
    IndexedField(data, nargs, st2, st.cursor, index);
    assert Renumber(st2, index) == Renumber(st, index).(hasPositional := true, cursor := stop);
  }

  /** One step over an empty field `{}` or `{:`: both braces stay in the text. */
  lemma EmptyStep(data: string, nargs: nat, st: State)
    requires Inv(data, nargs, st) && st.cursor + 1 < |data| && !st.hasPositional
    requires data[st.cursor] == '{' && data[st.cursor + 1] in FieldEnd
    ensures Step(data, nargs, st) == Success(st.(
      cursor := st.cursor + 2, fragmentStart := st.cursor + 2,
      fragments := st.fragments + [TextFragment(data[st.fragmentStart..st.cursor + 1]),
                                   TextFragment(data[st.cursor + 1..st.cursor + 2])],
      hasEmpty := true))
  {
    var c := st.cursor;
    assert Current(Parser(data, c + 1)) == data[c + 1];
    SkipToStops(Parser(data, c + 1), FieldEnd);
    OpenStep(data, nargs, st);
    PushOpen(data, st);
    var st1 := Opened(data, st);
    assert Substr(data, c + 1, 1) == data[c + 1..c + 2];
    var brace := TextFragment(data[c + 1..c + 2]);
    assert st1.fragments + [brace] == st.fragments + [TextFragment(data[st.fragmentStart..c + 1]), brace];
  }

  /** Reading a bare name `{name}` once the '{' is behind the cursor: an accessor on the only argument. */
  lemma OpenNamed(data: string, st: State, stop: nat)
    requires Inv(data, 1, st) && st.cursor < stop <= |data| && !st.hasEmpty
    requires stop == SkipTo(Parser(data, st.cursor), FieldEnd).cursor
    requires !IsInteger(data[st.cursor..stop]) && DotPos(data[st.cursor..stop]) == stop - st.cursor
    ensures OpenField(data, 1, st) == Success(st.(
      cursor := stop + 1, fragmentStart := stop,
      fragments := st.fragments + [AccessorFragment(|st.accessors| + 1)],
      accessors := st.accessors + [Accessor(0, data[st.cursor..stop])], hasPositional := true))
  {
    var st2 := st.(hasPositional := true, cursor := stop);
    assert OpenField(data, 1, st) == Field(data, 1, st2, st.cursor);
  }

  /** One step over `{name}` with a single argument. */
  lemma NamedStep(data: string, st: State, stop: nat)
    requires Inv(data, 1, st) && st.cursor + 1 < stop <= |data| && !st.hasEmpty
    requires data[st.cursor] == '{' && data[st.cursor + 1] != '{'
    requires stop == SkipTo(Parser(data, st.cursor + 1), FieldEnd).cursor
    requires !IsInteger(data[st.cursor + 1..stop]) && DotPos(data[st.cursor + 1..stop]) == stop - (st.cursor + 1)
    ensures Step(data, 1, st) == Success(State(
      stop + 1, stop,
      st.fragments + [TextFragment(data[st.fragmentStart..st.cursor + 1]), AccessorFragment(|st.accessors| + 1)],
      st.direct, st.used, st.accessors + [Accessor(0, data[st.cursor + 1..stop])], false, true))
  {
    OpenStep(data, 1, st);
    PushOpen(data, st);
    var st1 := Opened(data, st);
    OpenNamed(data, st1, stop);
    var access := AccessorFragment(|st.accessors| + 1);
    assert st1.fragments + [access] == st.fragments + [TextFragment(data[st.fragmentStart..st.cursor + 1]), access];
  }

  /** The number `{N}` is written as: N's number if it has one, else the next free one. */
  function Emitted(st: State, index: nat): (r: nat)
    requires index < |st.direct| && st.direct[index] >= -1
  {
    if st.direct[index] == -1 then st.used else st.direct[index]
  }

  /**
   * The number emitted for `{N}` refers, in the first-use list of the
   * finished parse, to argument N: the rewritten string selects the
   * argument the original one named.
   */
  lemma EmittedNumberSelects(data: string, nargs: nat, st: State, stop: nat, index: nat, next: State, fin: State)
    requires Inv(data, nargs, st) && st.cursor + 1 < stop <= |data| && !st.hasEmpty
    requires Numbering(st.direct, st.used)
    requires data[st.cursor] == '{' && data[st.cursor + 1] != '{'
    requires stop == SkipTo(Parser(data, st.cursor + 1), FieldEnd).cursor
    requires IsInteger(data[st.cursor + 1..stop]) && index == Strings.Stou(data[st.cursor + 1..stop]) && index < nargs
    requires Step(data, nargs, st) == Success(next)
    requires Run(data, nargs, next) == Success(fin)
    ensures |next.fragments| >= 1 && next.fragments[|next.fragments| - 1] == TextFragment(Strings.Decimal(Emitted(st, index)))
    ensures Emitted(st, index) < fin.used
    ensures UsedInFirstUseOrder(fin.direct, fin.used)[Emitted(st, index)] == index
  {
    IndexedStep(data, nargs, st, stop, index);
    StepAdvances(data, nargs, st);
    StepKeepsNumbering(data, nargs, st);
    RunKeepsNumbering(data, nargs, next);
    assert fin.direct[index] == next.direct[index] == Emitted(st, index);
    FirstUseInverts(fin.direct, fin.used);
  }

  /** The finished parse's first-use list is a bijection between numbers and the arguments `{N}` named. */
  lemma ParseListInverts(data: string, nargs: nat, fin: State)
    requires Final(data, nargs) == Success(fin) && fin.hasPositional
    ensures |fin.direct| == nargs && Numbering(fin.direct, fin.used)
    ensures Parse(data, nargs).Success? && Parse(data, nargs).value.directList == UsedInFirstUseOrder(fin.direct, fin.used)
    ensures forall j :: 0 <= j < fin.used ==>
      Parse(data, nargs).value.directList[j] < nargs && fin.direct[Parse(data, nargs).value.directList[j]] == j
    ensures forall x :: 0 <= x < nargs && fin.direct[x] != -1 ==> Parse(data, nargs).value.directList[fin.direct[x]] == x
  {
    InitialInv(data, nargs);
    var init := Initial(nargs);
    assert Numbering(init.direct, init.used);
    RunKeepsNumbering(data, nargs, init);
    FirstUseInverts(fin.direct, fin.used);
  }

  // ---------------------------------------------------------------------
  // Accessor fragments and rendering

  /** The indices carried by the accessor fragments, in order. */
  function AccessorNumbers(fragments: seq<Fragment>): (r: seq<nat>)
  {
    if fragments == [] then []
    else
      var last := fragments[|fragments| - 1];
      AccessorNumbers(fragments[..|fragments| - 1]) + (if last.AccessorFragment? then [last.index] else [])
  }

  /** 1, 2, .., n. */
  function OneTo(n: nat): (r: seq<nat>)
    ensures |r| == n && forall i :: 0 <= i < n ==> r[i] == i + 1
  {
    if n == 0 then [] else OneTo(n - 1) + [n]
  }

  /** The accessor fragments count the accessors from 1, in the order the accessors were recorded. */
  predicate AccessorsInOrder(st: State)
  {
    AccessorNumbers(st.fragments) == OneTo(|st.accessors|)
  }

  /** Text fragments leave the accessor numbering alone. */
  lemma AccessorNumbersText(fragments: seq<Fragment>, text: string)
    ensures AccessorNumbers(fragments + [TextFragment(text)]) == AccessorNumbers(fragments)
  {
    assert (fragments + [TextFragment(text)])[..|fragments|] == fragments;
  }

  lemma PushTextInOrder(st: State, data: string)
    requires st.fragmentStart <= st.cursor <= |data| + 1 && AccessorsInOrder(st)
    ensures AccessorsInOrder(PushText(st, data))
  {
    if st.fragmentStart != st.cursor {
      AccessorNumbersText(st.fragments, Substr(data, st.fragmentStart, st.cursor - st.fragmentStart));
    }
  }

  lemma AddAccessorInOrder(st: State, a: Accessor)
    requires AccessorsInOrder(st)
    ensures AccessorsInOrder(AddAccessor(st, a))
  {
    var r := AddAccessor(st, a);
    assert r.fragments[..|r.fragments| - 1] == st.fragments;
  }

  lemma FieldInOrder(data: string, nargs: nat, st: State, start: nat)
    requires Inv(data, nargs, st) && start < st.cursor <= |data|
    requires AccessorsInOrder(st)
    requires Field(data, nargs, st, start).Success?
    ensures AccessorsInOrder(Field(data, nargs, st, start).value)
  {
    var name := data[start..st.cursor];
    var dot := DotPos(name);
    if IsInteger(name) {
      var st1 := Renumber(st, Strings.Stou(name));
      AccessorNumbersText(st1.fragments, Strings.Decimal(st1.direct[Strings.Stou(name)]));
    } else if dot == |name| || !IsDigit(name[0]) {
      AddAccessorInOrder(st, Accessor(0, name));
    } else {
      AddAccessorInOrder(st, Accessor(Strings.Stou(name[..dot]), name[dot + 1..]));
    }
  }

  lemma OpenFieldInOrder(data: string, nargs: nat, st: State)
    requires Inv(data, nargs, st) && st.cursor <= |data|
    requires AccessorsInOrder(st)
    requires OpenField(data, nargs, st).Success?
    ensures AccessorsInOrder(OpenField(data, nargs, st).value)
  {
    var stop := SkipTo(Parser(data, st.cursor), FieldEnd).cursor;
    if stop == st.cursor {
      PushTextInOrder(st.(hasEmpty := true, cursor := st.cursor + 1), data);
    } else {
      FieldInOrder(data, nargs, st.(hasPositional := true, cursor := stop), st.cursor);
    }
  }

  /** Every step keeps the accessor fragments numbered 1, 2, .. in order. */
  lemma StepInOrder(data: string, nargs: nat, st: State)
    requires Inv(data, nargs, st) && st.cursor < |data|
    requires AccessorsInOrder(st)
    requires Step(data, nargs, st).Success?
    ensures AccessorsInOrder(Step(data, nargs, st).value)
  {
    if data[st.cursor] != '{' {
      PlainStep(data, nargs, st);
    } else if Current(Parser(data, st.cursor + 1)) == '{' {
      EscapeStep(data, nargs, st);
      PushTextInOrder(st.(cursor := SkipTo(Parser(data, st.cursor + 1), EscapeEnd).cursor), data);
    } else {
      OpenStep(data, nargs, st);
      PushTextInOrder(st.(cursor := st.cursor + 1), data);
      OpenFieldInOrder(data, nargs, PushText(st.(cursor := st.cursor + 1), data));
    }
  }

  lemma {:induction false} RunInOrder(data: string, nargs: nat, st: State)
    requires Inv(data, nargs, st) && AccessorsInOrder(st)
    requires Run(data, nargs, st).Success?
    ensures AccessorsInOrder(Run(data, nargs, st).value)
    decreases |data| + 1 - st.cursor
  {
    if st.cursor < |data| {
      StepAdvances(data, nargs, st);
      StepInOrder(data, nargs, st);
      RunInOrder(data, nargs, Step(data, nargs, st).value);
    }
  }

  /**
   * In the finished parse the i-th accessor fragment carries i + 1, so with
   * `n` direct arguments it renders as `n + i`: the position of accessor i
   * in the argument list (direct arguments, then the accessors' results).
   */
  lemma AccessorsFollowDirect(data: string, nargs: nat, fin: State, n: nat)
    requires Final(data, nargs) == Success(fin)
    ensures AccessorNumbers(fin.fragments) == OneTo(|fin.accessors|)
    ensures forall i :: 0 <= i < |fin.accessors| ==>
      PushFragment(AccessorFragment(AccessorNumbers(fin.fragments)[i]), n - 1) == Strings.Decimal(n + i)
  {
    InitialInv(data, nargs);
    RunInOrder(data, nargs, Initial(nargs));
    var st := Run(data, nargs, Initial(nargs)).value;
    PushTextInOrder(st, data);
  }

  // ---------------------------------------------------------------------
  // Flags

  /** A successful step never leaves both an empty field and a named or indexed one on record. */
  lemma StepNeverMixes(data: string, nargs: nat, st: State)
    requires Inv(data, nargs, st) && st.cursor < |data|
    requires !(st.hasEmpty && st.hasPositional)
    requires Step(data, nargs, st).Success?
    ensures !(Step(data, nargs, st).value.hasEmpty && Step(data, nargs, st).value.hasPositional)
    ensures st.hasEmpty ==> Step(data, nargs, st).value.hasEmpty
    ensures st.hasPositional ==> Step(data, nargs, st).value.hasPositional
  {
  }

  lemma {:induction false} RunNeverMixes(data: string, nargs: nat, st: State)
    requires Inv(data, nargs, st) && !(st.hasEmpty && st.hasPositional)
    requires Run(data, nargs, st).Success?
    ensures !(Run(data, nargs, st).value.hasEmpty && Run(data, nargs, st).value.hasPositional)
    ensures st.hasEmpty ==> Run(data, nargs, st).value.hasEmpty
    ensures st.hasPositional ==> Run(data, nargs, st).value.hasPositional
    decreases |data| + 1 - st.cursor
  {
    if st.cursor < |data| {
      StepAdvances(data, nargs, st);
      StepNeverMixes(data, nargs, st);
      RunNeverMixes(data, nargs, Step(data, nargs, st).value);
    }
  }

  // ---------------------------------------------------------------------
  // Text without fields

  lemma {:induction false} RunPlain(data: string, nargs: nat, st: State)
    requires Inv(data, nargs, st) && st.cursor <= |data|
    requires forall i :: st.cursor <= i < |data| ==> data[i] != '{'
    ensures Run(data, nargs, st) == Success(st.(cursor := |data|))
    decreases |data| - st.cursor
  {
    if st.cursor < |data| {
      RunPlain(data, nargs, st.(cursor := st.cursor + 1));
    }
  }

  /** The state after the loop over a string without '{': at most one text fragment, the whole string. */
  lemma FinalPlain(data: string, nargs: nat)
    requires forall i :: 0 <= i < |data| ==> data[i] != '{'
    ensures Final(data, nargs) == Success(PushText(Initial(nargs).(cursor := |data|), data))
  {
    InitialInv(data, nargs);
    RunPlain(data, nargs, Initial(nargs));
  }

  /** A string without '{' comes back unchanged, with every argument passed directly. */
  lemma PlainTextUnchanged(data: string, nargs: nat)
    requires forall i :: 0 <= i < |data| ==> data[i] != '{'
    ensures Parse(data, nargs) == Success(Transformed(data, AllArguments(nargs), []))
    ensures ParseWritten(data, nargs) == Parse(data, nargs)
  {
    FinalPlain(data, nargs);
    var fin := PushText(Initial(nargs).(cursor := |data|), data);
    PlainRender(data, nargs);
    ParseOfUnnamed(data, nargs, fin);
    ParseWrittenOfUnnamed(data, nargs, fin);
  }

  lemma PlainRender(data: string, nargs: nat)
    ensures Render(PushText(Initial(nargs).(cursor := |data|), data).fragments, nargs - 1) == data
    ensures PushText(Initial(nargs).(cursor := |data|), data).accessors == []
  {
    var fin := PushText(Initial(nargs).(cursor := |data|), data);
    if data != [] {
      assert Substr(data, 0, |data|) == data;
      assert fin.fragments == [TextFragment(data)];
      assert fin.fragments[..0] == [];
    }
  }

  // ---------------------------------------------------------------------
  // Worked cases

  /** The fragments "{1} {0}" leaves: "{", "0", "} {", "1", "}". */
  function SwappedFragments(): seq<Fragment>
  {
    [TextFragment("{"), TextFragment("0"), TextFragment("} {"), TextFragment("1"), TextFragment("}")]
  }

  /** The numerals the worked cases meet. */
  lemma SmallNumerals()
    ensures IsInteger("0") && IsInteger("1")
    ensures Strings.Stou("0") == 0 && Strings.Stou("1") == 1
    ensures Strings.Decimal(0) == "0" && Strings.Decimal(1) == "1"
  {
    assert "0"[..0] == [] && "1"[..0] == [];
    assert IsDigit("0"[0]) && IsDigit("1"[0]);
  }

  /** An integer field in range: its number replaces its name. */
  lemma IndexedField(data: string, nargs: nat, st: State, start: nat, index: nat)
    requires Inv(data, nargs, st) && start < st.cursor <= |data|
    requires IsInteger(data[start..st.cursor]) && Strings.Stou(data[start..st.cursor]) == index < nargs
    ensures Field(data, nargs, st, start)
      == Success(PushGiven(Renumber(st, index), Strings.Decimal(Renumber(st, index).direct[index])))
  {
  }

  lemma SwappedFirstField()
    ensures Step("{1} {0}", 2, Initial(2))
      == Success(State(2, 2, [TextFragment("{"), TextFragment("0")], [-1, 0], 1, [], false, true))
  {
    var data := "{1} {0}";
    var s0 := Initial(2);
    assert s0.direct == [-1, -1];
    SkipToFlat(data, 1, 1, FieldEnd);
    assert data[0..1] == "{" && data[1..2] == "1";
    SmallNumerals();
    IndexedStep(data, 2, s0, 2, 1);
    var r := Renumber(s0, 1);
    assert r.direct == [-1, 0] && r.used == 1 && r.direct[1] == 0;
    assert s0.fragments + [TextFragment("{"), TextFragment(Strings.Decimal(0))] == [TextFragment("{"), TextFragment("0")];
  }

  lemma SwappedSecondField()
    ensures Step("{1} {0}", 2, State(4, 2, [TextFragment("{"), TextFragment("0")], [-1, 0], 1, [], false, true))
      == Success(State(6, 6, SwappedFragments()[..4], [1, 0], 2, [], false, true))
  {
    var data := "{1} {0}";
    var s3 := State(4, 2, [TextFragment("{"), TextFragment("0")], [-1, 0], 1, [], false, true);
    SkipToFlat(data, 5, 1, FieldEnd);
    assert data[2..5] == "} {" && data[5..6] == "0";
    SmallNumerals();
    IndexedStep(data, 2, s3, 6, 0);
    var r := Renumber(s3, 0);
    assert r.direct == [1, 0] && r.used == 2 && r.direct[0] == 1;
    assert s3.fragments + [TextFragment("} {"), TextFragment("1")] == SwappedFragments()[..4];
  }

  lemma SwappedTail(s1: State, s4: State)
    requires s1 == State(2, 2, [TextFragment("{"), TextFragment("0")], [-1, 0], 1, [], false, true)
    requires s4 == State(6, 6, SwappedFragments()[..4], [1, 0], 2, [], false, true)
    requires Step("{1} {0}", 2, s1.(cursor := 4)) == Success(s4)
    ensures Run("{1} {0}", 2, s1) == Success(s4.(cursor := 7))
  {
    var data := "{1} {0}";
    RunPlainChar(data, 2, s1);
    RunPlainChar(data, 2, s1.(cursor := 3));
    assert s1.(cursor := 3).(cursor := 4) == s1.(cursor := 4);
    RunStep(data, 2, s1.(cursor := 4), s4);
    RunPlainChar(data, 2, s4);
  }

  lemma SwappedRun()
    ensures Run("{1} {0}", 2, Initial(2)) == Success(State(7, 6, SwappedFragments()[..4], [1, 0], 2, [], false, true))
  {
    var data := "{1} {0}";
    var s1 := State(2, 2, [TextFragment("{"), TextFragment("0")], [-1, 0], 1, [], false, true);
    var s4 := State(6, 6, SwappedFragments()[..4], [1, 0], 2, [], false, true);
    SwappedFirstField();
    SwappedSecondField();
    InitialInv(data, 2);
    RunStep(data, 2, Initial(2), s1);
    SwappedTail(s1, s4);
  }

  lemma SwappedFinal()
    ensures Final("{1} {0}", 2) == Success(State(7, 7, SwappedFragments(), [1, 0], 2, [], false, true))
  {
    var data := "{1} {0}";
    SwappedRun();
    var s5 := State(7, 6, SwappedFragments()[..4], [1, 0], 2, [], false, true);
    InitialInv(data, 2);
    FinalOf(data, 2, s5);
    assert data[6..7] == "}";
    assert Substr(data, 6, 1) == "}";
    assert SwappedFragments()[..4] + [TextFragment("}")] == SwappedFragments();
  }

  /** Rendering text fragments only: appending one appends its text. */
  lemma RenderText(fragments: seq<Fragment>, text: string, offset: int)
    ensures Render(fragments + [TextFragment(text)], offset) == Render(fragments, offset) + text
  {
    assert (fragments + [TextFragment(text)])[..|fragments|] == fragments;
  }

  lemma SwappedRender()
    ensures Render(SwappedFragments(), 1) == "{0} {1}"
  {
    var fs := SwappedFragments();
    RenderText([], "{", 1);
    assert [] + [fs[0]] == fs[..1];
    RenderText(fs[..1], "0", 1);
    assert fs[..1] + [fs[1]] == fs[..2];
    RenderText(fs[..2], "} {", 1);
    assert fs[..2] + [fs[2]] == fs[..3];
    RenderText(fs[..3], "1", 1);
    assert fs[..3] + [fs[3]] == fs[..4];
    RenderText(fs[..4], "}", 1);
    assert fs[..4] + [fs[4]] == fs;
    assert Render([], 1) == [];
    assert [] + "{" + "0" + "} {" + "1" + "}" == "{0} {1}";
  }

  /**
   * As written: "{1} {0}" becomes "{0} {1}" with the arguments passed in
   * index order, so the first field shows argument 0 although it named
   * argument 1 — the two arguments come out swapped.
   */
  lemma SwappedIndicesWritten()
    ensures ParseWritten("{1} {0}", 2) == Success(Transformed("{0} {1}", [0, 1], []))
  {
    SwappedFinal();
    SwappedRender();
    assert [1, 0][..1] == [1];
    assert UsedInIndexOrder([1, 0]) == [0, 1];
  }

  /** Listing the arguments in first-use order makes "{0} {1}" print argument 1, then argument 0. */
  lemma SwappedIndicesCorrected()
    ensures Parse("{1} {0}", 2) == Success(Transformed("{0} {1}", [1, 0], []))
  {
    SwappedFinal();
    SwappedRender();
    assert Numbered([1, 0], 0) == 1;
    assert UsedInFirstUseOrder([1, 0], 2) == [1, 0];
  }

  /** The first step of "{0} {}" reads the indexed field. */
  lemma IndexedFirstField()
    ensures Step("{0} {}", 2, Initial(2))
      == Success(State(2, 2, [TextFragment("{"), TextFragment("0")], [0, -1], 1, [], false, true))
  {
    var data := "{0} {}";
    var s0 := Initial(2);
    assert s0.direct == [-1, -1];
    SkipToFlat(data, 1, 1, FieldEnd);
    assert data[0..1] == "{" && data[1..2] == "0";
    SmallNumerals();
    IndexedStep(data, 2, s0, 2, 0);
    var r := Renumber(s0, 0);
    assert r.direct == [0, -1] && r.used == 1 && r.direct[0] == 0;
    assert s0.fragments + [TextFragment("{"), TextFragment(Strings.Decimal(0))] == [TextFragment("{"), TextFragment("0")];
  }

  /** An empty field after an indexed one is rejected. */
  lemma EmptyAfterIndexed()
    ensures Parse("{0} {}", 2) == Failure(MixedPositional)
    ensures ParseWritten("{0} {}", 2) == Failure(MixedPositional)
  {
    var data := "{0} {}";
    var s1 := State(2, 2, [TextFragment("{"), TextFragment("0")], [0, -1], 1, [], false, true);
    IndexedFirstField();
    InitialInv(data, 2);
    RunStep(data, 2, Initial(2), s1);
    RunPlainChar(data, 2, s1);
    RunPlainChar(data, 2, s1.(cursor := 3));
    var s3 := s1.(cursor := 4);
    assert s1.(cursor := 3).(cursor := 4) == s3;
    SkipToFlat(data, 5, 0, FieldEnd);
    assert Current(Parser(data, 5)) == '}';
    OpenStep(data, 2, s3);
    RunFails(data, 2, s3, MixedPositional);
  }

  /** An indexed field after an empty one is rejected. */
  lemma IndexedAfterEmpty()
    ensures Parse("{} {0}", 2) == Failure(MixedPositional)
    ensures ParseWritten("{} {0}", 2) == Failure(MixedPositional)
  {
    var data := "{} {0}";
    var s0 := Initial(2);
    InitialInv(data, 2);
    EmptyStep(data, 2, s0);
    var s1 := State(2, 2, [TextFragment("{"), TextFragment("}")], s0.direct, 0, [], true, false);
    assert data[0..1] == "{" && data[1..2] == "}";
    assert [] + [TextFragment("{"), TextFragment("}")] == s1.fragments;
    RunStep(data, 2, s0, s1);
    RunPlainChar(data, 2, s1);
    IndexedAfterEmptyFails(s1.(cursor := 3));
  }

  /** The second field of "{} {0}" meets an empty field on record. */
  lemma IndexedAfterEmptyFails(st: State)
    requires Inv("{} {0}", 2, st) && st.cursor == 3 && st.hasEmpty
    ensures Run("{} {0}", 2, st) == Failure(MixedPositional)
  {
    var data := "{} {0}";
    SkipToFlat(data, 4, 1, FieldEnd);
    assert Current(Parser(data, 4)) == '0';
    OpenStep(data, 2, st);
    RunFails(data, 2, st, MixedPositional);
  }

  lemma FinalOf(data: string, nargs: nat, st: State)
    requires Inv(data, nargs, Initial(nargs)) && Run(data, nargs, Initial(nargs)) == Success(st)
    ensures st.fragmentStart <= st.cursor <= |data| + 1
    ensures Final(data, nargs) == Success(PushText(st, data))
  {
  }

  /** The finished parse of a string without named or indexed fields passes every argument directly. */
  lemma ParseOfUnnamed(data: string, nargs: nat, fin: State)
    requires Final(data, nargs) == Success(fin) && !fin.hasPositional
    ensures Parse(data, nargs) == Success(Transformed(Render(fin.fragments, nargs - 1), AllArguments(nargs), fin.accessors))
  {
  }

  lemma UnnamedParse(data: string, nargs: nat, fin: State, offset: int, text: string)
    requires Final(data, nargs) == Success(fin) && !fin.hasPositional
    requires offset == nargs - 1 && Render(fin.fragments, offset) == text
    ensures Parse(data, nargs) == Success(Transformed(text, AllArguments(nargs), fin.accessors))
  {
  }

  lemma ParseWrittenOfUnnamed(data: string, nargs: nat, fin: State)
    requires Final(data, nargs) == Success(fin) && !fin.hasPositional
    ensures ParseWritten(data, nargs) == Parse(data, nargs)
  {
  }

  /** A bare field name is rejected when there is more than one argument. */
  lemma NameWithManyArguments()
    ensures Parse("{a}", 2) == Failure(NamedWithManyArguments)
    ensures ParseWritten("{a}", 2) == Failure(NamedWithManyArguments)
  {
    var data := "{a}";
    SkipToFlat(data, 1, 1, FieldEnd);
    assert data[1..2] == "a";
    assert !IsInteger("a") && DotPos("a") == 1;
    assert Run(data, 2, Initial(2)) == Failure(NamedWithManyArguments);
  }

  lemma NameFirstStep()
    ensures Step("{a}", 1, Initial(1))
      == Success(State(3, 2, [TextFragment("{"), AccessorFragment(1)], [-1], 0, [Accessor(0, "a")], false, true))
  {
    var data := "{a}";
    SkipToFlat(data, 1, 1, FieldEnd);
    assert data[0..1] == "{" && data[1..2] == "a";
    assert !IsInteger("a") && DotPos("a") == 1;
    InitialInv(data, 1);
    assert Initial(1).direct == [-1];
    NamedStep(data, Initial(1), 2);
    assert [] + [TextFragment("{"), AccessorFragment(1)] == [TextFragment("{"), AccessorFragment(1)];
    assert [] + [Accessor(0, "a")] == [Accessor(0, "a")];
  }

  lemma NameFinal()
    ensures Final("{a}", 1) == Success(State(3, 3, [TextFragment("{"), AccessorFragment(1), TextFragment("}")],
                                             [-1], 0, [Accessor(0, "a")], false, true))
  {
    var data := "{a}";
    NameFirstStep();
    var s1 := State(3, 2, [TextFragment("{"), AccessorFragment(1)], [-1], 0, [Accessor(0, "a")], false, true);
    InitialInv(data, 1);
    assert Run(data, 1, Initial(1)) == Success(s1);
    FinalOf(data, 1, s1);
    assert data[2..3] == "}";
    assert Substr(data, 2, 1) == "}";
    assert s1.fragments + [TextFragment("}")] == [TextFragment("{"), AccessorFragment(1), TextFragment("}")];
  }

  lemma NameRender()
    ensures Render([TextFragment("{"), AccessorFragment(1), TextFragment("}")], -1) == "{0}"
  {
    var fs := [TextFragment("{"), AccessorFragment(1), TextFragment("}")];
    assert Strings.Decimal(0) == "0";
    assert fs[..1][..0] == [];
    assert Render(fs[..1], -1) == "{";
    assert fs[..2][..1] == fs[..1];
    assert Render(fs[..2], -1) == "{" + "0";
    RenderText(fs[..2], "}", -1);
    assert fs[..2] + [fs[2]] == fs;
    assert "{" + "0" + "}" == "{0}";
  }

  /**
   * With exactly one argument a bare name is an accessor on it; a named
   * field counts as positional, so no argument is passed directly and the
   * accessor takes position 0.
   */
  lemma NameWithOneArgument()
    ensures Parse("{a}", 1) == Success(Transformed("{0}", [], [Accessor(0, "a")]))
  {
    NameFinal();
    NameRender();
  }

  lemma EscapeFirstStep()
    ensures Step("{{x}}", 0, Initial(0)) == Success(State(4, 4, [TextFragment("{{x}")], [], 0, [], false, false))
  {
    var data := "{{x}}";
    assert SkipTo(Parser(data, 1), EscapeEnd).cursor == 4;
    assert Current(Parser(data, 1)) == '{';
    assert data[0..4] == "{{x}";
    assert Substr(data, 0, 4) == "{{x}";
    var s0 := Initial(0);
    assert Step(data, 0, s0) == Success(PushText(s0.(cursor := 4), data));
    assert [] + [TextFragment("{{x}")] == [TextFragment("{{x}")];
    assert PushText(s0.(cursor := 4), data) == State(4, 4, [TextFragment("{{x}")], [], 0, [], false, false);
  }

  lemma EscapeFinal()
    ensures Final("{{x}}", 0) == Success(State(5, 5, [TextFragment("{{x}"), TextFragment("}")], [], 0, [], false, false))
  {
    var data := "{{x}}";
    EscapeFirstStep();
    var s1 := State(4, 4, [TextFragment("{{x}")], [], 0, [], false, false);
    InitialInv(data, 0);
    assert Run(data, 0, Initial(0)) == Run(data, 0, s1);
    assert Run(data, 0, s1) == Success(s1.(cursor := 5));
    FinalOf(data, 0, s1.(cursor := 5));
    assert data[4..5] == "}";
    assert Substr(data, 4, 1) == "}";
    assert s1.fragments + [TextFragment("}")] == [TextFragment("{{x}"), TextFragment("}")];
  }

  lemma EscapeRender()
    ensures Render([TextFragment("{{x}"), TextFragment("}")], -1) == "{{x}}"
  {
    var fs := [TextFragment("{{x}"), TextFragment("}")];
    RenderText([], "{{x}", -1);
    assert [] + [fs[0]] == fs[..1];
    RenderText(fs[..1], "}", -1);
    assert fs[..1] + [fs[1]] == fs;
    assert Render([], -1) == [];
  }

  /** "{{x}}" is an escape: it stays as it is and names no argument. */
  lemma EscapeKept()
    ensures Parse("{{x}}", 0) == Success(Transformed("{{x}}", [], []))
  {
    var fin := State(5, 5, [TextFragment("{{x}"), TextFragment("}")], [], 0, [], false, false);
    EscapeFinal();
    assert Final("{{x}}", 0) == Success(fin);
    EscapeRender();
    assert Render(fin.fragments, -1) == "{{x}}";
    assert AllArguments(0) == [];
    UnnamedParse("{{x}}", 0, fin, -1, "{{x}}");
  }
}

=== FILE: net_buffer.dfy ===
/**
 * `slo::message::HybridBuffer` of the network layer: the same inline-then-heap
 * byte buffer, but the storage in use is recorded in the sign of the cursor.
 * A non-negative cursor is the size of inline data; a heap buffer of size s
 * keeps the cursor at -s-1.
 */
module NetBuffer {
  import opened Bytes
  import opened Storage

  datatype Buffer = Buffer(cap: nat, cursor: int, inline: seq<Cell>, heap: seq<Cell>, heapCapacity: nat)
  {
    /** `is_heap()`. */
    predicate IsHeap()
    {
      cursor < 0
    }

    /** `size()`. */
    function Size(): nat
    {
      if IsHeap() then -cursor - 1 else cursor
    }

    predicate Valid()
    {
      |inline| == cap && |heap| == heapCapacity
      && (if IsHeap() then Size() <= heapCapacity else cursor <= cap)
    }
  }

  function Max(a: nat, b: nat): nat
  {
    if a >= b then a else b
  }

  function Init(cap: nat): (r: Buffer)
    ensures r.Valid() && !r.IsHeap() && r.Size() == 0
  {
    Buffer(cap, 0, seq(cap, _ => Stored(0)), [], 0)
  }

  /**
   * `allocate_heap`: copies the inline bytes into a fresh block and switches to
   * heap mode, turning an inline size s into the cursor -s-1.
   */
  function AllocateHeap(b: Buffer, capacity: nat): (r: Buffer)
    requires b.Valid() && !b.IsHeap() && b.cursor <= capacity
    ensures r.Valid() && r.IsHeap() && r.Size() == b.Size() && r.cursor == -b.cursor - 1
    ensures r.heapCapacity == capacity && r.heap[..b.Size()] == b.inline[..b.Size()]
  {
    b.(heap := b.inline[..b.cursor] + Fresh(capacity - b.cursor), heapCapacity := capacity,
       inline := Clobber(b.inline), cursor := -b.cursor - 1)
  }

  /** `resize_heap`. */
  function ResizeHeap(b: Buffer, capacity: nat): (r: Buffer)
    requires b.Valid() && b.IsHeap() && b.Size() <= capacity
    ensures r.Valid() && r.IsHeap() && r.cursor == b.cursor && r.heapCapacity == capacity
    ensures r.heap[..b.Size()] == b.heap[..b.Size()]
  {
    b.(heap := Realloc(b.heap, capacity), heapCapacity := capacity)
  }

  /** `write`. */
  function Write(b: Buffer, data: seq<byte>): (r: Buffer)
    requires b.Valid()
    ensures r.Valid() && r.cap == b.cap && r.Size() == b.Size() + |data|
    ensures r.IsHeap() <==> b.IsHeap() || b.Size() + |data| > b.cap
    ensures !b.IsHeap() && b.Size() + |data| <= b.cap ==> r.cursor == b.cursor + |data| && r.heap == b.heap
    ensures b.IsHeap() ==>
              r.heapCapacity == (if b.Size() + |data| > b.heapCapacity then b.Size() + |data| else b.heapCapacity)
    ensures !b.IsHeap() && b.Size() + |data| > b.cap ==> r.heapCapacity == Max(b.Size() + |data|, 2 * b.cap)
  {
    var newSize := b.Size() + |data|;
    if !b.IsHeap() && newSize <= b.cap then
      b.(inline := Overwrite(b.inline, b.cursor, data), cursor := b.cursor + |data|)
    else
      var grown :=
        if !b.IsHeap() then AllocateHeap(b, Max(b.cursor + |data|, 2 * b.cap))
        else if newSize > b.heapCapacity then ResizeHeap(b, newSize)
        else b;
      grown.(heap := Overwrite(grown.heap, grown.Size(), data), cursor := grown.cursor - |data|)
  }

  /** `reserve`: a heap buffer is resized to exactly size()+n; an inline one moves only past the inline capacity. */
  function Reserve(b: Buffer, n: nat): (r: Buffer)
    requires b.Valid()
    ensures r.Valid() && r.cap == b.cap && r.Size() == b.Size()
    ensures b.IsHeap() ==> r.IsHeap() && r.heapCapacity == b.Size() + n
    ensures !b.IsHeap() ==> (r.IsHeap() <==> b.Size() + n > b.cap)
    ensures !b.IsHeap() && b.Size() + n <= b.cap ==> r == b
  {
    var newSize := b.Size() + n;
    if b.IsHeap() then ResizeHeap(b, newSize)
    else if newSize > b.cap then AllocateHeap(b, newSize)
    else b
  }

  /** `data()`: chosen by the mode recorded in the cursor. */
  function Data(b: Buffer): seq<Cell>
  {
    if b.IsHeap() then b.heap else b.inline
  }

  /** `finalize()`. */
  function Finalize(b: Buffer): (r: seq<Cell>)
    requires b.Valid()
    ensures |r| == b.Size()
  {
    Data(b)[..b.Size()]
  }

  /**
   * `read(n, offset)`: n cells of the storage `data()` selects, starting at
   * offset. Nothing checks the range against `size()`: a read past the bytes
   * written but inside the storage returns whatever cells lie there.
   */
  function ReadAt(b: Buffer, n: nat, offset: nat): (r: seq<Cell>)
    requires b.Valid() && offset + n <= |Data(b)|
    ensures |r| == n
    ensures offset + n <= b.Size() ==> r == Finalize(b)[offset..offset + n]
    ensures forall i :: 0 <= i < n ==> r[i] == Data(b)[offset + i]
  {
    var data := Data(b);
    assert offset + n <= b.Size() ==> data[..b.Size()][offset..offset + n] == data[offset..offset + n];
    data[offset..offset + n]
  }

  /** On a fresh buffer, reading past size() sees the zeroed inline array. */
  lemma ReadPastSizeSeesZeros()
    ensures Init(4).Size() == 0
    ensures ReadAt(Init(4), 2, 0) == [Stored(0), Stored(0)]
  {
  }

  predicate Holds(b: Buffer, w: seq<byte>)
  {
    b.Valid() && b.Size() == |w| && Finalize(b) == Cells(w)
  }

  lemma WriteAppends(b: Buffer, w: seq<byte>, data: seq<byte>)
    requires Holds(b, w)
    ensures Holds(Write(b, data), w + data)
  {
    var r := Write(b, data);
    CellsAppend(w, data);
    assert Finalize(r) == Data(r)[..b.Size()] + Data(r)[b.Size()..r.Size()];
  }

  /** Unlike the inline-capacity test, the recorded mode keeps reserve harmless. */
  lemma ReserveKeeps(b: Buffer, w: seq<byte>, n: nat)
    requires Holds(b, w)
    ensures Holds(Reserve(b, n), w)
  {
    var r := Reserve(b, n);
    assert Finalize(r) == Data(r)[..b.Size()];
  }

  function Run(b: Buffer, ops: seq<Op>): (r: Buffer)
    requires b.Valid()
    ensures r.Valid() && r.cap == b.cap
  {
    if |ops| == 0 then b
    else
      var prev := Run(b, ops[..|ops| - 1]);
      match ops[|ops| - 1]
      case WriteOp(data) => Write(prev, data)
      case ReserveOp(n) => Reserve(prev, n)
  }

  /** Whatever mix of writes and reserves a serializer issues, finalize returns exactly the bytes written. */
  lemma {:induction false} RunShowsWritten(cap: nat, ops: seq<Op>)
    ensures Holds(Run(Init(cap), ops), Written(ops))
  {
    if |ops| > 0 {
      var prefix := ops[..|ops| - 1];
      RunShowsWritten(cap, prefix);
      var prev := Run(Init(cap), prefix);
      match ops[|ops| - 1]
      case WriteOp(data) => WriteAppends(prev, Written(prefix), data);
      case ReserveOp(n) => ReserveKeeps(prev, Written(prefix), n);
    }
  }
}

=== FILE: parsing.dfy ===
/**
 * The character classes and the cursor-based `Parser` shared by the
 * capture-list name parser and the format-string rewriters.
 */
module Parsing {
  predicate IsWhitespace(c: char)
  {
    c == ' ' || c == '\t' || c == '\n' || c == '\r'
  }

  predicate IsDigit(c: char)
  {
    '0' <= c <= '9'
  }

  /** `is_integer`: non-empty, then an optional '-', then digits only. */
  function IsInteger(s: string): (r: bool)
    ensures r <==> |s| >= 1 && forall i :: 0 <= i < |s| ==> IsDigit(s[i]) || (i == 0 && s[i] == '-')
  {
    if s == [] then false
    else
      var rest := if s[0] == '-' then s[1..] else s;
      assert s[0] == '-' ==> forall i :: 1 <= i < |s| ==> s[i] == rest[i - 1];
      forall i :: 0 <= i < |rest| ==> IsDigit(rest[i])
  }

  /** A lone minus sign passes, as does a minus sign followed by nothing but digits. */
  lemma LoneMinusIsInteger()
    ensures IsInteger("-")
    ensures !IsInteger("")
    ensures !IsInteger("1-")
  {
    var s := "1-";
    assert s[1] == '-' && !IsDigit(s[1]);
  }

  /** A view over text with a cursor that never decreases. */
  datatype Parser = Parser(data: string, cursor: nat)

  /**
   * `current`: the character under the cursor. The text always comes from a
   * NUL-terminated array, so one past the end reads the terminator.
   */
  function Current(p: Parser): (c: char)
    ensures p.cursor < |p.data| ==> c == p.data[p.cursor]
    ensures p.cursor >= |p.data| ==> c == '\0'
  {
    if p.cursor < |p.data| then p.data[p.cursor] else '\0'
  }

  predicate IsValid(p: Parser)
  {
    p.cursor < |p.data|
  }

  predicate Skippable(c: char)
  {
    IsWhitespace(c) || c == '\\'
  }

  /** `skip_whitespace`: step over whitespace and backslashes. */
  function SkipWhitespace(p: Parser): (r: Parser)
    ensures r.data == p.data && r.cursor >= p.cursor
    ensures r.cursor > p.cursor ==> r.cursor <= |p.data|
    ensures r.cursor < |r.data| ==> !Skippable(r.data[r.cursor])
    decreases |p.data| - p.cursor
  {
    if IsValid(p) && Skippable(Current(p)) then SkipWhitespace(p.(cursor := p.cursor + 1)) else p
  }

  /** Everything `skip_whitespace` steps over is whitespace or a backslash. */
  lemma {:induction false} SkipWhitespaceSkips(p: Parser)
    ensures forall i :: p.cursor <= i < SkipWhitespace(p).cursor ==> Skippable(p.data[i])
    decreases |p.data| - p.cursor
  {
    if IsValid(p) && Skippable(Current(p)) {
      SkipWhitespaceSkips(p.(cursor := p.cursor + 1));
    }
  }

  predicate IsOpen(c: char)
  {
    c == '[' || c == '{' || c == '('
  }

  predicate IsClose(c: char)
  {
    c == ']' || c == '}' || c == ')'
  }

  /** Bracket depth after the given text: openers minus closers, which may go negative. */
  function Depth(s: string): int
  {
    if s == [] then 0
    else Depth(s[..|s| - 1]) + (if IsOpen(s[|s| - 1]) then 1 else if IsClose(s[|s| - 1]) then -1 else 0)
  }

  /** Position i of the text stops `skip_to`: a needle outside every bracket opened since `from`. */
  predicate StopsAt(data: string, from: nat, i: nat, needles: set<char>)
    requires from <= i < |data|
  {
    Depth(data[from..i]) == 0 && data[i] in needles
  }

  /**
   * `skip_to(needles...)`: advance to the first needle at bracket depth 0,
   * counting `([{` up and `)]}` down, or to the end of the text.
   */
  function SkipTo(p: Parser, needles: set<char>): (r: Parser)
    requires p.cursor <= |p.data|
    ensures r.data == p.data && p.cursor <= r.cursor <= |p.data|
  {
    SkipToFrom(p.data, p.cursor, p.cursor, 0, needles)
  }

  /** The loop of `skip_to`, with `braceCount` the depth of the text passed so far. */
  function SkipToFrom(data: string, from: nat, cursor: nat, braceCount: int, needles: set<char>): (r: Parser)
    requires cursor <= |data|
    ensures r.data == data && cursor <= r.cursor <= |data|
    decreases |data| - cursor
  {
    if cursor == |data| then Parser(data, cursor)
    else
      var c := data[cursor];
      if braceCount == 0 && c in needles then Parser(data, cursor)
      else
        var next := if IsOpen(c) then braceCount + 1 else if IsClose(c) then braceCount - 1 else braceCount;
        SkipToFrom(data, from, cursor + 1, next, needles)
  }

  /** `skip_to` stops at the first position that stops it, or at the end when there is none. */
  lemma SkipToStops(p: Parser, needles: set<char>)
    requires p.cursor <= |p.data|
    ensures var r := SkipTo(p, needles);
      (forall i :: p.cursor <= i < r.cursor ==> !StopsAt(p.data, p.cursor, i, needles)) &&
      (r.cursor == |p.data| || StopsAt(p.data, p.cursor, r.cursor, needles))
  {
    assert p.data[p.cursor..p.cursor] == [];
    SkipToFromStops(p.data, p.cursor, p.cursor, 0, needles);
  }

  lemma {:induction false} SkipToFromStops(data: string, from: nat, cursor: nat, braceCount: int, needles: set<char>)
    requires from <= cursor <= |data|
    requires braceCount == Depth(data[from..cursor])
    requires forall i :: from <= i < cursor ==> !StopsAt(data, from, i, needles)
    ensures var r := SkipToFrom(data, from, cursor, braceCount, needles);
      (forall i :: from <= i < r.cursor ==> !StopsAt(data, from, i, needles)) &&
      (r.cursor == |data| || StopsAt(data, from, r.cursor, needles))
    decreases |data| - cursor
  {
    if cursor < |data| && !(braceCount == 0 && data[cursor] in needles) {
      var c := data[cursor];
      assert data[from..cursor + 1][..cursor - from] == data[from..cursor];
      var next := if IsOpen(c) then braceCount + 1 else if IsClose(c) then braceCount - 1 else braceCount;
      SkipToFromStops(data, from, cursor + 1, next, needles);
    }
  }

  /** Text without brackets has depth 0. */
  lemma {:induction false} DepthFlat(s: string)
    requires forall i :: 0 <= i < |s| ==> !IsOpen(s[i]) && !IsClose(s[i])
    ensures Depth(s) == 0
  {
    if s != [] {
      DepthFlat(s[..|s| - 1]);
    }
  }

  /**
   * Over text free of brackets and needles, `skip_to` stops exactly at the
   * next needle (or at the end).
   */
  lemma SkipToFlat(data: string, from: nat, k: nat, needles: set<char>)
    requires from + k <= |data|
    requires forall i :: from <= i < from + k ==> data[i] !in needles && !IsOpen(data[i]) && !IsClose(data[i])
    requires from + k == |data| || data[from + k] in needles
    ensures SkipTo(Parser(data, from), needles) == Parser(data, from + k)
  {
    var r := SkipTo(Parser(data, from), needles);
    SkipToStops(Parser(data, from), needles);
    if r.cursor < from + k {
      assert false;
    }
    if r.cursor > from + k {
      DepthFlat(data[from..from + k]);
      assert StopsAt(data, from, from + k, needles);
      assert false;
    }
  }

  /** `skip_whitespace` stops exactly at the first character it may not skip. */
  lemma SkipWhitespaceFlat(data: string, from: nat, k: nat)
    requires from + k <= |data|
    requires forall i :: from <= i < from + k ==> Skippable(data[i])
    requires from + k == |data| || !Skippable(data[from + k])
    ensures SkipWhitespace(Parser(data, from)) == Parser(data, from + k)
  {
    SkipWhitespaceSkips(Parser(data, from));
  }
}

=== FILE: protocol.dfy ===
/**
 * `RPCProtocol`: every request and every response is a `uint32_t` opcode (the
 * member's index) followed by the serialized values, with no other framing.
 */
module Protocol {
  import opened Wrappers
  import opened Bytes
  import opened Reader
  import opened Codec
  import Dispatch

  /** `index_type` is `uint32_t`. */
  const OpcodeWidth: nat := 4

  /** One serialized argument or result, with its C++ type. */
  datatype Arg = Arg(ty: Ty, val: Val)

  predicate Typed(args: seq<Arg>)
  {
    forall i :: 0 <= i < |args| ==> HasType(args[i].val, args[i].ty)
  }

  function EncodeArgs(args: seq<Arg>): seq<byte>
    requires Typed(args)
  {
    if |args| == 0 then [] else Encode(args[0].ty, args[0].val) + EncodeArgs(args[1..])
  }

  /** `request(index, args...)`: the opcode, then each argument in order. */
  function Request(index: nat, args: seq<Arg>): (r: seq<byte>)
    requires Typed(args)
    ensures |r| >= OpcodeWidth
    ensures r[..OpcodeWidth] == EncodeInt(index, OpcodeWidth) && r[OpcodeWidth..] == EncodeArgs(args)
  {
    EncodeInt(index, OpcodeWidth) + EncodeArgs(args)
  }

  /** `request(index, payload)`: the opcode, then an already serialized payload copied verbatim. */
  function RequestWithPayload(index: nat, payload: seq<byte>): (r: seq<byte>)
    ensures |r| == OpcodeWidth + |payload| && r[OpcodeWidth..] == payload
  {
    EncodeInt(index, OpcodeWidth) + payload
  }

  /** `make_response(index, values...)`: laid out exactly like a request. */
  function MakeResponse(index: nat, values: seq<Arg>): (r: seq<byte>)
    requires Typed(values)
    ensures r == Request(index, values)
  {
    EncodeInt(index, OpcodeWidth) + EncodeArgs(values)
  }

  /**
   * `dispatch`: reads the opcode and hands exactly the bytes after it to the
   * member the opcode names, through the `Dispatcher` switch as written (an
   * opcode between the last member and the end of the table is
   * `Unreachable`).  `None` when the message is shorter than an opcode,
   * where the source would read past its end.
   */
  function DispatchMessage(handlers: seq<Dispatch.Handler>, message: seq<byte>): (r: Option<Dispatch.Outcome>)
    requires |handlers| <= Dispatch.MaxMembers
    ensures r.Some? <==> |message| >= OpcodeWidth
    ensures r.Some? ==>
              r.value == Dispatch.SelectAsWritten(handlers, FromLittleEndian(message[..OpcodeWidth]), message[OpcodeWidth..])
  {
    match DecodeInt(OpcodeWidth, false, View(message, 0))
    case None => None
    case Some((index, rest)) =>
      if index < 0 then None
      else Some(Dispatch.SelectAsWritten(handlers, index, message[rest.cursor..]))
  }

  /**
   * A request for member i reaches member i with exactly the encoded
   * arguments; an opcode past the last member but inside the switch table is
   * undefined behaviour, and one past the table is an invalid opcode.
   */
  lemma DispatchRequest(handlers: seq<Dispatch.Handler>, index: nat, args: seq<Arg>)
    requires |handlers| <= Dispatch.MaxMembers && index < Pow256(OpcodeWidth) && Typed(args)
    ensures index < |handlers| ==>
              DispatchMessage(handlers, Request(index, args)) == Some(Dispatch.Reply(handlers[index](EncodeArgs(args))))
    ensures |handlers| <= index < Dispatch.TableSize(Dispatch.Strategy(|handlers|)) ==>
              DispatchMessage(handlers, Request(index, args)) == Some(Dispatch.Unreachable)
    ensures Dispatch.TableSize(Dispatch.Strategy(|handlers|)) <= index ==>
              DispatchMessage(handlers, Request(index, args)) == Some(Dispatch.InvalidOpcode)
  {
    var message := Request(index, args);
    EncodeDecodeInt(index, OpcodeWidth, false, View(message, 0));
    Dispatch.StrategyFits(|handlers|);
  }

  datatype ResponseError = IndexMismatch | Truncated

  /** Whether `assert` is compiled in: `Checked` tests the echoed opcode, `Unchecked` (`NDEBUG`) does not. */
  datatype Build = Checked | Unchecked

  /**
   * `read_response<T>`: reads the echoed opcode, asserts (in a `Checked`
   * build) that it is the expected one, then decodes one T, or nothing for
   * `void` (`result == None`).
   */
  function ReadResponse(build: Build, expected: nat, result: Option<Ty>, message: seq<byte>)
    : (r: Result<Option<Val>, ResponseError>)
    ensures r.Success? ==> |message| >= OpcodeWidth
    ensures r.Success? && build.Checked? ==> FromLittleEndian(message[..OpcodeWidth]) == expected
    ensures r.Failure? && r.error.IndexMismatch? ==>
              build.Checked? && |message| >= OpcodeWidth && FromLittleEndian(message[..OpcodeWidth]) != expected
    ensures r.Success? ==> (r.value.Some? <==> result.Some?)
  {
    match DecodeInt(OpcodeWidth, false, View(message, 0))
    case None => Failure(Truncated)
    case Some((index, rest)) =>
      if build.Checked? && index != expected then Failure(IndexMismatch)
      else
        match result
        case None => Success(None)
        case Some(t) =>
          match Decode(t, rest)
          case None => Failure(Truncated)
          case Some((v, _)) => Success(Some(v))
  }

  /** A response built for the expected opcode reads back as the value sent (nothing, for `void`), in either build. */
  lemma ResponseRoundTrip(build: Build, index: nat, t: Ty, v: Val)
    requires index < Pow256(OpcodeWidth) && HasType(v, t) && Fits(v)
    ensures ReadResponse(build, index, Some(t), MakeResponse(index, [Arg(t, v)])) == Success(Some(v))
    ensures ReadResponse(build, index, None, MakeResponse(index, [])) == Success(None)
  {
    var message := MakeResponse(index, [Arg(t, v)]);
    EncodeDecodeInt(index, OpcodeWidth, false, View(message, 0));
    assert EncodeArgs([Arg(t, v)]) == Encode(t, v) + EncodeArgs([]);
    EncodeDecode(t, v, View(message, OpcodeWidth));
    var empty := MakeResponse(index, []);
    EncodeDecodeInt(index, OpcodeWidth, false, View(empty, 0));
  }

  /** With assertions compiled in, a response for any other opcode fails the assertion. */
  lemma ResponseForOtherIndex(expected: nat, index: nat, result: Option<Ty>, values: seq<Arg>)
    requires index < Pow256(OpcodeWidth) && Typed(values) && index != expected
    ensures ReadResponse(Checked, expected, result, MakeResponse(index, values)) == Failure(IndexMismatch)
  {
    EncodeDecodeInt(index, OpcodeWidth, false, View(MakeResponse(index, values), 0));
  }

  /**
   * Under `NDEBUG` the echoed opcode is read and ignored: a response for any
   * opcode is decoded as the expected result type.
   */
  lemma UncheckedIgnoresIndex(expected: nat, index: nat, t: Ty, v: Val)
    requires index < Pow256(OpcodeWidth) && HasType(v, t) && Fits(v)
    ensures ReadResponse(Unchecked, expected, Some(t), MakeResponse(index, [Arg(t, v)])) == Success(Some(v))
  {
    ResponseRoundTrip(Unchecked, index, t, v);
  }

  /** The builds differ only by the assertion: they disagree only where the checked read reports a mismatch. */
  lemma BuildsAgree(expected: nat, result: Option<Ty>, message: seq<byte>)
    ensures ReadResponse(Unchecked, expected, result, message) != ReadResponse(Checked, expected, result, message) ==>
              ReadResponse(Checked, expected, result, message) == Failure(IndexMismatch)
  {
  }
}

=== FILE: reader.dfy ===
/**
 * `MessageView`: a cursor over a received byte span.  `read(n)` hands out the
 * next n bytes and advances the cursor; it performs no bounds check, so the
 * model asks the caller to stay inside the buffer.
 */
module Reader {
  import opened Bytes

  datatype View = View(buffer: seq<byte>, cursor: nat)
  {
    /** The cursor never leaves the buffer. */
    predicate Valid()
    {
      cursor <= |buffer|
    }

    /** Bytes not yet read. */
    function Remaining(): (r: seq<byte>)
      requires Valid()
      ensures |r| == |buffer| - cursor
      ensures buffer[..cursor] + r == buffer
    {
      assert buffer[..cursor] + buffer[cursor..] == buffer;
      buffer[cursor..]
    }
  }

  /** `MessageView::read`: the n bytes at the cursor, and the view advanced past them. */
  function Read(v: View, n: nat): (r: (seq<byte>, View))
    requires v.cursor + n <= |v.buffer|
    ensures r.1.buffer == v.buffer && r.1.cursor == v.cursor + n
    ensures |r.0| == n && r.0 + r.1.buffer[r.1.cursor..] == v.buffer[v.cursor..]
  {
    var next := View(v.buffer, v.cursor + n);
    assert v.buffer[v.cursor..v.cursor + n] + v.buffer[v.cursor + n..] == v.buffer[v.cursor..];
    (v.buffer[v.cursor..v.cursor + n], next)
  }

  /** Two successive reads return, together, what one read of the combined length returns. */
  lemma ReadTwice(v: View, n: nat, m: nat)
    requires v.cursor + n + m <= |v.buffer|
    ensures Read(v, n).0 + Read(Read(v, n).1, m).0 == Read(v, n + m).0
    ensures Read(Read(v, n).1, m).1 == Read(v, n + m).1
  {
    var a := Read(v, n);
    var b := Read(a.1, m);
    var c := Read(v, n + m);
    assert a.0 + b.0 + b.1.buffer[b.1.cursor..] == c.0 + c.1.buffer[c.1.cursor..];
  }

  function Sum(sizes: seq<nat>): nat
  {
    if |sizes| == 0 then 0 else Sum(sizes[..|sizes| - 1]) + sizes[|sizes| - 1]
  }

  function Concat(chunks: seq<seq<byte>>): seq<byte>
  {
    if |chunks| == 0 then [] else Concat(chunks[..|chunks| - 1]) + chunks[|chunks| - 1]
  }

  /**
   * Reads chunks of the given sizes one after the other.  The chunks partition
   * the consumed region of the buffer in order, and chunk i has size sizes[i].
   */
  method ReadSequence(v: View, sizes: seq<nat>) returns (chunks: seq<seq<byte>>, rest: View)
    requires v.cursor + Sum(sizes) <= |v.buffer|
    ensures |chunks| == |sizes|
    ensures forall i :: 0 <= i < |sizes| ==> |chunks[i]| == sizes[i]
    ensures rest.buffer == v.buffer && rest.cursor == v.cursor + Sum(sizes)
    ensures Concat(chunks) == v.buffer[v.cursor..rest.cursor]
  {
    chunks := [];
    rest := v;
    var i := 0;
    assert sizes[..0] == [];
    while i < |sizes|
      invariant 0 <= i <= |sizes|
      invariant |chunks| == i
      invariant forall j :: 0 <= j < i ==> |chunks[j]| == sizes[j]
      invariant rest.buffer == v.buffer && rest.cursor == v.cursor + Sum(sizes[..i])
      invariant rest.cursor <= |v.buffer|
      invariant Concat(chunks) == v.buffer[v.cursor..rest.cursor]
    {
      SumPrefix(sizes, i);
      SumPrefixMonotone(sizes, i + 1);
      var r := Read(rest, sizes[i]);
      assert v.buffer[v.cursor..rest.cursor] + r.0 == v.buffer[v.cursor..r.1.cursor];
      assert (chunks + [r.0])[..i] == chunks;
      chunks := chunks + [r.0];
      rest := r.1;
      i := i + 1;
    }
    assert sizes[..i] == sizes;
  }

  lemma SumPrefix(sizes: seq<nat>, i: nat)
    requires i < |sizes|
    ensures Sum(sizes[..i + 1]) == Sum(sizes[..i]) + sizes[i]
  {
    assert sizes[..i + 1][..i] == sizes[..i];
  }

  lemma {:induction false} SumPrefixMonotone(sizes: seq<nat>, i: nat)
    requires i <= |sizes|
    ensures Sum(sizes[..i]) <= Sum(sizes)
    decreases |sizes| - i
  {
    if i < |sizes| {
      SumPrefix(sizes, i);
      SumPrefixMonotone(sizes, i + 1);
    } else {
      assert sizes[..i] == sizes;
    }
  }
}

=== FILE: spsc.dfy ===
/**
 * `BoundedSPSC`: a ring of N slots indexed by masked positions.  The producer
 * owns the write position and a cached copy of the read position; the
 * consumer owns the read position and a cached copy of the write position.  A
 * slot is always left empty between the two, so at most N-1 items are held.
 * The model is sequential: one call at a time.
 */
module Spsc {
  import opened Wrappers
  import opened Bits
  import Arith
  import Fifo

  datatype Queue<T> = Queue(
    n: nat,
    slots: seq<Option<T>>,
    writePos: nat,
    writePosCached: nat,
    readPos: nat,
    readPosCached: nat)

  /** How many steps forward from a reaches b around a ring of n slots. */
  function Dist(a: nat, b: nat, n: nat): nat
    requires a < n && b < n
  {
    if a <= b then b - a else b + n - a
  }

  /** The slot i steps after a. */
  function Advance(a: nat, i: nat, n: nat): (r: nat)
    requires a < n && i < n
    ensures r < n
  {
    if a + i < n then a + i else a + i - n
  }

  /** `(pos + 1) & buffer_mask`. */
  function Next(pos: nat, n: nat): (r: nat)
    requires IsQueueCapacity(n) && pos < n
    ensures r == Advance(pos, 1, n)
  {
    MaskIsMod(pos + 1, n);
    NextWraps(pos, n);
    BitAnd(pos + 1, n - 1)
  }

  lemma NextWraps(pos: nat, n: nat)
    requires 2 <= n && pos < n
    ensures (pos + 1) % n == Advance(pos, 1, n)
  {
    if pos + 1 < n {
      Arith.DivModUnique(pos + 1, n, 0, pos + 1);
    } else {
      Arith.DivModUnique(pos + 1, n, 1, 0);
    }
  }

  /**
   * Both caches lag behind the position they copy: the producer's stale read
   * position lies at or before the real one, and the consumer's stale write
   * position lies between the read and the write position.
   */
  predicate Valid<T>(q: Queue<T>)
  {
    IsQueueCapacity(q.n) && |q.slots| == q.n
    && q.writePos < q.n && q.writePosCached < q.n && q.readPos < q.n && q.readPosCached < q.n
    && Dist(q.readPosCached, q.readPos, q.n) + Dist(q.readPos, q.writePos, q.n) == Dist(q.readPosCached, q.writePos, q.n)
    && Dist(q.readPos, q.writePosCached, q.n) <= Dist(q.readPos, q.writePos, q.n)
    && (forall i :: 0 <= i < Dist(q.readPos, q.writePos, q.n) ==> q.slots[Advance(q.readPos, i, q.n)].Some?)
  }

  function Contents<T>(q: Queue<T>): (r: seq<T>)
    requires Valid(q)
    ensures |r| == Dist(q.readPos, q.writePos, q.n) && |r| < q.n
  {
    seq(Dist(q.readPos, q.writePos, q.n),
        i requires 0 <= i < Dist(q.readPos, q.writePos, q.n) => q.slots[Advance(q.readPos, i, q.n)].value)
  }

  /** Zero-initialised positions and caches. */
  function Init<T>(n: nat): (q: Queue<T>)
    requires IsQueueCapacity(n)
    ensures Valid(q) && Contents(q) == []
  {
    Queue(n, seq(n, _ => None), 0, 0, 0, 0)
  }

  lemma AdvanceDist(a: nat, b: nat, n: nat)
    requires a < n && b < n
    ensures Advance(a, Dist(a, b, n), n) == b
  {
  }

  lemma AdvanceInjective(a: nat, i: nat, j: nat, n: nat)
    requires a < n && i < n && j < n && i != j
    ensures Advance(a, i, n) != Advance(a, j, n)
  {
  }

  lemma AdvanceShift(a: nat, i: nat, n: nat)
    requires a < n && i + 1 < n
    ensures Advance(Advance(a, 1, n), i, n) == Advance(a, i + 1, n)
  {
  }

  /** Moving the far end one slot on lengthens the distance by one, unless it comes round to the near end. */
  lemma DistStep(a: nat, b: nat, n: nat)
    requires 2 <= n && a < n && b < n
    ensures Advance(b, 1, n) == a <==> Dist(a, b, n) == n - 1
    ensures Advance(b, 1, n) != a ==> Dist(a, Advance(b, 1, n), n) == Dist(a, b, n) + 1
  {
  }

  /** Moving the near end one slot on shortens a non-zero distance by one. */
  lemma DistStepFrom(a: nat, b: nat, n: nat)
    requires 2 <= n && a < n && b < n && a != b
    ensures Dist(Advance(a, 1, n), b, n) == Dist(a, b, n) - 1
  {
  }

  /** A refreshed cache is exact, and exactness satisfies the protocol. */
  lemma PushRefused<T>(q: Queue<T>)
    requires Valid(q) && Next(q.writePos, q.n) == q.readPosCached
    ensures Dist(q.readPos, q.writePos, q.n) == q.n - 1 || q.readPosCached != q.readPos
  {
    DistStep(q.readPosCached, q.writePos, q.n);
  }

  lemma PushAccepted<T>(q: Queue<T>, x: T)
    requires Valid(q) && Next(q.writePos, q.n) != q.readPosCached
    ensures var q' := q.(slots := q.slots[q.writePos := Some(x)], writePos := Next(q.writePos, q.n));
            Valid(q') && Contents(q') == Contents(q) + [x]
    ensures Dist(q.readPos, q.writePos, q.n) < q.n - 1
  {
    var n := q.n;
    var w := q.writePos;
    var r := q.readPos;
    var next := Next(w, n);
    DistStep(q.readPosCached, w, n);
    DistStep(r, w, n);
    var d := Dist(r, w, n);
    assert d < n - 1;
    assert Dist(r, next, n) == d + 1;
    var q' := q.(slots := q.slots[w := Some(x)], writePos := next);
    AdvanceDist(r, w, n);
    forall i | 0 <= i < d
      ensures Advance(r, i, n) != w
    {
      AdvanceInjective(r, i, d, n);
    }
    assert Valid(q');
    assert Contents(q') == Contents(q) + [x];
  }

  /**
   * `try_push`: fails when the slot after the write position is the read
   * position.  Even a failed push may refresh the producer's cache.
   */
  function TryPush<T>(q: Queue<T>, x: T): (r: (bool, Queue<T>))
    requires Valid(q)
    ensures Valid(r.1)
    ensures r.0 <==> |Contents(q)| < q.n - 1
    ensures r.0 ==> Contents(r.1) == Contents(q) + [x]
    ensures !r.0 ==> Contents(r.1) == Contents(q) && r.1.readPosCached == q.readPos
  {
    var pos := q.writePos;
    var next := Next(pos, q.n);
    var q1 := if next == q.readPosCached then q.(readPosCached := q.readPos) else q;
    assert Contents(q1) == Contents(q);
    if next == q1.readPosCached then
      PushRefused(q1);
      (false, q1)
    else
      PushAccepted(q1, x);
      (true, q1.(slots := q1.slots[pos := Some(x)], writePos := next))
  }

  lemma PopAccepted<T>(q: Queue<T>)
    requires Valid(q) && q.readPos != q.writePosCached
    ensures Dist(q.readPos, q.writePos, q.n) > 0 && q.slots[q.readPos].Some?
    ensures var q' := q.(readPos := Next(q.readPos, q.n));
            Valid(q') && Contents(q') == Contents(q)[1..] && q.slots[q.readPos].value == Contents(q)[0]
  {
    var n := q.n;
    var r := q.readPos;
    var next := Next(r, n);
    DistStepFrom(r, q.writePosCached, n);
    DistStepFrom(r, q.writePos, n);
    DistStep(q.readPosCached, r, n);
    assert Advance(r, 0, n) == r;
    var q' := q.(readPos := next);
    forall i | 0 <= i < Dist(next, q.writePos, n)
      ensures Advance(next, i, n) == Advance(r, i + 1, n)
    {
      AdvanceShift(r, i, n);
    }
    assert Valid(q');
    assert Contents(q') == Contents(q)[1..];
  }

  /**
   * `try_pop`: fails when the read position equals the write position.  Even
   * a failed pop may refresh the consumer's cache.
   */
  function TryPop<T>(q: Queue<T>): (r: (Option<T>, Queue<T>))
    requires Valid(q)
    ensures Valid(r.1)
    ensures r.0.Some? <==> |Contents(q)| > 0
    ensures r.0.Some? ==> r.0.value == Contents(q)[0] && Contents(r.1) == Contents(q)[1..]
    ensures r.0.None? ==> Contents(r.1) == Contents(q) && r.1.writePosCached == q.writePos
  {
    var pos := q.readPos;
    var q1 := if pos == q.writePosCached then q.(writePosCached := q.writePos) else q;
    assert Contents(q1) == Contents(q);
    if pos == q1.writePosCached then
      (None, q1)
    else
      PopAccepted(q1);
      (Some(q1.slots[pos].value), q1.(readPos := Next(pos, q.n)))
  }

  /** `is_empty`: the write and read positions coincide. */
  function IsEmpty<T>(q: Queue<T>): (r: bool)
    requires Valid(q)
    ensures r <==> |Contents(q)| == 0
    ensures r <==> TryPop(q).0.None?
  {
    q.writePos == q.readPos
  }

  function Run<T>(q: Queue<T>, ops: seq<Fifo.Op<T>>): (r: (Queue<T>, seq<Fifo.Reply<T>>))
    requires Valid(q)
    ensures Valid(r.0) && r.0.n == q.n && |r.1| == |ops|
  {
    if |ops| == 0 then (q, [])
    else
      var (mid, replies) := Run(q, ops[..|ops| - 1]);
      match ops[|ops| - 1]
      case Push(x) =>
        var (ok, last) := TryPush(mid, x);
        (last, replies + [Fifo.Pushed(ok)])
      case Pop =>
        var (item, last) := TryPop(mid);
        (last, replies + [Fifo.Popped(item)])
  }

  /** Any sequence of calls behaves exactly like a FIFO queue of capacity N-1. */
  lemma {:induction false} RefinesFifo<T>(q: Queue<T>, ops: seq<Fifo.Op<T>>)
    requires Valid(q)
    ensures Contents(Run(q, ops).0) == Fifo.Run(Contents(q), q.n - 1, ops).0
    ensures Run(q, ops).1 == Fifo.Run(Contents(q), q.n - 1, ops).1
  {
    if |ops| > 0 {
      RefinesFifo(q, ops[..|ops| - 1]);
    }
  }
}

=== FILE: storage.dfy ===
/**
 * Raw storage shared by both message buffers: cells of a memory block, the
 * `memcpy`/`realloc` primitives on them, and the growable `HeapBuffer`.
 */
module Storage {
  import opened Bytes

  /**
   * One byte of a memory block: a byte the program stored, a byte of the heap
   * descriptor (pointer and capacity) that shares the inline array through a
   * union, or a byte never initialised since `malloc`/`realloc`.
   */
  datatype Cell = Stored(value: byte) | DescriptorByte | Unset

  /**
   * Bytes of the heap descriptor `{char* ptr; uint32_t capacity;}` that
   * overlay the inline array, on LP64: the pointer, the capacity and four
   * bytes of tail padding, whose contents after the store are unspecified.
   */
  const DescriptorBytes: nat := 16

  function Cells(bytes: seq<byte>): (r: seq<Cell>)
    ensures |r| == |bytes|
    ensures forall i :: 0 <= i < |bytes| ==> r[i] == Stored(bytes[i])
  {
    if |bytes| == 0 then [] else [Stored(bytes[0])] + Cells(bytes[1..])
  }

  lemma CellsAppend(a: seq<byte>, b: seq<byte>)
    ensures Cells(a + b) == Cells(a) + Cells(b)
  {
  }

  function Fresh(n: nat): (r: seq<Cell>)
    ensures |r| == n && forall i :: 0 <= i < n ==> r[i] == Unset
  {
    seq(n, _ => Unset)
  }

  /** `memcpy(block + at, bytes, |bytes|)`. */
  function Overwrite(block: seq<Cell>, at: nat, bytes: seq<byte>): (r: seq<Cell>)
    requires at + |bytes| <= |block|
    ensures |r| == |block|
    ensures r[..at] == block[..at] && r[at..at + |bytes|] == Cells(bytes)
    ensures r[at + |bytes|..] == block[at + |bytes|..]
  {
    block[..at] + Cells(bytes) + block[at + |bytes|..]
  }

  /** `realloc(block, capacity)`: the common prefix survives, any growth is uninitialised. */
  function Realloc(block: seq<Cell>, capacity: nat): (r: seq<Cell>)
    ensures |r| == capacity
    ensures capacity <= |block| ==> r == block[..capacity]
    ensures capacity >= |block| ==> r[..|block|] == block
  {
    if capacity <= |block| then block[..capacity] else block + Fresh(capacity - |block|)
  }

  /** Writing the heap descriptor into the union leaves no stored byte in the first inline bytes. */
  function Clobber(inline: seq<Cell>): (r: seq<Cell>)
    ensures |r| == |inline|
    ensures forall i :: 0 <= i < |inline| ==> r[i] == (if i < DescriptorBytes then DescriptorByte else inline[i])
  {
    seq(|inline|, i requires 0 <= i < |inline| => if i < DescriptorBytes then DescriptorByte else inline[i])
  }

  /** `HeapBuffer`: a `std::vector<char>` that only ever grows at the end. */
  datatype HeapBuffer = HeapBuffer(bytes: seq<byte>)

  function HeapWrite(h: HeapBuffer, data: seq<byte>): (r: HeapBuffer)
    ensures |r.bytes| == |h.bytes| + |data|
    ensures r.bytes[..|h.bytes|] == h.bytes && r.bytes[|h.bytes|..] == data
  {
    HeapBuffer(h.bytes + data)
  }

  /** `reserve` only changes the vector's capacity, never its contents. */
  function HeapReserve(h: HeapBuffer, n: nat): (r: HeapBuffer)
    ensures r.bytes == h.bytes
  {
    h
  }

  function HeapFinalize(h: HeapBuffer): seq<byte>
  {
    h.bytes
  }

  /** `read(n, offset)`: the n bytes starting at offset. */
  function HeapRead(h: HeapBuffer, n: nat, offset: nat): (r: seq<byte>)
    requires offset + n <= |h.bytes|
    ensures |r| == n && forall i :: 0 <= i < n ==> r[i] == h.bytes[offset + i]
  {
    h.bytes[offset..offset + n]
  }

  /** A call made on a message buffer by a serializer. */
  datatype Op = WriteOp(bytes: seq<byte>) | ReserveOp(n: nat)

  /** Everything a sequence of calls asked to be written, in order. */
  function Written(ops: seq<Op>): seq<byte>
  {
    if |ops| == 0 then []
    else Written(ops[..|ops| - 1]) + (match ops[|ops| - 1] case WriteOp(b) => b case ReserveOp(_) => [])
  }

  predicate OnlyWrites(ops: seq<Op>)
  {
    forall i :: 0 <= i < |ops| ==> ops[i].WriteOp?
  }

  lemma {:induction false} WrittenAppend(a: seq<Op>, b: seq<Op>)
    ensures Written(a + b) == Written(a) + Written(b)
    decreases |b|
  {
    if |b| > 0 {
      var ab := a + b;
      assert ab[..|ab| - 1] == a + b[..|b| - 1];
      assert ab[|ab| - 1] == b[|b| - 1];
      WrittenAppend(a, b[..|b| - 1]);
    } else {
      assert a + b == a;
    }
  }
}

=== FILE: strings.dfy ===
/**
 * Decimal conversion of unsigned 32-bit integers (`utos`, `stou`) and the
 * NUL-padded compile-time string `fixed_string`.
 */
module Strings {
  import Arith

  /** 2^32: `unsigned` arithmetic is reduced modulo this. */
  const U32: nat := 0x1_0000_0000

  predicate IsDigitChar(c: char)
  {
    '0' <= c <= '9'
  }

  function DigitChar(d: nat): (c: char)
    requires d < 10
    ensures IsDigitChar(c)
  {
    ('0' as int + d) as char
  }

  /** The value of a digit character. */
  function DigitValue(c: char): (d: nat)
    requires IsDigitChar(c)
    ensures d < 10 && DigitChar(d) == c
  {
    c as int - '0' as int
  }

  /** A `char` as the signed byte the source computes with (`c - '0'` promotes it to `int`). */
  function CharCode(c: char): int
  {
    var v := c as int % 256;
    if v >= 128 then v - 256 else v
  }

  predicate AllDigits(s: string)
  {
    forall i :: 0 <= i < |s| ==> IsDigitChar(s[i])
  }

  /** A decimal numeral as `utos` writes it: digits only, no leading zero except in "0". */
  predicate Canonical(s: string)
  {
    |s| >= 1 && AllDigits(s) && (s[0] != '0' || |s| == 1)
  }

  /** Reference definition: the decimal numeral of n, most significant digit first. */
  function Decimal(n: nat): (r: string)
    ensures |r| >= 1
  {
    if n < 10 then [DigitChar(n)] else Decimal(n / 10) + [DigitChar(n % 10)]
  }

  /** Every numeral `Decimal` writes is canonical: digits only, no leading zero. */
  lemma {:induction false} DecimalCanonical(n: nat)
    ensures Canonical(Decimal(n))
  {
    if n >= 10 {
      DecimalCanonical(n / 10);
      var init := Decimal(n / 10);
      assert Decimal(n)[0] == init[0];
      assert forall i :: 0 <= i < |init| ==> Decimal(n)[i] == init[i];
    }
  }

  /** The mathematical value of a digit string, without any wrap-around. */
  function DecimalValue(s: string): nat
    requires AllDigits(s)
  {
    if s == [] then 0 else DecimalValue(s[..|s| - 1]) * 10 + DigitValue(s[|s| - 1])
  }

  function Reverse(s: string): (r: string)
    ensures |r| == |s|
  {
    if s == [] then [] else [s[|s| - 1]] + Reverse(s[..|s| - 1])
  }

  /**
   * `utos`: a do-while loop that appends the least significant digit and
   * divides by ten, followed by a reversal of the collected digits.
   */
  method Utos(value: nat) returns (r: string)
    requires value < U32
    ensures r == Decimal(value)
  {
    var v := value;
    var out: string := [DigitChar(v % 10)];
    assert Reverse(out) == out;
    v := v / 10;
    while v > 0
      invariant v > 0 ==> Decimal(value) == Decimal(v) + Reverse(out)
      invariant v == 0 ==> Decimal(value) == Reverse(out)
      decreases v
    {
      var d := DigitChar(v % 10);
      assert (out + [d])[..|out|] == out;
      assert Reverse(out + [d]) == [d] + Reverse(out);
      if v >= 10 {
        assert Decimal(v) == Decimal(v / 10) + [d];
      }
      out := out + [d];
      v := v / 10;
    }
    r := Reverse(out);
  }

  /**
   * `stou`: folds `result * 10 + (c - '0')` over the characters in unsigned
   * 32-bit arithmetic, without checking that they are digits.
   */
  function Stou(s: string): (r: nat)
    ensures r < U32
  {
    if s == [] then 0 else (Stou(s[..|s| - 1]) * 10 + (CharCode(s[|s| - 1]) - '0' as int)) % U32
  }

  /** On digit strings `stou` is the decimal value reduced modulo 2^32. */
  lemma {:induction false} StouIsValueMod(s: string)
    requires AllDigits(s)
    ensures Stou(s) == DecimalValue(s) % U32
  {
    if s != [] {
      var init := s[..|s| - 1];
      assert AllDigits(init);
      StouIsValueMod(init);
      var a := DecimalValue(init);
      var d := DigitValue(s[|s| - 1]);
      assert CharCode(s[|s| - 1]) - '0' as int == d;
      ModMulAdd(a, d);
    }
  }

  lemma ModMulAdd(a: nat, d: nat)
    ensures ((a % U32) * 10 + d) % U32 == (a * 10 + d) % U32
  {
    var q := (a % U32 * 10 + d) / U32;
    var r := (a % U32 * 10 + d) % U32;
    assert a * 10 + d == (q + 10 * (a / U32)) * U32 + r;
    Arith.DivModUnique(a * 10 + d, U32, q + 10 * (a / U32), r);
  }

  lemma {:induction false} DecimalValueOfDecimal(n: nat)
    ensures Canonical(Decimal(n)) && DecimalValue(Decimal(n)) == n
  {
    DecimalCanonical(n);
    if n >= 10 {
      var s := Decimal(n);
      assert s[..|s| - 1] == Decimal(n / 10);
      DecimalCanonical(n / 10);
      DecimalValueOfDecimal(n / 10);
    }
  }

  /** `stou(utos(n)) == n` for every unsigned n. */
  lemma StouOfUtos(n: nat)
    requires n < U32
    ensures Stou(Decimal(n)) == n
  {
    DecimalValueOfDecimal(n);
    StouIsValueMod(Decimal(n));
    Arith.DivModUnique(n, U32, 0, n);
  }

  lemma {:induction false} LeadingDigitPositive(s: string)
    requires AllDigits(s) && |s| >= 1 && s[0] != '0'
    ensures DecimalValue(s) >= 1
  {
    if |s| > 1 {
      var init := s[..|s| - 1];
      assert AllDigits(init) && init[0] == s[0];
      LeadingDigitPositive(init);
    }
  }

  /** The other direction: every numeral `utos` can produce is the numeral of its value. */
  lemma {:induction false} DecimalOfValue(s: string)
    requires Canonical(s)
    ensures Decimal(DecimalValue(s)) == s
  {
    var last := s[|s| - 1];
    if |s| == 1 {
      assert s == [last];
    } else {
      var init := s[..|s| - 1];
      assert Canonical(init) && init[0] == s[0];
      DecimalOfValue(init);
      LeadingDigitPositive(init);
      var v := DecimalValue(s);
      var d := DigitValue(last);
      assert v == DecimalValue(init) * 10 + d;
      Arith.DivModUnique(v, 10, DecimalValue(init), d);
      assert s == init + [last];
    }
  }

  /** `utos(stou(s)) == s` for every canonical numeral below 2^32. */
  lemma UtosOfStou(s: string)
    requires Canonical(s) && DecimalValue(s) < U32
    ensures Decimal(Stou(s)) == s
  {
    StouIsValueMod(s);
    Arith.DivModUnique(DecimalValue(s), U32, 0, DecimalValue(s));
    DecimalOfValue(s);
  }

  /** Position of `name` in `names`, or `|names|` when it is absent (`std::ranges::find`). */
  function IndexOf(names: seq<string>, name: string): (r: nat)
    ensures r <= |names|
    ensures r < |names| ==> names[r] == name
    ensures forall i :: 0 <= i < r ==> names[i] != name
  {
    if names == [] then 0
    else if names[0] == name then 0
    else 1 + IndexOf(names[1..], name)
  }

  /** `fixed_string<N>`: N characters plus a terminator, zero-initialised. */
  datatype FixedString = FixedString(n: nat, data: seq<char>)
  {
    predicate Valid()
    {
      |data| == n + 1
    }
  }

  function Zeros(k: nat): (r: seq<char>)
    ensures |r| == k && forall i :: 0 <= i < k ==> r[i] == '\0'
  {
    if k == 0 then [] else ['\0'] + Zeros(k - 1)
  }

  /** The constructor from a `char const (&)[N + 1]` literal copies every element, terminator included. */
  function FromLiteral(literal: seq<char>): (r: FixedString)
    requires |literal| >= 1
    ensures r.Valid() && r.n == |literal| - 1 && r.data == literal
  {
    FixedString(|literal| - 1, literal)
  }

  /** The constructor from a pack of characters: the leading elements, the rest zero. */
  function FromChars(n: nat, chars: seq<char>): (r: FixedString)
    requires |chars| <= n + 1
    ensures r.Valid() && |r.data| == n + 1 && r.data[..|chars|] == chars
    ensures forall i :: |chars| <= i < n + 1 ==> r.data[i] == '\0'
  {
    FixedString(n, chars + Zeros(n + 1 - |chars|))
  }

  /** The constructor from a `string_view`: `copy(data, N)` copies at most N characters. */
  function FromView(n: nat, str: string): (r: FixedString)
    ensures r.Valid() && r.n == n && |r.data| == n + 1
    ensures |str| <= n ==> r.data[..|str|] == str
    ensures |str| > n ==> r.data[..n] == str[..n]
    ensures forall i :: |str| <= i < n + 1 ==> r.data[i] == '\0'
    ensures r.data[n] == '\0'
  {
    var k := if |str| <= n then |str| else n;
    FixedString(n, str[..k] + Zeros(n + 1 - k))
  }

  /** `operator std::string_view`: the characters before the first NUL. */
  function AsView(data: seq<char>): (r: string)
    ensures '\0' !in r
    ensures |r| <= |data| && r == data[..|r|]
    ensures |r| < |data| ==> data[|r|] == '\0'
  {
    if data == [] || data[0] == '\0' then [] else [data[0]] + AsView(data[1..])
  }

  lemma {:induction false} AsViewOfPadded(str: string, pad: nat)
    requires '\0' !in str && pad >= 1
    ensures AsView(str + Zeros(pad)) == str
  {
    if str != [] {
      assert (str + Zeros(pad))[1..] == str[1..] + Zeros(pad);
      AsViewOfPadded(str[1..], pad);
    }
  }

  /** Converting back to a view yields what was stored, truncated to N characters. */
  lemma ViewRoundTrip(n: nat, str: string)
    requires '\0' !in str
    ensures |str| <= n ==> AsView(FromView(n, str).data) == str
    ensures |str| > n ==> AsView(FromView(n, str).data) == str[..n]
  {
    var k := if |str| <= n then |str| else n;
    assert '\0' !in str[..k] by {
      assert forall i :: 0 <= i < k ==> str[..k][i] == str[i];
    }
    AsViewOfPadded(str[..k], n + 1 - k);
    if |str| <= n {
      assert str[..k] == str;
    }
  }
}

=== FILE: transport.dfy ===
/**
 * The queue transport and the server loop: `QueueClient` pushes to one queue
 * and pops from another, `BlockingCall`/`EventCall` put the protocol on top of
 * it, and `Server::run` serves messages until the empty "goodbye" message.
 * Queues are modelled as unbounded FIFO sequences seen one call at a time; a
 * pop from an empty queue, which would wait for another thread, is reported
 * as `None`.
 */
module Transport {
  import opened Wrappers
  import opened Bytes
  import opened Codec
  import Dispatch
  import opened Protocol

  type Msg = seq<byte>

  /**
   * `QueueClient<U, V>`: `send` pushes onto `in`, `recv` pops from `out`.
   * A client built from a null pointer has no queue on that side (`None`).
   */
  datatype Client = Client(inQueue: Option<seq<Msg>>, outQueue: Option<seq<Msg>>)

  /** The deduction guide for `QueueClient{queue, nullptr}`: send-only. */
  function SendOnly(q: seq<Msg>): (c: Client)
    ensures c.inQueue == Some(q) && c.outQueue.None?
  {
    Client(Some(q), None)
  }

  /** The deduction guide for `QueueClient{nullptr, queue}`: receive-only. */
  function ReceiveOnly(q: seq<Msg>): (c: Client)
    ensures c.inQueue.None? && c.outQueue == Some(q)
  {
    Client(None, Some(q))
  }

  /** `send`: the message goes to the back of `in`. */
  function Send(c: Client, m: Msg): (r: Client)
    requires c.inQueue.Some?
    ensures r.inQueue == Some(c.inQueue.value + [m]) && r.outQueue == c.outQueue
  {
    c.(inQueue := Some(c.inQueue.value + [m]))
  }

  /** `recv`: the front of `out`, or `None` while it is empty. */
  function Recv(c: Client): (r: Option<(Msg, Client)>)
    requires c.outQueue.Some?
    ensures r.Some? <==> |c.outQueue.value| > 0
    ensures r.Some? ==> r.value.1.inQueue == c.inQueue && r.value.1.outQueue.Some?
    ensures r.Some? ==> [r.value.0] + r.value.1.outQueue.value == c.outQueue.value
  {
    var q := c.outQueue.value;
    if |q| == 0 then None else Some((q[0], c.(outQueue := Some(q[1..]))))
  }

  /** `kill`: sends a default-constructed, hence empty, message. */
  function Kill(c: Client): (r: Client)
    requires c.inQueue.Some?
    ensures r.inQueue == Some(c.inQueue.value + [[]]) && r.outQueue == c.outQueue
  {
    Send(c, [])
  }

  /** Dispatch produced a reply (rather than failing). */
  predicate Answered(o: Option<Dispatch.Outcome>)
  {
    o.Some? && o.value.Reply?
  }

  /** `BlockingCall` answers every request; `EventCall` never does. */
  datatype CallKind = Blocking | Event

  /** What a call returns: the decoded result, or `None` while no response has arrived. */
  function BlockingCallCall(build: Build, c: Client, index: nat, args: seq<Arg>, result: Option<Ty>)
    : (r: (Option<Result<Option<Val>, ResponseError>>, Client))
    requires c.inQueue.Some? && c.outQueue.Some? && Typed(args)
    ensures r.1.inQueue == Some(c.inQueue.value + [Request(index, args)])
    ensures r.0.Some? <==> |c.outQueue.value| > 0
    ensures r.0.Some? ==> r.0.value == ReadResponse(build, index, result, c.outQueue.value[0])
  {
    var sent := Send(c, Request(index, args));
    match Recv(sent)
    case None => (None, sent)
    case Some((response, after)) => (Some(ReadResponse(build, index, result, response)), after)
  }

  /** `EventCall::call`: the request is sent and nothing is awaited. */
  function EventCallCall(c: Client, index: nat, args: seq<Arg>): (r: Client)
    requires c.inQueue.Some? && Typed(args)
    ensures r.inQueue == Some(c.inQueue.value + [Request(index, args)]) && r.outQueue == c.outQueue
  {
    Send(c, Request(index, args))
  }

  /**
   * `handle`: dispatches the message; a blocking call sends the reply back,
   * an event call drops it.  `None` when dispatch fails (a short message or
   * an invalid opcode, which throws).
   */
  function Handle(kind: CallKind, handlers: seq<Dispatch.Handler>, c: Client, message: Msg): (r: Option<Client>)
    requires |handlers| <= Dispatch.MaxMembers && (kind == Blocking ==> c.inQueue.Some?)
    ensures r.Some? <==> Answered(DispatchMessage(handlers, message))
    ensures r.Some? && kind == Event ==> r.value == c
    ensures r.Some? && kind == Blocking ==> r.value == Send(c, DispatchMessage(handlers, message).value.message)
  {
    var outcome := DispatchMessage(handlers, message);
    if !Answered(outcome) then None
    else if kind == Blocking then Some(Send(c, outcome.value.message))
    else Some(c)
  }

  /** The replies a blocking server sends for messages it handled, in order. */
  function Replies(handlers: seq<Dispatch.Handler>, handled: seq<Msg>): seq<Msg>
    requires |handlers| <= Dispatch.MaxMembers
  {
    if |handled| == 0 then []
    else
      Replies(handlers, handled[..|handled| - 1])
      + (var outcome := DispatchMessage(handlers, handled[|handled| - 1]);
         if Answered(outcome) then [outcome.value.message] else [])
  }

  /** Handling one more message appends its reply to what the client has received. */
  lemma RepliesGrow(handlers: seq<Dispatch.Handler>, before: seq<Msg>, handled: seq<Msg>, msg: Msg)
    requires |handlers| <= Dispatch.MaxMembers && Answered(DispatchMessage(handlers, msg))
    ensures before + Replies(handlers, handled + [msg])
         == before + Replies(handlers, handled) + [DispatchMessage(handlers, msg).value.message]
  {
    assert (handled + [msg])[..|handled|] == handled;
  }

  /** Why `run` returned: the goodbye message, an empty queue it would wait on, or a failed dispatch. */
  datatype Stop = Goodbye | WouldWait | DispatchFailed

  /**
   * `Server::run`: receives and handles messages in order until an empty one
   * arrives.  The empty message is never handled, and whatever follows it
   * stays queued.
   */
  method Run(kind: CallKind, handlers: seq<Dispatch.Handler>, c: Client) returns (r: Client, handled: seq<Msg>, stop: Stop)
    requires |handlers| <= Dispatch.MaxMembers && c.outQueue.Some? && (kind == Blocking ==> c.inQueue.Some?)
    ensures r.outQueue.Some?
    ensures |handled| <= |c.outQueue.value| && handled == c.outQueue.value[..|handled|]
    ensures forall i :: 0 <= i < |handled| ==> |handled[i]| > 0
    ensures stop == WouldWait ==> handled == c.outQueue.value && r.outQueue.value == []
    ensures stop != WouldWait ==> |handled| < |c.outQueue.value| && r.outQueue.value == c.outQueue.value[|handled| + 1..]
    ensures stop == Goodbye ==> c.outQueue.value[|handled|] == []
    ensures stop == DispatchFailed ==>
              |c.outQueue.value[|handled|]| > 0 && !Answered(DispatchMessage(handlers, c.outQueue.value[|handled|]))
    ensures kind == Event ==> r.inQueue == c.inQueue
    ensures kind == Blocking ==> r.inQueue == Some(c.inQueue.value + Replies(handlers, handled))
  {
    var q := c.outQueue.value;
    r := c;
    handled := [];
    assert Replies(handlers, handled) == [];
    if kind == Blocking {
      assert c.inQueue.value + [] == c.inQueue.value;
    }
    while true
      invariant r.outQueue.Some? && |handled| <= |q| && handled == q[..|handled|]
      invariant r.outQueue.value == q[|handled|..]
      invariant forall i :: 0 <= i < |handled| ==> |handled[i]| > 0
      invariant kind == Event ==> r.inQueue == c.inQueue
      invariant kind == Blocking ==> r.inQueue == Some(c.inQueue.value + Replies(handlers, handled))
      decreases |q| - |handled|
    {
      var received := Recv(r);
      if received.None? {
        stop := WouldWait;
        return;
      }
      var (msg, next) := received.value;
      assert msg == q[|handled|];
      if |msg| == 0 {
        r := next;
        stop := Goodbye;
        return;
      }
      var after := Handle(kind, handlers, next, msg);
      if after.None? {
        r := next;
        stop := DispatchFailed;
        return;
      }
      if kind == Blocking {
        RepliesGrow(handlers, c.inQueue.value, handled, msg);
      }
      assert (handled + [msg])[..|handled|] == handled;
      handled := handled + [msg];
      r := after.value;
    }
  }

  /** `Pipe`: a client and a server joined by two queues, the client's `in` being the server's `out`. */
  datatype Pipe = Pipe(toServer: seq<Msg>, toClient: seq<Msg>)

  function PipeClient(p: Pipe): Client
  {
    Client(Some(p.toServer), Some(p.toClient))
  }

  function PipeServer(p: Pipe): Client
  {
    Client(Some(p.toClient), Some(p.toServer))
  }

  /**
   * Over an idle pipe, a blocking call to member i delivers the encoded
   * arguments to member i, and the client receives exactly that member's reply.
   */
  lemma PipeCall(handlers: seq<Dispatch.Handler>, index: nat, args: seq<Arg>)
    requires |handlers| <= Dispatch.MaxMembers && index < |handlers| && index < Pow256(OpcodeWidth) && Typed(args)
    ensures var request := Request(index, args);
            var served := Handle(Blocking, handlers, PipeServer(Pipe([], [])), request);
            served == Some(PipeServer(Pipe([], [handlers[index](EncodeArgs(args))])))
  {
    DispatchRequest(handlers, index, args);
    var reply := handlers[index](EncodeArgs(args));
    assert Send(PipeServer(Pipe([], [])), reply) == Client(Some([] + [reply]), Some([]));
    assert [] + [reply] == [reply];
  }
}

=== FILE: trie.dfy ===
/**
 * The compile-time word trie: `ParsedState::make` builds a radix tree from
 * the sorted words, the conversion turns it into nested `State`s under a
 * `Root`, and `matches` / `find` walk those states.
 *
 * `Lookup` is the reference meaning of a built tree: the 1-based index of
 * the word a string spells, or 0. The build is proved to store exactly the
 * given words, and the (corrected) walk is proved to agree with `Lookup`.
 */
module Trie {
  import opened Wrappers
  import Arith
  import Strings

  // ----- Lexicographic order of `std::string_view` -----

  /** `a <= b` in the order `std::ranges::sort` uses: character by character, a prefix first. */
  predicate LexLe(a: string, b: string)
    decreases |a|
  {
    a == [] || (b != [] && (a[0] < b[0] || (a[0] == b[0] && LexLe(a[1..], b[1..]))))
  }

  lemma {:induction false} LexTotal(a: string, b: string)
    ensures LexLe(a, b) || LexLe(b, a)
    decreases |a|
  {
    if a != [] && b != [] && a[0] == b[0] {
      LexTotal(a[1..], b[1..]);
    }
  }

  lemma {:induction false} LexTrans(a: string, b: string, c: string)
    requires LexLe(a, b) && LexLe(b, c)
    ensures LexLe(a, c)
    decreases |a|
  {
    if a != [] && a[0] == b[0] && b[0] == c[0] {
      LexTrans(a[1..], b[1..], c[1..]);
    }
  }

  /** A shared prefix does not change the order. */
  lemma {:induction false} LexShared(p: string, a: string, b: string)
    ensures LexLe(p + a, p + b) <==> LexLe(a, b)
    decreases |p|
  {
    if p == [] {
      assert p + a == a && p + b == b;
    } else {
      assert (p + a)[1..] == p[1..] + a;
      assert (p + b)[1..] == p[1..] + b;
      LexShared(p[1..], a, b);
    }
  }

  /** A string is never below one of its proper prefixes. */
  lemma {:induction false} LexProperPrefix(v: string, w: string)
    requires |w| < |v| && v[..|w|] == w
    ensures !LexLe(v, w)
    decreases |w|
  {
    if w != [] {
      assert v[1..][..|w| - 1] == w[1..];
      LexProperPrefix(v[1..], w[1..]);
    }
  }

  // ----- Sorting -----

  predicate Sorted(s: seq<string>)
  {
    forall i, j :: 0 <= i < j < |s| ==> LexLe(s[i], s[j])
  }

  function InsertSorted(x: string, s: seq<string>): (r: seq<string>)
    ensures multiset(r) == multiset(s) + multiset{x}
  {
    if s == [] then [x]
    else if LexLe(x, s[0]) then [x] + s
    else
      assert s == [s[0]] + s[1..];
      [s[0]] + InsertSorted(x, s[1..])
  }

  /** `std::ranges::sort`: any sort yields this sequence, as the order is total on strings. */
  function SortWords(ws: seq<string>): (r: seq<string>)
    ensures multiset(r) == multiset(ws)
  {
    if ws == [] then []
    else
      assert ws == [ws[0]] + ws[1..];
      InsertSorted(ws[0], SortWords(ws[1..]))
  }

  lemma ConsSorted(h: string, t: seq<string>)
    requires Sorted(t) && forall j :: 0 <= j < |t| ==> LexLe(h, t[j])
    ensures Sorted([h] + t)
  {
    var r := [h] + t;
    forall i, j | 0 <= i < j < |r|
      ensures LexLe(r[i], r[j])
    {
      if i > 0 {
        assert r[i] == t[i - 1] && r[j] == t[j - 1];
      }
    }
  }

  /** Every element of `InsertSorted(x, s[1..])` is at least `s[0]` when `x` is. */
  lemma HeadBelowAll(x: string, s: seq<string>)
    requires Sorted(s) && s != [] && LexLe(s[0], x)
    ensures forall j :: 0 <= j < |InsertSorted(x, s[1..])| ==> LexLe(s[0], InsertSorted(x, s[1..])[j])
  {
    var t := InsertSorted(x, s[1..]);
    forall j | 0 <= j < |t|
      ensures LexLe(s[0], t[j])
    {
      assert t[j] in multiset(t);
      if t[j] != x {
        assert t[j] in multiset(s[1..]);
        var k :| 0 <= k < |s[1..]| && s[1..][k] == t[j];
        assert s[k + 1] == t[j];
      }
    }
  }

  lemma {:induction false} InsertSortedSorted(x: string, s: seq<string>)
    requires Sorted(s)
    ensures Sorted(InsertSorted(x, s))
  {
    if s != [] {
      if LexLe(x, s[0]) {
        forall j | 0 <= j < |s|
          ensures LexLe(x, s[j])
        {
          if j > 0 {
            LexTrans(x, s[0], s[j]);
          }
        }
        ConsSorted(x, s);
      } else {
        InsertSortedSorted(x, s[1..]);
        LexTotal(x, s[0]);
        HeadBelowAll(x, s);
        ConsSorted(s[0], InsertSorted(x, s[1..]));
      }
    }
  }

  /** The words are visited in sorted order, and they are the same words. */
  lemma {:induction false} SortWordsSorted(ws: seq<string>)
    ensures Sorted(SortWords(ws)) && multiset(SortWords(ws)) == multiset(ws)
  {
    if ws != [] {
      SortWordsSorted(ws[1..]);
      InsertSortedSorted(ws[0], SortWords(ws[1..]));
    }
  }

  // ----- The tree `ParsedState::make` builds -----

  /**
   * `ParsedState`: the text of the edge into this node, the child nodes, and
   * the 1-based index of a word (0 for none). A word end is a leaf child with
   * an empty prefix.
   */
  datatype Node = Node(prefix: string, children: seq<Node>, wordIndex: nat)

  /** `s.prefix.starts_with(c)`. */
  predicate Opens(n: Node, c: char)
  {
    n.prefix != [] && n.prefix[0] == c
  }

  /** `find_if` over the children for the first one whose prefix starts with `c`; `|cs|` when none does. */
  function FindChild(cs: seq<Node>, c: char): (k: nat)
    ensures k <= |cs|
    ensures k < |cs| ==> Opens(cs[k], c)
    ensures forall j :: 0 <= j < k ==> !Opens(cs[j], c)
  {
    if cs == [] then 0 else if Opens(cs[0], c) then 0 else 1 + FindChild(cs[1..], c)
  }

  /** `std::mismatch`: the length of the common prefix, bounded by both strings. */
  function CommonPrefix(a: string, b: string): (m: nat)
    ensures m <= |a| && m <= |b| && a[..m] == b[..m]
    ensures m < |a| && m < |b| ==> a[m] != b[m]
  {
    if a == [] || b == [] || a[0] != b[0] then 0
    else
      var m := CommonPrefix(a[1..], b[1..]);
      assert a[..m + 1] == [a[0]] + a[1..][..m];
      assert b[..m + 1] == [b[0]] + b[1..][..m];
      m + 1
  }

  function Leaf(index: nat): Node
  {
    Node("", [], index)
  }

  /** A child cut after its first `m` characters: the rest of its text moves, with its children, into a single child. */
  function SplitAt(c: Node, m: nat): Node
    requires m <= |c.prefix|
  {
    if m < |c.prefix| then Node(c.prefix[..m], [Node(c.prefix[m..], c.children, 0)], c.wordIndex) else c
  }

  /**
   * The walk of one word below a node whose text is already consumed: `rest`
   * is what remains of the word. No child starting with its first character
   * gets a new child holding all of `rest` and a leaf; otherwise the matching
   * child is split where it stops agreeing with `rest` (its old children move
   * under the remainder of its text) and the walk continues below it.
   */
  function InsertChildren(cs: seq<Node>, rest: string, index: nat): (r: seq<Node>)
    requires rest != []
    ensures |r| == |cs| || |r| == |cs| + 1
    decreases |rest|
  {
    var k := FindChild(cs, rest[0]);
    if k == |cs| then cs + [Node(rest, [Leaf(index)], 0)]
    else
      var c := cs[k];
      var m := CommonPrefix(c.prefix, rest);
      var c1 := SplitAt(c, m);
      if m == |rest| then cs[k := c1]
      else cs[k := c1.(children := InsertChildren(c1.children, rest[m..], index))]
  }

  /** One pass of the outer loop: the index is the first position of the word in the unsorted list, plus one. */
  function InsertWord(cs: seq<Node>, word: string, words: seq<string>): seq<Node>
  {
    if word == [] then cs else InsertChildren(cs, word, Strings.IndexOf(words, word) + 1)
  }

  function InsertAll(cs: seq<Node>, ws: seq<string>, words: seq<string>): seq<Node>
    decreases |ws|
  {
    if ws == [] then cs else InsertAll(InsertWord(cs, ws[0], words), ws[1..], words)
  }

  /** `ParsedState::make`: sort, then insert every word into an empty root. */
  function Make(words: seq<string>): Node
  {
    Node("", InsertAll([], SortWords(words), words), 0)
  }

  // ----- Reference meaning of a tree -----

  /** The conversion's word index of a node: that of its last leaf child, 0 when it has none. */
  function LeafIndex(cs: seq<Node>): nat
  {
    if cs == [] then 0
    else if cs[|cs| - 1].prefix == [] then cs[|cs| - 1].wordIndex
    else LeafIndex(cs[..|cs| - 1])
  }

  /** The index of the word `s` spells from node `n` (prefix included), 0 when it spells none. */
  function Lookup(n: Node, s: string): nat
    decreases n
  {
    if |n.prefix| <= |s| && s[..|n.prefix|] == n.prefix then
      if |s| == |n.prefix| && n.wordIndex != 0 then n.wordIndex
      else ChildLookup(n.children, s[|n.prefix|..])
    else 0
  }

  /** The index of the word `r` spells below a node with children `cs`. */
  function ChildLookup(cs: seq<Node>, r: string): nat
    decreases cs
  {
    if r == [] then LeafIndex(cs)
    else
      var k := FindChild(cs, r[0]);
      if k < |cs| then Lookup(cs[k], r) else 0
  }

  /** Siblings: at most one leaf, and no two other children start with the same character. */
  predicate Shape(cs: seq<Node>)
  {
    forall i, j :: 0 <= i < j < |cs| ==>
      (cs[i].prefix == [] ==> cs[j].prefix != []) &&
      (cs[i].prefix != [] && cs[j].prefix != [] ==> cs[i].prefix[0] != cs[j].prefix[0])
  }

  /** A leaf has an empty prefix and a word; any other node has text, children and no word of its own. */
  predicate WellFormed(n: Node)
    decreases n
  {
    if n.prefix == [] then n.children == [] && n.wordIndex >= 1
    else n.wordIndex == 0 && n.children != [] && WellFormedChildren(n.children)
  }

  predicate WellFormedChildren(cs: seq<Node>)
    decreases cs
  {
    Shape(cs) && forall i :: 0 <= i < |cs| ==> WellFormed(cs[i])
  }

  // ----- Facts about lookups -----

  /** Among well-shaped siblings, a string goes to the child that starts with its first character. */
  lemma ChildAt(cs: seq<Node>, k: nat, r: string)
    requires Shape(cs) && k < |cs| && r != [] && Opens(cs[k], r[0])
    ensures ChildLookup(cs, r) == Lookup(cs[k], r)
  {
    var j := FindChild(cs, r[0]);
    if j != k {
      assert false;
    }
  }

  /** Below a node without a word of its own, a lookup continues among its children. */
  lemma Descend(n: Node, v: string)
    requires n.wordIndex == 0
    ensures Lookup(n, n.prefix + v) == ChildLookup(n.children, v)
  {
    var s := n.prefix + v;
    assert s[..|n.prefix|] == n.prefix && s[|n.prefix|..] == v;
  }

  lemma NoLeafAt(cs: seq<Node>)
    requires WellFormedChildren(cs) && LeafIndex(cs) == 0
    ensures forall i :: 0 <= i < |cs| ==> cs[i].prefix != []
  {
    if cs != [] {
      var init := cs[..|cs| - 1];
      assert WellFormedChildren(init) by {
        assert forall i :: 0 <= i < |init| ==> init[i] == cs[i];
      }
      NoLeafAt(init);
      assert forall i :: 0 <= i < |init| ==> init[i] == cs[i];
    }
  }

  /**
   * Every well-formed node leads to a word; when a node with text has no
   * leaf, every word below it is longer than its text.
   */
  lemma {:induction false} Live(n: Node) returns (v: string)
    requires WellFormed(n)
    ensures Lookup(n, v) != 0 && |n.prefix| <= |v| && v[..|n.prefix|] == n.prefix
    ensures n.prefix != [] && LeafIndex(n.children) == 0 ==> |v| > |n.prefix|
    decreases n
  {
    if n.prefix == [] {
      v := [];
    } else if LeafIndex(n.children) != 0 {
      v := n.prefix;
      Descend(n, []);
      assert n.prefix + [] == n.prefix;
    } else {
      NoLeafAt(n.children);
      var c := n.children[0];
      var w := Live(c);
      ChildAt(n.children, 0, w);
      Descend(n, w);
      v := n.prefix + w;
      assert v[..|n.prefix|] == n.prefix;
    }
  }

  // ----- Inserting one word -----

  lemma NewBranch(rest: string, index: nat, u: string)
    requires rest != [] && index >= 1
    ensures WellFormed(Node(rest, [Leaf(index)], 0))
    ensures Lookup(Node(rest, [Leaf(index)], 0), u) == if u == rest then index else 0
  {
    var n := Node(rest, [Leaf(index)], 0);
    assert WellFormedChildren(n.children);
    if |rest| <= |u| && u[..|rest|] == rest {
      if |u| == |rest| {
        assert u == rest;
      } else {
        assert u != rest;
      }
    }
  }

  lemma {:induction false} FindChildAppend(cs: seq<Node>, x: Node, c: char)
    requires FindChild(cs, c) == |cs|
    ensures FindChild(cs + [x], c) == if Opens(x, c) then |cs| else |cs| + 1
  {
    if cs != [] {
      assert (cs + [x])[1..] == cs[1..] + [x];
      FindChildAppend(cs[1..], x, c);
    }
  }

  lemma LeafIndexAppend(cs: seq<Node>, x: Node)
    requires x.prefix != []
    ensures LeafIndex(cs + [x]) == LeafIndex(cs)
  {
    assert (cs + [x])[..|cs|] == cs;
  }

  /** No child starts with the word's first character: a new child holds the rest of the word. */
  lemma InsertNew(cs: seq<Node>, rest: string, index: nat)
    requires rest != [] && index >= 1 && WellFormedChildren(cs)
    requires FindChild(cs, rest[0]) == |cs|
    ensures InsertChildren(cs, rest, index) == cs + [Node(rest, [Leaf(index)], 0)]
    ensures WellFormedChildren(InsertChildren(cs, rest, index))
    ensures forall u :: ChildLookup(InsertChildren(cs, rest, index), u) == if u == rest then index else ChildLookup(cs, u)
  {
    var x := Node(rest, [Leaf(index)], 0);
    var r := cs + [x];
    NewBranch(rest, index, []);
    assert forall i :: 0 <= i < |cs| ==> r[i] == cs[i];
    assert WellFormedChildren(r);
    forall u
      ensures ChildLookup(r, u) == if u == rest then index else ChildLookup(cs, u)
    {
      if u == [] {
        LeafIndexAppend(cs, x);
      } else {
        var k := FindChild(cs, u[0]);
        if k < |cs| {
          assert u[0] != rest[0];
          assert FindChild(r, u[0]) == k by {
            var j := FindChild(r, u[0]);
            assert !(j < k) && !(j > k);
          }
        } else {
          FindChildAppend(cs, x, u[0]);
          NewBranch(rest, index, u);
        }
      }
    }
  }

  lemma PrefixJoin(u: string, p: string, m: nat)
    requires m <= |p| <= |u| && u[..m] == p[..m] && u[m..][..|p| - m] == p[m..]
    ensures u[..|p|] == p
  {
    assert u[..|p|] == u[..m] + u[m..][..|p| - m];
    assert p == p[..m] + p[m..];
  }

  /** Splitting a node's text keeps every lookup through it. */
  lemma Split(c: Node, m: nat, u: string)
    requires WellFormed(c) && 1 <= m < |c.prefix|
    ensures WellFormed(Node(c.prefix[..m], [Node(c.prefix[m..], c.children, 0)], c.wordIndex))
    ensures Lookup(Node(c.prefix[..m], [Node(c.prefix[m..], c.children, 0)], c.wordIndex), u) == Lookup(c, u)
  {
    var p := c.prefix;
    var tail := Node(p[m..], c.children, 0);
    var c1 := Node(p[..m], [tail], c.wordIndex);
    assert WellFormedChildren([tail]);
    assert |c1.prefix| == m;
    if |p| <= |u| && u[..|p|] == p {
      var v := u[|p|..];
      assert u == c1.prefix + (tail.prefix + v);
      Descend(c1, tail.prefix + v);
      ChildAt([tail], 0, tail.prefix + v);
      Descend(tail, v);
      assert u == p + v;
      Descend(c, v);
    } else if m <= |u| && u[..m] == p[..m] {
      var r := u[m..];
      assert u == c1.prefix + r;
      Descend(c1, r);
      if |p| - m <= |r| && r[..|p| - m] == p[m..] {
        PrefixJoin(u, p, m);
      }
      assert ChildLookup([tail], r) == 0 by {
        if r == [] {
          assert [tail][..0] == [];
          assert LeafIndex([tail]) == 0;
        } else if Opens(tail, r[0]) {
          ChildAt([tail], 0, r);
          assert Lookup(tail, r) == 0;
        } else {
          assert [tail][1..] == [];
          assert FindChild([tail], r[0]) == 1;
        }
      }
    }
  }

  lemma FindChildReplace(cs: seq<Node>, k: nat, x: Node, c: char)
    requires k < |cs| && cs[k].prefix != [] && x.prefix != [] && x.prefix[0] == cs[k].prefix[0]
    ensures FindChild(cs[k := x], c) == FindChild(cs, c)
  {
    var r := cs[k := x];
    assert forall j :: 0 <= j < |cs| ==> (Opens(r[j], c) <==> Opens(cs[j], c));
    var a := FindChild(r, c);
    var b := FindChild(cs, c);
    assert !(a < b) && !(b < a);
  }

  lemma LeafIndexReplace(cs: seq<Node>, k: nat, x: Node)
    requires k < |cs| && cs[k].prefix != [] && x.prefix != []
    ensures LeafIndex(cs[k := x]) == LeafIndex(cs)
  {
    if k < |cs| - 1 {
      assert cs[k := x][..|cs| - 1] == cs[..|cs| - 1][k := x];
      LeafIndexReplace(cs[..|cs| - 1], k, x);
    } else {
      assert cs[k := x][..|cs| - 1] == cs[..|cs| - 1];
    }
  }

  /**
   * Replacing a child by one with the same first character, the same lookups
   * except for the word `rest`, keeps the siblings' shape and changes only
   * that word.
   */
  lemma Replace(cs: seq<Node>, k: nat, x: Node, rest: string, index: nat)
    requires WellFormedChildren(cs) && k < |cs| && cs[k].prefix != [] && rest != []
    requires WellFormed(x) && x.prefix != [] && x.prefix[0] == cs[k].prefix[0] && rest[0] == x.prefix[0]
    requires forall u :: Lookup(x, u) == if u == rest then index else Lookup(cs[k], u)
    ensures WellFormedChildren(cs[k := x])
    ensures forall u :: ChildLookup(cs[k := x], u) == if u == rest then index else ChildLookup(cs, u)
  {
    var r := cs[k := x];
    assert WellFormedChildren(r);
    forall u
      ensures ChildLookup(r, u) == if u == rest then index else ChildLookup(cs, u)
    {
      if u == [] {
        LeafIndexReplace(cs, k, x);
      } else {
        FindChildReplace(cs, k, x, u[0]);
        if u[0] == rest[0] {
          ChildAt(r, k, u);
          ChildAt(cs, k, u);
        }
      }
    }
  }

  /** The word ends inside or at the end of an existing child's text. */
  lemma InsertEnds(cs: seq<Node>, k: nat, rest: string, index: nat)
    requires rest != [] && index >= 1 && WellFormedChildren(cs)
    requires k == FindChild(cs, rest[0]) && k < |cs|
    requires CommonPrefix(cs[k].prefix, rest) == |rest|
    requires forall u :: ChildLookup(cs, u) != 0 ==> LexLe(u, rest)
    requires ChildLookup(cs, rest) == 0 || ChildLookup(cs, rest) == index
    ensures InsertChildren(cs, rest, index) == cs
    ensures ChildLookup(cs, rest) == index
  {
    var c := cs[k];
    var p := c.prefix;
    var v := Live(c);
    ChildAt(cs, k, v);
    if |rest| < |p| {
      assert v[..|rest|] == rest by {
        assert p[..|rest|] == rest;
        assert v[..|rest|] == v[..|p|][..|rest|];
      }
      LexProperPrefix(v, rest);
      assert false;
    }
    assert rest == p;
    ChildAt(cs, k, rest);
    Descend(c, []);
    assert p + [] == p;
    if LeafIndex(c.children) == 0 {
      LexProperPrefix(v, rest);
      assert false;
    }
  }

  /** A split keeps the node well formed and keeps every lookup through it. */
  lemma SplitKeeps(c: Node, m: nat)
    requires WellFormed(c) && 1 <= m <= |c.prefix|
    ensures WellFormed(SplitAt(c, m)) && SplitAt(c, m).prefix == c.prefix[..m] && SplitAt(c, m).wordIndex == 0
    ensures forall u :: Lookup(SplitAt(c, m), u) == Lookup(c, u)
  {
    if m < |c.prefix| {
      Split(c, m, []);
      forall u
        ensures Lookup(SplitAt(c, m), u) == Lookup(c, u)
      {
        Split(c, m, u);
      }
    } else {
      assert c.prefix[..m] == c.prefix;
    }
  }

  /** A word stored below the (split) child is, with the child's text in front, stored among the siblings. */
  lemma BelowOne(cs: seq<Node>, k: nat, c1: Node, v: string)
    requires Shape(cs) && k < |cs| && c1.prefix != [] && Opens(cs[k], c1.prefix[0])
    requires c1.wordIndex == 0 && Lookup(c1, c1.prefix + v) == Lookup(cs[k], c1.prefix + v)
    ensures ChildLookup(c1.children, v) == ChildLookup(cs, c1.prefix + v)
  {
    Descend(c1, v);
    ChildAt(cs, k, c1.prefix + v);
  }

  /** Below the (split) child, the words stored are still no larger than what remains of the word. */
  lemma BelowBound(cs: seq<Node>, k: nat, c1: Node, rest: string, m: nat, index: nat)
    requires Shape(cs) && k < |cs| && rest != [] && Opens(cs[k], rest[0])
    requires 1 <= m < |rest| && c1.wordIndex == 0 && c1.prefix == rest[..m]
    requires forall u :: Lookup(c1, u) == Lookup(cs[k], u)
    requires forall u :: ChildLookup(cs, u) != 0 ==> LexLe(u, rest)
    requires ChildLookup(cs, rest) == 0 || ChildLookup(cs, rest) == index
    ensures forall v :: ChildLookup(c1.children, v) != 0 ==> LexLe(v, rest[m..])
    ensures ChildLookup(c1.children, rest[m..]) == 0 || ChildLookup(c1.children, rest[m..]) == index
  {
    var tail := rest[m..];
    assert rest == c1.prefix + tail;
    forall v | ChildLookup(c1.children, v) != 0
      ensures LexLe(v, tail)
    {
      BelowOne(cs, k, c1, v);
      LexShared(c1.prefix, v, tail);
    }
    BelowOne(cs, k, c1, tail);
  }

  /** The (split) child with the word inserted below it spells the word in addition. */
  lemma Grown(c: Node, c1: Node, nc: seq<Node>, rest: string, m: nat, index: nat)
    requires m < |rest| && c1.wordIndex == 0 && c1.prefix == rest[..m]
    requires forall u :: Lookup(c1, u) == Lookup(c, u)
    requires forall v :: ChildLookup(nc, v) == if v == rest[m..] then index else ChildLookup(c1.children, v)
    ensures forall u :: Lookup(c1.(children := nc), u) == if u == rest then index else Lookup(c, u)
  {
    var c2 := c1.(children := nc);
    forall u
      ensures Lookup(c2, u) == if u == rest then index else Lookup(c, u)
    {
      if m <= |u| && u[..m] == c1.prefix {
        var w := u[m..];
        assert u == c1.prefix + w;
        Descend(c2, w);
        Descend(c1, w);
        assert u == rest <==> w == rest[m..];
      } else {
        assert u != rest;
      }
    }
  }

  /** The child's text is a prefix of what remains, short of all of it: the walk continues below that child. */
  lemma InsertBelow(cs: seq<Node>, k: nat, rest: string, index: nat)
    requires rest != [] && index >= 1 && WellFormedChildren(cs)
    requires k == FindChild(cs, rest[0]) && k < |cs|
    requires CommonPrefix(cs[k].prefix, rest) < |rest|
    requires forall u :: ChildLookup(cs, u) != 0 ==> LexLe(u, rest)
    requires ChildLookup(cs, rest) == 0 || ChildLookup(cs, rest) == index
    ensures WellFormedChildren(InsertChildren(cs, rest, index))
    ensures forall u :: ChildLookup(InsertChildren(cs, rest, index), u) == if u == rest then index else ChildLookup(cs, u)
    decreases |rest|, 0
  {
    var c := cs[k];
    var m := CommonPrefix(c.prefix, rest);
    var c1 := SplitAt(c, m);
    SplitKeeps(c, m);
    BelowBound(cs, k, c1, rest, m, index);
    InsertChildrenSpec(c1.children, rest[m..], index);
    var nc := InsertChildren(c1.children, rest[m..], index);
    Grown(c, c1, nc, rest, m, index);
    assert WellFormed(c1.(children := nc));
    Replace(cs, k, c1.(children := nc), rest, index);
  }

  /**
   * Inserting a word no smaller than every stored word stores exactly that
   * word in addition (with its index) and keeps the tree well formed. A word
   * already stored keeps its index, which is the same one.
   */
  lemma {:induction false} InsertChildrenSpec(cs: seq<Node>, rest: string, index: nat)
    requires rest != [] && index >= 1 && WellFormedChildren(cs)
    requires forall u :: ChildLookup(cs, u) != 0 ==> LexLe(u, rest)
    requires ChildLookup(cs, rest) == 0 || ChildLookup(cs, rest) == index
    ensures WellFormedChildren(InsertChildren(cs, rest, index))
    ensures forall u :: ChildLookup(InsertChildren(cs, rest, index), u) == if u == rest then index else ChildLookup(cs, u)
    decreases |rest|, 1
  {
    var k := FindChild(cs, rest[0]);
    if k == |cs| {
      InsertNew(cs, rest, index);
    } else if CommonPrefix(cs[k].prefix, rest) == |rest| {
      InsertEnds(cs, k, rest, index);
    } else {
      InsertBelow(cs, k, rest, index);
    }
  }

  // ----- The whole build -----

  /** Predicate on the tree before the remaining words `ws` go in. */
  ghost predicate Stores(cs: seq<Node>, ws: seq<string>, words: seq<string>)
  {
    forall u :: ChildLookup(cs, u) != 0 ==>
      u != [] && u in words && ChildLookup(cs, u) == Strings.IndexOf(words, u) + 1 &&
      forall j :: 0 <= j < |ws| ==> LexLe(u, ws[j])
  }

  /** One word goes in: it is stored with its index, and the next words are still no smaller than any stored word. */
  lemma InsertWordStores(cs: seq<Node>, ws: seq<string>, words: seq<string>)
    requires ws != [] && WellFormedChildren(cs) && Sorted(ws) && ws[0] in words
    requires Stores(cs, ws, words)
    ensures WellFormedChildren(InsertWord(cs, ws[0], words))
    ensures Stores(InsertWord(cs, ws[0], words), ws[1..], words)
    ensures forall u :: ChildLookup(InsertWord(cs, ws[0], words), u) ==
                        (if u != [] && u == ws[0] then Strings.IndexOf(words, u) + 1 else ChildLookup(cs, u))
  {
    var w := ws[0];
    var next := InsertWord(cs, w, words);
    if w != [] {
      InsertChildrenSpec(cs, w, Strings.IndexOf(words, w) + 1);
    }
    forall u | ChildLookup(next, u) != 0
      ensures u != [] && u in words && ChildLookup(next, u) == Strings.IndexOf(words, u) + 1
      ensures forall j :: 0 <= j < |ws[1..]| ==> LexLe(u, ws[1..][j])
    {
      assert forall j :: 0 <= j < |ws[1..]| ==> ws[1..][j] == ws[j + 1];
    }
  }

  lemma {:induction false} InsertAllSpec(cs: seq<Node>, ws: seq<string>, words: seq<string>)
    requires WellFormedChildren(cs) && Sorted(ws)
    requires forall j :: 0 <= j < |ws| ==> ws[j] in words
    requires Stores(cs, ws, words)
    ensures WellFormedChildren(InsertAll(cs, ws, words))
    ensures forall u :: ChildLookup(InsertAll(cs, ws, words), u) ==
                        (if u != [] && u in ws then Strings.IndexOf(words, u) + 1 else ChildLookup(cs, u))
    decreases |ws|
  {
    if ws != [] {
      var next := InsertWord(cs, ws[0], words);
      InsertWordStores(cs, ws, words);
      assert forall j :: 0 <= j < |ws[1..]| ==> ws[1..][j] == ws[j + 1];
      InsertAllSpec(next, ws[1..], words);
      assert forall u :: u in ws <==> u == ws[0] || u in ws[1..];
    }
  }

  lemma SortedSameWords(words: seq<string>)
    ensures forall j :: 0 <= j < |SortWords(words)| ==> SortWords(words)[j] in words
    ensures forall u :: u in SortWords(words) <==> u in words
  {
    forall u
      ensures u in SortWords(words) <==> u in words
    {
      assert u in SortWords(words) <==> u in multiset(SortWords(words));
    }
  }

  lemma EmptyStores(ws: seq<string>, words: seq<string>)
    ensures Stores([], ws, words)
  {
    forall u
      ensures ChildLookup([], u) == 0
    {
    }
  }

  /** The children of the root after every word went in. */
  lemma BuildStores(words: seq<string>)
    ensures WellFormedChildren(Make(words).children)
    ensures forall u :: ChildLookup(Make(words).children, u) == if u != [] && u in words then Strings.IndexOf(words, u) + 1 else 0
  {
    var sorted := SortWords(words);
    SortWordsSorted(words);
    SortedSameWords(words);
    var empty: seq<Node> := [];
    assert WellFormedChildren(empty);
    EmptyStores(sorted, words);
    InsertAllSpec(empty, sorted, words);
  }

  /**
   * `ParsedState::make` stores every non-empty word with its first position
   * plus one, and nothing else; the empty word is never stored.
   */
  lemma MakeStores(words: seq<string>)
    ensures WellFormedChildren(Make(words).children) && LeafIndex(Make(words).children) == 0
    ensures forall u :: Lookup(Make(words), u) == if u != [] && u in words then Strings.IndexOf(words, u) + 1 else 0
  {
    BuildStores(words);
    var cs := Make(words).children;
    assert ChildLookup(cs, []) == 0;
    forall u
      ensures Lookup(Make(words), u) == ChildLookup(cs, u)
    {
      assert u[..0] == [] && u[0..] == u;
    }
  }

  // ----- The states `matches` and `find` walk -----

  /** `State<Transitions...>`: transition text, word index (0 for none), next states. */
  datatype State = State(transition: string, wordIndex: nat, next: seq<State>)

  /** The conversion to `make_state`: the word index from the leaf children, the other children as states. */
  function Convert(n: Node): State
    decreases n
  {
    State(n.prefix, LeafIndex(n.children), ConvertAll(n.children))
  }

  function ConvertAll(cs: seq<Node>): seq<State>
    decreases cs
  {
    if cs == [] then []
    else (if cs[0].prefix == [] then [] else [Convert(cs[0])]) + ConvertAll(cs[1..])
  }

  /** `Trie(words)`: the root's states (`make_trie<...>`). */
  function Build(words: seq<string>): seq<State>
  {
    ConvertAll(Make(words).children)
  }

  /** What a visit returns, with the argument of the last visitor call (`None` when it was not called). */
  datatype Visited = Visited(ok: bool, seen: Option<nat>)

  /** `||` over the next states: stop at the first success; the last visitor argument is kept. */
  function Then(a: Visited, b: Visited): Visited
  {
    Visited(b.ok, if b.seen.Some? then b.seen else a.seen)
  }

  /**
   * `State::visit` as written: a one-character transition that is itself a
   * word end rejects every string longer than one character.
   */
  function VisitWritten(st: State, s: string): Visited
    requires s != []
    decreases st
  {
    var t := st.transition;
    var pass :=
      if |t| == 1 then !(st.wordIndex != 0 && |s| != 1) && s[0] == t[0]
      else |t| <= |s| && s[..|t|] == t;
    if !pass then Visited(false, None)
    else
      var r := s[|t|..];
      if r == [] then Visited(st.wordIndex != 0, Some(st.wordIndex))
      else VisitAnyWritten(st.next, r)
  }

  function VisitAnyWritten(sts: seq<State>, r: string): Visited
    requires r != []
    decreases sts
  {
    if sts == [] then Visited(false, None)
    else
      var a := VisitWritten(sts[0], r);
      if a.ok then a else Then(a, VisitAnyWritten(sts[1..], r))
  }

  /** `State::visit` with the transition compared by `starts_with` for every length. */
  function Visit(st: State, s: string): Visited
    decreases st
  {
    var t := st.transition;
    if |t| <= |s| && s[..|t|] == t then
      var r := s[|t|..];
      if r == [] then Visited(st.wordIndex != 0, Some(st.wordIndex))
      else VisitAny(st.next, r)
    else Visited(false, None)
  }

  function VisitAny(sts: seq<State>, r: string): Visited
    decreases sts
  {
    if sts == [] then Visited(false, None)
    else
      var a := Visit(sts[0], r);
      if a.ok then a else Then(a, VisitAny(sts[1..], r))
  }

  /** `Root::matches` as written. */
  function MatchesWritten(states: seq<State>, s: string): (r: bool)
    ensures s == [] ==> !r
  {
    s != [] && VisitAnyWritten(states, s).ok
  }

  /** `Root::find` as written: `result` starts at `-1U` and `result - 1` wraps modulo 2^32. */
  function FindWritten(states: seq<State>, s: string): (r: nat)
    ensures r < Strings.U32
    ensures s == [] ==> r == Strings.U32 - 1
  {
    if s == [] then Strings.U32 - 1
    else
      var a := VisitAnyWritten(states, s);
      var result := if a.seen.Some? then a.seen.value else Strings.U32 - 1;
      (result - 1) % Strings.U32
  }

  /** `Root::matches` over the corrected visit. */
  function Matches(states: seq<State>, s: string): bool
  {
    s != [] && VisitAny(states, s).ok
  }

  /** `Root::find` with the corrected visit and `result` starting at 0, so a miss gives `-1U`. */
  function Find(states: seq<State>, s: string): nat
  {
    if s == [] then Strings.U32 - 1
    else
      var a := VisitAny(states, s);
      var result := if a.seen.Some? then a.seen.value else 0;
      (result - 1) % Strings.U32
  }

  // ----- The walk agrees with the reference meaning -----

  lemma {:induction false} VisitAgrees(n: Node, s: string)
    requires WellFormed(n) && n.prefix != [] && s != []
    ensures Visit(Convert(n), s).ok <==> Lookup(n, s) != 0
    ensures Visit(Convert(n), s).seen.Some? ==> Visit(Convert(n), s).seen.value == Lookup(n, s)
    ensures Visit(Convert(n), s).ok ==> Visit(Convert(n), s).seen.Some?
    decreases n
  {
    var p := n.prefix;
    if |p| <= |s| && s[..|p|] == p && |s| > |p| {
      VisitAnyAgrees(n.children, s[|p|..]);
    }
  }

  lemma {:induction false} VisitAnyAgrees(cs: seq<Node>, r: string)
    requires WellFormedChildren(cs) && r != []
    ensures VisitAny(ConvertAll(cs), r).ok <==> ChildLookup(cs, r) != 0
    ensures VisitAny(ConvertAll(cs), r).seen.Some? ==> VisitAny(ConvertAll(cs), r).seen.value == ChildLookup(cs, r)
    ensures VisitAny(ConvertAll(cs), r).ok ==> VisitAny(ConvertAll(cs), r).seen.Some?
    decreases cs
  {
    if cs != [] {
      var tl := cs[1..];
      assert WellFormedChildren(tl) by {
        assert forall i :: 0 <= i < |tl| ==> tl[i] == cs[i + 1];
      }
      VisitAnyAgrees(tl, r);
      var rest := VisitAny(ConvertAll(tl), r);
      if !Opens(cs[0], r[0]) {
        assert ChildLookup(cs, r) == ChildLookup(tl, r) by {
          var k := FindChild(tl, r[0]);
          if k < |tl| {
            assert tl[k] == cs[k + 1];
          }
        }
        if cs[0].prefix == [] {
          assert ConvertAll(cs) == ConvertAll(tl);
        } else {
          var t := cs[0].prefix;
          assert ConvertAll(cs) == [Convert(cs[0])] + ConvertAll(tl);
          assert ConvertAll(cs)[1..] == ConvertAll(tl);
          assert !(|t| <= |r| && r[..|t|] == t);
          assert Visit(Convert(cs[0]), r) == Visited(false, None);
        }
      } else {
        assert ChildLookup(cs, r) == Lookup(cs[0], r);
        assert ConvertAll(cs) == [Convert(cs[0])] + ConvertAll(tl);
        assert ConvertAll(cs)[1..] == ConvertAll(tl);
        VisitAgrees(cs[0], r);
        assert FindChild(tl, r[0]) == |tl| by {
          var k := FindChild(tl, r[0]);
          if k < |tl| {
            assert false;
          }
        }
        assert ChildLookup(tl, r) == 0;
      }
    }
  }

  /** `x - 1` in unsigned 32-bit arithmetic. */
  lemma Decrement(x: nat)
    requires x < Strings.U32
    ensures (x - 1) % Strings.U32 == if x == 0 then Strings.U32 - 1 else x - 1
  {
    if x == 0 {
      Arith.DivModUnique(-1, Strings.U32, -1, Strings.U32 - 1);
    } else {
      Arith.DivModUnique(x - 1, Strings.U32, 0, x - 1);
    }
  }

  /** `find` returns one less than the index the walk reports, and `-1U` when it reports none. */
  lemma FindFromVisit(states: seq<State>, s: string, index: nat)
    requires s != [] && index < Strings.U32
    requires VisitAny(states, s).ok <==> index != 0
    requires VisitAny(states, s).seen.Some? ==> VisitAny(states, s).seen.value == index
    requires VisitAny(states, s).ok ==> VisitAny(states, s).seen.Some?
    ensures Find(states, s) == if index != 0 then index - 1 else Strings.U32 - 1
  {
    Decrement(index);
    Decrement(0);
  }

  /** The walk from the root of `Trie(words)` finds exactly the stored words. */
  lemma BuildAgrees(words: seq<string>, s: string)
    requires s != []
    ensures VisitAny(Build(words), s).ok <==> s in words
    ensures VisitAny(Build(words), s).seen.Some? ==>
              VisitAny(Build(words), s).seen.value == if s in words then Strings.IndexOf(words, s) + 1 else 0
    ensures VisitAny(Build(words), s).ok ==> VisitAny(Build(words), s).seen.Some?
  {
    MakeStores(words);
    VisitAnyAgrees(Make(words).children, s);
    assert Lookup(Make(words), s) == ChildLookup(Make(words).children, s) by {
      assert s[..0] == [] && s[0..] == s;
    }
  }

  /** `matches` (corrected) holds for exactly the non-empty words. */
  lemma MatchesIffWord(words: seq<string>, s: string)
    ensures Matches(Build(words), s) <==> s != [] && s in words
  {
    if s != [] {
      BuildAgrees(words, s);
    }
  }

  /** `find` (corrected) gives the first position of a word, and `-1U` for everything else. */
  lemma FindGivesPosition(words: seq<string>, s: string)
    requires |words| < Strings.U32
    ensures s != [] && s in words ==> Find(Build(words), s) == Strings.IndexOf(words, s)
    ensures !(s != [] && s in words) ==> Find(Build(words), s) == Strings.U32 - 1
  {
    if s != [] {
      BuildAgrees(words, s);
      FindFromVisit(Build(words), s, if s in words then Strings.IndexOf(words, s) + 1 else 0);
    }
  }

  // ----- The visit as written -----

  lemma {:induction false} VisitWrittenSound(st: State, s: string)
    requires s != []
    ensures VisitWritten(st, s).ok ==> Visit(st, s).ok
    decreases st
  {
    var t := st.transition;
    if |t| == 1 && VisitWritten(st, s).ok {
      assert s[..1] == [s[0]] && t == [t[0]];
    }
    if VisitWritten(st, s).ok && |s| > |t| {
      VisitAnyWrittenSound(st.next, s[|t|..]);
    }
  }

  lemma {:induction false} VisitAnyWrittenSound(sts: seq<State>, r: string)
    requires r != []
    ensures VisitAnyWritten(sts, r).ok ==> VisitAny(sts, r).ok
    decreases sts
  {
    if sts != [] {
      VisitWrittenSound(sts[0], r);
      VisitAnyWrittenSound(sts[1..], r);
    }
  }

  /** `matches` as written never accepts a string that is not a word. */
  lemma MatchesWrittenSound(words: seq<string>, s: string)
    ensures MatchesWritten(Build(words), s) ==> s != [] && s in words
  {
    if s != [] {
      VisitAnyWrittenSound(Build(words), s);
      MatchesIffWord(words, s);
    }
  }

  lemma SortAAb()
    ensures SortWords(["a", "ab"]) == ["a", "ab"]
  {
    assert LexLe("a", "ab");
    assert SortWords(["a", "ab"][1..]) == ["ab"];
  }

  lemma InsertAAb()
    ensures InsertAll([], ["a", "ab"], ["a", "ab"]) == [Node("a", [Leaf(1), Node("b", [Leaf(2)], 0)], 0)]
  {
    var words := ["a", "ab"];
    assert Strings.IndexOf(words, "a") == 0 && Strings.IndexOf(words, "ab") == 1;
    var one := [Node("a", [Leaf(1)], 0)];
    assert InsertAll([], words, words) == InsertAll(one, ["ab"], words) by {
      assert InsertWord([], "a", words) == one;
      assert words[1..] == ["ab"];
    }
    assert CommonPrefix("a", "ab") == 1;
    assert InsertChildren([Leaf(1)], "b", 2) == [Leaf(1), Node("b", [Leaf(2)], 0)];
    assert "ab"[1..] == "b";
    assert InsertWord(one, "ab", words) == [Node("a", [Leaf(1), Node("b", [Leaf(2)], 0)], 0)];
  }

  lemma ConvertAAb()
    ensures ConvertAll([Node("a", [Leaf(1), Node("b", [Leaf(2)], 0)], 0)]) == [State("a", 1, [State("b", 2, [])])]
  {
    assert Convert(Node("b", [Leaf(2)], 0)) == State("b", 2, []);
    assert ConvertAll([Leaf(1), Node("b", [Leaf(2)], 0)]) == [State("b", 2, [])];
    assert LeafIndex([Leaf(1), Node("b", [Leaf(2)], 0)]) == 1;
  }

  /** The tree for the words "a" and "ab". */
  lemma MakeAAb()
    ensures Build(["a", "ab"]) == [State("a", 1, [State("b", 2, [])])]
  {
    SortAAb();
    InsertAAb();
    ConvertAAb();
  }

  /** The as-written walk over the states for "a" and "ab". */
  lemma WrittenOnAAb()
    ensures !MatchesWritten([State("a", 1, [State("b", 2, [])])], "ab")
    ensures FindWritten([State("a", 1, [State("b", 2, [])])], "ab") == Strings.U32 - 2
    ensures FindWritten([State("a", 1, [State("b", 2, [])])], "b") == Strings.U32 - 2
  {
    var st := State("a", 1, [State("b", 2, [])]);
    assert VisitWritten(st, "ab") == Visited(false, None);
    assert VisitAnyWritten([st], "ab") == Visited(false, None);
    assert VisitWritten(st, "b") == Visited(false, None);
    assert VisitAnyWritten([st], "b") == Visited(false, None);
    Decrement(Strings.U32 - 1);
  }

  /**
   * With the words "a" and "ab", `matches("ab")` as written is false and
   * `find("ab")` as written misses, though "ab" is a word; the corrected walk
   * finds it at position 1.
   */
  lemma PrefixWordRejected()
    ensures !MatchesWritten(Build(["a", "ab"]), "ab")
    ensures FindWritten(Build(["a", "ab"]), "ab") == Strings.U32 - 2
    ensures Matches(Build(["a", "ab"]), "ab") && Find(Build(["a", "ab"]), "ab") == 1
  {
    MakeAAb();
    WrittenOnAAb();
    MatchesIffWord(["a", "ab"], "ab");
    FindGivesPosition(["a", "ab"], "ab");
    assert Strings.IndexOf(["a", "ab"], "ab") == 1;
  }

  /**
   * `find` as written returns `-2U` (`-1U - 1`) for a string that no path
   * spells to its end; the corrected `find` returns `-1U`.
   */
  lemma MissIsMinusTwo()
    ensures FindWritten(Build(["a", "ab"]), "b") == Strings.U32 - 2
    ensures Find(Build(["a", "ab"]), "b") == Strings.U32 - 1
  {
    MakeAAb();
    WrittenOnAAb();
    FindGivesPosition(["a", "ab"], "b");
  }
}

=== FILE: wire.dfy ===
/**
 * The TCP transport of the echo example: an 8-byte header (kind, opcode,
 * 16-bit checksum, 32-bit payload size, multi-byte fields least significant
 * byte first) followed by the payload.
 *
 * The socket is modelled as the byte stream still to arrive plus the
 * sequence of byte counts successive `read` calls are willing to deliver;
 * a `read` never returns more than was asked for or than the stream holds.
 */
module Wire {
  import opened Bytes
  import opened Wrappers
  import Reader

  const HeaderSize: nat := 8

  /** `MessageHeader`: one-byte kind and opcode, 16-bit checksum, 32-bit payload size. */
  datatype Header = Header(kind: byte, opcode: byte, checksum: nat, size: nat)

  predicate ValidHeader(h: Header)
  {
    h.checksum < Pow256(2) && h.size < Pow256(4)
  }

  /** `send`: kind, opcode, checksum and size, each in host (little-endian) byte order. */
  function EncodeHeader(h: Header): (r: seq<byte>)
    ensures |r| == HeaderSize
    ensures r[0] == h.kind && r[1] == h.opcode
  {
    [h.kind, h.opcode] + LittleEndian(h.checksum, 2) + LittleEndian(h.size, 4)
  }

  /** `send` writes the header fields and then exactly `size` payload bytes. */
  function EncodeFrame(h: Header, payload: seq<byte>): (r: seq<byte>)
    requires |payload| == h.size
    ensures |r| == HeaderSize + h.size
    ensures r[..HeaderSize] == EncodeHeader(h) && r[HeaderSize..] == payload
  {
    EncodeHeader(h) + payload
  }

  /**
   * `recv`'s field extraction: size from bytes 4..7 with shifts of 24, 16 and
   * 8, checksum from bytes 3 and 2. The shifted values are combined in `int`
   * and then cast to the unsigned field, which yields the same number.
   */
  function DecodeHeader(b: seq<byte>): (r: Header)
    requires |b| == HeaderSize
    ensures ValidHeader(r)
    ensures r.kind == b[0] && r.opcode == b[1]
  {
    Header(b[0], b[1],
           b[3] as nat * 256 + b[2] as nat,
           b[7] as nat * 16777216 + b[6] as nat * 65536 + b[5] as nat * 256 + b[4] as nat)
  }

  /** Decoding a header that was sent gives back its fields. */
  lemma HeaderRoundTrip(h: Header)
    requires ValidHeader(h)
    ensures DecodeHeader(EncodeHeader(h)) == h
  {
    var e := EncodeHeader(h);
    LittleEndianRoundTrip(h.checksum, 2);
    LittleEndianRoundTrip(h.size, 4);
    assert e[2..4] == LittleEndian(h.checksum, 2);
    assert e[4..8] == LittleEndian(h.size, 4);
    FromLittleEndianTwo(e[2..4]);
    FromLittleEndianFour(e[4..8]);
  }

  /** Every 8 header bytes are the encoding of the header decoded from them. */
  lemma HeaderBytesRoundTrip(b: seq<byte>)
    requires |b| == HeaderSize
    ensures EncodeHeader(DecodeHeader(b)) == b
  {
    var h := DecodeHeader(b);
    FromLittleEndianTwo(b[2..4]);
    FromLittleEndianFour(b[4..8]);
    LittleEndianOfDecoded(b[2..4]);
    LittleEndianOfDecoded(b[4..8]);
    assert b == [b[0], b[1]] + b[2..4] + b[4..8];
  }

  lemma FromLittleEndianTwo(s: seq<byte>)
    requires |s| == 2
    ensures FromLittleEndian(s) == s[1] as nat * 256 + s[0] as nat
  {
    assert s[1..][1..] == [];
    assert FromLittleEndian(s[1..]) == s[1] as nat;
  }

  lemma FromLittleEndianFour(s: seq<byte>)
    requires |s| == 4
    ensures FromLittleEndian(s) == s[3] as nat * 16777216 + s[2] as nat * 65536 + s[1] as nat * 256 + s[0] as nat
  {
    FromLittleEndianTwo(s[2..]);
    assert s[1..][1..] == s[2..];
    assert FromLittleEndian(s[1..]) == s[1] as nat + 256 * FromLittleEndian(s[2..]);
  }

  function Min(a: nat, b: nat): nat
  {
    if a <= b then a else b
  }

  /**
   * One of `recv`'s read loops: keep calling `read` for the bytes still
   * missing until `want` bytes have arrived. Each call delivers the next
   * grant, capped by what is still wanted and by what the stream holds. The
   * result is the number of `read` calls made; `None` stands for a loop the
   * source never leaves (the stream ends early, so `read` returns 0 forever,
   * or no further `read` call returns).
   */
  method ReadFully(stream: seq<byte>, start: nat, want: nat, grants: seq<nat>) returns (bytes: seq<byte>, calls: Option<nat>)
    requires start <= |stream|
    requires forall i :: 0 <= i < |grants| ==> grants[i] >= 1
    ensures calls.Some? <==> start + want <= |stream| && want <= Reader.Sum(grants)
    ensures calls.Some? ==> bytes == stream[start..start + want]
    ensures calls.Some? ==> calls.value <= |grants| && want <= Reader.Sum(grants[..calls.value])
    ensures calls.Some? && calls.value > 0 ==> Reader.Sum(grants[..calls.value - 1]) < want
    ensures calls.Some? ==> calls.value <= want
  {
    var cursor := 0;
    var k := 0;
    bytes := [];
    assert grants[..0] == [];
    while cursor != want
      invariant k <= |grants|
      invariant cursor <= want && start + cursor <= |stream|
      invariant cursor < want ==> cursor == Min(Reader.Sum(grants[..k]), |stream| - start)
      invariant cursor == want ==> want <= Reader.Sum(grants[..k])
      invariant k > 0 ==> Reader.Sum(grants[..k - 1]) < want
      invariant bytes == stream[start..start + cursor]
      decreases want - cursor
    {
      if k == |grants| {
        assert grants[..k] == grants;
        return bytes, None;
      }
      var ret := Min(Min(grants[k], want - cursor), |stream| - (start + cursor));
      if ret == 0 {
        Reader.SumPrefixMonotone(grants, k);
        return bytes, None;
      }
      Reader.SumPrefix(grants, k);
      assert stream[start..start + cursor] + stream[start + cursor..start + cursor + ret] == stream[start..start + cursor + ret];
      bytes := bytes + stream[start + cursor..start + cursor + ret];
      cursor := cursor + ret;
      k := k + 1;
    }
    Reader.SumPrefixMonotone(grants, k);
    if k > 0 {
      SumAtLeastCount(grants[..k - 1]);
    }
    calls := Some(k);
  }

  /** Every `read` call that returns delivers at least one byte. */
  lemma {:induction false} SumAtLeastCount(grants: seq<nat>)
    requires forall i :: 0 <= i < |grants| ==> grants[i] >= 1
    ensures Reader.Sum(grants) >= |grants|
  {
    if |grants| > 0 {
      SumAtLeastCount(grants[..|grants| - 1]);
    }
  }

  /**
   * `recv`: read the 8 header bytes, decode the fields, then read exactly
   * `size` payload bytes with the `read` calls that remain.
   */
  method Recv(stream: seq<byte>, grants: seq<nat>) returns (r: Option<(Header, seq<byte>)>)
    requires forall i :: 0 <= i < |grants| ==> grants[i] >= 1
    ensures r.Some? ==> |stream| >= HeaderSize && r.value.0 == DecodeHeader(stream[..HeaderSize])
    ensures r.Some? ==> HeaderSize + r.value.0.size <= |stream|
    ensures r.Some? ==> r.value.1 == stream[HeaderSize..HeaderSize + r.value.0.size]
    ensures |stream| < HeaderSize ==> r.None?
    ensures (|stream| >= HeaderSize && HeaderSize + DecodeHeader(stream[..HeaderSize]).size <= |stream| &&
             |grants| >= HeaderSize + DecodeHeader(stream[..HeaderSize]).size) ==> r.Some?
  {
    SumAtLeastCount(grants);
    var header, calls := ReadFully(stream, 0, HeaderSize, grants);
    if calls.None? {
      return None;
    }
    var h := DecodeHeader(header);
    SumAtLeastCount(grants[calls.value..]);
    var payload, more := ReadFully(stream, HeaderSize, h.size, grants[calls.value..]);
    if more.None? {
      return None;
    }
    return Some((h, payload));
  }

  /**
   * Whatever `send` wrote is what `recv` hands back; one `read` call per
   * byte is always enough, since every call delivers at least one.
   */
  method SendThenRecv(h: Header, payload: seq<byte>, rest: seq<byte>, grants: seq<nat>) returns (r: Option<(Header, seq<byte>)>)
    requires ValidHeader(h) && |payload| == h.size
    requires forall i :: 0 <= i < |grants| ==> grants[i] >= 1
    ensures r.Some? ==> r.value == (h, payload)
    ensures |grants| >= HeaderSize + h.size ==> r == Some((h, payload))
  {
    var frame := EncodeFrame(h, payload);
    HeaderRoundTrip(h);
    r := Recv(frame + rest, grants);
    assert (frame + rest)[..HeaderSize] == EncodeHeader(h);
    if r.Some? {
      assert (frame + rest)[HeaderSize..HeaderSize + h.size] == payload;
    }
  }
}

=== FILE: wrappers.dfy ===
/** Failure-compatible result types shared by every module of the model. */
module Wrappers {

  /** An optional value: `None` stands for "nothing was produced". */
  datatype Option<+T> = None | Some(value: T) {
    predicate IsFailure() { None? }

    function PropagateFailure<U>(): Option<U>
      requires None?
    {
      None
    }

    function Extract(): T
      requires Some?
    {
      value
    }
  }

  /** Either a value or an error describing why none was produced. */
  datatype Result<+T, +E> = Success(value: T) | Failure(error: E) {
    predicate IsFailure() { Failure? }

    function PropagateFailure<U>(): Result<U, E>
      requires Failure?
    {
      Failure(error)
    }

    function Extract(): T
      requires Success?
    {
      value
    }
  }
}
